=== FILE: README.md ===
# A verified model of the LightFX controller's core logic

The LightFX firmware drives an addressable LED strip from an Arduino
Nano RP2040 Connect. Beneath its hardware, RTOS and network glue it holds
a good deal of pure, sequential logic: calendar arithmetic and daylight
saving rules, NTP timestamp decoding, an mDNS responder's encoders and
matchers, a small REST web server's parsers and response framing, and the
application's rules for holidays, schedules, effect selection and pixel
manipulation. This project models that logic in Dafny, one module per
source component, and proves what each operation promises.

The modules, grouped as the firmware is:

- **Time library.** `CoreTime` (epoch to calendar and back, the
  `calculateYear` search), `Timezone` (rule transitions, DST tests,
  local/UTC conversion, `updateZoneInfo`), `TimeService` (12-hour clock,
  `makeTime`/`setTime`, drift, the NTP sync guard), `TimeFormat` (month and
  day names) and `Ntp` (the request packet and reply validation).
- **mDNS helpers.** `Base64` (section 4 of RFC 4648), `DnsSection` (record
  sections, the type bitmap of NSEC records, the name collector), `Mdns`
  (TXT records per section 6.4 of RFC 6763, name encoding per section 3.1 of
  RFC 1035, reverse names per section 3.5 of RFC 1035, header and address
  checks, the service list) and `Responder` (the streaming query matcher).
- **HTTP helpers.** `UrlCodec` (percent-decoding per section 2.1 of RFC
  3986), `QueryArgs`, `HttpMethod`, `RequestLine`, `HttpHeaders`,
  `HttpRequest` (request parsing and argument/header lookup), `HttpResponse`
  (status line and header block), `Chunked` (chunk framing per section 7.1
  of RFC 9112), `HttpClient` (the per-connection state machine),
  `HttpServer` (path parameters, the handler list, handler matching, server
  lookups) and `MimeTable`; `StringUtils` for file names and hex strings.
- **Application.** `Util` (8-bit blend arithmetic, the US DST rule, random
  limits, state LED packing), `TimeUtil` (holidays, drift statistics),
  `FxSchedule` (wake/sleep alarms), `LedEffect` (the effect state machine),
  `EffectRegistry` (registration, sequential and weighted selection,
  sleep), `FxUtil` (pixel-set shifts, rotation, mirroring, blending),
  `Transition` (the "lights off" selector), `PaletteFactory` (holiday
  themes), `Mic` (bump detection and the loudness histogram),
  `CircularBuffer`, `FixedQueue`, `ArduinoLog`, `PicoLog` and `PixelJs` (the
  dashboard script's transforms and rollback rules).

Shared pieces live in `Base` (options, byte and word arithmetic) and
`ArduinoString` (the Arduino `String` searches and comparisons the source
relies on).

Integers are unbounded in Dafny. Where the firmware relies on a fixed
width — 8-bit colour channels, 16-bit counters and 32-bit `millis()` — the
wrap-around or truncation is written out. `time_t` values, the calendar
year and the sync bookkeeping in milliseconds are unbounded integers; the
widths this leaves out are listed under "Left out". The clock, WiFi
status, random draws, socket reads and delays are parameters of the
operations that use them. Pixel sets are sequences and colours are
values. FastLED's `scale8_video` is written out from its documented
definition.

## Model

| member | source | states |
|---|---|---|
| ArduinoString.IndexOf | lib/WebServer/src/HTTPServer.cpp:57 | `indexOf(pattern)` gives the first occurrence at or after the start, or -1 exactly when there is none; a start at or past the end finds nothing |
| ArduinoString.IndexOfChar | lib/RestWebServer/src/WebClient.cpp:478-479 | `indexOf(c, from)` gives the first position of `c` at or after `from`, or -1 exactly when `c` does not occur there |
| ArduinoString.LastIndexOfChar | lib/LightMDNS/src/LightMDNS.cpp:658 | `lastIndexOf(c)` gives the last position of `c`, or -1 exactly when `c` does not occur |
| ArduinoString.Substring | lib/WebServer/src/HTTPServer.cpp:61 | `substring(left, right)` swaps reversed bounds, clamps the right one to the length, and is empty from a left bound at or past the end |
| ArduinoString.Split | lib/LightMDNS/src/LightMDNS.cpp:1007-1012 | cutting a name at every '.' gives at least one part, none holding '.', and the parts joined by '.' give the name back |
| ArduinoString.SplitJoin | lib/LightMDNS/src/LightMDNS.cpp:1007-1012 | parts free of the separator, joined by it, are cut back into exactly those parts |
| ArduinoString.FromNat | lib/LightMDNS/src/LightMDNS.cpp:213 | `String(n)` is a non-empty run of decimal digits without a leading zero |
| ArduinoString.FromNatRoundTrip | lib/LightMDNS/src/LightMDNS.cpp:213 | reading the printed digits back as a number gives the number |
| Util.Bmul8Laws | src/util.cpp:257-263 | `bmul8` with 255 as 1.0: 255 is the identity on either side, the product is commutative, never exceeds either factor, and 0 absorbs it |
| Util.Bscr8Laws | src/util.cpp:273-275 | `bscr8`, built on `bmul8`: 0 is the identity, the operation is commutative, never below either operand, and 255 absorbs it |
| Util.Bovl8Fits | src/util.cpp:285-289 | `bovl8`'s two branches always give a value in 0..255, so the 8-bit result never truncates; it is at most 2a below one half and at least 2a-255 from one half on |
| Util.FirstSunday | src/util.cpp:306-318 | the date of the month's first Sunday, derived from the day and its weekday, is in 1..7 |
| Util.UsDstByDates | src/util.cpp:296-319 | for consistent calendar fields, `isDST`'s previous-Sunday arithmetic equals the date rule: from 2:00 on the second Sunday of March, until 2:00 on the first Sunday of November |
| Util.UsDstSeasons | src/util.cpp:306-311 | never DST in January, February or December; always DST April to October |
| Util.RandomIn | src/util.cpp:352-355 | Arduino `random(low, high)` on a given draw: the low bound for an empty range, otherwise a value in [low, high) |
| Util.SecRandomBounds | src/util.cpp:329-343 | `secRandom8` and `secRandom16` stay below the given maximum, or below UINT8_MAX or UINT16_MAX when the maximum is 0; a minimum at or above that limit comes back unchanged |
| Util.UnpackPackRoundTrip | src/util.cpp:150-155 | `updateStateLED(colorCode)` reads back red, green and blue from 0xRRGGBB and ignores the top byte |
| Util.PackUnpack | src/util.cpp:150-155 | re-packing the three unpacked bytes gives the low 24 bits of the code, so nothing below bit 24 is lost |
| StringUtils.FileNameShape | lib/StringUtils/src/stringutils.cpp:121-127 | `fileName` returns a separator-free tail of the path |
| StringUtils.FileDir | lib/StringUtils/src/stringutils.cpp:129-134 | `fileDir` is a prefix of the path, strictly shorter than the path or empty |
| StringUtils.DirAndName | lib/StringUtils/src/stringutils.cpp:121-134 | for a path that holds a '/' and does not end with one, `fileDir(p) + "/" + fileName(p) == p` |
| StringUtils.TrailingSeparator | lib/StringUtils/src/stringutils.cpp:121-134 | a path ending in '/' has the empty file name, and its directory is the path without that final '/' |
| StringUtils.NoSeparator | lib/StringUtils/src/stringutils.cpp:121-134 | a path without '/' is all file name and has an empty directory |
| StringUtils.HexPair | lib/StringUtils/src/stringutils.cpp:53-54 | `%02X` of a byte: two upper-case hex digits whose value is the byte |
| StringUtils.AsHexString | lib/StringUtils/src/stringutils.cpp:48-57 | `asHexString` produces exactly two characters per byte |
| StringUtils.AsHexStringRoundTrip | lib/StringUtils/src/stringutils.cpp:48-57 | every character of `asHexString` is an upper-case hex digit, and reading the digit pairs back gives the bytes |
| CircularBuffer.Create | include/circular_buffer.h:25-26 | a new buffer of `size` slots is consistent, has that capacity and holds nothing |
| CircularBuffer.Size | include/circular_buffer.h:81-95 | `size` never exceeds the capacity, is 0 exactly when `empty()` holds, and equals the capacity exactly when the full flag is set |
| CircularBuffer.WrapIsMod | include/circular_buffer.h:32-33 | the model's single-subtraction index step is the source's `% buffer_.size()` on every index it is given |
| CircularBuffer.HeadAfterContents | include/circular_buffer.h:28-35 | the head is always `size` slots after the tail, where the next value goes |
| CircularBuffer.PushBack | include/circular_buffer.h:28-35 | `push_back(value)` keeps the buffer consistent and its capacity unchanged |
| CircularBuffer.PushBackContents | include/circular_buffer.h:28-35 | a push appends the value; on a full buffer it overwrites the oldest value, so the buffer holds the last `capacity` values pushed |
| CircularBuffer.PushBackAll | include/circular_buffer.h:37-47 | `push_back(value[], sz)` skips the values that would be overwritten anyway, and the buffer ends with the last `capacity` of its old contents followed by the new values |
| CircularBuffer.PopFront | include/circular_buffer.h:49-59 | `pop_front()` keeps the buffer consistent (head, tail and full flag agree) and its capacity unchanged |
| CircularBuffer.PopFrontFifo | include/circular_buffer.h:49-59 | `pop_front()` returns the oldest value and keeps the rest in order; on an empty buffer it returns the default value and changes nothing |
| CircularBuffer.Drain | include/circular_buffer.h:66-69 | the copy loop of `pop_front(dest, sz)` copies `n` values from the tail on, wrapping around, and leaves the tail `n` slots further |
| CircularBuffer.PopNoneEmptiesFullBuffer | include/circular_buffer.h:61-72 | as written, `pop_front(dest, 0)` on a full buffer returns 0 yet clears the full flag while head and tail meet, so the buffer then reads as empty |
| CircularBuffer.PopFrontMany | include/circular_buffer.h:61-72 | the corrected `pop_front(dest, sz)` keeps the buffer consistent and its capacity unchanged |
| CircularBuffer.PopFrontManyFifo | include/circular_buffer.h:61-72 | with the flag cleared only when a value is taken, `pop_front(dest, sz)` returns `min(sz, size)`, the oldest that many values in order, and keeps the rest |
| CircularBuffer.Clear | include/circular_buffer.h:74-79 | `clear` leaves an empty buffer of the same capacity |
| FixedQueue.Push | include/fixed_queue.h:32-36 | `push` never lets the size pass `MaxSize`: below it the size grows by one, at it the size stays; the new value is last |
| FixedQueue.PushKeepsOrder | include/fixed_queue.h:32-43 | a push gives the last `MaxSize` values of the queue followed by the value, oldest first, which is the iteration order |
| FixedQueue.PushAllKeepsLast | include/fixed_queue.h:32-43 | after any number of pushes the queue holds the last `MaxSize` of all values pushed, in insertion order |
| Mic.Loudest | src/mic.cpp:65-69 | the loudest sample, starting from INT16_MIN, is at least every sample of the batch |
| Mic.LoudestIsASample | src/mic.cpp:65-69 | the loudest sample of a non-empty batch is one of its samples; an empty batch gives INT16_MIN |
| Mic.LoudIffSomeSampleLoud | src/mic.cpp:65-70 | the batch passes the bump threshold exactly when some sample of it does |
| Mic.MaxSample | src/mic.cpp:65-69 | the search loop finds the loudest sample |
| Mic.BinFrom | src/mic.cpp:76-87 | the bin search from `x` lands on a bin from `x` on, or on the last bin when no bound is passed |
| Mic.BinOf | src/mic.cpp:76-87 | every loud sample is counted in one of the ten bins |
| Mic.Run | src/mic.cpp:60-91 | `mic_run`: an empty batch changes nothing but the read count; otherwise the batch joins the ring buffer, the bump flag is raised exactly when the loudest sample passes the threshold, exactly one histogram bin (16-bit) counts such a batch and no bin changes otherwise, and `samplesRead` is reset to 0 |
| Mic.LoudBoundsNeverWrap | src/mic.cpp:78 | for a sample that passes the threshold, the 16-bit bin bound `audioBumpThreshold + (x+1)*500` never wraps |
| Mic.BinHoldsSample | src/mic.cpp:76-87 | the search from bin `x` puts a loud sample in the bin of width 500 holding it, and anything louder than the ten bins into the last |
| Mic.BinOfLoudSample | src/mic.cpp:76-87 | bin `b` receives exactly the samples above `threshold + 500 b` and, except for the last bin, not above `threshold + 500 (b+1)` |
| PicoLog.Pad | lib/PicoLog/src/PicoLog.cpp:119 | `%0<w>lu` is as long as the width or the digits, whichever is more |
| PicoLog.PadValue | lib/PicoLog/src/PicoLog.cpp:119 | zero-padding gives decimal digits only and keeps the value they read as |
| PicoLog.TimestampFields | lib/PicoLog/src/PicoLog.cpp:104-117 | the hour, minute, second and millisecond fields of the log clock are below 24, 60, 60 and 1000 |
| PicoLog.TimestampTimeOfDay | lib/PicoLog/src/PicoLog.cpp:104-117 | until the 32-bit seconds wrap, the four fields recombine into the milliseconds since midnight |
| PicoLog.TimestampShape | lib/PicoLog/src/PicoLog.cpp:104-120 | the timestamp is always twelve characters, `hh:mm:ss.mmm`, with the separators in place |
| PicoLog.LevelText | lib/PicoLog/src/PicoLog.cpp:148-152 | `printLevel` writes four characters, the second being the level's letter of "SFEWIDT" |
| PicoLog.IndexIn | lib/PicoLog/src/PicoLog.cpp:150 | finding a letter among the level tags gives an index holding that letter, or nothing when the letter is not a tag |
| PicoLog.LevelTextRoundTrip | lib/PicoLog/src/PicoLog.cpp:148-152 | each of the seven levels reads back from its text, so no two levels print alike |
| PicoLog.FrameIsOneLine | lib/PicoLog/src/PicoLog.cpp:85-95 | `print` queues the header and the text followed by exactly one newline; the size it returns leaves the newline out; the line starts with the timestamp and ends with the text |
| PicoLog.TimestampOneLine | lib/PicoLog/src/PicoLog.cpp:104-120 | the timestamp holds no newline |
| PicoLog.ThreadTextOneLine | lib/PicoLog/src/PicoLog.cpp:129-138 | the header naming the RTOS task holds no newline when that name has none |
| PicoLog.FullChunkOverflows | lib/PicoLog/src/PicoLog.cpp:36-39 | as written, with 256 or more characters queued, the chunk is 256 characters and the NUL goes one past the end of the 256-character buffer |
| PicoLog.ChunkFits | lib/PicoLog/src/PicoLog.cpp:36-39 | a chunk of at most 255 characters leaves room for the terminator, takes no more than is queued, and is never empty while characters are queued |
| PicoLog.FlushStep | lib/PicoLog/src/PicoLog.cpp:35-41 | one pass of the drain loop moves the oldest `min(size, 256)` characters of the queue to the output, in order, and shrinks the queue; a chunk that leaves characters behind fills the whole buffer |
| PicoLog.FlushData | lib/PicoLog/src/PicoLog.cpp:28-43 | `flushData`: an empty queue is left alone; otherwise `m_maxBufferSize` becomes the larger of itself and the queue size, the queue is drained, and the chunks written out are the queued characters in order, each non-empty and at most 256 characters; every chunk but the last is a full 256; some chunk's terminating NUL lands past the buffer exactly when 256 or more characters were queued |
| ArduinoLog.SetLevel | lib/ArduinoLog/ArduinoLog.cpp:47-52 | `setLevel` clamps to SILENT..VERBOSE (0..6): levels inside are kept, lower ones become 0, higher ones 6 |
| ArduinoLog.SetLevelIdempotent | lib/ArduinoLog/ArduinoLog.cpp:47-52 | setting a level that was read back from the logger changes nothing |
| ArduinoLog.Pow16 | lib/ArduinoLog/ArduinoLog.cpp:157-174 | 16^k, the weight of the digit each shifted mask selects, is positive and itself has exactly k+1 hex digits |
| ArduinoLog.Pow16Add | lib/ArduinoLog/ArduinoLog.cpp:159-170 | digit weights multiply: 16^(a+b) = 16^a * 16^b, so shifting the mask by 4a and then 4b bits is one shift by 4(a+b) |
| ArduinoLog.NibbleCountIs | lib/ArduinoLog/ArduinoLog.cpp:152-156 | a number between 16^k and 16^(k+1) has k+1 significant hex digits |
| ArduinoLog.NibbleSplit | lib/ArduinoLog/ArduinoLog.cpp:159-171 | below 16^(k+1), the masked nibble k is nonzero exactly when the number reaches 16^k, which is what each mask test decides |
| ArduinoLog.CountSignificantNibbles | lib/ArduinoLog/ArduinoLog.cpp:157-174 | for a 32-bit `unsigned long`, the top-down mask loop returns the number of hex digits without leading zeros, and 0 for 0 |
| ArduinoLog.HexString | lib/ArduinoLog/ArduinoLog.cpp:239 | `print(ul, HEX)` writes at least one digit |
| ArduinoLog.HexStringRoundTrip | lib/ArduinoLog/ArduinoLog.cpp:239 | the digits `print(ul, HEX)` writes read back as the number; there is one per significant nibble, and 0 prints one digit |
| ArduinoLog.ReadHexLeadingZero | lib/ArduinoLog/ArduinoLog.cpp:237-238 | the padding '0' of `%X` does not change the value printed |
| ArduinoLog.FormatHexWholeBytes | lib/ArduinoLog/ArduinoLog.cpp:234-241 | `%X` prints "0x" and then digits that read back as the value; for a nonzero value their count is even (whole bytes); 0 prints "0x0" |
| ArduinoLog.FormatBoolOnlyOne | lib/ArduinoLog/ArduinoLog.cpp:281-294 | `%t` and `%T` print "T" and "true" exactly for the argument 1; other values that C treats as true, such as 2 and -1, print "F" and "false" |
| CoreTime.YearSplit | lib/TimeLib/src/CoreTimeCalc.cpp:22-30 | the year loop of `breakTimeCore` stops on the year holding the day and leaves a day index inside that year, with the days before it plus the index adding back up to the day count |
| CoreTime.MonthSplit | lib/TimeLib/src/CoreTimeCalc.cpp:32-45 | the month loop stops on a month (at most after December) with a day index inside that month, leap-aware, and the days before the month plus the index add back up |
| CoreTime.DaysInYear | lib/TimeLib/src/CoreTimeCalc.cpp:32-45 | the twelve month lengths add up to 365, or 366 in a leap year |
| CoreTime.BreakTimeCore | lib/TimeLib/src/CoreTimeCalc.cpp:11-53 | `breakTimeCore` yields sec < 60, min < 60, hour < 24, weekday 1..7 with Sunday 1, a year from 1970, a day of the year in 1..365 or 366, a month in 1..12 and a day within that month's leap-aware length; DST flag and offset are 0 |
| CoreTime.MonthSplitInYear | lib/TimeLib/src/CoreTimeCalc.cpp:32-46 | for a day inside the year the month loop breaks before running past December, so `tm_mon` is at most 12 |
| CoreTime.ClockSplit | lib/TimeLib/src/CoreTimeCalc.cpp:14-19 | the successive divisions by 60, 60 and 24 give the time of day, and whole days plus hours, minutes and seconds add back up to the time |
| CoreTime.BreakTimeCoreExact | lib/TimeLib/src/CoreTimeCalc.cpp:11-53 | the fields locate the time exactly: days before the year plus `tm_yday - 1` is the day count; days before the month plus `tm_mday - 1` is `tm_yday - 1`; and the time of day adds back up |
| CoreTime.LeapDaysAgree | lib/TimeLib/src/CoreTimeCalc.cpp:112-116 | `makeTimeCore`'s 365 days per year plus one per leap year before it is the number of days before the year |
| CoreTime.MonthDaysAgree | lib/TimeLib/src/CoreTimeCalc.cpp:119-124 | `makeTimeCore`'s month loop adds the same days before the month as the month lengths `breakTimeCore` subtracts |
| CoreTime.MakeBreakRoundTrip | lib/TimeLib/src/CoreTimeCalc.cpp:106-131 | `makeTimeCore(breakTimeCore(t)) == t` for every time from 1971 on |
| CoreTime.YearOfLaterTime | lib/TimeLib/src/CoreTimeCalc.cpp:22-26 | a time at or after 1 January 1971 breaks into a year above 1970, which `makeTimeCore` reads as a calendar year |
| CoreTime.Year1970NotRoundTrip | lib/TimeLib/src/CoreTimeCalc.cpp:108-111 | every time in 1970 breaks into year 1970, which `makeTimeCore` reads as the offset 1970, so the round trip gives a later time |
| CoreTime.YearSplitUnique | lib/TimeLib/src/CoreTimeCalc.cpp:56-64 | the year holding a given day is unique, so any loop that finds it finds `breakTimeCore`'s year |
| CoreTime.CalculateYear | lib/TimeLib/src/CoreTimeCalc.cpp:56-64 | `calculateYear`'s own accumulation loop returns the same year as `breakTimeCore`, never before 1970 |
| CoreTime.HourCore | lib/TimeLib/src/CoreTimeCalc.cpp:67-69 | `hourCore`, with C division, agrees with `breakTimeCore`'s hour for every time from the epoch on |
| CoreTime.MinuteCore | lib/TimeLib/src/CoreTimeCalc.cpp:71-73 | `minuteCore` agrees with `breakTimeCore`'s minute |
| CoreTime.SecondCore | lib/TimeLib/src/CoreTimeCalc.cpp:75-77 | `secondCore` agrees with `breakTimeCore`'s second |
| CoreTime.WeekdayCore | lib/TimeLib/src/CoreTimeCalc.cpp:85-88 | `weekdayCore` is in 1..7 for every time from the epoch on, counted from Thursday 1 January 1970 |
| CoreTime.WeekdayCoreAgrees | lib/TimeLib/src/CoreTimeCalc.cpp:85-88 | `weekdayCore` agrees with `breakTimeCore`'s weekday, and the epoch day is 5, a Thursday with Sunday as 1 |
| CoreTime.CDivModDay | lib/TimeLib/src/CoreTimeCalc.cpp:67-88 | for times from the epoch on, C's truncating `/` and `%` in the core extractors agree with the Euclidean ones, and seconds-in-day arithmetic agrees with successive division |
| TimeFormat.MonthStr | lib/TimeLib/src/TimeFormat.cpp:60-64 | `monthStr` copies the full month name followed by a NUL and returns its length, 3 to 9; index 0 gives "Error" |
| TimeFormat.MonthShortStr | lib/TimeLib/src/TimeFormat.cpp:72-77 | `monthShortStr` writes the three characters at offset month*3 of "ErrJan...Dec" and returns 3 |
| TimeFormat.DayStr | lib/TimeLib/src/TimeFormat.cpp:86-90 | `dayStr` copies the full weekday name, Sunday as 1, followed by a NUL and returns its length, 5 to 9; index 0 gives "Error" |
| TimeFormat.DayShortStr | lib/TimeLib/src/TimeFormat.cpp:99-105 | `dayShortStr` writes the three characters at offset day*3 of "ErrSun...Sat" and returns 3 |
| TimeFormat.MonthShortNamesArePrefixes | lib/TimeLib/src/TimeFormat.cpp:15-34 | at every index 0..12, the packed short month table holds the first three letters of the full name, "Err" included |
| TimeFormat.DayShortNamesArePrefixes | lib/TimeLib/src/TimeFormat.cpp:36-49 | at every index 0..7, the packed short day table holds the first three letters of the full name |
| Ntp.BigEndian | lib/TimeLib/src/NTPClient.cpp:105-108 | `highWord << 16 \| lowWord` read as network-order bytes: a value below 256^n for n bytes |
| Ntp.ToBigEndian32 | lib/TimeLib/src/NTPClient.cpp:105-108 | a 32-bit value written in network order takes four bytes |
| Ntp.BigEndianRoundTrip | lib/TimeLib/src/NTPClient.cpp:105-108 | writing a 32-bit value in network order and reading it back gives the value, so bytes 40..43 decode to exactly the transmit seconds |
| Ntp.Update | lib/TimeLib/src/NTPClient.cpp:68-128 | `update` times out exactly when the answer arrives after poll 250, and otherwise reports a wait of 10 ms per delay; it rejects packets under 44 bytes, then stratum 0 (kiss-of-death); a valid time is the transmit seconds minus 2208988800, and it is accepted exactly when strictly between 2020 and 2070 |
| Ntp.EchoedRequestRejected | lib/TimeLib/src/NTPClient.cpp:140-153 | a server echoing the request back is rejected, because the request's stratum byte is 0 |
| Ntp.UpdateDecodesTransmitTime | lib/TimeLib/src/NTPClient.cpp:105-127 | an answer whose transmit seconds encode a Unix time succeeds exactly when that time is inside the 2020..2070 window, and then it yields exactly that time |
| TimeService.HourFormat12 | lib/TimeLib/src/TimeService.cpp:69-77 | `hourFormat12` is in 1..12 and equals the hour modulo 12, so 0 becomes 12 and hours after 12 lose 12 |
| TimeService.IsPm | lib/TimeLib/src/TimeService.cpp:91-93 | `isPM` holds exactly when the hour is 12 or later |
| TimeService.IsAm | lib/TimeLib/src/TimeService.cpp:83-85 | `isAM` holds exactly when the hour is before 12, the negation of `isPM` |
| TimeService.HourFormat12Recovers | lib/TimeLib/src/TimeService.cpp:69-93 | the 12-hour dial reading and the PM flag together recover the 24-hour hour |
| TimeService.MakeTimeBreakRoundTrip | lib/TimeLib/src/TimeService.cpp:179-185 | assembling the broken-down fields of a time from 1971 on with an offset gives the time moved by that offset |
| TimeService.UtcNowMillis | lib/TimeLib/src/TimeService.cpp:219-227 | `utcNowMillis` = clock - syncLocal + syncUnix + drift; only the status may change; timeNotSet stays; timeSet stays only while the reading is before the re-sync instant; timeNeedsSync stays |
| TimeService.SetTimeThenNow | lib/TimeLib/src/TimeService.cpp:219-237 | right after `setTime(t)`, UTC reads `t * 1000` plus the elapsed milliseconds plus the drift, and the clock stays set until the interval has elapsed |
| TimeService.SetTimeFields | lib/TimeLib/src/TimeService.cpp:260-274 | `setTime(hr, ..., year, offset)` takes a year above 1970 as calendar, adds 1970 to any other, sets the clock to the assembled `makeTime` value and returns it |
| TimeService.SetTimeYearZero | lib/TimeLib/src/TimeService.cpp:263-271 | a year of 0 becomes 1970, which `makeTimeCore` reads as an offset again, so the time set is 1970 years after the epoch |
| TimeService.DriftLaws | lib/TimeLib/src/TimeService.cpp:281-296 | two additions equal one addition of the sum; an addition moves the UTC reading by exactly the adjustment; setting back the returned drift undoes a set |
| TimeService.SyncTimeNtp | lib/TimeLib/src/TimeService.cpp:364-375 | `syncTimeNTP` refreshes the status first; a clock still set returns false without asking the server; otherwise a valid answer sets the time, with the sync clock moved back by the reported delay, and the drift kept |
| TimeService.SyncTimeNtpThenNow | lib/TimeLib/src/TimeService.cpp:364-375 | after a successful sync, `utcNowMillis` reads epoch*1000 + delay + elapsed counter time + drift, and the status stays timeSet only while that is before the re-sync instant; after a failed exchange the readings are those of the unsynced clock |
| Timezone.TransitionTimeSpec | lib/TimeLib/src/Timezone.cpp:26-55 | `transitionTime` lands a whole number of days after the first of the anchor month: inside week `w` for week rules, inside the week before the anchor for "Last" rules, and, away from the epoch, on the weekday the 0-based rule day reads as in the 1-based `weekdayCore` |
| Timezone.ShiftToRuleWeeks | lib/TimeLib/src/Timezone.cpp:49-53 | the shift `(dow - twDay + 7) % 7 + (w - 1) * 7` days, backed up a week for "Last", stays inside the rule's week |
| Timezone.ShiftToRuleLands | lib/TimeLib/src/Timezone.cpp:49-53 | the shifted instant falls on the weekday the rule day designates, Sunday rule (0) landing on weekday 7 |
| Timezone.ShiftToRuleForm | lib/TimeLib/src/Timezone.cpp:49-53 | the forward step is 0..6 days to the rule's weekday, plus whole weeks |
| Timezone.ForwardDays | lib/TimeLib/src/Timezone.cpp:50 | since `weekdayCore` never exceeds 7, C's `%` in the forward step is a plain remainder in 0..6 |
| Timezone.WeekdayShift | lib/TimeLib/src/CoreTimeCalc.cpp:85-88 | moving a time by whole days moves `weekdayCore`'s day count by the same number of days |
| Timezone.TransitionLandsOnDay | lib/TimeLib/src/Timezone.cpp:49-53 | from an anchor a week or more after the epoch, the shifted instant falls on the landing weekday |
| Timezone.WeekdayArith | lib/TimeLib/src/Timezone.cpp:49-53 | the weekday arithmetic of a shift by the forward days plus whole weeks gives the landing weekday |
| Timezone.ToLocal | lib/TimeLib/src/Timezone.cpp:97-101 | `toLocal` adds exactly one of the two offsets, the DST one exactly when the UTC DST test says so |
| Timezone.ToUtc | lib/TimeLib/src/Timezone.cpp:130-134 | `toUTC` subtracts exactly one of the two offsets, the DST one exactly when the local DST test says so |
| Timezone.NoDstRoundTrip | lib/TimeLib/src/Timezone.cpp:97-134 | without DST both conversions apply the standard offset and undo each other |
| Timezone.ConversionRoundTrip | lib/TimeLib/src/Timezone.cpp:97-134 | when the UTC test on a time and the local test on its image agree, away from the transition hours, `toUTC` undoes `toLocal` |
| Timezone.UpdateZoneInfo | lib/TimeLib/src/Timezone.cpp:175-194 | as written, `updateZoneInfo` changes only `tm_isdst`, a 0/1 flag that is 0 without DST, and `tm_offset`, the chosen offset times 60 and consistent with the flag |
| Timezone.UpdateZoneInfoSouthernAlwaysDst | lib/TimeLib/src/Timezone.cpp:183-186 | as written, in the southern hemisphere the negated northern test reports DST even for a time in the standard-time interval, where the local `isDST` test says no |
| Timezone.SouthernZoneExample | lib/TimeLib/src/Timezone.cpp:26-67 | a southern zone exists (standard time from the week-1, day-0 rule of June, DST from the same rule of October, 1971; day 0 lands on weekday 7, so both fall on the month's first Saturday), so the wrong branch is reachable |
| Timezone.SouthernAnchors | lib/TimeLib/src/CoreTimeCalc.cpp:119-124 | the firsts of June and October 1971 lie 122 days apart as `makeTimeCore` counts them |
| Timezone.UpdateZoneInfoFixed | lib/TimeLib/src/Timezone.cpp:175-194 | corrected: the DST flag is the local `isDST` test on the transitions of the tm's year in both hemispheres; the offset follows the flag and no other field changes |
| Timezone.UpdateZoneInfoFixedAgrees | lib/TimeLib/src/Timezone.cpp:175-194 | the corrected flag agrees with `isDST(t, local)` whenever the tm's year is the year of the time |
| Base64.SextetOf | lib/LightMDNS/src/Base64.h:10 | a character's position in the 64-letter `encodingTable`, always below 64 |
| Base64.AlphabetInverse | lib/LightMDNS/src/Base64.h:10-15 | reading a letter of `encodingTable` back gives its index, and no letter is the padding character |
| Base64.Length | lib/LightMDNS/src/Base64.h:23-25 | `length(n)` is a multiple of four and the least such that holds 4/3 of `n` bytes |
| Base64.LengthStep | lib/LightMDNS/src/Base64.h:23-25 | three more input bytes take exactly four more characters |
| Base64.Group | lib/LightMDNS/src/Base64.h:30-35 | a whole group of three bytes becomes four letters and no padding |
| Base64.Tail | lib/LightMDNS/src/Base64.h:36-46 | a tail of one byte becomes two letters and two '=', a tail of two bytes three letters and one '=' |
| Base64.Encode | lib/LightMDNS/src/Base64.h:26-49 | corrected `encode`: the output has exactly `length(n)` characters |
| Base64.DecodeGroup | lib/LightMDNS/src/Base64.h:10-20 | the inverse of one output group: four characters give one to three bytes, '=' ending the group |
| Base64.JoinRecovers | lib/LightMDNS/src/Base64.h:16-20 | a byte is rebuilt from its high bits in one sextet and its low bits in the next |
| Base64.DecodeSextets | lib/LightMDNS/src/Base64.h:15 | a group of known sextets decodes to the joins of neighbouring sextets, as many as its padding allows |
| Base64.DecodeLetters | lib/LightMDNS/src/Base64.h:10-15 | a group of alphabet letters decodes to the joins of their sextets, for zero, one or two '=' |
| Base64.FirstByteJoins | lib/LightMDNS/src/Base64.h:31-32 | the first byte of a group comes back from its first two sextets |
| Base64.SecondByteJoins | lib/LightMDNS/src/Base64.h:32-33 | the second byte of a group comes back from its second and third sextets |
| Base64.ThirdByteJoins | lib/LightMDNS/src/Base64.h:33-34 | the third byte of a group comes back from its last two sextets |
| Base64.GroupRoundTrip | lib/LightMDNS/src/Base64.h:30-35 | decoding a corrected group gives its three bytes back |
| Base64.TailRoundTrip | lib/LightMDNS/src/Base64.h:36-46 | decoding a corrected padded tail gives its one or two bytes back |
| Base64.DecodeAppend | lib/LightMDNS/src/Base64.h:30-46 | decoding proceeds group by group |
| Base64.EncodeRoundTrip | lib/LightMDNS/src/Base64.h:26-49 | decoding the corrected encoding of any byte string gives that string back |
| Base64.EncodeShape | lib/LightMDNS/src/Base64.h:30-46 | the encoding is `n / 3` padding-free groups followed by the padded tail of the leftover bytes |
| Base64.EncodePadding | lib/LightMDNS/src/Base64.h:36-46 | no '=' when `n` is a multiple of three, else the text ends in two '=' for one leftover byte and one for two, with no '=' before the last group |
| Base64.SecondSextetAsWritten | lib/LightMDNS/src/Base64.h:32 | as written, the second sextet keeps only bits 6 and 7 of the second byte, so it is always a multiple of four |
| Base64.GroupAsWritten | lib/LightMDNS/src/Base64.h:30-35 | as written, a whole group still becomes four letters |
| Base64.TailAsWritten | lib/LightMDNS/src/Base64.h:36-46 | as written, the tail still becomes four characters |
| Base64.EncodeAsWritten | lib/LightMDNS/src/Base64.h:26-49 | as written, the output still has `length(n)` characters |
| Base64.EncodeLoop | lib/LightMDNS/src/Base64.h:26-49 | the loop of `encode`: an output buffer shorter than `length(n)` gives 0 and nothing written; a longer one gets the as-written groups and tail, and the count written is the output's length |
| Base64.AsWrittenLosesBits | lib/LightMDNS/src/Base64.h:42 | two inputs differing only in bits 4 and 5 of the second byte get the same as-written text but different corrected ones |
| Base64.AsWrittenLosesBitsExample | lib/LightMDNS/src/Base64.h:42 | the bytes 00 30 and 00 00 encode alike as written |
| Base64.GroupAgreement | lib/LightMDNS/src/Base64.h:30-35 | the as-written and corrected group agree exactly when bits 4 and 5 of the second byte are clear |
| DnsSection.GetSection | lib/LightMDNS/src/DNSSection.h:145-150 | `getSection` gives Query below `qd`, Answer below `an`, Authority below `ns`, Additional otherwise, each case stated as an if-and-only-if |
| DnsSection.GetSectionOrdered | lib/LightMDNS/src/DNSSection.h:145-150 | with running totals built from the counts, a later record never falls in an earlier section, and the answers are exactly the `an` records after the questions |
| DnsSection.TypeByte | lib/LightMDNS/src/DNSSection.h:160-162 | `calcSupportedRecordTypeByte` gives the byte whose eight bits hold type `t`, counted from type 1 |
| DnsSection.FreshBitmap | lib/LightMDNS/src/DNSSection.h:189-192 | a new bitmap has window 0, length 2 and no type bits |
| DnsSection.AddType | lib/LightMDNS/src/DNSSection.h:195-204 | `addType` of a supported type sets its bit and raises the length to cover its byte; an unsupported type changes nothing; no other byte changes |
| DnsSection.SetBitAt | lib/LightMDNS/src/DNSSection.h:198-199 | `_data[offs] \|= mask` sets the bit and leaves every other byte alone |
| DnsSection.Stretch | lib/LightMDNS/src/DNSSection.h:200 | the length byte becomes the larger of itself and `offs + 1`, nothing else changes |
| DnsSection.SupportedByte | lib/LightMDNS/src/DNSSection.h:166-176 | every supported type's bit lies in the first six bitmap bytes, inside the 32-byte array |
| DnsSection.SupportedPositions | lib/LightMDNS/src/DNSSection.h:166-176 | no two supported types share a bit of the bitmap |
| DnsSection.AddTypeLaws | lib/LightMDNS/src/DNSSection.h:195-204 | adding a type twice is adding it once, the length never shrinks, and types already present stay present |
| DnsSection.AddTypeTwice | lib/LightMDNS/src/DNSSection.h:195-204 | adding a supported type a second time changes nothing |
| DnsSection.AddTypeKeeps | lib/LightMDNS/src/DNSSection.h:195-204 | adding a type keeps a present type whose bit differs |
| DnsSection.BitmapOf | lib/LightMDNS/src/DNSSection.h:189-194 | the constructor's bitmap from a type list is well formed |
| DnsSection.BitmapOfHasTypes | lib/LightMDNS/src/DNSSection.h:189-204 | every supported type of the list is in the constructed bitmap, and a list without supported types gives the fresh bitmap |
| DnsSection.FirstCover | lib/LightMDNS/src/DNSSection.h:220-224 | the search of `uncompress` finds the first label, in reading order, whose span covers the target, or none |
| DnsSection.UncompressIn | lib/LightMDNS/src/DNSSection.h:220-227 | `uncompress` returns the non-empty rest of the first covering label from the target on, or the empty string when no label covers it |
| DnsSection.NameOfJoins | lib/LightMDNS/src/DNSSection.h:228-233 | `name(labels)` on non-empty labels is the labels joined by '.' |
| DnsSection.NameOfSkipsEmptyFirst | lib/LightMDNS/src/DNSSection.h:230-231 | an empty first label is replaced rather than giving a leading '.', so "" then "local" names "local" |
| DnsSection.CollectedName | lib/LightMDNS/src/DNSSection.h:228-254 | after `process_begin` and one `process_nocompressed` per label, `name()` reports the non-empty labels joined by '.', the names collected before are kept, and the new name, in its section, is the last |
| DnsSection.Names | lib/LightMDNS/src/DNSSection.h:237-245 | `names(section)` returns every collected name in order whatever the section asked for, because the filter compares the loop's section with itself |
| DnsSection.ProcessLabel | lib/LightMDNS/src/DNSSection.h:249-251 | `process_nocompressed` adds exactly the label read, at its offset, to the labels read so far |
| DnsSection.ProcessCompressed | lib/LightMDNS/src/DNSSection.h:246-248 | `process_iscompressed` adds exactly the text the pointer resolves to against the labels read so far, at the current offset |
| Mdns.ConfigureCacheFlush | lib/LightMDNS/src/LightMDNS.cpp:42-45 | the cache-flush bit is set exactly when not probing and the record is not shared |
| Mdns.ConfigureTtl | lib/LightMDNS/src/LightMDNS.cpp:47-49 | the TTL never grows, zero stays zero, only shared records are capped, and a capped TTL is the cap |
| Mdns.Validate | lib/LightMDNS/src/LightMDNS.cpp:217-225 | a key is valid exactly when it has 1 to 9 characters, all printable ASCII other than '=', so a valid key holds no '=' |
| Mdns.FindKey | lib/LightMDNS/src/LightMDNS.cpp:230-232 | the lookup of `insert` finds the first entry whose key equals the given one ignoring case, or reports that none does |
| Mdns.Insert | lib/LightMDNS/src/LightMDNS.cpp:227-240 | `insert` succeeds exactly for a valid key, and a refused insert leaves the entries unchanged |
| Mdns.InsertFinds | lib/LightMDNS/src/LightMDNS.cpp:227-240 | after a successful insert the key finds an entry with the new value and binary flag, and the record grows by one only when no key matched |
| Mdns.InsertKeepsWellFormed | lib/LightMDNS/src/LightMDNS.cpp:227-240 | insert keeps every key valid and no two keys equal ignoring case |
| Mdns.InsertKeepsOthers | lib/LightMDNS/src/LightMDNS.cpp:227-240 | insert leaves the lookup of every other key (ignoring case) as it was |
| Mdns.ValueText | lib/LightMDNS/src/LightMDNS.cpp:1055-1059 | a value's text has the length `length()` counts for it (Base64 by the library's encoder as written for a binary value), and a non-binary value's text gives its bytes back |
| Mdns.EntryText | lib/LightMDNS/src/LightMDNS.cpp:1051-1060 | an entry's text starts with its key and is as long as the key, plus '=' and the value's text when the value is not empty |
| Mdns.EntryLength | lib/LightMDNS/src/LightMDNS.cpp:243-246 | the bytes `length()` counts for an entry are one length byte plus the entry's text, key and '=value' |
| Mdns.Length | lib/LightMDNS/src/LightMDNS.cpp:241-250 | `length()` is the entry lengths summed, as a 16-bit count |
| Mdns.WriteString | lib/LightMDNS/src/LightMDNS.cpp:994-998 | `writeStringLengthAndContent` writes one length byte and at most `max` characters |
| Mdns.WriteEntriesLength | lib/LightMDNS/src/LightMDNS.cpp:1043-1061 | with every entry text within 255 characters, the entries written take exactly the summed entry lengths |
| Mdns.TxtLengthMatchesWire | lib/LightMDNS/src/LightMDNS.cpp:1038-1062 | the length announced ahead of the TXT data equals the bytes written (one zero byte for an empty record) when entries fit 255 characters and the total fits 16 bits |
| Mdns.ToStringFromJoin | lib/LightMDNS/src/LightMDNS.cpp:251-270 | once the accumulated text is non-empty, each later entry is added after a ',' |
| Mdns.ToStringJoins | lib/LightMDNS/src/LightMDNS.cpp:251-270 | with non-empty keys `toString` is the entry texts joined by ',' |
| Mdns.ReverseArpaLabels | lib/LightMDNS/src/LightMDNS.cpp:212-214 | the reverse name splits at '.' into the four octets from last to first, each reading back as its octet, then "in-addr" and "arpa" |
| Mdns.DigitsHaveNoDot | lib/LightMDNS/src/LightMDNS.cpp:212-214 | a decimal octet holds no '.', so it stays one label |
| Mdns.CheckHeader | lib/LightMDNS/src/LightMDNS.cpp:745-763 | `checkHeader` accepts exactly the packets meeting all eight conditions, and each reason it gives names a condition that failed |
| Mdns.CheckAddress | lib/LightMDNS/src/LightMDNS.cpp:765-777 | `checkAddress` accepts exactly the senders that are not 0.0.0.0, not in 127/8, and, when link-local, not 169.254.0.x or 169.254.255.x and on our own link-local /24 |
| Mdns.EncodeName | lib/LightMDNS/src/LightMDNS.cpp:1001-1023 | the bytes of `writeDNSName` end in the zero byte |
| Mdns.EncodeNameLength | lib/LightMDNS/src/LightMDNS.cpp:1001-1023 | the encoding of a name takes one byte when empty, one more than the text when it ends in '.', two more otherwise |
| Mdns.EncodeNameStep | lib/LightMDNS/src/LightMDNS.cpp:1007-1012 | each label costs its length byte and its characters |
| Mdns.WriteDnsNameSize | lib/LightMDNS/src/LightMDNS.cpp:1001-1027 | the bytes `writeDNSName` emits equal `sizeofDNSName` exactly when the name has 1 to 63 characters and does not end in '.', and never exceed 65 |
| Mdns.CharsBytesRoundTrip | lib/LightMDNS/src/LightMDNS.cpp:994-998 | characters that fit a byte read back from the bytes written |
| Mdns.DecodeLabelPrefix | lib/LightMDNS/src/LightMDNS.cpp:1007-1012 | a length byte and its characters read back as one label ahead of the rest |
| Mdns.EncodeNameRoundTrip | lib/LightMDNS/src/LightMDNS.cpp:1001-1023 | a name without empty labels reads back from its wire form as its '.'-separated labels |
| Mdns.ServiceType | lib/LightMDNS/src/LightMDNS.cpp:658 | a service type ends with the protocol suffix "._tcp.local" or "._udp.local" |
| Mdns.TypesOfAppend | lib/LightMDNS/src/LightMDNS.cpp:662-663 | appending a service adds exactly its type to the announced types |
| Mdns.ServiceInsert | lib/LightMDNS/src/LightMDNS.cpp:643-668 | `_serviceRecordInsert` refuses an empty name, port 0, a full list or an over-long TXT key as an invalid argument, a record too large for a packet as out of memory, and otherwise appends the service with its type and reports the send status, TryLater when stopped |
| Mdns.Survivors | lib/LightMDNS/src/LightMDNS.cpp:676-685 | the services kept by a removal are exactly those not matching protocol, port and (unless empty) name, and all survive exactly when none matches; order and multiplicity are fixed by SurvivorsAppend |
| Mdns.ServiceRemove | lib/LightMDNS/src/LightMDNS.cpp:670-688 | `_serviceRecordRemove` keeps the non-matching services and rebuilds the types from them; the status is an invalid argument when nothing matched, otherwise the last release status when enabled and TryLater when stopped |
| Mdns.SurvivorsAppend | lib/LightMDNS/src/LightMDNS.cpp:676-685 | the `remove_if` is a filter: it distributes over concatenation and keeps a single service exactly when it does not match, so order and duplicates of the survivors are kept |
| Mdns.InsertThenRemove | lib/LightMDNS/src/LightMDNS.cpp:643-688 | removing a service right after inserting it, where nothing else matched, restores the list and its types |
| Mdns.SurvivorsDropLast | lib/LightMDNS/src/LightMDNS.cpp:676-685 | a removal matching only the last service drops just that one |
| Mdns.ServiceRemoveByName | lib/LightMDNS/src/LightMDNS.cpp:690-708 | removal by name keeps exactly the services of other names and rebuilds the types; the status is an invalid argument exactly when no service had the name, otherwise the last release status when enabled and TryLater when stopped |
| Mdns.OtherNames | lib/LightMDNS/src/LightMDNS.cpp:696-705 | the services kept are exactly those with a different name |
| Mdns.ServiceClear | lib/LightMDNS/src/LightMDNS.cpp:710-720 | `_serviceRecordClear` empties the services and types and returns the last release status, TryLater when nothing was sent |
| Responder.MatchStringPart | lib/LightMDNS/src/Responder.cpp:7-21 | `matchStringPart` matches exactly when at least the label's length is left and the next characters equal it ignoring case; the pointer moves past the label, and past one '.' it lands on, keeping the count consistent |
| Responder.Begin | lib/LightMDNS/src/Responder.cpp:72-85 | `begin` sets up fresh matchers for the host name, the reverse name, the service-discovery name, then each service type, and the working row copies the top row |
| Responder.StepMatcher | lib/LightMDNS/src/Responder.cpp:34-36 | a matcher still matching and not requested compares the label and moves past it; any other matcher is untouched |
| Responder.EndMatcher | lib/LightMDNS/src/Responder.cpp:42-64 | at the end of a question a matcher becomes requested exactly when it consumed its whole name, the type and class bytes are well formed and its name serves the type, and unsupported when the type is not served |
| Responder.ProcessEnd | lib/LightMDNS/src/Responder.cpp:39-70 | `process_end` copies each matcher's outcome into the top row and restarts the working row as the top row |
| Responder.End | lib/LightMDNS/src/Responder.cpp:88-121 | `end` sends a negative answer exactly when a fixed matcher saw an unsupported type, one address record per requested host or reverse name, the complete record set exactly on a discovery request, and otherwise each service's record or negative answer exactly when its matcher says so |
| Responder.JoinReplies | lib/LightMDNS/src/Responder.cpp:88-121 | the facts about the fixed replies and the later ones hold for all replies together |
| Responder.FixedReplies | lib/LightMDNS/src/Responder.cpp:91-102 | the replies about the three fixed names: a negative answer exactly when one saw an unsupported type, one address record per requested name, nothing about services |
| Responder.LaterReplies | lib/LightMDNS/src/Responder.cpp:103-120 | the complete record set exactly on a discovery request, otherwise the per-service replies |
| Responder.ServiceReplies | lib/LightMDNS/src/Responder.cpp:107-119 | each service gets its record exactly when requested and its negative answer exactly when unsupported, and no other service is named |
| Responder.FeedLabels | lib/LightMDNS/src/Responder.cpp:31-37 | feeding a question's labels keeps the matchers consistent and the top row unchanged |
| Responder.FeedMatcher | lib/LightMDNS/src/Responder.cpp:34-36 | a matcher fed labels keeps its name, recorded offset and outcome |
| Responder.FeedLabelsPointwise | lib/LightMDNS/src/Responder.cpp:31-37 | the labels move each matcher as if it were fed alone |
| Responder.MatcherConsumesOwnName | lib/LightMDNS/src/Responder.cpp:7-21 | a live matcher fed the labels of its remaining name consumes all of it and still matches |
| Responder.HostNameQuestion | lib/LightMDNS/src/Responder.cpp:39-101 | a question for the host name with class IN gets the address record when its type is A and a negative answer for any other type |
| Responder.CompressionPointersIgnored | lib/LightMDNS/src/Responder.cpp:23-29 | since `process_end` resets the working row from the top row, whose offsets stay 0, a compression pointer never stops a matcher |
| UrlCodec.HexValue | lib/RestWebServer/src/Uri.h:38 | the value `strtol` gives a hex digit in base 16, below 16 |
| UrlCodec.StrtolHex | lib/RestWebServer/src/Uri.h:29-38 | `strtol` on "0x" and two characters stops at the first non-hex one, so the value always fits a byte |
| UrlCodec.Decode | lib/RestWebServer/src/Uri.h:26-44 | `urlDecode` never lengthens its input |
| UrlCodec.DecodeAt | lib/RestWebServer/src/Uri.h:32-42 | one step of the loop: a '%' with two more characters yields one character and resumes three on, anything else yields one character ('+' as space) and resumes one on |
| UrlCodec.DecodeLoop | lib/WebServer/src/Parsing.cpp:370-387 | the `while (i < len)` loop of `urlDecode` computes the decoding |
| UrlCodec.DecodePlain | lib/RestWebServer/src/Uri.h:26-44 | a text without '%' and '+' decodes to itself |
| UrlCodec.DecodeCases | lib/RestWebServer/src/Uri.h:34-40 | a complete escape yields its byte, '+' a space, and a '%' within two characters of the end is kept as is |
| UrlCodec.HexDigit | lib/RestWebServer/src/Uri.h:38 | the upper-case digit of a nibble reads back as the nibble |
| UrlCodec.Encode | lib/RestWebServer/src/Uri.h:26-44 | the percent-encoding that `urlDecode` undoes is between one and three times as long as its input and holds no '&', '=' or '+' |
| UrlCodec.DecodeEncodeChar | lib/RestWebServer/src/Uri.h:32-42 | decoding an encoded character gives the character, whatever follows |
| UrlCodec.DecodeEncode | lib/RestWebServer/src/Uri.h:26-44 | decoding the percent-encoding of any byte string gives the string back |
| QueryArgs.Occurrences | lib/WebServer/src/Parsing.cpp:245-250 | the number of times a character occurs in a string, zero exactly when it is absent |
| QueryArgs.OccurrencesAppend | lib/WebServer/src/Parsing.cpp:245-250 | occurrences in a concatenation add up |
| QueryArgs.ArgSlots | lib/WebServer/src/Parsing.cpp:240-254 | the argument slots: none exactly for an empty query, never more than `WEBSERVER_MAX_POST_ARGS` (32) |
| QueryArgs.OccurrencesToNext | lib/WebServer/src/Parsing.cpp:245-250 | each `indexOf('&', i + 1)` that succeeds passes exactly one more '&' |
| QueryArgs.OccurrencesToEnd | lib/WebServer/src/Parsing.cpp:245-250 | when `indexOf` fails no '&' is left uncounted |
| QueryArgs.CountSlots | lib/WebServer/src/Parsing.cpp:240-254 | the counting loop gives one slot plus one per '&' after the first character, capped at 32 |
| QueryArgs.Scan | lib/WebServer/src/Parsing.cpp:258-279 | the argument loop yields at least one and at most `slots` segments |
| QueryArgs.DecodedAll | lib/WebServer/src/Parsing.cpp:264-273 | every segment's key and value pass through `urlDecode`, in order |
| QueryArgs.ToArguments | lib/WebServer/src/Parsing.cpp:262-273 | a bare key is stored with an empty value, a pair as it is, in order |
| QueryArgs.ParseArguments | lib/WebServer/src/Parsing.cpp:236-282 | `HTTPServer::_parseArguments` stores no argument exactly for an empty query and never more than its slots |
| QueryArgs.KeysOnly | lib/RestWebServer/src/WebClient.cpp:586-596 | only bare keys are kept, each with an empty value |
| QueryArgs.RestArgumentsAsWritten | lib/RestWebServer/src/WebClient.cpp:567-605 | as written, `WebClient::_parseArguments` appends at most 32 arguments and every one has an empty value |
| QueryArgs.SegmentTexts | lib/WebServer/src/Parsing.cpp:258-279 | each raw argument as its `key=value` text |
| QueryArgs.JoinOccurrences | lib/WebServer/src/Parsing.cpp:245-250 | texts without '&' joined by '&' hold one '&' fewer than there are texts |
| QueryArgs.SegmentDelimiters | lib/WebServer/src/Parsing.cpp:259-260 | on `k=v&...` the two `indexOf` calls find the '=' after the key and the '&' after the value |
| QueryArgs.RawSegmentOfParts | lib/WebServer/src/Parsing.cpp:271-273 | the substrings taken at those positions are the key and the value, and the loop resumes after the '&' |
| QueryArgs.ScanSegment | lib/WebServer/src/Parsing.cpp:258-279 | one pass over `k=v` yields that pair and continues with what follows the '&' |
| QueryArgs.ScanStep | lib/WebServer/src/Parsing.cpp:258-279 | the same pass stated as an equation between scans |
| QueryArgs.JoinedFirst | lib/WebServer/src/Parsing.cpp:258-279 | a joined query is its first `key=value` text, then '&' and the rest |
| QueryArgs.ScanJoined | lib/WebServer/src/Parsing.cpp:258-279 | given slots enough, the loop splits a joined query back into its raw pairs |
| QueryArgs.EncodeAll | lib/WebServer/src/Parsing.cpp:264-273 | a client's arguments percent-encoded, so no key holds '=' or '&' and no value holds '&' |
| QueryArgs.AsSegments | lib/WebServer/src/Parsing.cpp:271-273 | each argument as a key=value segment |
| QueryArgs.AsSegmentsInverse | lib/WebServer/src/Parsing.cpp:271-273 | storing key=value segments gives the arguments back, and keeping only bare keys keeps none of them |
| QueryArgs.DecodedEncodeAll | lib/WebServer/src/Parsing.cpp:271-273 | decoding the encoded segments gives the original arguments |
| QueryArgs.ParseQueryRoundTrip | lib/WebServer/src/Parsing.cpp:236-282 | parsing the encoded query of 1 to 32 arguments gives back exactly those arguments, names and values decoded |
| QueryArgs.QuerySlots | lib/WebServer/src/Parsing.cpp:240-254 | an encoded query of `n` arguments gets exactly `n` slots |
| QueryArgs.QueryScan | lib/WebServer/src/Parsing.cpp:240-279 | the loop over an encoded query yields its arguments as decoded key=value segments |
| QueryArgs.RestDropsValuedArguments | lib/RestWebServer/src/WebClient.cpp:597-604 | on a well-formed query the as-written REST parser keeps no argument at all, where the corrected parser keeps them all |
| QueryArgs.BareKey | lib/WebServer/src/Parsing.cpp:261-269 | a lone key without '=' is one argument with an empty value, under both parsers |
| QueryArgs.LeadingAmpersand | lib/WebServer/src/Parsing.cpp:244-269 | "&a=1" gets one slot and yields only an empty bare key, losing `a=1` |
| RequestLine.SplitRequestLineRejects | lib/RestWebServer/src/WebClient.cpp:478-484 | the request line is rejected exactly when it has no space, or no second space after the first |
| RequestLine.FirstSpace | lib/RestWebServer/src/WebClient.cpp:478 | the first space of "m url after" is the one after a space-free method |
| RequestLine.SecondSpace | lib/RestWebServer/src/WebClient.cpp:479 | the next space is the one after a space-free URL |
| RequestLine.RequestLinePieces | lib/RestWebServer/src/WebClient.cpp:485-487 | the substrings taken at those spaces are the method, the URL and the text after " HTTP/" |
| RequestLine.RequestLineSplits | lib/RestWebServer/src/WebClient.cpp:478-494 | a line "m url after" with a space-free method and URL splits into exactly those parts, the version being `after` without its first five characters |
| RequestLine.UrlQuery | lib/RestWebServer/src/WebClient.cpp:489-494 | a URL "path?query" splits into its path and query at the first '?', and a URL without '?' is all path |
| RequestLine.RequestLineRoundTrip | lib/RestWebServer/src/WebClient.cpp:471-494 | the request line a client writes, "METHOD path[?query] HTTP/version", splits back into method, URL, version, path and query |
| HttpMethod.FirstIndex | lib/RestWebServer/src/WebClient.cpp:34-44 | the search of `httpMethodFromName` finds the first table entry equal to the name, or reports none with `HTTP_ANY` |
| HttpMethod.FromName | lib/RestWebServer/src/WebClient.cpp:34-44 | `httpMethodFromName` gives `HTTP_ANY` exactly for a name not in the table, otherwise a method whose table name is the given one |
| HttpMethod.FromNameLoop | lib/RestWebServer/src/WebClient.cpp:34-44 | the `for` loop with its early `break` computes the same lookup |
| HttpMethod.ToString | lib/RestWebServer/src/WebClient.cpp:51-55 | `httpMethodToString` gives a table name exactly for a method inside the table, and "HTTP UNKNOWN", which is no table name, otherwise |
| HttpMethod.NamesDistinct | lib/RestWebServer/src/WebClient.cpp:18-22 | no two entries of the method table are equal |
| HttpMethod.ToStringFromName | lib/RestWebServer/src/WebClient.cpp:34-55 | looking up a method's name gives the method back, and a value outside the table looks up as `HTTP_ANY` |
| HttpMethod.GetKnown | lib/RestWebServer/src/WebClient.cpp:34-44 | "GET" is the GET method |
| HttpMethod.PostKnown | lib/RestWebServer/src/WebClient.cpp:34-44 | "POST" is the POST method |
| HttpMethod.MSearchUnknown | lib/RestWebServer/src/WebClient.cpp:18-22 | the wire name "M-SEARCH" is not recognised, since the table holds the stringified enumerator name "MSEARCH" |
| HttpHeaders.TrimStart | lib/RestWebServer/src/WebClient.cpp:411-414 | the trimmed text is a suffix of the original, only white space was dropped, and it does not start with white space |
| HttpHeaders.TrimEnd | lib/RestWebServer/src/WebClient.cpp:411-414 | the trimmed text is a prefix of the original, only white space was dropped, and it does not end with white space |
| HttpHeaders.Trim | lib/RestWebServer/src/WebClient.cpp:411-414 | `trim` leaves no white space at either end and never lengthens |
| HttpHeaders.TrimSlice | lib/RestWebServer/src/WebClient.cpp:411-414 | the trimmed text is the slice of the original after its leading white space, with only white space after it |
| HttpHeaders.TrimOfTrimmed | lib/RestWebServer/src/WebClient.cpp:411-414 | a trimmed text trims to itself, also after one space |
| HttpHeaders.TrimPadded | lib/RestWebServer/src/WebClient.cpp:411-414 | trimming recovers a trimmed text from any white-space padding |
| HttpHeaders.LeadingDigits | lib/RestWebServer/src/WebClient.cpp:435 | the run of decimal digits a text starts with, ending at the first non-digit |
| HttpHeaders.ToInt | lib/RestWebServer/src/WebClient.cpp:435 | `toInt` gives a value in the range of a 32-bit `long` |
| HttpHeaders.LeadingDigitsOf | lib/RestWebServer/src/WebClient.cpp:435 | a text of digits is read whole |
| HttpHeaders.ToIntFromNat | lib/RestWebServer/src/WebClient.cpp:435 | a printed number in range reads back as itself |
| HttpHeaders.ToIntFromNegative | lib/RestWebServer/src/WebClient.cpp:435 | a printed negative number in range reads back as itself |
| HttpHeaders.ContentLengthOf | lib/RestWebServer/src/WebClient.cpp:434-435 | the stored content length is the `toInt` value, a negative one wrapped into 32 unsigned bits |
| HttpHeaders.ParseHeaderLine | lib/RestWebServer/src/WebClient.cpp:401-414 | an empty line ends the section, a line without ':' is ignored, any other gives a trimmed name and a trimmed value |
| HttpHeaders.SplitAtColon | lib/RestWebServer/src/WebClient.cpp:406-412 | a line that starts with a ':'-free name splits at the ':' after it |
| HttpHeaders.HeaderLineRoundTrip | lib/RestWebServer/src/WebClient.cpp:401-414 | a header written as "name: value" reads back as that name and value |
| HttpHeaders.ParseSplitLine | lib/RestWebServer/src/WebClient.cpp:406-414 | a line whose first ':' follows the name gives the trimmed name and the trimmed rest |
| HttpHeaders.CollectedMeans | lib/RestWebServer/src/WebClient.cpp:416-425 | the loop over the names of interest finds a name exactly when one of them equals it ignoring case |
| HttpHeaders.WithoutQuotes | lib/RestWebServer/src/WebClient.cpp:431 | `replace("\"", "")` leaves no '"' |
| HttpHeaders.TakeField | lib/RestWebServer/src/WebClient.cpp:415-435 | a header is stored exactly when it is of interest; a Content-Length header sets the length, and no other header changes it |
| HttpHeaders.ParseHeaders | lib/RestWebServer/src/WebClient.cpp:398-437 | the section stores at most one header per line |
| HttpHeaders.ExtendsTrans | lib/RestWebServer/src/WebClient.cpp:398-437 | keeping the stored headers and adding only collected ones composes |
| HttpHeaders.TakeFieldExtends | lib/RestWebServer/src/WebClient.cpp:415-425 | taking in one header keeps the headers stored and adds only a collected one |
| HttpHeaders.ParseHeadersCollects | lib/RestWebServer/src/WebClient.cpp:398-437 | after the section the headers stored before are kept, and every header added is one the server collects |
| HttpHeaders.ContentLengthLine | lib/RestWebServer/src/WebClient.cpp:434-435 | a "Content-Length: v" line sets the request's length from `v` |
| HttpHeaders.ContentLengthHeader | lib/RestWebServer/src/WebClient.cpp:434-435 | a Content-Length of `n` gives the request the length `n` |
| HttpHeaders.NegativeContentLength | lib/RestWebServer/src/WebClient.cpp:434-435 | a Content-Length of `-n` gives the length 2^32 - n |
| HttpRequest.CString | lib/RestWebServer/src/WebClient.cpp:538-539 | a chunk read into a buffer and NUL-terminated yields its prefix up to the first NUL: no NUL inside, and the byte after it, if any, is the NUL |
| HttpRequest.ReadBody | lib/RestWebServer/src/WebClient.cpp:535-541 | the body loop never yields more than the declared length nor more than the client sent |
| HttpRequest.ReadBodyWhole | lib/RestWebServer/src/WebClient.cpp:535-541 | a body without NUL bytes arrives whole: exactly the first Content-Length bytes the client sent |
| HttpRequest.NulCutsBody | lib/RestWebServer/src/WebClient.cpp:538-539 | a NUL inside the body loses the rest of its read chunk ("a", NUL, "b" arrives as "a") |
| HttpRequest.ParseRequest | lib/RestWebServer/src/WebClient.cpp:471-559 | an accepted request has a known method, a body no longer than its Content-Length, and, when no raw handler took it, a Content-Length within HTTP_MAX_POST_DATA_LENGTH; its query arguments, parsed by `_parseArguments` as written, are at most 32 and all have empty values |
| HttpRequest.MissingSpaceRejected | lib/RestWebServer/src/WebClient.cpp:478-484 | a request line without the two spaces separating method, URL and version is rejected |
| HttpRequest.OversizedBodyRejected | lib/RestWebServer/src/WebClient.cpp:526-530 | a Content-Length above 4096 fails the request when no raw handler consumes the body |
| HttpRequest.Arg | lib/RestWebServer/src/WebRequest.cpp:21-28 | a non-empty answer is the value of some argument with exactly that key |
| HttpRequest.ArgIsFirstMatch | lib/RestWebServer/src/WebRequest.cpp:21-28 | the lookup returns the value of the first argument whose key matches |
| HttpRequest.NoArgIsEmpty | lib/RestWebServer/src/WebRequest.cpp:42-48 | when hasArg is false the lookup gives the empty string |
| HttpRequest.IndexedArgMatchesNamed | lib/RestWebServer/src/WebRequest.cpp:21-36 | walking arguments by index agrees with lookup by name: argName(i) finds arg(i) unless an earlier argument has the same name |
| HttpRequest.Header | lib/RestWebServer/src/WebRequest.cpp:51-56 | a non-empty answer is the value of some stored header whose name equals the asked one ignoring case |
| HttpRequest.HeaderIgnoresCase | lib/RestWebServer/src/WebRequest.cpp:51-75 | names equal ignoring case find the same header and agree on hasHeader |
| HttpRequest.IndexedHeaderMatchesNamed | lib/RestWebServer/src/WebRequest.cpp:51-64 | headerName(i) looked up by name finds header(i) unless an earlier header has the same name ignoring case |
| HttpRequest.QueryLookup | lib/RestWebServer/src/WebRequest.cpp:21-28 | with the corrected parser of lib/WebServer/src/Parsing.cpp, every argument of a query built from encodable pairs is found again by name |
| HttpRequest.QueryLookupAsWritten | lib/RestWebServer/src/WebClient.cpp:567-605 | with `WebClient::_parseArguments` as written, no argument of such a query is found by name: each lookup gives "" |
| HttpResponse.ReasonPhrase | lib/WebServer/src/detail/util.cpp:16-60 | the reason phrase is non-empty exactly for the forty status codes the switch lists |
| HttpResponse.StatusLineCode | lib/RestWebServer/src/WebClient.cpp:153-157 | a client reads the status code back from the status line (between its first two spaces) whenever the request's version text holds no space |
| HttpResponse.SendHeader | lib/RestWebServer/src/WebClient.cpp:125-135 | the buffer grows by exactly one "name: value" CRLF line |
| HttpResponse.SendHeaderRender | lib/RestWebServer/src/WebClient.cpp:125-135 | the header buffer stays the rendering of a field list, the new field being put at its front when `first` is set and at its back otherwise |
| HttpResponse.FramingFields | lib/RestWebServer/src/WebClient.cpp:166-177 | Transfer-Encoding: chunked is sent exactly when the length is unknown, and a Content-Length header exactly when it is not |
| HttpResponse.HeaderBlock | lib/RestWebServer/src/WebClient.cpp:159-183 | the completed header buffer always ends with "Connection: close" |
| HttpResponse.HeaderBlockLayout | lib/RestWebServer/src/WebClient.cpp:159-183 | the header buffer is, field by field, Content-Type (text/html by default), the queued headers, Server when an agent is set, the framing headers, the three CORS headers when enabled, then Connection: close |
| HttpResponse.PrepareHeader | lib/RestWebServer/src/WebClient.cpp:152-192 | the response starts with the status line and ends with "Connection: close" and a blank line; the queued headers are cleared; chunked mode is switched on by an unknown length; a length not yet set is taken from the caller, and a set one is kept |
| HttpResponse.PrepareHeaderLayout | lib/RestWebServer/src/WebClient.cpp:152-192 | the whole head is the status line, the rendered field list and the blank line |
| Chunked.LowerHex | lib/RestWebServer/src/WebClient.cpp:305 | the chunk size `%x` prints is a non-empty run of hex digits |
| Chunked.LowerHexRoundTrip | lib/RestWebServer/src/WebClient.cpp:305 | reading the printed chunk size back as hex gives the size |
| Chunked.SendContent | lib/RestWebServer/src/WebClient.cpp:300-316 | outside chunked mode the content goes out unframed; the returned count is the bytes written and is added to `_contentWritten`; an empty chunk ends chunked mode; length and queued headers are untouched |
| Chunked.ChunkDecodes | lib/RestWebServer/src/WebClient.cpp:303-312 | a client applying the chunked coding of RFC 9112 section 7.1 reads the content of a non-empty chunk back and continues right after it |
| Chunked.LastChunkDecodes | lib/RestWebServer/src/WebClient.cpp:303-312 | the empty chunk is read as the end of the body, leaving what follows it |
| Chunked.ChunksDecode | lib/RestWebServer/src/WebClient.cpp:300-316 | a run of non-empty chunks closed by the empty chunk decodes to the concatenated contents |
| Chunked.SendAsWritten | lib/RestWebServer/src/WebClient.cpp:200-218 | as the source has it, `_contentWritten` grows by the bytes sent plus, for non-empty content, the content's framed bytes a second time |
| Chunked.SendCountsContentTwice | lib/RestWebServer/src/WebClient.cpp:214-217 | sending "abc" on a fresh response counts 3 bytes more than went out, while the corrected send counts exactly the bytes written |
| Chunked.Send | lib/RestWebServer/src/WebClient.cpp:200-218 | the response starts with the prepared head, the count is the bytes written, and `_contentWritten` grows by exactly that |
| Chunked.Finalize | lib/RestWebServer/src/WebClient.cpp:362-367 | finishing a chunked response writes the zero-size chunk and leaves chunked mode; otherwise nothing is written and nothing changes |
| Chunked.SendContentPlain | lib/RestWebServer/src/WebClient.cpp:206-217 | a fresh response to non-empty content announces its length, is not chunked, and the wire carries the head then exactly the content |
| Chunked.SendEmptyChunked | lib/RestWebServer/src/WebClient.cpp:206-217 | a fresh response to empty content switches to chunked mode, and the wire carries the head then the zero-size chunk once finished |
| Chunked.StreamPieces | lib/RestWebServer/src/WebClient.cpp:300-316 | after a chunked head each non-empty piece goes out as one chunk and chunked mode stays on |
| Chunked.StreamDecodes | lib/RestWebServer/src/WebClient.cpp:300-367 | a streamed response, once finished, decodes to the concatenation of the pieces |
| Chunked.EmptyPieceEndsStream | lib/RestWebServer/src/WebClient.cpp:309-312 | an empty piece in mid-stream writes the zero-size chunk and whatever is sent after it goes out unframed |
| HttpClient.StepProgress | lib/RestWebServer/src/WebClient.cpp:723-773 | each pass of the loop moves the status strictly towards Disconnected, except a pass that stays in Closing, which happens only inside the closing window with the client connected; Reading is never re-entered |
| HttpClient.ReadingResponses | lib/RestWebServer/src/WebClient.cpp:725-745 | 408 is sent exactly when no data arrived past HTTP_MAX_DATA_WAIT, 400 exactly when otherwise parsing fails, and either one starts the closing wait now; otherwise the request moves to processing |
| HttpClient.ParsesAfterOneDelay | lib/RestWebServer/src/WebClient.cpp:726-738 | with no data yet but within the wait, the request is parsed after a single 25 ms delay |
| HttpClient.RunLoop | lib/RestWebServer/src/WebClient.cpp:723-773 | the loop stops only at Disconnected or when the observations run out, one pass per observation |
| HttpClient.ClosingEnds | lib/RestWebServer/src/WebClient.cpp:759-766 | the closing wait ends at the latest at the first pass where the 5000 ms window has passed or the client has gone |
| HttpClient.ClosingAtZeroEndsAtOnce | lib/RestWebServer/src/WebClient.cpp:761 | a closing wait begun at clock value 0 ends at once, since 0 reads as never started |
| HttpClient.CloseIdempotent | lib/RestWebServer/src/WebClient.cpp:86-96 | closing twice is closing once when the first close saw a non-zero clock |
| HttpClient.CloseAtZeroRunsAgain | lib/RestWebServer/src/WebClient.cpp:87-93 | a close at clock value 0 leaves no trace, so a second close stops the connection again |
| HttpClient.HandleRequestCloses | lib/RestWebServer/src/WebClient.cpp:718-777 | once the loop ends the client is returned Closed and stopped once, unless it had been closed before, in which case it is returned Disconnected and not stopped again |
| HttpClient.ServedRequest | lib/RestWebServer/src/WebClient.cpp:718-777 | a request that parses on a connected client is processed first and the run ends once the closing window has passed or the client has gone |
| HttpServer.ExtractParam | lib/WebServer/src/HTTPServer.cpp:56-62 | an absent parameter gives "", and the value is never longer than the header |
| HttpServer.ExtractParamValue | lib/WebServer/src/HTTPServer.cpp:56-62 | in a header "pre param value delimiter post", with the parameter first occurring after `pre`, the value between the parameter and the next delimiter is extracted |
| HttpServer.ExtractParamToEnd | lib/WebServer/src/HTTPServer.cpp:56-62 | with no delimiter after the parameter, the value runs to the end of the header |
| HttpServer.AddHandler | lib/WebServer/src/HTTPServer.cpp:255-263 | the handler is appended at the end of the list, the first pointer is kept for a non-empty list, and first and last point at the list's ends |
| HttpServer.RemoveHandler | lib/WebServer/src/HTTPServer.cpp:265-289 | true exactly when the handler was linked; the list loses exactly its occurrence, the first and last pointers stay at the list's ends, and a missing handler leaves the list unchanged |
| HttpServer.AddThenRemove | lib/WebServer/src/HTTPServer.cpp:255-289 | adding a new handler and removing it gives the list back |
| HttpServer.StaticPathShape | lib/WebServer/src/detail/RequestHandlers.cpp:135-144 | a file handler always serves its own path; a directory handler serves its base path plus what the request adds to the base URI, with index.html after a trailing '/' |
| HttpServer.MemoryPathShape | lib/WebServer/src/detail/RequestHandlers.cpp:281-290 | an in-memory resource path always starts with '/' and never ends with one |
| HttpServer.MemoryPathDefault | lib/WebServer/src/detail/RequestHandlers.cpp:281-290 | a request for the base URI, or the base URI and a '/', is given "/index.html" |
| HttpServer.FunctionMatch | lib/WebServer/src/detail/RequestHandlers.cpp:31-36 | a function handler matches exactly its own URI, compared as a whole string, for its method or any method when registered for any |
| HttpServer.StaticMatch | lib/WebServer/src/detail/RequestHandlers.cpp:94-100 | a static file handler matches only GET; a file handler only its own URI; a directory handler every URI starting with its base |
| HttpServer.NoRawForGet | lib/WebServer/src/detail/RequestHandlers.cpp:52-57 | a function handler for GET, or one without an upload function, never takes the body raw |
| HttpServer.FindHandler | lib/RestWebServer/src/WebClient.cpp:512-518 | the chosen handler can handle the request and no earlier one can; none is chosen only when no handler can |
| HttpServer.AttachHandler | lib/RestWebServer/src/WebClient.cpp:512-518 | the attaching loop stops at the first handler in list order whose canHandle accepts the request |
| HttpServer.Lookup | lib/WebServer/src/HTTPServer.cpp:503-515 | a value is found exactly when some argument has the name, and it is the value of the first such argument |
| HttpServer.ServerArgPrecedence | lib/WebServer/src/HTTPServer.cpp:503-548 | a POST argument wins over a query argument of the same name, a name only in the query is found there, hasArg holds exactly when either list has the name, and otherwise arg gives "" |
| HttpServer.ServerHeader | lib/WebServer/src/HTTPServer.cpp:550-557 | a non-empty answer is the value of some slot whose name equals the asked one ignoring case |
| HttpServer.HasHeaderIffValue | lib/WebServer/src/HTTPServer.cpp:550-595 | with slot names distinct ignoring case, hasHeader holds exactly when header gives a non-empty value |
| HttpServer.CollectedHeadersEmpty | lib/WebServer/src/HTTPServer.cpp:559-595 | right after collectHeaders no header is present, "Authorization" included, and every lookup gives "" |
| HttpServer.DuplicateHeaderDisagrees | lib/WebServer/src/HTTPServer.cpp:550-595 | with a name collected twice, hasHeader can hold while header returns the empty first slot |
| MimeTable.FirstMatch | lib/RestWebServer/src/detail/mimetable.cpp:34-38 | the search stops at an entry whose suffix the path ends with, and every entry it passed does not match |
| MimeTable.ContentTypeEntry | lib/RestWebServer/src/detail/mimetable.cpp:7-41 | a matching entry always exists, because the last suffix is empty, and the content type is that of the first entry matching the path's suffix |
| MimeTable.ContentTypeInTable | lib/RestWebServer/src/detail/mimetable.cpp:33-41 | the content type is always one of the table's types |
| MimeTable.UnknownExtension | lib/RestWebServer/src/detail/mimetable.cpp:30-41 | a path ending with none of the listed extensions is served as application/octet-stream |
| MimeTable.HtmlExtension | lib/RestWebServer/src/detail/mimetable.cpp:8 | any path ending with ".html" is text/html |
| MimeTable.ScriptExtension | lib/RestWebServer/src/detail/mimetable.cpp:12 | any path ending with ".js" is application/javascript, not shadowed by an earlier entry |
| MimeTable.JsonExtension | lib/RestWebServer/src/detail/mimetable.cpp:13 | any path ending with ".json" is application/json |
| MimeTable.GzipExtension | lib/RestWebServer/src/detail/mimetable.cpp:28 | any path ending with ".gz" is application/x-gzip |
| MimeTable.ContentTypeLoop | lib/RestWebServer/src/detail/mimetable.cpp:33-41 | the source's loop returns the type of the first entry whose suffix the path ends with |
| TimeUtil.EncodeMonthDay | src/timeutil.cpp:232-235 | the key is a 16-bit value |
| TimeUtil.EncodeMonthDayOrder | src/timeutil.cpp:232-235 | for calendar months and days the key reads back as month (high byte) and day (low byte), and keys order dates exactly as the calendar does |
| TimeUtil.EncodeMonthDayAt | src/timeutil.cpp:232-235 | a time of 0 stands for the current time, and the key stays 16-bit |
| TimeUtil.HolidayOfKey | src/timeutil.cpp:140-168 | every date maps to some holiday, never to None |
| TimeUtil.HolidayWindows | src/timeutil.cpp:140-168 | on calendar dates the key intervals are exactly these windows: Valentine's Day 12-15 February, St Patrick's 15-18 March, Memorial Day 25-31 May, Independence Day 1-5 July, Halloween 1 October-3 November, Thanksgiving 4-30 November, Christmas 23-27 December, New Year 31 December-2 January, Party otherwise |
| TimeUtil.BuildHoliday | src/timeutil.cpp:140-141 | the holiday of a time is never None |
| TimeUtil.HolidayName | src/timeutil.cpp:199-224 | every holiday has a name of at least four letters |
| TimeUtil.ParseHoliday | src/timeutil.cpp:179-197 | parsing never yields None; unknown names give Party |
| TimeUtil.ParseHolidayIgnoresCase | src/timeutil.cpp:179-197 | names equal ignoring case parse to the same holiday |
| TimeUtil.ParseHolidayName | src/timeutil.cpp:179-224 | every holiday but None is read back from its name; "None" reads as Party |
| TimeUtil.ToInt32 | src/timeutil.cpp:246 | the conversion to a 32-bit int lands in range and keeps values already in range |
| TimeUtil.DriftAdds | src/timeutil.cpp:243-247 | drifts over consecutive intervals add up to the drift over their union |
| TimeUtil.TotalDriftCountsEarlyDriftAgain | src/timeutil.cpp:253-265 | with three synchronisations each 10 ms fast over a second, the source reports 30 ms where 20 ms accumulated, since its `prevSync` never moves |
| TimeUtil.TotalDrift | src/timeutil.cpp:253-265 | fewer than two synchronisations give 0; otherwise the result is the sum of the drifts between consecutive synchronisations |
| TimeUtil.SumConsecutiveTelescopes | src/timeutil.cpp:253-265 | while no step's drift wraps, the total drift is the drift from the first synchronisation to the last |
| TimeUtil.LastTimeDrift | src/timeutil.cpp:283-289 | fewer than two synchronisations give 0 |
| TimeUtil.LastDriftIsLastStep | src/timeutil.cpp:283-289 | the last drift is exactly what the last synchronisation adds to the total |
| TimeUtil.AverageTimeDrift | src/timeutil.cpp:271-277 | fewer than two synchronisations give 0 |
| TimeUtil.AverageOfSteadyDrift | src/timeutil.cpp:271-277 | with two synchronisations, the average of the total `getTotalDrift` reports, for a clock running a constant r ms fast per second, is 3600 r ms per hour |
| TimeUtil.AverageCountsEarlyDriftAgain | src/timeutil.cpp:253-277 | the drift counted again reaches the average: three synchronisations each 10 ms fast over a second average 54000 ms per hour where the clock gains 36000 |
| FxSchedule.AlarmTypeName | src/FxSchedule.cpp:19-25 | every alarm type has a non-empty name |
| FxSchedule.AlarmTypeNamesDiffer | src/FxSchedule.cpp:12-25 | the two alarm types have different names |
| FxSchedule.PreviousMidnight | lib/TimeLib/src/TimeDef.h:38 | for times from the epoch on, the result is a whole day at or before the time and less than a day before it; a time before the epoch truncates towards zero, so its midnight lies after it |
| FxSchedule.AsleepFromHalfPastMidnightToSix | src/FxSchedule.cpp:91-100 | with bedtime 00:30 and wake-up 06:00, the lights are asleep exactly from 00:30 to 06:00 of each day |
| FxSchedule.FutureOf | src/FxSchedule.cpp:33-40 | the alarms kept are exactly those of the kind strictly after the reference time |
| FxSchedule.CountFutureAlarms | src/FxSchedule.cpp:33-40 | the count is the number of alarms of the kind strictly after the reference time, and is 0 exactly when none lies ahead |
| FxSchedule.NextAlarm | src/FxSchedule.cpp:52-57 | the new alarm has the kind asked for, lies strictly after the time, and is at its time of day on the current day or the next |
| FxSchedule.TopUp | src/FxSchedule.cpp:50-58 | the alarm list only grows, by at most one alarm at its end |
| FxSchedule.TopUpCovers | src/FxSchedule.cpp:50-67 | after a top-up an alarm of the kind lies ahead; the list is unchanged when one already did, grows by that kind's next alarm otherwise, and other kinds are unaffected |
| FxSchedule.ScheduleDay | src/FxSchedule.cpp:46-69 | the alarm list only grows, by at most two alarms at its end |
| FxSchedule.ScheduleDayCoversBoth | src/FxSchedule.cpp:46-69 | after scheduling, a wake-up and a bedtime alarm lie ahead; nothing is added when both already did, and each added alarm is of a kind that had none, at its time of day today or tomorrow |
| FxSchedule.Due | src/FxSchedule.cpp:107-116 | the alarms fired are exactly those at or before the time |
| FxSchedule.Pending | src/FxSchedule.cpp:107-116 | the alarms kept are exactly those after the time |
| FxSchedule.DuePendingSplit | src/FxSchedule.cpp:107-116 | every alarm is either fired or kept, and none is lost or duplicated |
| FxSchedule.FireDue | src/FxSchedule.cpp:107-116 | the erase loop fires the due alarms in order and keeps the others in order |
| FxSchedule.AlarmLoop | src/FxSchedule.cpp:82-131 | on a new day the schedule is topped up first, the current day moves to today, and `adjustCurrentEffect` (src/fxutil.cpp:535-537) asks the registry to sleep exactly when it is not awake time, that is from 00:30 to 06:00; on other days the registry is not asked; then due alarms fire, and after a new day's scheduling a wake-up and a bedtime alarm are still pending |
| FxSchedule.PendingKeepsFuture | src/FxSchedule.cpp:107-116 | an alarm ahead of the time is never fired |
| LedEffect.IdOf | src/LedEffect.cpp:19-29 | the name is a prefix of the description of at most five characters holding no ':' or NUL, and stops at the first ':' or NUL when that comes before the fifth character |
| LedEffect.ConstructId | src/LedEffect.cpp:21-29 | the constructor's copy loop and forced final NUL leave exactly that prefix as the name |
| LedEffect.NextStateCycles | src/LedEffect.cpp:205-215 | the states form one cycle in declaration order, Idle wrapping to Setup, and the pause clock is stamped only on entering TransitionBreakPrep |
| LedEffect.SevenStepsReturn | src/LedEffect.cpp:205-215 | seven steps come back to the starting state |
| LedEffect.DesiredStateRules | src/LedEffect.cpp:126-203 | a request for the current state does nothing; Running winds down for any other request; Setup gives way only to Idle; Idle answers only Running and Setup, with Setup; the pause states turn Running into Setup and Idle or Setup into Idle |
| LedEffect.DesiredStateSteps | src/LedEffect.cpp:126-203 | a request moves at most to the next state of the cycle, back to Running from a wind-down, or to Idle or Setup from Setup or a pause; the pause clock changes only when a wind-down is cut short |
| LedEffect.IdleReachedWithinFour | src/LedEffect.cpp:126-203 | repeating a request for Idle reaches Idle within four requests from any state |
| LedEffect.SetupReachedWithinFive | src/LedEffect.cpp:126-203 | repeating a request for Setup reaches Setup within five requests from any state |
| LedEffect.LoopAdvances | src/LedEffect.cpp:87-119 | the loop either stays or moves to the next state; it never leaves Running or Idle by itself, and always advances from the one-step states |
| LedEffect.PauseLength | src/LedEffect.cpp:54-57 | the pause ends once the clock passes its start by more than a second; a pause starting within a second of the 32-bit wrap-around ends at once |
| EffectRegistry.Capu | include/efx_setup.h:15 | the result is x capped from above at u: never above either, and one of the two |
| EffectRegistry.Inc | include/efx_setup.h:18 | the next position always lies within the u places |
| EffectRegistry.Qsuba | include/efx_setup.h:22 | subtraction stops at 0 instead of wrapping |
| EffectRegistry.RegisterEffect | src/EffectRegistry.cpp:73-81 | the effect goes last, its index is the former count, it starts Idle, and the sleep light's index is remembered when the name matches |
| EffectRegistry.RegisterKeepsOrder | src/EffectRegistry.cpp:73-81 | registration leaves a valid registry and the earlier effects keep their places |
| EffectRegistry.TransitionEffect | src/EffectRegistry.cpp:65-71 | only the effects' states change, and every index stays valid |
| EffectRegistry.TransitionEffectTargets | src/EffectRegistry.cpp:65-71 | the current effect is asked to run, the effect last run is asked to go idle when it is another one, and no other effect is touched |
| EffectRegistry.NextEffectPosIndexClamps | src/EffectRegistry.cpp:25-29 | a valid index becomes current as it is and a larger one as the last effect; the index returned is that of the effect last run |
| EffectRegistry.Find | src/EffectRegistry.cpp:83-89 | the first effect with that name is found, and none exactly when no effect has it |
| EffectRegistry.NextEffectPosId | src/EffectRegistry.cpp:14-23 | an unknown name changes nothing and returns 0; a known one makes its first effect current and transitions to it |
| EffectRegistry.NextEffectPosAutoSkipsSleep | src/EffectRegistry.cpp:31-40 | with automatic switching off or while asleep nothing changes; otherwise the current effect moves one or two places around the list and, with two effects or more, never lands on the sleep light |
| EffectRegistry.PickAsWritten | src/EffectRegistry.cpp:52-58 | as the source has it, the draw picks the first effect whose cumulative weight reaches it, not exceeds it |
| EffectRegistry.LastNeverPicked | src/EffectRegistry.cpp:51-58 | with two effects of weight 1, both draws 0 and 1 pick the first effect, so the second is never picked |
| EffectRegistry.Pick | src/EffectRegistry.cpp:46-63 | a draw below the total weight picks the effect whose cumulative share holds it; a draw beyond it picks none |
| EffectRegistry.PickOwnsShare | src/EffectRegistry.cpp:46-63 | each draw lies in exactly one effect's share, so an effect of weight 0 (the sleep light) is never picked |
| EffectRegistry.NextRandomEffectPos | src/EffectRegistry.cpp:46-63 | with automatic switching off or while asleep nothing changes; otherwise a draw below the total weight makes current, and returns, the first effect whose cumulative weight reaches the draw (the selection as written); nothing but the current index and the effects' states changes |
| EffectRegistry.GetEffect | src/EffectRegistry.cpp:145-147 | the index is taken as it is when valid and as the last effect otherwise |
| EffectRegistry.SetSleepState | src/EffectRegistry.cpp:91-108 | an unchanged flag does nothing; going to sleep makes the sleep light current; waking with enough history returns to the effect run before it |
| EffectRegistry.EnableSleep | src/EffectRegistry.cpp:110-115 | the setting is stored, and the sleep flag ends up set exactly when sleep is enabled and it is not awake time |
| EffectRegistry.SetupAll | src/EffectRegistry.cpp:120-124 | every effect is asked to get ready to run, and nothing else changes |
| EffectRegistry.SetupAllReachesSetup | src/EffectRegistry.cpp:120-124 | five rounds of setup bring every effect to Setup, whatever state each was in |
| EffectRegistry.Loop | src/EffectRegistry.cpp:126-136 | every index stays valid, the history included |
| EffectRegistry.LoopSwitchesWhenIdle | src/EffectRegistry.cpp:126-136 | the effect run changes exactly when the previous one has gone idle and another is current; the new one is then the newest history entry |
| FxUtil.ShiftRight | src/fxutil.cpp:69-85 | no change for a zero shift, an empty set or a viewport starting past the end; a shift at least the viewport's size paints pixels `low` through `high` inclusive (capped at the last pixel) with the feed colour; otherwise each pixel of the viewport takes the one `pos` to its left, the feed entering below `pos`, and pixels outside the viewport keep their colour |
| FxUtil.ShiftLeft | src/fxutil.cpp:118-132 | the same no-op and paint cases as ShiftRight; otherwise each pixel from `low` to `high` inclusive (capped at the last pixel) takes the one `pos` to its right, the feed filling in where that falls past that end, and other pixels are kept |
| FxUtil.WholeSetShifts | src/fxutil.cpp:69-132 | over the whole set, a right shift is `pos` feed pixels followed by the set's head, and a left shift is the set's tail followed by `pos` feed pixels |
| FxUtil.ShiftLeftUndoesShiftRight | src/fxutil.cpp:69-132 | shifting the whole set right then left by the same amount restores every pixel that was not pushed off the end |
| FxUtil.LoopRight | src/fxutil.cpp:94-108 | the viewport is rotated right by `pos` modulo its size, pixels outside it unchanged; the first few pixels come from the carry buffer, whose unwritten slots are modelled by the `stale` parameter |
| FxUtil.WholeSetRotates | src/fxutil.cpp:94-108 | over the whole set, loopRight is exactly a rotation right by `pos` modulo the set's size |
| FxUtil.SpreadColor | src/fxutil.cpp:143-158 | reports true exactly when every pixel already has the colour (and then changes nothing); otherwise only the first mismatching pixel is blended, all others kept |
| FxUtil.AreSame | src/fxutil.cpp:205-213 | true exactly when both sets have the same length and the same pixels |
| FxUtil.ShuffleIndexes | src/fxutil.cpp:250-262 | the result holds a permutation of 0..n-1, whatever the random draws |
| FxUtil.ShuffleHoldsEachIndex | src/fxutil.cpp:250-262 | a permutation of 0..n-1 holds each index below n exactly once and nothing else |
| FxUtil.FillArray | src/fxutil.cpp:314-321 | pixels before the offset are kept and from the offset on the array repeats the source's first `srcLength` pixels in order, the last repetition cut at the array's end |
| FxUtil.CopyFrame | src/fxutil.cpp:281-287 | `len` source pixels land at the destination offset; every other destination pixel is kept |
| FxUtil.MirrorLow | src/fxutil.cpp:323-328 | the upper half becomes the mirror image of the lower half; the lower half is kept |
| FxUtil.MirrorHigh | src/fxutil.cpp:330-335 | the lower half becomes the mirror image of the upper half; the upper half is kept |
| FxUtil.MirrorsArePalindromes | src/fxutil.cpp:323-335 | after either mirror the set reads the same from both ends |
| FxUtil.Scale8Video | src/fxutil.cpp:454-456 | scaling a nonzero value by a nonzero amount never yields zero and, below full scale, never grows the value, so a blend step cannot overshoot |
| FxUtil.Rblend8Approaches | src/fxutil.cpp:446-458 | amount 0 reports done and changes nothing; otherwise done holds exactly when the value reached the target; the value moves toward the target without passing it, strictly closer while they differ |
| FxUtil.Rblend8Converges | src/fxutil.cpp:446-458 | with a nonzero amount, repeating the blend as many times as the distance to the target reaches the target |
| FxUtil.RblendDoneIffReached | src/fxutil.cpp:471-482 | with a nonzero amount, the colour blend reports done exactly when the colour equals the target |
| Transition.Setup | src/transition.cpp:8-20 | no preference and a selector below 10 from the draw; at most 17 bars of 3 to 7 pixels, pushed at the front, whose front bar is trimmed so that the bars (each at least one pixel) cover the 50 pixels exactly |
| Transition.Prepare | src/transition.cpp:35-47 | the selector's low byte modulo 10 becomes `sel`; the preference is 0 exactly when the second byte is 0, else in 1..5; the spots effect restarts at index 0 with a one-pixel spot; the bar segments are kept |
| Transition.Dispatch | src/transition.cpp:22-33 | the fade effect plays exactly for index 2 and for every index past 4 |
| Transition.PreparedIndexInRange | src/transition.cpp:22-47 | after prepare the effect index is always one of the five effects, never the fallback |
| Transition.AutomaticSelection | src/transition.cpp:22-47 | without a preference, selector `2e + v` plays effect `e` in variant `v`, so all ten combinations are reachable |
| Transition.PreferenceSelection | src/transition.cpp:35-41 | with a nonzero second byte `p`, the effect played is `p mod 5` whatever the low byte |
| Transition.SelectorConstants | include/transition.h:12-16 | the named selectors play: SPOTS the left wipe, WIPE the fade, SPLIT the split, RANDOM_BARS the bars and FADE the spots |
| PaletteFactory.CurrentHoliday | src/timeutil.cpp:170-172 | never None; Party while WiFi is down |
| PaletteFactory.AdjustHoliday | src/PaletteFactory.cpp:100-106 | the mode never changes; with auto off or WiFi down nothing changes; otherwise the holiday becomes the one of the given time |
| PaletteFactory.SetHoliday | src/PaletteFactory.cpp:91-98 | auto mode holds exactly when None is set; any other holiday is kept as given; None with WiFi up takes today's holiday, with WiFi down keeps the old one |
| PaletteFactory.ManualHolidaySticks | src/PaletteFactory.cpp:91-106 | a holiday set by hand survives every later adjustment, whatever the time or WiFi |
| PaletteFactory.AutomaticFollowsCalendar | src/PaletteFactory.cpp:91-106 | after choosing automatic mode with WiFi up a real holiday is set, and later adjustments follow the calendar |
| PaletteFactory.PalettesByHoliday | src/PaletteFactory.cpp:49-81 | after the adjustment, the main and secondary palettes differ; the main palette is the party one exactly when the holiday is none of Halloween, Thanksgiving, Christmas and New Year; it is the Halloween one exactly when the hue is limited |
| PixelJs.OverflowString | include/pixel_js.h:325-330 | strings within the limit are kept; longer ones become their first `limit - 3` characters followed by "..." |
| PixelJs.OverflowStringSettles | include/pixel_js.h:325-330 | a shortened string fits the limit (or the ellipsis), and shortening it again changes nothing when the limit is at least 3 |
| PixelJs.RawBrightness | include/pixel_js.h:290-297 | never above 255; below 100% it is `(percent·256/100)²/256` rounded half up |
| PixelJs.RawBrightnessRounds | include/pixel_js.h:294-297 | the raw value is the exact rounding of `16 percent²/625` unless capped at 255 |
| PixelJs.PercentOf | include/pixel_js.h:147 | the shown percentage is the rounding of `√(raw·256)·100/256`, stated by squares |
| PixelJs.PercentOfUnique | include/pixel_js.h:147 | that rounding has exactly one value |
| PixelJs.DisplayPercent | include/pixel_js.h:147-149 | always a multiple of 10, at least 10, and within 5 of the percentage from 10 on |
| PixelJs.BrightnessRoundTrip | include/pixel_js.h:147-297 | every step 10..100 of the brightness list, sent as raw brightness and read back, shows as the same step |
| PixelJs.HistogramLabel | include/pixel_js.h:103 | a label starts with '>' exactly on the last bin |
| PixelJs.HistogramLabelReadsBack | include/pixel_js.h:103 | a label's digits are the bin's lower bound `threshold + 500·ix` and read back as that number |
| PixelJs.HistogramLabelsDistinct | include/pixel_js.h:103 | distinct bins get distinct labels |
| PixelJs.HolidayOption | include/pixel_js.h:53-58 | the option value is the holiday; "None" is shown as "Automatic"; every other holiday is shown by its name |
| PixelJs.SelectedTheme | include/pixel_js.h:139-145 | an automatic theme selects the "None" entry, shown as "Automatic"; otherwise the theme itself |
| PixelJs.SelectOutcome | include/pixel_js.h:184-193 | after the answer shown and stored agree: success keeps the choice, failure restores the stored value |
| PixelJs.SelectRollsBack | include/pixel_js.h:169-197 | a refused change leaves the control as before the choice; after an accepted one choosing the same entry again sends nothing |
| PixelJs.ToggleRollsBack | include/pixel_js.h:199-241 | a refused toggle restores the previous state; an accepted one keeps the new state |

## Left out

- Network and socket I/O: the WiFi client and server, UDP sends and receives, and the application's web and broadcast code. Only the bytes they carry are modelled, as parameters.
- RTOS plumbing: the scheduler, task queues, the delays inside loops, and the mutexes of the ring buffer and the time zone. Each operation is modelled as one atomic step.
- Hardware: the PDM microphone driver, ADC and IMU reads, the LED strip output, the file system and OTA. Their readings are parameters; their writes are left out.
- `mic_run` feeds the loudest sample of a loud batch to FastLED's random generator (`random16_add_entropy`, src/mic.cpp:73). The generator's state is not modelled, since its draws are parameters.
- Floating point: diagnostics calibration, FastLED's easing curves and breathing effects, and the `toFixed` temperature strings of the dashboard. None of them bears on the modelled rules.
- FastLED and other foreign code: `random8`/`random16` draws are parameters, and palettes are named rather than built. MD5 digest authentication, SHA-256, `strftime`, `std::regex`/`fnmatch` URI matching and ArduinoJson are not part of this model.
- The effect renderers (`fxA`–`fxI`) and the transition's drawing effects (`offSpots`, `offWipe`, `offFade`, `offSplit`, `offRandomBars`): they are timer- and random-driven animations. Only the choice of transition effect is modelled.
- `PaletteFactory::randomPalette`: it is built from random HSV draws and has no rule to state.
- The log text of `WebClient::close`, `mic_run` and the alarm loop: it is output only.
- The duplicate web server in lib/WebServer/src/WebClient.cpp and its template headers: the RestWebServer copy is the one modelled. `HTTPServer::_parseArguments` is taken from lib/WebServer/src/Parsing.cpp.
- A raw handler's take-over of the body (`canRaw` in `_parseRequest`): the handler's own work is outside this model. Only `canRaw`'s verdict is modelled.
- The server's `_hook` (lib/RestWebServer/src/WebClient.cpp:496), which can claim a request before its method is even looked up: the firmware never installs one, so `HttpRequest.ParseRequest` runs as if it were unset.
- The transition's own `setup` call inside `EffectRegistry::setup`/`transitionEffect`: it only touches the LED strip's state. `adjustCurrentEffect` is modelled as the sleep flag `FxSchedule.AlarmLoop` hands over; the registry's response to it is `EffectRegistry.SetSleepState`, and the two are not composed into one step.
- The transition selector constants of include/transition.h are modelled literally. `Transition.SelectorConstants` shows that `SELECTOR_SPOTS`, `SELECTOR_WIPE` and `SELECTOR_FADE` play the wipe, the fade and the spots respectively.
- The holiday windows follow the code, which opens the Valentine window on 12 February and ends the New Year window on 31 December. Its comments say 11 February and 30 December.
- `TM_EPOCH_YEAR`, used by lib/TimeLib/src/Timezone.cpp, is not part of this model's sources. It is the parameter `epochYear`.
- The `HTTP_METHOD_MAP` table is not part of this model's sources. `HttpMethod` uses the method names of the http_parser library it comes from. `M-SEARCH` is not found by the two-halves search, and `HttpMethod.MSearchUnknown` shows it.
- `makeTimeCore` treats a year field of 1970 as the offset 1970, not the calendar year. `CoreTime.Year1970NotRoundTrip` shows the quirk, and `TimeService.SetTimeYearZero` shows that `setTime` with year 0 lands in 3940.
- The time zone code mixes 0-based weekday and month fields with the 1-based `weekdayCore`/`makeTimeCore`. The DNS type bitmap indexes types from `type - 1`. Both are modelled literally.
- `DnsSection.Names` joins the collected names of every section: the section filter of `NameCollector::names` is shadowed in the source and has no effect.
- The responder's working matchers never keep a recorded name offset. `process_end` resets them from the top row, whose offsets stay 0. So a compression pointer in a query never stops a match (`Responder.CompressionPointersIgnored`), and names that use compression are matched label by label only.
- A negative `Content-Length` converts to a huge unsigned size and is rejected as oversized.
- A NUL byte inside a body chunk ends that chunk's text, as the C-string copy does (`HttpRequest.NulCutsBody`).
- A query that starts with `&` gets one slot too few, because the counting loop skips the first character. So `&a=1` yields a single empty argument (`QueryArgs.LeadingAmpersand`).
- The `LedEffect` constructor reads past the end of a description without a recognised prefix. The model reads the missing characters as NUL.
- `HttpClient.HandleRequestCloses` follows the connection for as many steps as observations are supplied. A run that stays in Closing beyond them is cut off there.
- `EffectRegistry.NextEffectPosId` returns `lastEffectRun` as the source does, not the position it has just set.
- The one-second pause of `LedEffect::transitionBreak` adds 1000 to its 32-bit start time. The model wraps that sum, so a pause that starts within a second of the counter's wrap-around ends at once (`LedEffect.PauseLength`).
- `FxSchedule.PreviousMidnight` truncates toward zero as C integer division does. For a time before 1970 that gives the following midnight, not the previous one, and its contract says so.
- `FxUtil.LoopRight` reads carry-buffer slots that the source never wrote when the shift is larger than what was saved. The model names their content `stale`.
- `FxUtil.FillArray` requires a non-empty source: with `srcLength == 0` the source loops forever.
- `Mic.Run`: with a bump threshold of 2^15 or more no 16-bit sample passes it, so the histogram never changes. This is modelled, not excluded.
- `PixelJs.RawBrightness` is capped at 255 as the script caps it. The percentage shown is stated by `PixelJs.IsPercentOf` as an exact integer characterisation of `Math.round(Math.sqrt(raw*256)*100/256)`, not computed with a square root.
- `Base64.EncodeLoop` requires that the output length is not exactly `Base64::length(n)`. At that size the source writes its terminating NUL one byte past the buffer.
- `TimeUtil.AverageTimeDrift` requires a non-zero span between the first and last sync, where the source would divide by zero. The 32-bit overflow of its multiplication is not modelled.
- `TimeUtil.TotalDrift` accumulates in an unbounded integer, where the source uses a 32-bit `int`.
- TimeUtil.TotalDriftAsWritten: each `getDrift` is wrapped to 32 bits, but their sum is kept in an unbounded integer where `getTotalDrift`'s `int drift` would wrap, and `TimeUtil.AverageTimeDrift` multiplies that sum by 3600 without the 32-bit wrap.
- TimeUtil.AverageOfSteadyDrift: assumes the drift between the two synchronisations fits a 32-bit `int`. Beyond that `getDrift` wraps and the average is not 3600 r.
- CoreTime.BreakTimeCore: takes times from the epoch on. For a negative `time_t` the source's truncating `/` and `%` give negative clock fields, and its year loop compares an unsigned running day count with that negative day number; that case is not modelled.
- CoreTime.ClockSplit: the same restriction to times from the epoch on, for the divisions by 60, 60 and 24.
- CoreTime.BreakTimeCoreExact: the same restriction to times from the epoch on.
- CoreTime.CalculateYear: the same restriction to times from the epoch on.
- TimeService.HourFormat12: takes times from the epoch on, since it is built on `breakTimeCore`; `IsPm` and `IsAm` use C division and accept any time.
- TimeUtil.EncodeMonthDayAt: takes times from the epoch on, for the same reason.
- `time_t` is an unbounded integer here, so its 64-bit overflow is not modelled, and neither is the 16-bit `year` counter of `breakTimeCore` and `calculateYear` (lib/TimeLib/src/CoreTimeCalc.cpp:22, 59), which would only wrap some 65000 years on.
- The product `syncInterval * 1000` in `utcNowMillis` (lib/TimeLib/src/TimeService.cpp:224) is computed without the wrap of its unsigned width.
- Writes to the connection are taken to succeed in full: the counts `Chunked.Send` and `Chunked.SendContent` return are the bytes handed to the client, not a short write's result.
- `HttpServer.ServerArgAt` requires a non-negative index. The source's signed comparison lets a negative index through to an out-of-range read.

## Findings

Where an operation of the model runs code with one of these defects (the
mDNS value text, the log flush, the random effect selection, the REST query
parser, the average drift), it runs the as-written member, so its contract describes what the
firmware does; the corrected member stands beside it with the intended
property proved.

| source | as written | input that shows it | evidently intended | confidence | as-written member | corrected member |
|---|---|---|---|---|---|---|
| lib/LightMDNS/src/Base64.h:32 | the second sextet takes the second byte masked with `MASK_6BITS_NOT` (0xC0) shifted right by 4, so bits 4 and 5 of that byte are lost | the bytes `00 30` and `00 00` both encode as `AAA=` | mask with 0xF0 so that the high nibble of the second byte enters the sextet, as section 4 of RFC 4648 requires | not executed | Base64.EncodeAsWritten, Base64.AsWrittenLosesBits | Base64.Encode, Base64.EncodeRoundTrip |
| lib/TimeLib/src/Timezone.cpp:183-186 | for a southern-hemisphere zone (standard time begins before DST in the year) the northern interval test is empty, and negating it reports DST at every time | the zone of `Timezone.SouthernZoneExample` (standard time from a month-6 rule, DST from a month-10 rule, year 1971): every time between the two starts is reported as DST | DST outside the interval from the standard-time start to the DST start, as `isDST` decides | not executed | Timezone.UpdateZoneInfo, Timezone.UpdateZoneInfoSouthernAlwaysDst | Timezone.UpdateZoneInfoFixed, Timezone.UpdateZoneInfoFixedAgrees |
| lib/RestWebServer/src/WebClient.cpp:597-604 | a `key=value` argument is decoded into a new pair that is never added to the request's arguments | any query of `key=value` pairs, such as `a=1`, yields no arguments | add the pair to the request's arguments, as the parser of lib/WebServer/src/Parsing.cpp does | not executed | QueryArgs.RestArgumentsAsWritten, QueryArgs.RestDropsValuedArguments | QueryArgs.ParseArguments, QueryArgs.ParseQueryRoundTrip |
| lib/RestWebServer/src/WebClient.cpp:200-218 | `send` adds the content length to `_contentWritten` after `sendContent` has already added it | sending the body `abc` without chunking counts 3 bytes more than were written | count each byte written once | not executed | Chunked.SendAsWritten, Chunked.SendCountsContentTwice | Chunked.Send |
| include/circular_buffer.h:61-72 | `pop_front(dest, sz)` clears the full flag even when it takes nothing | `pop_front(dest, 0)` on a full buffer leaves head equal to tail with the flag cleared, so the buffer reads as empty | clear the flag only when at least one value was taken | not executed | CircularBuffer.PopFrontManyAsWritten, CircularBuffer.PopNoneEmptiesFullBuffer | CircularBuffer.PopFrontMany, CircularBuffer.PopFrontManyFifo |
| lib/PicoLog/src/PicoLog.cpp:36-39 | a chunk of `SERIAL_BUFFER_SIZE` characters fills the buffer, and the terminating NUL is written one past its end | a log queue holding at least `SERIAL_BUFFER_SIZE` characters | take at most `SERIAL_BUFFER_SIZE - 1` characters, leaving room for the terminator as the comment says | not executed | PicoLog.ChunkAsWritten, PicoLog.FullChunkOverflows | PicoLog.Chunk, PicoLog.ChunkFits |
| src/timeutil.cpp:253-265 | `prevSync` is set to the first sync and never advanced, so each later sync's drift is measured from the first one | syncs at 0, 1 and 2 s whose clock read 0, 1010 and 2020 ms total 10 + 20 = 30 ms of drift, where the first-to-last drift is 20 ms | sum the drift between consecutive syncs, which telescopes to the drift from the first sync to the last | not executed | TimeUtil.TotalDriftAsWritten, TimeUtil.TotalDriftCountsEarlyDriftAgain, TimeUtil.AverageCountsEarlyDriftAgain | TimeUtil.TotalDrift, TimeUtil.SumConsecutiveTelescopes |
| src/EffectRegistry.cpp:46-63 | the draw is reduced by each weight with a saturating subtraction and the first effect that brings it to 0 is chosen, so effect 0 owns one draw more than its weight and the last effect one fewer | two effects of weight 1: the draws 0 and 1 both pick effect 0 | each effect owns exactly as many draws as its weight | not executed | EffectRegistry.PickAsWritten, EffectRegistry.LastNeverPicked | EffectRegistry.Pick, EffectRegistry.PickOwnsShare |

=== FILE: arduino_log.dfy ===
/** The level clamp and three of the format directives of the logging
    library in lib/ArduinoLog/ArduinoLog.cpp: `%X` (hexadecimal padded to
    whole bytes), `%t` and `%T` (booleans). Output goes to a string. On the
    RP2040 `unsigned long` is 32 bits wide. */
module ArduinoLog {
  import opened Base
  import StringUtils

  /** `LOG_LEVEL_SILENT` and `LOG_LEVEL_VERBOSE`. */
  const LevelSilent: int := 0
  const LevelVerbose: int := 6

  /** `setLevel`: `constrain(level, SILENT, VERBOSE)`. */
  function SetLevel(level: int): (r: int)
    ensures LevelSilent <= r <= LevelVerbose
    ensures LevelSilent <= level <= LevelVerbose ==> r == level
    ensures level < LevelSilent ==> r == LevelSilent
    ensures level > LevelVerbose ==> r == LevelVerbose
  {
    if level < LevelSilent then LevelSilent
    else if level > LevelVerbose then LevelVerbose
    else level
  }

  /** Setting a level read back from the logger changes nothing. */
  lemma SetLevelIdempotent(level: int)
    ensures SetLevel(SetLevel(level)) == SetLevel(level)
  {
  }

  /** 16^k, the weight of hex digit `k`: the mask of that digit is
      `0xF * Pow16(k)`, and each `mask >> 4` moves to the weight below. */
  function Pow16(k: nat): (p: nat)
    ensures p >= 1
    ensures NibbleCount(p) == k + 1
  {
    if k == 0 then 1 else 16 * Pow16(k - 1)
  }

  /** Digit weights multiply: shifting by `4a` and then by `4b` bits is
      shifting by `4(a + b)`. */
  lemma {:induction false} Pow16Add(a: nat, b: nat)
    ensures Pow16(a + b) == Pow16(a) * Pow16(b)
    decreases b
  {
    if b > 0 {
      Pow16Add(a, b - 1);
      assert Pow16(a + b) == 16 * (Pow16(a) * Pow16(b - 1));
      MulSixteen(Pow16(a), Pow16(b - 1));
    }
  }

  lemma MulSixteen(x: nat, y: nat)
    ensures 16 * (x * y) == x * (16 * y)
  {
  }

  /** The number of hexadecimal digits of `n` without leading zeros; 0 for
      0. */
  function NibbleCount(n: nat): nat
    decreases n
  {
    if n == 0 then 0 else 1 + NibbleCount(n / 16)
  }

  /** A number with `k + 1` digits lies between 16^k and 16^(k+1). */
  lemma {:induction false} NibbleCountIs(n: nat, k: nat)
    requires Pow16(k) <= n < Pow16(k + 1)
    ensures NibbleCount(n) == k + 1
    decreases k
  {
    if k > 0 {
      assert Pow16(k) == 16 * Pow16(k - 1);
      assert Pow16(k + 1) == 16 * Pow16(k);
      NibbleCountIs(n / 16, k - 1);
    } else {
      assert n / 16 == 0;
    }
  }

  /** Nibble `k` of `n`: the four bits `ul & (0xF << 4k)` tests. */
  function Nibble(n: nat, k: nat): nat
  {
    (n / Pow16(k)) % 16
  }

  /** Below 16^(k+1), nibble `k` tells whether `n` reaches 16^k. */
  lemma NibbleSplit(n: nat, k: nat)
    requires n < Pow16(k + 1)
    ensures Nibble(n, k) != 0 <==> n >= Pow16(k)
  {
    DigitAtWeight(n, Pow16(k));
  }

  /** Below 16p, the base-16 digit of weight `p` is nonzero exactly when
      `n` reaches `p`. */
  lemma DigitAtWeight(n: nat, p: nat)
    requires 1 <= p && n < 16 * p
    ensures (n / p) % 16 != 0 <==> n >= p
  {
    var q := n / p;
    assert n == q * p + n % p;
    assert q < 16;
    if q == 0 { assert n < p; }
    else { assert q * p >= p; }
  }

  lemma Pow16Eight()
    ensures Pow16(8) == U32
  {
  }

  /** `countSignificantNibbles`: from the top byte down, test its high and
      then its low nibble; the first nonzero one gives the count. */
  method CountSignificantNibbles(ul: nat) returns (sigNibbles: nat)
    requires ul < U32
    ensures sigNibbles == NibbleCount(ul)
  {
    Pow16Eight();
    sigNibbles := 0;
    var x := 0;
    while x < 4
      invariant 0 <= x <= 4
      invariant sigNibbles == 0 && ul < Pow16(8 - 2 * x)
    {
      var high := 7 - 2 * x;
      NibbleSplit(ul, high);
      if Nibble(ul, high) != 0 {
        sigNibbles := (4 - x) * 2;
        NibbleCountIs(ul, high);
        return;
      }
      NibbleSplit(ul, high - 1);
      if Nibble(ul, high - 1) != 0 {
        sigNibbles := (4 - x) * 2 - 1;
        NibbleCountIs(ul, high - 1);
        return;
      }
      x := x + 1;
    }
    assert ul == 0;
  }

  /** `Print::print(n, HEX)`: upper-case digits without leading zeros, "0"
      for 0. */
  function HexString(n: nat): (s: string)
    ensures |s| >= 1
    decreases n
  {
    if n < 16 then [StringUtils.UpperHexDigit(n)]
    else HexString(n / 16) + [StringUtils.UpperHexDigit(n % 16)]
  }

  /** Reads hexadecimal digits back as a number. */
  function ReadHex(s: string): nat
  {
    if |s| == 0 then 0
    else ReadHex(s[..|s| - 1]) * 16 + StringUtils.UpperHexValue(s[|s| - 1])
  }

  lemma DigitValue(v: nat)
    requires v < 16
    ensures StringUtils.UpperHexValue(StringUtils.UpperHexDigit(v)) == v
  {
  }

  /** Printed digits read back as the number; there is one per nibble,
      except that 0 prints one digit. */
  lemma {:induction false} HexStringRoundTrip(n: nat)
    ensures ReadHex(HexString(n)) == n
    ensures |HexString(n)| == Max(1, NibbleCount(n))
    decreases n
  {
    if n < 16 {
      DigitValue(n);
      assert HexString(n)[..0] == [];
      if n > 0 { assert NibbleCount(n / 16) == 0; }
    } else {
      HexStringRoundTrip(n / 16);
      DigitValue(n % 16);
      var s := HexString(n);
      assert s[..|s| - 1] == HexString(n / 16);
    }
  }

  /** Leading zeros add nothing to the value read. */
  lemma {:induction false} ReadHexLeadingZero(s: string)
    ensures ReadHex(['0'] + s) == ReadHex(s)
    decreases |s|
  {
    if |s| > 0 {
      assert (['0'] + s)[..|s|] == ['0'] + s[..|s| - 1];
      ReadHexLeadingZero(s[..|s| - 1]);
    }
  }

  /** `%X`: "0x", then a '0' when the digit count is odd, then the digits. */
  function FormatHex(ul: nat): (s: string)
    requires ul < U32
  {
    "0x" + (if NibbleCount(ul) % 2 == 1 then "0" else "") + HexString(ul)
  }

  /** `%X` prints whole bytes: an even number of digits that read back as
      the value; 0 is the exception, printed as "0x0". */
  lemma FormatHexWholeBytes(ul: nat)
    requires ul < U32
    ensures FormatHex(ul)[..2] == "0x"
    ensures ReadHex(FormatHex(ul)[2..]) == ul
    ensures ul > 0 ==> (|FormatHex(ul)| - 2) % 2 == 0
    ensures FormatHex(0) == "0x0"
  {
    HexStringRoundTrip(ul);
    var h := HexString(ul);
    var pad := if NibbleCount(ul) % 2 == 1 then "0" else "";
    PrefixedDigits(pad, h);
    if NibbleCount(ul) % 2 == 1 {
      ReadHexLeadingZero(h);
    } else {
      assert pad + h == h;
    }
    FormatHexZero();
  }

  lemma PrefixedDigits(pad: string, h: string)
    ensures ("0x" + pad + h)[..2] == "0x" && ("0x" + pad + h)[2..] == pad + h
  {
  }

  lemma FormatHexZero()
    ensures FormatHex(0) == "0x0"
  {
    assert NibbleCount(0) == 0;
    assert HexString(0) == "0";
  }

  /** `%t` and `%T`: "T"/"true" only for an argument of exactly 1, any other
      value printing "F"/"false". */
  function FormatBool(v: int, long: bool): (s: string)
  {
    if v == 1 then (if long then "true" else "T")
    else if long then "false" else "F"
  }

  /** Only 1 is true: 2 and -1, true in C, print false. */
  lemma FormatBoolOnlyOne(v: int)
    ensures FormatBool(v, false) == "T" <==> v == 1
    ensures FormatBool(v, true) == "true" <==> v == 1
    ensures FormatBool(2, false) == "F" && FormatBool(-1, true) == "false"
  {
  }
}

=== FILE: arduino_string.dfy ===
/** The subset of the Arduino `String` class the firmware's parsers rely on:
    searching, slicing, affix tests and ASCII case folding. Strings are
    sequences of characters; a C string's terminating NUL is the end of the
    sequence. Indices are unsigned in the Arduino API, hence `nat` here; a
    failed search returns -1. */
module ArduinoString {
  import Base

  /** `pat` occurs in `s` starting at index `i`. */
  predicate OccursAt(s: string, pat: string, i: int)
  {
    0 <= i && i + |pat| <= |s| && s[i..i + |pat|] == pat
  }

  /** `String::indexOf(pat, from)`: the first occurrence of `pat` at or
      after `from`, or -1. A start index at or past the end finds nothing,
      not even the empty pattern. */
  function IndexOf(s: string, pat: string, from: nat): (r: int)
    ensures r == -1 || (from <= r < |s| && OccursAt(s, pat, r))
    ensures r >= 0 ==> forall j :: from <= j < r ==> !OccursAt(s, pat, j)
    ensures r == -1 <==> (from >= |s| || forall j :: from <= j < |s| ==> !OccursAt(s, pat, j))
    decreases |s| - from
  {
    if from >= |s| then -1
    else if OccursAt(s, pat, from) then from
    else IndexOf(s, pat, from + 1)
  }

  /** `String::indexOf(c, from)` for a single character. */
  function IndexOfChar(s: string, c: char, from: nat): (r: int)
    ensures r == -1 || (from <= r < |s| && s[r] == c)
    ensures r >= 0 ==> forall j :: from <= j < r ==> s[j] != c
    ensures r == -1 <==> forall j :: from <= j < |s| ==> s[j] != c
    decreases |s| - from
  {
    if from >= |s| then -1
    else if s[from] == c then from
    else IndexOfChar(s, c, from + 1)
  }

  /** `String::lastIndexOf(c)`: the last position of `c`, or -1. */
  function LastIndexOfChar(s: string, c: char): (r: int)
    ensures r == -1 || (0 <= r < |s| && s[r] == c)
    ensures forall j :: r < j < |s| ==> s[j] != c
    ensures r == -1 <==> c !in s
  {
    if |s| == 0 then -1
    else if s[|s| - 1] == c then |s| - 1
    else LastIndexOfChar(s[..|s| - 1], c)
  }

  /** `String::substring(left, right)`: the bounds are swapped when reversed,
      the right bound is clamped to the length, and a left bound at or past
      the end yields the empty string. */
  function Substring(s: string, left: nat, right: nat): (r: string)
    ensures |r| <= |s|
    ensures var lo := Base.Min(left, right);
            var hi := Base.Min(Base.Max(left, right), |s|);
            if lo >= |s| then r == [] else r == s[lo..hi]
  {
    var lo := if left > right then right else left;
    var hi := if left > right then left else right;
    if lo >= |s| then []
    else s[lo..if hi > |s| then |s| else hi]
  }

  /** `String::substring(left)`: everything from `left` on. */
  function SubstringFrom(s: string, left: nat): (r: string)
    ensures left <= |s| ==> r == s[left..]
    ensures left > |s| ==> r == []
  {
    if left >= |s| then [] else s[left..]
  }

  predicate StartsWith(s: string, prefix: string)
  {
    |prefix| <= |s| && s[..|prefix|] == prefix
  }

  predicate EndsWith(s: string, suffix: string)
  {
    |suffix| <= |s| && s[|s| - |suffix|..] == suffix
  }

  /** C `tolower` on ASCII: upper-case letters map to lower case, every
      other character is unchanged. */
  function ToLower(c: char): char
  {
    if 'A' <= c <= 'Z' then (c as int + 32) as char else c
  }

  /** `String::equalsIgnoreCase` and `strncasecmp(...) == 0` on equal
      lengths. */
  predicate EqualsIgnoreCase(a: string, b: string)
  {
    |a| == |b| && forall i :: 0 <= i < |a| ==> ToLower(a[i]) == ToLower(b[i])
  }

  /** Splits `s` at every occurrence of `sep`; the parts joined back with
      `sep` give `s`. */
  function Split(s: string, sep: char): (parts: seq<string>)
    ensures |parts| >= 1
    ensures forall k :: 0 <= k < |parts| ==> sep !in parts[k]
    ensures Join(parts, sep) == s
    decreases |s|
  {
    var i := IndexOfChar(s, sep, 0);
    if i < 0 then [s]
    else
      var rest := Split(s[i + 1..], sep);
      assert s == s[..i] + [sep] + s[i + 1..];
      [s[..i]] + rest
  }

  /** Joins the parts with `sep` between consecutive ones. */
  function Join(parts: seq<string>, sep: char): string
    decreases |parts|
  {
    if |parts| == 0 then []
    else if |parts| == 1 then parts[0]
    else parts[0] + [sep] + Join(parts[1..], sep)
  }

  /** Case-insensitive equality is an equivalence: it is symmetric and
      transitive, so "the first key that matches" is well defined. */
  lemma EqualsIgnoreCaseEquivalence(a: string, b: string, c: string)
    ensures EqualsIgnoreCase(a, a)
    ensures EqualsIgnoreCase(a, b) ==> EqualsIgnoreCase(b, a)
    ensures EqualsIgnoreCase(a, b) && EqualsIgnoreCase(b, c) ==> EqualsIgnoreCase(a, c)
  {
  }

  /** Splitting a join at the same separator gives back the parts, when no
      part contains the separator. */
  lemma {:induction false} SplitJoin(parts: seq<string>, sep: char)
    requires |parts| >= 1
    requires forall k :: 0 <= k < |parts| ==> sep !in parts[k]
    ensures Split(Join(parts, sep), sep) == parts
    decreases |parts|
  {
    var s := Join(parts, sep);
    var p := parts[0];
    if |parts| == 1 {
      assert forall j :: 0 <= j < |s| ==> s[j] != sep by {
        forall j | 0 <= j < |s| ensures s[j] != sep {
          assert s[j] in p;
        }
      }
    } else {
      var rest := Join(parts[1..], sep);
      assert s == p + [sep] + rest;
      assert forall j :: 0 <= j < |p| ==> s[j] != sep by {
        forall j | 0 <= j < |p| ensures s[j] != sep {
          assert s[j] == p[j];
        }
      }
      assert s[|p|] == sep;
      assert IndexOfChar(s, sep, 0) == |p|;
      assert s[..|p|] == p && s[|p| + 1..] == rest;
      SplitJoin(parts[1..], sep);
    }
  }

  /** A decimal digit character. */
  predicate IsDigit(c: char)
  {
    '0' <= c <= '9'
  }

  /** `String(n)` for an unsigned number: its decimal digits, no leading
      zero except for 0 itself. */
  function FromNat(n: nat): (s: string)
    ensures |s| >= 1 && forall k :: 0 <= k < |s| ==> IsDigit(s[k])
    ensures |s| > 1 ==> s[0] != '0'
    decreases n
  {
    if n < 10 then [('0' as int + n) as char]
    else FromNat(n / 10) + [('0' as int + n % 10) as char]
  }

  /** `String::toInt` on a string of digits. */
  function ToNat(s: string): nat
    requires forall k :: 0 <= k < |s| ==> IsDigit(s[k])
  {
    if |s| == 0 then 0
    else
      assert IsDigit(s[|s| - 1]);
      ToNat(s[..|s| - 1]) * 10 + (s[|s| - 1] as int - '0' as int)
  }

  /** Reading back a printed number gives the number. */
  lemma {:induction false} FromNatRoundTrip(n: nat)
    ensures ToNat(FromNat(n)) == n
    decreases n
  {
    if n >= 10 {
      FromNatRoundTrip(n / 10);
      var s := FromNat(n);
      assert s[..|s| - 1] == FromNat(n / 10);
    }
  }
}

=== FILE: base.dfy ===
/** Shared vocabulary for the firmware model: optional values, C integer
    semantics (truncating division, fixed-width wrap-around) and bytes. */
module Base {

  /** A value that may be absent: a null pointer, a "not found" or a
      failed parse in the firmware. */
  datatype Option<+T> = None | Some(value: T)

  /** Unsigned integer ranges of the firmware's fixed-width types. */
  newtype byte = x: int | 0 <= x < 0x100

  const U16: int := 0x1_0000
  const U32: int := 0x1_0000_0000

  /** C division on signed integers truncates toward zero (Dafny's `/` is
      Euclidean). */
  function CDiv(a: int, b: int): int
    requires b != 0
  {
    if b > 0 then (if a >= 0 then a / b else -((-a) / b))
    else (if a >= 0 then -(a / (-b)) else (-a) / (-b))
  }

  /** C remainder: the sign follows the dividend, and CDiv(a,b)*b + CMod(a,b) == a. */
  function CMod(a: int, b: int): int
    requires b != 0
  {
    a - CDiv(a, b) * b
  }

  function AbsInt(a: int): nat { if a < 0 then -a else a }

  function Sign(a: int): int { if a < 0 then -1 else 1 }

  function Min(a: int, b: int): int { if a <= b then a else b }

  function Max(a: int, b: int): int { if a >= b then a else b }

  /** Conversion of any integer into a 16-bit unsigned value, as a C
      assignment to uint16_t does. */
  function Wrap16(x: int): nat { x % U16 }

  /** Conversion of any integer into a 32-bit unsigned value. */
  function Wrap32(x: int): nat { x % U32 }

  /** For non-negative dividends C and Dafny division agree. */
  lemma CDivNonNegative(a: int, b: int)
    requires a >= 0 && b > 0
    ensures CDiv(a, b) == a / b && CMod(a, b) == a % b
  {
  }

  /** Quotient and remainder are determined by the division equation. */
  lemma DivUnique(a: int, q: int, r: int, d: int)
    requires d > 0 && 0 <= r < d && a == q * d + r
    ensures a / d == q && a % d == r
  {
    var q' := a / d;
    var r' := a % d;
    assert a == q' * d + r';
    assert (q' - q) * d == r - r';
    if q' > q {
      MulAtLeast(q' - q, d);
    } else if q' < q {
      MulAtLeast(q - q', d);
    }
  }

  lemma MulAtLeast(x: int, d: int)
    requires x >= 1 && d > 0
    ensures x * d >= d
  {
  }

  /** Adding whole multiples of the divisor shifts the quotient and keeps
      the remainder. */
  lemma DivAddMultiple(x: int, m: int, d: int)
    requires d > 0
    ensures (x + m * d) / d == x / d + m
    ensures (x + m * d) % d == x % d
  {
    var q := x / d;
    var r := x % d;
    assert x == q * d + r;
    assert x + m * d == (q + m) * d + r;
    DivUnique(x + m * d, q + m, r, d);
  }

  /** A remainder may be taken early inside a sum. */
  lemma ModAddInner(x: int, y: int, d: int)
    requires d > 0
    ensures (x + y % d) % d == (x + y) % d
  {
    assert y == (y / d) * d + y % d;
    DivAddMultiple(x + y % d, y / d, d);
  }

  /** The last `n` elements of `s`, or all of it when it is shorter: what a
      bounded buffer that drops its oldest element keeps. */
  function KeepLast<T>(n: nat, s: seq<T>): (r: seq<T>)
    ensures |r| == Min(n, |s|)
    ensures r == s[|s| - |r|..]
  {
    if |s| <= n then s else s[|s| - n..]
  }
}

=== FILE: base64.dfy ===
/** Base64 encoding of the mDNS TXT binary values (Base64), per section 4
    of RFC 4648: every three input bytes become four characters of the
    64-letter alphabet, and a final group of one or two bytes is padded
    with '='.

    The encoder as written extracts the second character of a group with
    the two-bit mask 0xC0 where the four high bits of the second byte are
    needed (the unused 0xF0 mask is the one the layout calls for), so bits
    4 and 5 of every group's second byte are lost. `EncodeAsWritten` and
    the loop `EncodeLoop` keep that; `Encode` is the corrected encoder,
    proved invertible. */
module Base64 {
  import opened Base

  /** The alphabet: A-Z, a-z, 0-9, '+', '/'. */
  function Alphabet(v: nat): (c: char)
    requires v < 64
  {
    if v < 26 then ('A' as int + v) as char
    else if v < 52 then ('a' as int + v - 26) as char
    else if v < 62 then ('0' as int + v - 52) as char
    else if v == 62 then '+'
    else '/'
  }

  const Pad: char := '='

  /** The value of an alphabet letter. */
  function SextetOf(c: char): (v: nat)
    ensures v < 64
  {
    if 'A' <= c <= 'Z' then c as int - 'A' as int
    else if 'a' <= c <= 'z' then c as int - 'a' as int + 26
    else if '0' <= c <= '9' then c as int - '0' as int + 52
    else if c == '+' then 62
    else 63
  }

  lemma AlphabetInverse(v: nat)
    requires v < 64
    ensures SextetOf(Alphabet(v)) == v && Alphabet(v) != Pad
  {
  }

  /** length(n): four characters per started group of three bytes. */
  function Length(n: nat): (len: nat)
    ensures len % 4 == 0
    ensures 3 * len >= 4 * n && 3 * len < 4 * n + 12
  {
    4 * ((n + 2) / 3)
  }

  /** One full group of three bytes, correctly split into four sextets. */
  function Group(b0: byte, b1: byte, b2: byte): (s: string)
    ensures |s| == 4 && Pad !in s
  {
    AlphabetInverse(b0 as nat / 4);
    AlphabetInverse((b0 as nat % 4) * 16 + b1 as nat / 16);
    AlphabetInverse((b1 as nat % 16) * 4 + b2 as nat / 64);
    AlphabetInverse(b2 as nat % 64);
    [Alphabet(b0 as nat / 4), Alphabet((b0 as nat % 4) * 16 + b1 as nat / 16),
     Alphabet((b1 as nat % 16) * 4 + b2 as nat / 64), Alphabet(b2 as nat % 64)]
  }

  /** The final group of one or two bytes, padded to four characters. */
  function Tail(t: seq<byte>): (s: string)
    requires 1 <= |t| <= 2
    ensures |s| == 4 && s[3] == Pad && (s[2] == Pad <==> |t| == 1)
    ensures s[0] != Pad && s[1] != Pad
  {
    AlphabetInverse(t[0] as nat / 4);
    if |t| == 1 then
      AlphabetInverse((t[0] as nat % 4) * 16);
      [Alphabet(t[0] as nat / 4), Alphabet((t[0] as nat % 4) * 16), Pad, Pad]
    else
      AlphabetInverse((t[0] as nat % 4) * 16 + t[1] as nat / 16);
      AlphabetInverse((t[1] as nat % 16) * 4);
      [Alphabet(t[0] as nat / 4), Alphabet((t[0] as nat % 4) * 16 + t[1] as nat / 16),
       Alphabet((t[1] as nat % 16) * 4), Pad]
  }

  /** Corrected encode: the groups in order, then the padded tail. */
  function Encode(input: seq<byte>): (s: string)
    ensures |s| == Length(|input|)
    decreases |input|
  {
    if |input| == 0 then []
    else if |input| < 3 then Tail(input)
    else
      LengthStep(|input| - 3);
      Group(input[0], input[1], input[2]) + Encode(input[3..])
  }

  /** One more group of three bytes takes four more characters. */
  lemma LengthStep(n: nat)
    ensures Length(n + 3) == Length(n) + 4
  {
    DivAddMultiple(n + 2, 1, 3);
  }

  /** The byte the decoder rebuilds from the low bits of sextet `hi`
      (modulo `e`) followed by the high bits of sextet `lo` (divided by
      `d`). */
  function Join(hi: nat, lo: nat, d: nat, e: nat): byte
    requires 0 < d && 0 < e
  {
    (((hi % e) * (256 / e) + lo / d) % 256) as byte
  }

  /** Decodes one group of four characters. */
  function DecodeGroup(q: string): (b: seq<byte>)
    requires |q| == 4
    ensures 1 <= |b| <= 3
  {
    var b0 := Join(SextetOf(q[0]), SextetOf(q[1]), 16, 64);
    if q[2] == Pad then [b0]
    else
      var b1 := Join(SextetOf(q[1]), SextetOf(q[2]), 4, 16);
      if q[3] == Pad then [b0, b1] else [b0, b1, Join(SextetOf(q[2]), SextetOf(q[3]), 1, 4)]
  }

  /** Decodes a whole number of groups. */
  function Decode(s: string): seq<byte>
    requires |s| % 4 == 0
    decreases |s|
  {
    if |s| == 0 then [] else DecodeGroup(s[..4]) + Decode(s[4..])
  }

  /** Splitting a byte at bit `k` and joining it back is the identity. */
  lemma SplitJoin(hi: nat, lo: nat, d: nat)
    requires d > 0 && lo < d
    ensures (hi * d + lo) / d == hi && (hi * d + lo) % d == lo
  {
    DivUnique(hi * d + lo, hi, lo, d);
  }

  /** Join puts a byte back together from its two parts. */
  lemma JoinRecovers(b: byte, hi: nat, lo: nat, d: nat, e: nat)
    requires 0 < d && 0 < e && 0 < 256 / e
    requires hi % e == b as nat / (256 / e) && lo / d == b as nat % (256 / e)
    ensures Join(hi, lo, d, e) == b
  {
    var q := 256 / e;
    var x := b as nat;
    assert x / q * q + x % q == x;
    assert (hi % e) * q + lo / d == x;
  }

  /** Decoding a group of known sextets joins them; '=' ends the group. */
  lemma DecodeSextets(q: string, v0: nat, v1: nat, v2: nat, v3: nat)
    requires |q| == 4 && v0 < 64 && v1 < 64 && v2 < 64 && v3 < 64
    requires SextetOf(q[0]) == v0 && SextetOf(q[1]) == v1
    requires q[2] == Pad || SextetOf(q[2]) == v2
    requires q[2] == Pad || q[3] == Pad || SextetOf(q[3]) == v3
    ensures q[2] == Pad ==> DecodeGroup(q) == [Join(v0, v1, 16, 64)]
    ensures q[2] != Pad && q[3] == Pad ==> DecodeGroup(q) == [Join(v0, v1, 16, 64), Join(v1, v2, 4, 16)]
    ensures q[2] != Pad && q[3] != Pad ==>
              DecodeGroup(q) == [Join(v0, v1, 16, 64), Join(v1, v2, 4, 16), Join(v2, v3, 1, 4)]
  {
  }

  /** Decoding letters of the alphabet joins their sextets. */
  lemma DecodeLetters(v0: nat, v1: nat, v2: nat, v3: nat)
    requires v0 < 64 && v1 < 64 && v2 < 64 && v3 < 64
    ensures DecodeGroup([Alphabet(v0), Alphabet(v1), Alphabet(v2), Alphabet(v3)])
            == [Join(v0, v1, 16, 64), Join(v1, v2, 4, 16), Join(v2, v3, 1, 4)]
    ensures DecodeGroup([Alphabet(v0), Alphabet(v1), Alphabet(v2), Pad])
            == [Join(v0, v1, 16, 64), Join(v1, v2, 4, 16)]
    ensures DecodeGroup([Alphabet(v0), Alphabet(v1), Pad, Pad]) == [Join(v0, v1, 16, 64)]
  {
    AlphabetInverse(v0);
    AlphabetInverse(v1);
    AlphabetInverse(v2);
    AlphabetInverse(v3);
    DecodeSextets([Alphabet(v0), Alphabet(v1), Alphabet(v2), Alphabet(v3)], v0, v1, v2, v3);
    DecodeSextets([Alphabet(v0), Alphabet(v1), Alphabet(v2), Pad], v0, v1, v2, v3);
    DecodeSextets([Alphabet(v0), Alphabet(v1), Pad, Pad], v0, v1, v2, v3);
  }

  /** The first byte comes back from the first two sextets. */
  lemma FirstByteJoins(b0: byte, h1: nat)
    requires h1 < 16
    ensures Join(b0 as nat / 4, (b0 as nat % 4) * 16 + h1, 16, 64) == b0
  {
    SplitJoin(b0 as nat % 4, h1, 16);
    JoinRecovers(b0, b0 as nat / 4, (b0 as nat % 4) * 16 + h1, 16, 64);
  }

  /** The second byte comes back from the second and third sextets. */
  lemma SecondByteJoins(h0: nat, b1: byte, h2: nat)
    requires h0 < 4 && h2 < 4
    ensures Join(h0 * 16 + b1 as nat / 16, (b1 as nat % 16) * 4 + h2, 4, 16) == b1
  {
    SplitJoin(h0, b1 as nat / 16, 16);
    SplitJoin(b1 as nat % 16, h2, 4);
    JoinRecovers(b1, h0 * 16 + b1 as nat / 16, (b1 as nat % 16) * 4 + h2, 4, 16);
  }

  /** The third byte comes back from the last two sextets. */
  lemma ThirdByteJoins(h1: nat, b2: byte)
    requires h1 < 16
    ensures Join(h1 * 4 + b2 as nat / 64, b2 as nat % 64, 1, 4) == b2
  {
    SplitJoin(h1, b2 as nat / 64, 4);
    JoinRecovers(b2, h1 * 4 + b2 as nat / 64, b2 as nat % 64, 1, 4);
  }

  lemma GroupRoundTrip(b0: byte, b1: byte, b2: byte)
    ensures DecodeGroup(Group(b0, b1, b2)) == [b0, b1, b2]
  {
    var v0 := b0 as nat / 4;
    var v1 := (b0 as nat % 4) * 16 + b1 as nat / 16;
    var v2 := (b1 as nat % 16) * 4 + b2 as nat / 64;
    var v3 := b2 as nat % 64;
    assert Group(b0, b1, b2) == [Alphabet(v0), Alphabet(v1), Alphabet(v2), Alphabet(v3)];
    DecodeLetters(v0, v1, v2, v3);
    FirstByteJoins(b0, b1 as nat / 16);
    SecondByteJoins(b0 as nat % 4, b1, b2 as nat / 64);
    ThirdByteJoins(b1 as nat % 16, b2);
  }

  lemma TailRoundTrip(t: seq<byte>)
    requires 1 <= |t| <= 2
    ensures DecodeGroup(Tail(t)) == t
  {
    var v0 := t[0] as nat / 4;
    if |t| == 1 {
      var v1 := (t[0] as nat % 4) * 16;
      assert Tail(t) == [Alphabet(v0), Alphabet(v1), Pad, Pad];
      DecodeLetters(v0, v1, 0, 0);
      FirstByteJoins(t[0], 0);
    } else {
      var v1 := (t[0] as nat % 4) * 16 + t[1] as nat / 16;
      var v2 := (t[1] as nat % 16) * 4;
      assert Tail(t) == [Alphabet(v0), Alphabet(v1), Alphabet(v2), Pad];
      DecodeLetters(v0, v1, v2, 0);
      FirstByteJoins(t[0], t[1] as nat / 16);
      SecondByteJoins(t[0] as nat % 4, t[1], 0);
    }
  }

  /** Decoding goes group by group. */
  lemma DecodeAppend(g: string, rest: string, head: seq<byte>, tail: seq<byte>)
    requires |g| == 4 && |rest| % 4 == 0
    requires DecodeGroup(g) == head && Decode(rest) == tail
    ensures Decode(g + rest) == head + tail
  {
    assert (g + rest)[..4] == g && (g + rest)[4..] == rest;
  }

  /** Decoding the corrected encoding gives the input back. */
  lemma {:induction false} EncodeRoundTrip(input: seq<byte>)
    ensures Decode(Encode(input)) == input
    decreases |input|
  {
    if |input| == 0 {
    } else if |input| < 3 {
      TailRoundTrip(input);
      DecodeAppend(Tail(input), [], input, []);
      assert Tail(input) + [] == Tail(input);
    } else {
      var g := Group(input[0], input[1], input[2]);
      var rest := Encode(input[3..]);
      GroupRoundTrip(input[0], input[1], input[2]);
      EncodeRoundTrip(input[3..]);
      DecodeAppend(g, rest, [input[0], input[1], input[2]], input[3..]);
      assert input == [input[0], input[1], input[2]] + input[3..];
    }
  }

  /** The whole groups of an encoding and its padded tail. */
  lemma ShapeStep(g: string, rest: string, k: nat)
    requires |g| == 4 && Pad !in g && 1 <= k && 4 * (k - 1) <= |rest| && Pad !in rest[..4 * (k - 1)]
    ensures 4 * k <= |g + rest| && Pad !in (g + rest)[..4 * k]
    ensures (g + rest)[4 * k..] == rest[4 * (k - 1)..]
  {
    assert (g + rest)[..4 * k] == g + rest[..4 * (k - 1)];
  }

  /** The encoding is the whole groups, free of padding, followed by the
      padded tail of the one or two leftover bytes. */
  lemma {:induction false} EncodeShape(input: seq<byte>)
    ensures var k := |input| / 3;
            var s := Encode(input);
            4 * k <= |s| && Pad !in s[..4 * k] &&
            s[4 * k..] == (if |input| % 3 == 0 then [] else Tail(input[3 * k..]))
    decreases |input|
  {
    var k := |input| / 3;
    if |input| >= 3 {
      EncodeShape(input[3..]);
      assert |input[3..]| / 3 == k - 1 && |input[3..]| % 3 == |input| % 3;
      ShapeStep(Group(input[0], input[1], input[2]), Encode(input[3..]), k);
      assert input[3..][3 * (k - 1)..] == input[3 * k..];
    } else {
      assert k == 0;
    }
  }

  /** Two '=' for one leftover byte, one for two, none for whole groups. */
  lemma EncodePadding(input: seq<byte>)
    ensures var s := Encode(input);
            (|input| % 3 == 0 ==> Pad !in s) &&
            (|input| % 3 != 0 ==> s[|s| - 1] == Pad) &&
            (|input| % 3 != 0 ==> (s[|s| - 2] == Pad <==> |input| % 3 == 1)) &&
            (|input| % 3 != 0 ==> Pad !in s[..|s| - 4])
  {
    EncodeShape(input);
    var k := |input| / 3;
    var s := Encode(input);
    if |input| % 3 == 0 {
      assert s[..4 * k] == s;
    } else {
      assert |s| == 4 * k + 4;
      assert s[|s| - 4..] == Tail(input[3 * k..]);
    }
  }

  /** The second sextet as the source computes it: (b0 & 3) << 4 |
      (b1 & 0xC0) >> 4. */
  function SecondSextetAsWritten(b0: byte, b1: byte): (v: nat)
    ensures v < 64
  {
    (b0 as nat % 4) * 16 + (b1 as nat / 64) * 4
  }

  function GroupAsWritten(b0: byte, b1: byte, b2: byte): (s: string)
    ensures |s| == 4
  {
    [Alphabet(b0 as nat / 4), Alphabet(SecondSextetAsWritten(b0, b1)),
     Alphabet((b1 as nat % 16) * 4 + b2 as nat / 64), Alphabet(b2 as nat % 64)]
  }

  function TailAsWritten(t: seq<byte>): (s: string)
    requires 1 <= |t| <= 2
    ensures |s| == 4
  {
    if |t| == 1 then [Alphabet(t[0] as nat / 4), Alphabet((t[0] as nat % 4) * 16), Pad, Pad]
    else [Alphabet(t[0] as nat / 4), Alphabet(SecondSextetAsWritten(t[0], t[1])),
          Alphabet((t[1] as nat % 16) * 4), Pad]
  }

  /** encode as written, as a function of the input. */
  function EncodeAsWritten(input: seq<byte>): (s: string)
    ensures |s| == Length(|input|)
    decreases |input|
  {
    if |input| == 0 then []
    else if |input| < 3 then TailAsWritten(input)
    else GroupAsWritten(input[0], input[1], input[2]) + EncodeAsWritten(input[3..])
  }

  /** encode as written: too small an output buffer gives 0 and writes
      nothing; otherwise the loop over whole groups, then the padded tail,
      and the count of characters written (the NUL after them is the
      caller's extra byte). A buffer of exactly length(n) is not modelled:
      the terminating NUL then lands one past its end. */
  method EncodeLoop(input: seq<byte>, outputLength: nat) returns (written: nat, out: string)
    requires outputLength != Length(|input|)
    ensures outputLength < Length(|input|) ==> written == 0 && out == []
    ensures outputLength > Length(|input|) ==> out == EncodeAsWritten(input) && written == |out| < outputLength
  {
    if outputLength < 4 * ((|input| + 3 - 1) / 3) {
      return 0, [];
    }
    var i := 0;
    out := [];
    while i + 3 - 1 < |input|
      invariant 0 <= i <= |input| && i % 3 == 0
      invariant out + EncodeAsWritten(input[i..]) == EncodeAsWritten(input)
      decreases |input| - i
    {
      assert input[i..][3..] == input[i + 3..];
      out := out + GroupAsWritten(input[i], input[i + 1], input[i + 2]);
      i := i + 3;
    }
    if i < |input| {
      out := out + TailAsWritten(input[i..]);
    } else {
      assert input[i..] == [];
    }
    written := |out|;
  }

  /** Two two-byte inputs that differ only in bits 4 and 5 of the second
      byte (00 30 and 00 00, say) get the same as-written text, so the value
      cannot be recovered; the corrected encoding keeps them apart. */
  lemma AsWrittenLosesBits(b0: byte, b1: byte, c1: byte)
    requires b1 as nat / 64 == c1 as nat / 64 && b1 as nat % 16 == c1 as nat % 16
    requires (b1 as nat / 16) % 4 != (c1 as nat / 16) % 4
    ensures EncodeAsWritten([b0, b1]) == EncodeAsWritten([b0, c1])
    ensures Encode([b0, b1]) != Encode([b0, c1])
  {
    var x: seq<byte> := [b0, b1];
    var z: seq<byte> := [b0, c1];
    assert TailAsWritten(x) == TailAsWritten(z);
    var v := (b0 as nat % 4) * 16 + b1 as nat / 16;
    var w := (b0 as nat % 4) * 16 + c1 as nat / 16;
    AlphabetInverse(v);
    AlphabetInverse(w);
    assert Tail(x)[1] == Alphabet(v) && Tail(z)[1] == Alphabet(w);
  }

  /** The inputs 00 30 and 00 00 are such a pair. */
  lemma AsWrittenLosesBitsExample()
    ensures EncodeAsWritten([0, 0x30]) == EncodeAsWritten([0, 0])
    ensures Encode([0, 0x30]) != Encode([0, 0])
  {
    AsWrittenLosesBits(0, 0x30, 0);
  }

  /** The two encoders agree exactly when no group's second byte has bits 4
      or 5 set. */
  lemma GroupAgreement(b0: byte, b1: byte, b2: byte)
    ensures GroupAsWritten(b0, b1, b2) == Group(b0, b1, b2) <==> (b1 as nat / 16) % 4 == 0
  {
    AlphabetInverse(SecondSextetAsWritten(b0, b1));
    AlphabetInverse((b0 as nat % 4) * 16 + b1 as nat / 16);
    if GroupAsWritten(b0, b1, b2) == Group(b0, b1, b2) {
      assert GroupAsWritten(b0, b1, b2)[1] == Group(b0, b1, b2)[1];
    }
  }
}

=== FILE: chunked.dfy ===
/** Sending a response body (`WebClient::send`, `sendContent`,
    `_finalizeResponse` in lib/RestWebServer/src/WebClient.cpp): either
    plain with a Content-Length, or in the chunked transfer coding of
    section 7.1 of RFC 9112, each chunk framed as its size in lower-case hex
    (`sprintf("%x")`), CRLF, the data, CRLF, and the body ended by a chunk of
    size zero. The decoder a client applies is defined here as the partner
    of the framing. Writes to the connection are taken to succeed in full. */
module Chunked {
  import opened Base
  import opened ArduinoString
  import UrlCodec
  import opened HttpResponse

  /** A lower-case hex digit, as `%x` prints it. */
  function LowerHexDigit(v: nat): (c: char)
    requires v < 16
    ensures UrlCodec.IsHexDigit(c) && UrlCodec.HexValue(c) == v
  {
    if v < 10 then ('0' as int + v) as char else ('a' as int + v - 10) as char
  }

  /** `sprintf("%x", n)`: hex digits without leading zeros, "0" for 0. */
  function LowerHex(n: nat): (s: string)
    ensures |s| >= 1 && forall k :: 0 <= k < |s| ==> UrlCodec.IsHexDigit(s[k])
    decreases n
  {
    if n < 16 then [LowerHexDigit(n)] else LowerHex(n / 16) + [LowerHexDigit(n % 16)]
  }

  predicate AllHex(s: string)
  {
    forall k :: 0 <= k < |s| ==> UrlCodec.IsHexDigit(s[k])
  }

  function DigitValue(c: char): (v: nat)
    ensures v < 16
  {
    if UrlCodec.IsHexDigit(c) then UrlCodec.HexValue(c) else 0
  }

  /** The number the hex digits `h` denote, read left to right after the
      value `acc`. */
  function HexFold(h: string, acc: nat): nat
    decreases |h|
  {
    if |h| == 0 then acc else HexFold(h[1..], acc * 16 + DigitValue(h[0]))
  }

  lemma {:induction false} HexFoldSnoc(a: string, d: char, acc: nat)
    ensures HexFold(a + [d], acc) == HexFold(a, acc) * 16 + DigitValue(d)
    decreases |a|
  {
    if |a| > 0 {
      assert (a + [d])[1..] == a[1..] + [d];
      HexFoldSnoc(a[1..], d, acc * 16 + DigitValue(a[0]));
    }
  }

  /** Reading back what `%x` printed gives the number. */
  lemma {:induction false} LowerHexRoundTrip(n: nat)
    ensures HexFold(LowerHex(n), 0) == n
    decreases n
  {
    if n >= 16 {
      LowerHexRoundTrip(n / 16);
      HexFoldSnoc(LowerHex(n / 16), LowerHexDigit(n % 16), 0);
    } else {
      assert LowerHex(n)[1..] == "";
    }
  }

  /** A run of hex digits: how many, and the number they denote. */
  datatype HexNumber = HexNumber(digits: nat, value: nat)

  /** Reads the run of hex digits `s` starts with, after the value `acc`. */
  function ReadHex(s: string, acc: nat): (r: HexNumber)
    ensures r.digits <= |s|
    decreases |s|
  {
    if |s| == 0 || !UrlCodec.IsHexDigit(s[0]) then HexNumber(0, acc)
    else
      var r := ReadHex(s[1..], acc * 16 + UrlCodec.HexValue(s[0]));
      HexNumber(r.digits + 1, r.value)
  }

  /** The run is made of hex digits, stops at the first character that is
      not one, and its value is theirs. */
  lemma {:induction false} ReadHexIsLongest(s: string, acc: nat)
    ensures var r := ReadHex(s, acc);
            && AllHex(s[..r.digits])
            && (r.digits < |s| ==> !UrlCodec.IsHexDigit(s[r.digits]))
            && r.value == HexFold(s[..r.digits], acc)
    decreases |s|
  {
    if |s| > 0 && UrlCodec.IsHexDigit(s[0]) {
      ReadHexIsLongest(s[1..], acc * 16 + UrlCodec.HexValue(s[0]));
      var n := ReadHex(s, acc).digits;
      assert s[..n][1..] == s[1..][..n - 1];
      assert forall k :: 1 <= k < n ==> s[..n][k] == s[1..][..n - 1][k - 1];
    }
  }

  /** Hex digits followed by a character that is not one are read in
      full. */
  lemma {:induction false} ReadHexOf(h: string, rest: string, acc: nat)
    requires AllHex(h)
    requires |rest| > 0 && !UrlCodec.IsHexDigit(rest[0])
    ensures ReadHex(h + rest, acc) == HexNumber(|h|, HexFold(h, acc))
    decreases |h|
  {
    if |h| > 0 {
      assert (h + rest)[1..] == h[1..] + rest;
      ReadHexOf(h[1..], rest, acc * 16 + UrlCodec.HexValue(h[0]));
    }
  }

  datatype Decoded = Decoded(body: string, rest: string)

  /** A chunk's size line: the size and where the data starts, when `s`
      opens with hex digits and CRLF. */
  datatype SizeLine = SizeLine(size: nat, start: nat)

  function ReadSizeLine(s: string): (r: Option<SizeLine>)
    ensures r.Some? ==> 2 < r.value.start <= |s|
  {
    var hex := ReadHex(s, 0);
    var n := hex.digits;
    if n == 0 || n + 2 > |s| || s[n..n + 2] != Crlf then None
    else Some(SizeLine(hex.value, n + 2))
  }

  /** The data of a chunk of the given size starting at `start`, when its
      closing CRLF is in place. */
  predicate ChunkFits(s: string, start: nat, size: nat)
  {
    start + size + 2 <= |s| && s[start + size..start + size + 2] == Crlf
  }

  function Prepend(data: string, d: Option<Decoded>): Option<Decoded>
  {
    match d
    case None => None
    case Some(d) => Some(Decoded(data + d.body, d.rest))
  }

  /** After the zero-size chunk's size line: its closing CRLF, then what
      follows the body. */
  function Terminator(s: string, start: nat): (d: Option<Decoded>)
    ensures d.Some? ==> |d.value.rest| < |s| - start
  {
    if ChunkFits(s, start, 0) then Some(Decoded("", s[start + 2..])) else None
  }

  /** A client's reading of a chunked body (no chunk extensions, no
      trailer fields): the data of every chunk up to the zero-size chunk,
      and what follows it; None when the framing is broken. */
  function DecodeChunks(s: string): (d: Option<Decoded>)
    ensures d.Some? ==> |d.value.rest| < |s|
    decreases |s|
  {
    match ReadSizeLine(s)
    case None => None
    case Some(line) =>
      if line.size == 0 then Terminator(s, line.start)
      else if ChunkFits(s, line.start, line.size) then
        Prepend(s[line.start..line.start + line.size], DecodeChunks(s[line.start + line.size + 2..]))
      else None
  }

  /** One chunk as `sendContent` frames it in chunked mode. */
  function Chunk(data: string): string
  {
    LowerHex(|data|) + Crlf + data + Crlf
  }

  /** The zero-size chunk that ends the body. */
  const LastChunk: string := "0\r\n\r\n"

  lemma LastChunkIsEmptyChunk()
    ensures Chunk("") == LastChunk
  {
  }

  /** Where the parts of a framed chunk sit. */
  lemma ChunkLayout(h: string, data: string, rest: string)
    ensures var s := h + Crlf + data + Crlf + rest;
            && s[..|h|] == h
            && s[|h|..|h| + 2] == Crlf
            && s[|h|..] == Crlf + (data + Crlf + rest)
            && s[|h| + 2..|h| + 2 + |data|] == data
            && s[|h| + 2 + |data|..|h| + 4 + |data|] == Crlf
            && s[|h| + 4 + |data|..] == rest
  {
  }

  /** The size line of hex digits followed by CRLF. */
  lemma ReadSizeLineOf(h: string, tail: string)
    requires |h| > 0 && AllHex(h)
    requires 2 <= |tail| && tail[..2] == Crlf
    ensures ReadSizeLine(h + tail) == Some(SizeLine(HexFold(h, 0), |h| + 2))
  {
    ReadHexOf(h, tail, 0);
    assert (h + tail)[|h|..|h| + 2] == tail[..2];
  }

  /** The decoder's step over a chunk of non-zero size. */
  lemma DecodeStep(s: string, line: SizeLine)
    requires ReadSizeLine(s) == Some(line) && line.size > 0
    requires ChunkFits(s, line.start, line.size)
    ensures DecodeChunks(s) ==
      Prepend(s[line.start..line.start + line.size], DecodeChunks(s[line.start + line.size + 2..]))
  {
    match ReadSizeLine(s)
    case Some(l) =>
      assert l == line;
  }

  /** The client reads a non-empty chunk's data and goes on after it. */
  lemma ChunkDecodes(data: string, rest: string)
    requires |data| > 0
    ensures DecodeChunks(Chunk(data) + rest) == Prepend(data, DecodeChunks(rest))
  {
    var h := LowerHex(|data|);
    var s := h + Crlf + data + Crlf + rest;
    assert Chunk(data) + rest == s;
    ChunkLayout(h, data, rest);
    var tail := Crlf + (data + Crlf + rest);
    assert s == h + tail;
    ReadSizeLineOf(h, tail);
    LowerHexRoundTrip(|data|);
    var line := SizeLine(|data|, |h| + 2);
    assert ChunkFits(s, line.start, line.size);
    DecodeStep(s, line);
    assert s[line.start..line.start + line.size] == data;
    assert s[line.start + line.size + 2..] == rest;
    assert DecodeChunks(s) == Prepend(data, DecodeChunks(rest));
  }

  /** The client reads the end of the body at the zero-size chunk. */
  lemma LastChunkDecodes(rest: string)
    ensures DecodeChunks(LastChunk + rest) == Some(Decoded("", rest))
  {
    var s := LastChunk + rest;
    assert s == "0" + Crlf + "" + Crlf + rest;
    ChunkLayout("0", "", rest);
    ReadSizeLineOf("0", Crlf + ("" + Crlf + rest));
  }

  /** The bytes of the chunks carrying the pieces, in order. */
  function Chunks(pieces: seq<string>): string
    decreases |pieces|
  {
    if |pieces| == 0 then "" else Chunk(pieces[0]) + Chunks(pieces[1..])
  }

  function Concat(pieces: seq<string>): string
    decreases |pieces|
  {
    if |pieces| == 0 then "" else pieces[0] + Concat(pieces[1..])
  }

  predicate NonEmpty(pieces: seq<string>)
  {
    forall k :: 0 <= k < |pieces| ==> |pieces[k]| > 0
  }

  /** A chunked body of non-empty pieces, ended by the zero-size chunk,
      decodes to the pieces' concatenation. */
  lemma {:induction false} ChunksDecode(pieces: seq<string>, rest: string)
    requires NonEmpty(pieces)
    ensures DecodeChunks(Chunks(pieces) + LastChunk + rest) == Some(Decoded(Concat(pieces), rest))
    decreases |pieces|, 1
  {
    if |pieces| == 0 {
      LastChunkDecodes(rest);
      assert Chunks(pieces) + LastChunk + rest == LastChunk + rest;
    } else {
      ChunksDecodeMany(pieces, rest);
    }
  }

  /** The inductive step: the first chunk is read, then the others by
      induction. */
  lemma {:induction false} ChunksDecodeMany(pieces: seq<string>, rest: string)
    requires NonEmpty(pieces) && |pieces| > 0
    ensures DecodeChunks(Chunks(pieces) + LastChunk + rest) == Some(Decoded(Concat(pieces), rest))
    decreases |pieces|, 0
  {
    var after := Chunks(pieces[1..]) + LastChunk + rest;
    assert NonEmpty(pieces[1..]) by {
      forall k | 0 <= k < |pieces| - 1 ensures |pieces[1..][k]| > 0 {
        assert pieces[1..][k] == pieces[k + 1];
      }
    }
    ChunksDecode(pieces[1..], rest);
    ChunkDecodes(pieces[0], after);
    ChunksFront(pieces, rest);
  }

  /** The first chunk, then the bytes after it. */
  lemma ChunksFront(pieces: seq<string>, rest: string)
    requires |pieces| > 0
    ensures Chunks(pieces) + LastChunk + rest == Chunk(pieces[0]) + (Chunks(pieces[1..]) + LastChunk + rest)
  {
    Regroup(Chunk(pieces[0]), Chunks(pieces[1..]), LastChunk, rest);
  }

  lemma Regroup(a: string, b: string, c: string, d: string)
    ensures a + b + c + d == a + (b + c + d)
  {
  }

  /** What a send operation put on the wire, the count it returned and the
      client's state afterwards. */
  datatype Sent = Sent(bytes: string, count: nat, state: ResponseState)

  /** `WebClient::sendContent`: the content, framed as a chunk in chunked
      mode; an empty chunk ends chunked mode. The count is added to
      `_contentWritten`. */
  function SendContent(content: string, st: ResponseState): (r: Sent)
    ensures r.count == |r.bytes|
    ensures r.state.chunked <==> st.chunked && |content| > 0
    ensures !st.chunked ==> r.bytes == content
    ensures r.state.written == st.written + r.count
    ensures r.state.contentLength == st.contentLength && r.state.headers == st.headers
  {
    var out := if st.chunked then Chunk(content) else content;
    Sent(out, |out|, st.(chunked := st.chunked && |content| > 0, written := st.written + |out|))
  }

  /** `WebClient::send(code, content_type, content)` as the source has it:
      a length not set yet becomes the content's length, or unknown (hence
      chunked) for empty content; then the head and the content. The
      content's bytes are counted into `_contentWritten` twice, once by
      `sendContent` and once more by `send`. */
  function SendAsWritten(version: string, code: int, contentType: Option<string>, content: string,
                         config: ServerConfig, st: ResponseState): (r: Sent)
    ensures r.state.written == st.written + r.count + (if |content| > 0 then r.count - |PrepareHeaderOf(version, code, contentType, content, config, st).response| else 0)
  {
    var p := PrepareHeaderOf(version, code, contentType, content, config, st);
    if |content| > 0 then
      var c := SendContent(content, p.state);
      var sent := |p.response| + c.count;
      Sent(p.response + c.bytes, sent, c.state.(written := c.state.written + sent))
    else
      Sent(p.response, |p.response|, p.state.(written := p.state.written + |p.response|))
  }

  /** The head `send` prepares, after settling a length not set yet. */
  function PrepareHeaderOf(version: string, code: int, contentType: Option<string>, content: string,
                           config: ServerConfig, st: ResponseState): Prepared
  {
    var length :=
      if st.contentLength != ContentLengthNotSet then st.contentLength
      else if |content| == 0 then ContentLengthUnknown
      else |content|;
    PrepareHeader(version, code, contentType, |content|, config, st.(contentLength := length))
  }

  /** `send` with the byte count kept once per byte written: the model's
      `send`. */
  function Send(version: string, code: int, contentType: Option<string>, content: string,
                config: ServerConfig, st: ResponseState): (r: Sent)
    ensures r.count == |r.bytes|
    ensures r.state.written == st.written + |r.bytes|
    ensures StartsWith(r.bytes, PrepareHeaderOf(version, code, contentType, content, config, st).response)
  {
    var p := PrepareHeaderOf(version, code, contentType, content, config, st);
    var c := if |content| > 0 then SendContent(content, p.state) else Sent("", 0, p.state);
    PrependedPrefix(p.response, c.bytes);
    Sent(p.response + c.bytes, |p.response| + c.count, c.state.(written := st.written + |p.response| + c.count))
  }

  /** The count the source keeps overshoots the bytes written by the
      content's length: "abc" sent with no length set counts 3 bytes
      more than went out. */
  lemma SendCountsContentTwice(version: string, code: int, contentType: Option<string>,
                               config: ServerConfig, st: ResponseState)
    requires st.contentLength == ContentLengthNotSet && !st.chunked && st.written == 0
    ensures SendAsWritten(version, code, contentType, "abc", config, st).state.written
         == |SendAsWritten(version, code, contentType, "abc", config, st).bytes| + 3
    ensures Send(version, code, contentType, "abc", config, st).state.written
         == |Send(version, code, contentType, "abc", config, st).bytes|
  {
  }

  /** `WebClient::_finalizeResponse`: in chunked mode the empty chunk that
      ends the body. */
  function Finalize(st: ResponseState): (r: Sent)
    ensures st.chunked ==> r.bytes == LastChunk && !r.state.chunked
    ensures !st.chunked ==> r.bytes == "" && r.state == st
  {
    if st.chunked then SendContent("", st) else Sent("", 0, st)
  }

  /** A fresh client (no length set, not chunked) answering `send` with
      non-empty content and finishing the response: the content goes out
      plain, after a head announcing its length. Lengths at the two
      sentinel values are excluded. */
  lemma SendContentPlain(version: string, code: int, contentType: Option<string>, content: string,
                         config: ServerConfig, st: ResponseState)
    requires st.contentLength == ContentLengthNotSet && !st.chunked
    requires 0 < |content| < ContentLengthNotSet
    ensures var p := PrepareHeaderOf(version, code, contentType, content, config, st);
            var s := Send(version, code, contentType, content, config, st);
            && p.state.contentLength == |content| && !p.state.chunked
            && s.bytes + Finalize(s.state).bytes == p.response + content
  {
  }

  /** A fresh client answering `send` with empty content and finishing the
      response: the head announces a chunked body, and what follows the
      head decodes to nothing. */
  lemma SendEmptyChunked(version: string, code: int, contentType: Option<string>,
                         config: ServerConfig, st: ResponseState)
    requires st.contentLength == ContentLengthNotSet && !st.chunked
    ensures var p := PrepareHeaderOf(version, code, contentType, "", config, st);
            var s := Send(version, code, contentType, "", config, st);
            && p.state.chunked
            && s.bytes + Finalize(s.state).bytes == p.response + LastChunk
  {
    SendEmptyIsHead(version, code, contentType, config, st);
    FinalizeChunked(Send(version, code, contentType, "", config, st).state);
  }

  /** `send` with empty content writes the head alone and stays chunked. */
  lemma SendEmptyIsHead(version: string, code: int, contentType: Option<string>,
                        config: ServerConfig, st: ResponseState)
    requires st.contentLength == ContentLengthNotSet && !st.chunked
    ensures var p := PrepareHeaderOf(version, code, contentType, "", config, st);
            var s := Send(version, code, contentType, "", config, st);
            p.state.chunked && s.bytes == p.response && s.state.chunked
  {
  }

  /** Finishing a chunked response writes the zero-size chunk. */
  lemma FinalizeChunked(st: ResponseState)
    requires st.chunked
    ensures Finalize(st).bytes == LastChunk
  {
    LastChunkIsEmptyChunk();
  }

  /** Streaming: after a head with unknown length, every non-empty piece
      goes out as a chunk; the response's end closes the body. */
  function StreamPieces(pieces: seq<string>, st: ResponseState): (r: Sent)
    requires st.chunked && NonEmpty(pieces)
    ensures r.bytes == Chunks(pieces) && r.state.chunked
    decreases |pieces|
  {
    if |pieces| == 0 then Sent("", 0, st)
    else
      var first := SendContent(pieces[0], st);
      var rest := StreamPieces(pieces[1..], first.state);
      Sent(first.bytes + rest.bytes, first.count + rest.count, rest.state)
  }

  /** The streamed pieces, with the response finished, decode to their
      concatenation. */
  lemma StreamDecodes(pieces: seq<string>, st: ResponseState)
    requires st.chunked && NonEmpty(pieces)
    ensures var r := StreamPieces(pieces, st);
            DecodeChunks(r.bytes + Finalize(r.state).bytes) == Some(Decoded(Concat(pieces), ""))
  {
    var r := StreamPieces(pieces, st);
    ChunksDecode(pieces, "");
    assert r.bytes + Finalize(r.state).bytes == Chunks(pieces) + LastChunk + "";
  }

  /** An empty piece sent in the middle of a stream ends the chunked body
      there: what is sent after it is no longer framed. */
  lemma EmptyPieceEndsStream(st: ResponseState, later: string)
    requires st.chunked
    ensures var e := SendContent("", st);
            e.bytes == LastChunk && SendContent(later, e.state).bytes == later
  {
  }
}

=== FILE: circular_buffer.dfy ===
/** The ring buffer of include/circular_buffer.h (the microphone's sample
    buffer): a fixed vector with a head where the next value goes, a tail
    where the oldest value sits, and a flag telling a full buffer from an
    empty one when the two meet. The mutex is left out. */
module CircularBuffer {
  import opened Base

  datatype Ring<T> = Ring(buffer: seq<T>, head: nat, tail: nat, full: bool)

  function Capacity<T>(r: Ring<T>): nat
  {
    |r.buffer|
  }

  /** The indices stay in the vector, and a full buffer has its head on its
      tail. */
  predicate Valid<T>(r: Ring<T>)
  {
    |r.buffer| > 0 && r.head < |r.buffer| && r.tail < |r.buffer| && (r.full ==> r.head == r.tail)
  }

  /** The constructor: `size` default values, head and tail at 0. A size of
      0 would make every later `%` divide by zero. */
  function Create<T>(size: nat, init: T): (r: Ring<T>)
    requires size > 0
    ensures Valid(r) && Capacity(r) == size && Size(r) == 0
  {
    Ring(seq(size, _ => init), 0, 0, false)
  }

  /** `empty`. */
  predicate Empty<T>(r: Ring<T>)
  {
    !r.full && r.head == r.tail
  }

  /** `size`: the capacity when full, otherwise the distance from tail to
      head around the ring. */
  function Size<T>(r: Ring<T>): (n: nat)
    requires Valid(r)
    ensures n <= Capacity(r)
    ensures n == 0 <==> Empty(r)
    ensures n == Capacity(r) <==> r.full
  {
    if r.full then |r.buffer|
    else if r.head >= r.tail then r.head - r.tail
    else |r.buffer| + r.head - r.tail
  }

  /** An index moved forward around a ring of `cap` slots by less than a
      full turn. */
  function Wrap(x: nat, cap: nat): (k: nat)
    requires cap > 0 && x < 2 * cap
    ensures k < cap
  {
    if x < cap then x else x - cap
  }

  /** On the indices it is given, `Wrap` is the source's `% size()`. */
  lemma WrapIsMod(x: nat, cap: nat)
    requires cap > 0 && x < 2 * cap
    ensures Wrap(x, cap) == x % cap
  {
    if x >= cap { DivAddMultiple(x - cap, 1, cap); }
  }

  /** The slot `i` places after the tail. */
  function Slot<T>(r: Ring<T>, i: nat): (k: nat)
    requires Valid(r) && i <= |r.buffer|
    ensures k < |r.buffer|
  {
    Wrap(r.tail + i, |r.buffer|)
  }

  /** The values held, oldest first. */
  function Contents<T>(r: Ring<T>): (s: seq<T>)
    requires Valid(r)
    ensures |s| == Size(r)
  {
    seq(Size(r), i requires 0 <= i < Size(r) => r.buffer[Slot(r, i)])
  }

  /** The head sits `Size` places after the tail. */
  lemma HeadAfterContents<T>(r: Ring<T>)
    requires Valid(r)
    ensures r.head == Slot(r, Size(r))
  {
  }

  /** `push_back(value)`: store at the head; a full buffer first gives up
      its oldest value by moving the tail. */
  function PushBack<T>(r: Ring<T>, v: T): (r': Ring<T>)
    requires Valid(r)
    ensures Valid(r') && Capacity(r') == Capacity(r)
  {
    var cap := |r.buffer|;
    var tail := if r.full then Wrap(r.tail + 1, cap) else r.tail;
    var head := Wrap(r.head + 1, cap);
    Ring(r.buffer[r.head := v], head, tail, head == tail)
  }

  /** A push appends the value; on a full buffer it overwrites the
      oldest, so the buffer keeps the last `Capacity` values. */
  lemma PushBackContents<T>(r: Ring<T>, v: T)
    requires Valid(r)
    ensures Size(r) < Capacity(r) ==> Contents(PushBack(r, v)) == Contents(r) + [v]
    ensures Size(r) == Capacity(r) ==> Contents(PushBack(r, v)) == Contents(r)[1..] + [v]
    ensures Contents(PushBack(r, v)) == KeepLast(Capacity(r), Contents(r) + [v])
  {
    if r.full { PushBackFull(r, v); } else { PushBackNotFull(r, v); }
  }

  lemma PushBackNotFull<T>(r: Ring<T>, v: T)
    requires Valid(r) && !r.full
    ensures Contents(PushBack(r, v)) == Contents(r) + [v]
  {
    var s := Size(r);
    var c := Contents(r);
    var r' := PushBack(r, v);
    assert Size(r') == s + 1;
    forall i | 0 <= i < s + 1 ensures Contents(r')[i] == (c + [v])[i] {
      if i < s { assert Slot(r, i) != r.head; }
    }
  }

  lemma PushBackFull<T>(r: Ring<T>, v: T)
    requires Valid(r) && r.full
    ensures Contents(PushBack(r, v)) == Contents(r)[1..] + [v]
  {
    var cap := |r.buffer|;
    var c := Contents(r);
    var r' := PushBack(r, v);
    assert Size(r') == cap;
    forall i | 0 <= i < cap ensures Contents(r')[i] == (c[1..] + [v])[i] {
      if i + 1 < cap {
        assert Slot(r', i) == Slot(r, i + 1) != r.head;
      }
    }
  }

  /** `push_back(value[], sz)`: when more values come than fit, only the
      last `Capacity` of them are pushed; each then as a single push. */
  method PushBackAll<T>(r: Ring<T>, values: seq<T>) returns (r': Ring<T>)
    requires Valid(r)
    ensures Valid(r') && Capacity(r') == Capacity(r)
    ensures Contents(r') == KeepLast(Capacity(r), Contents(r) + values)
  {
    var cap := |r.buffer|;
    var i := if |values| > cap then |values| - cap else 0;
    var start := i;
    r' := r;
    ghost var c := Contents(r);
    ghost var pushed := c;
    while i < |values|
      invariant start <= i <= |values|
      invariant Valid(r') && Capacity(r') == cap
      invariant pushed == c + values[start..i]
      invariant Contents(r') == KeepLast(cap, pushed)
    {
      PushBackStep(r', pushed, values[i]);
      ExtendSlice(c, values, start, i);
      r' := PushBack(r', values[i]);
      pushed := pushed + [values[i]];
      i := i + 1;
    }
    assert values[start..i] == values[start..];
    KeepLastSkipped(cap, c, values, start);
  }

  /** A push onto a buffer holding the last values of a sequence holds
      the last values of the sequence with one more. */
  lemma PushBackStep<T>(r: Ring<T>, pushed: seq<T>, v: T)
    requires Valid(r) && Contents(r) == KeepLast(Capacity(r), pushed)
    ensures Contents(PushBack(r, v)) == KeepLast(Capacity(r), pushed + [v])
  {
    PushBackContents(r, v);
    KeepLastAppend(Capacity(r), pushed, v);
  }

  lemma ExtendSlice<T>(a: seq<T>, values: seq<T>, start: nat, i: nat)
    requires start <= i < |values|
    ensures (a + values[start..i]) + [values[i]] == a + values[start..i + 1]
  {
    assert values[start..i + 1] == values[start..i] + [values[i]];
  }

  /** Keeping the last `n` after one more value is keeping the last `n`
      of the longer sequence. */
  lemma KeepLastAppend<T>(n: nat, s: seq<T>, v: T)
    ensures KeepLast(n, KeepLast(n, s) + [v]) == KeepLast(n, s + [v])
  {
    if |s| > n {
      assert (s + [v])[|s| + 1 - n..] == (s[|s| - n..] + [v])[1..];
    }
  }

  /** Values that would be pushed out anyway can be skipped. */
  lemma KeepLastSkipped<T>(n: nat, c: seq<T>, values: seq<T>, start: nat)
    requires |c| <= n
    requires start == (if |values| > n then |values| - n else 0)
    ensures KeepLast(n, c + values[start..]) == KeepLast(n, c + values)
  {
    if start > 0 {
      assert (c + values)[|c + values| - n..] == values[start..];
    }
  }

  /** `pop_front()`: the oldest value, or the default value when empty. */
  function PopFront<T>(r: Ring<T>, default: T): (p: (T, Ring<T>))
    requires Valid(r)
    ensures Valid(p.1) && Capacity(p.1) == Capacity(r)
  {
    if Empty(r) then (default, r)
    else (r.buffer[r.tail], Ring(r.buffer, r.head, Wrap(r.tail + 1, |r.buffer|), false))
  }

  /** Pops are first in, first out; popping an empty buffer changes
      nothing. */
  lemma PopFrontFifo<T>(r: Ring<T>, default: T)
    requires Valid(r)
    ensures Empty(r) ==> PopFront(r, default) == (default, r)
    ensures !Empty(r) ==> var p := PopFront(r, default);
                          && p.0 == Contents(r)[0]
                          && Contents(p.1) == Contents(r)[1..]
  {
    if !Empty(r) {
      var s := Size(r);
      var r' := PopFront(r, default).1;
      assert Size(r') == s - 1;
      forall i | 0 <= i < s - 1 ensures Contents(r')[i] == Contents(r)[i + 1] {
        assert Slot(r', i) == Slot(r, i + 1);
      }
    }
  }

  /** The copy loop of `pop_front(dest, sz)`: `n` values from slot `tail`
      on; it gives the values copied and where the tail ends. */
  function Drain<T>(buffer: seq<T>, tail: nat, n: nat): (d: (seq<T>, nat))
    requires tail < |buffer| && n <= |buffer|
    ensures |d.0| == n && d.1 < |buffer|
    ensures forall i :: 0 <= i < n ==> d.0[i] == buffer[Wrap(tail + i, |buffer|)]
    ensures d.1 == Wrap(tail + n, |buffer|)
    decreases n
  {
    if n == 0 then ([], tail)
    else
      var rest := Drain(buffer, Wrap(tail + 1, |buffer|), n - 1);
      forall i | 0 <= i < n - 1 ensures rest.0[i] == buffer[Wrap(tail + 1 + i, |buffer|)] {
      }
      ([buffer[tail]] + rest.0, rest.1)
  }

  /** `pop_front(dest, sz)` as written: on a non-empty buffer it copies
      `min(sz, size)` values and then clears the full flag, even when it
      copied none. */
  function PopFrontManyAsWritten<T>(r: Ring<T>, sz: nat): (p: (nat, seq<T>, Ring<T>))
    requires Valid(r)
    ensures Valid(p.2)
  {
    if Empty(r) then (0, [], r)
    else
      var n := Min(sz, Size(r));
      var d := Drain(r.buffer, r.tail, n);
      (n, d.0, Ring(r.buffer, r.head, d.1, false))
  }

  /** Asking a full buffer for no values empties it: the flag is cleared
      while head and tail still meet, so all `Capacity` values are lost. */
  lemma PopNoneEmptiesFullBuffer<T>(r: Ring<T>)
    requires Valid(r) && r.full
    ensures Size(r) == Capacity(r) > 0
    ensures var p := PopFrontManyAsWritten(r, 0);
            p.0 == 0 && Size(p.2) == 0
  {
  }

  /** `pop_front(dest, sz)` with the flag cleared only when a value was
      taken. */
  function PopFrontMany<T>(r: Ring<T>, sz: nat): (p: (nat, seq<T>, Ring<T>))
    requires Valid(r)
    ensures Valid(p.2) && Capacity(p.2) == Capacity(r)
  {
    if Empty(r) then (0, [], r)
    else
      var n := Min(sz, Size(r));
      var d := Drain(r.buffer, r.tail, n);
      (n, d.0, Ring(r.buffer, r.head, d.1, r.full && n == 0))
  }

  /** It returns `min(sz, size)` and the oldest that many values, in
      order, and the buffer keeps the rest. */
  lemma PopFrontManyFifo<T>(r: Ring<T>, sz: nat)
    requires Valid(r)
    ensures var p := PopFrontMany(r, sz);
            && p.0 == Min(sz, Size(r))
            && p.1 == Contents(r)[..p.0]
            && Contents(p.2) == Contents(r)[p.0..]
  {
    if !Empty(r) {
      var s := Size(r);
      var p := PopFrontMany(r, sz);
      var n := p.0;
      var r' := p.2;
      if n > 0 {
        assert Size(r') == s - n;
        forall i | 0 <= i < s - n ensures Contents(r')[i] == Contents(r)[n + i] {
          assert Slot(r', i) == Slot(r, n + i);
        }
      }
    }
  }

  /** `clear`: empty, with the capacity kept. */
  function Clear<T>(r: Ring<T>): (r': Ring<T>)
    requires Valid(r)
    ensures Valid(r') && Capacity(r') == Capacity(r) && Contents(r') == []
  {
    Ring(r.buffer, 0, 0, false)
  }
}

=== FILE: core_time.dfy ===
/** Epoch-to-calendar arithmetic of the time library (CoreTimeCalc): breaking
    a count of seconds since 1 January 1970 into calendar fields and
    assembling fields back into seconds, without any time-zone adjustment.
    Years inside the algorithms are offsets from 1970; the broken-down
    `year` field is the full calendar year. */
module CoreTime {
  import opened Base

  const SecsPerMin: nat := 60
  const SecsPerHour: nat := 3600
  const SecsPerDay: nat := 86400

  /** Days per month of a common year, January first. */
  const MonthDays: seq<nat> := [31, 28, 31, 30, 31, 30, 31, 31, 30, 31, 30, 31]

  /** The library's leap-year test for a year given as an offset from 1970:
      Gregorian, and never true for calendar years at or before year 0. */
  predicate IsLeap(y: int)
  {
    var c := 1970 + y;
    c > 0 && c % 4 == 0 && (c % 100 != 0 || c % 400 == 0)
  }

  function YearLength(y: int): nat
  {
    if IsLeap(y) then 366 else 365
  }

  /** Length of month `m`, counted from 0 = January. */
  function MonthLength(m: nat, leap: bool): nat
    requires m < 12
  {
    if m == 1 then (if leap then 29 else 28) else MonthDays[m]
  }

  /** Reference: days from 1 January 1970 to 1 January of year offset `y`. */
  function DaysBeforeYear(y: nat): nat
  {
    if y == 0 then 0 else DaysBeforeYear(y - 1) + YearLength(y - 1)
  }

  /** Reference: days from 1 January to the first of month `m` (0-based). */
  function DaysBeforeMonth(m: nat, leap: bool): nat
    requires m <= 12
  {
    if m == 0 then 0 else DaysBeforeMonth(m - 1, leap) + MonthLength(m - 1, leap)
  }

  /** The broken-down time of the library (`tmElements_t`). `mon` counts from
      1 = January, `wday` from 1 = Sunday, `yday` from 1; `offset` is in
      seconds. */
  datatype Tm = Tm(sec: int, min: int, hour: int, mday: int, mon: int, year: int,
                   wday: int, yday: int, isdst: int, offset: int)

  /** The year loop of breakTimeCore: starting at year offset `y` with `days`
      days left, skip whole years while the day count reaches past them.
      Returns the year offset and the day index inside that year. */
  function YearSplit(y: nat, days: nat): (r: (nat, nat))
    ensures r.0 >= y && r.1 < YearLength(r.0)
    ensures DaysBeforeYear(r.0) + r.1 == DaysBeforeYear(y) + days
    decreases days
  {
    if days < YearLength(y) then (y, days)
    else YearSplit(y + 1, days - YearLength(y))
  }

  /** The month loop of breakTimeCore: from month `m` (0-based), subtract
      month lengths while the day index reaches past them; stops after
      December at the latest. */
  function MonthSplit(m: nat, day: nat, leap: bool): (r: (nat, nat))
    requires m <= 12
    ensures m <= r.0 <= 12
    ensures DaysBeforeMonth(r.0, leap) + r.1 == DaysBeforeMonth(m, leap) + day
    ensures r.0 < 12 ==> r.1 < MonthLength(r.0, leap)
    decreases 12 - m
  {
    if m == 12 then (12, day)
    else if day >= MonthLength(m, leap) then MonthSplit(m + 1, day - MonthLength(m, leap), leap)
    else (m, day)
  }

  lemma DaysInYear(leap: bool)
    ensures DaysBeforeMonth(12, leap) == (if leap then 366 else 365)
  {
    var feb := if leap then 29 else 28;
    assert DaysBeforeMonth(1, leap) == 31;
    assert DaysBeforeMonth(2, leap) == 31 + feb;
    assert DaysBeforeMonth(3, leap) == 62 + feb;
    assert DaysBeforeMonth(4, leap) == 92 + feb;
    assert DaysBeforeMonth(5, leap) == 123 + feb;
    assert DaysBeforeMonth(6, leap) == 153 + feb;
    assert DaysBeforeMonth(7, leap) == 184 + feb;
    assert DaysBeforeMonth(8, leap) == 215 + feb;
    assert DaysBeforeMonth(9, leap) == 245 + feb;
    assert DaysBeforeMonth(10, leap) == 276 + feb;
    assert DaysBeforeMonth(11, leap) == 306 + feb;
  }

  /** breakTimeCore: seconds since the epoch into calendar fields. The
      day-of-week formula counts 1 January 1970 (a Thursday) as 5. */
  function BreakTimeCore(t: nat): (tm: Tm)
    ensures 0 <= tm.sec < 60 && 0 <= tm.min < 60 && 0 <= tm.hour < 24
    ensures 1 <= tm.wday <= 7
    ensures tm.year >= 1970
    ensures 1 <= tm.yday <= YearLength(tm.year - 1970)
    ensures 1 <= tm.mon <= 12
    ensures 1 <= tm.mday <= MonthLength(tm.mon - 1, IsLeap(tm.year - 1970))
    ensures tm.isdst == 0 && tm.offset == 0
  {
    var days := t / SecsPerDay;
    var ys := YearSplit(0, days);
    var leap := IsLeap(ys.0);
    var ms := MonthSplit(0, ys.1, leap);
    MonthSplitInYear(ys.1, leap);
    Tm(t % 60, (t / 60) % 60, (t / 3600) % 24, ms.1 + 1, ms.0 + 1, ys.0 + 1970,
       (days + 4) % 7 + 1, ys.1 + 1, 0, 0)
  }

  /** The month loop run over a day of the year stops inside the year. */
  lemma MonthSplitInYear(day: nat, leap: bool)
    requires day < (if leap then 366 else 365)
    ensures MonthSplit(0, day, leap).0 < 12
  {
    DaysInYear(leap);
  }

  /** The time of day by successive division agrees with the seconds inside
      the day, and the pieces add back up to `t`. */
  lemma ClockSplit(t: nat)
    ensures (t / 3600) % 24 == (t % SecsPerDay) / 3600
    ensures (t / 60) % 60 == (t % 3600) / 60 && t % 60 == (t % 3600) % 60
    ensures t == (t / SecsPerDay) * SecsPerDay + ((t / 3600) % 24) * 3600 + ((t / 60) % 60) * 60 + t % 60
  {
    var d, s := t / SecsPerDay, t % SecsPerDay;
    assert s == (s / 3600) * 3600 + s % 3600;
    DivUnique(t, d * 24 + s / 3600, s % 3600, 3600);
    DivUnique(d * 24 + s / 3600, d, s / 3600, 24);
    var h, r := t / 3600, t % 3600;
    assert r == (r / 60) * 60 + r % 60;
    DivUnique(t, h * 60 + r / 60, r % 60, 60);
    DivUnique(h * 60 + r / 60, h, r / 60, 60);
  }

  /** The fields of breakTimeCore locate `t` exactly: the days before the
      year, before the month and inside the month, plus the time of day, add
      up to `t`; and the day of the year agrees with the month and day. */
  lemma BreakTimeCoreExact(t: nat)
    ensures var tm := BreakTimeCore(t);
            var y := tm.year - 1970;
            y >= 0 &&
            DaysBeforeYear(y) + tm.yday - 1 == t / SecsPerDay &&
            DaysBeforeMonth(tm.mon - 1, IsLeap(y)) + tm.mday - 1 == tm.yday - 1 &&
            t == (t / SecsPerDay) * SecsPerDay + tm.hour * 3600 + tm.min * 60 + tm.sec
  {
    var days := t / SecsPerDay;
    var ys := YearSplit(0, days);
    var ms := MonthSplit(0, ys.1, IsLeap(ys.0));
    var tm := BreakTimeCore(t);
    assert tm.year == ys.0 + 1970 && tm.yday == ys.1 + 1 && tm.mon == ms.0 + 1 && tm.mday == ms.1 + 1;
    assert tm.hour == (t / 3600) % 24 && tm.min == (t / 60) % 60 && tm.sec == t % 60;
    ClockSplit(t);
  }

  /** Days from the epoch to the first of the year offset `y`, counted the
      way makeTimeCore does: 365 per year plus one per leap year before it. */
  function LeapDaysBefore(y: int): nat
  {
    if y <= 0 then 0 else LeapDaysBefore(y - 1) + (if IsLeap(y - 1) then 1 else 0)
  }

  /** Days before month `mon` (1-based) as the makeTimeCore month loop adds
      them; reading beyond the month table needs `mon <= 13`. */
  function MakeMonthDays(mon: int, leap: bool): nat
    requires mon <= 13
  {
    if mon <= 1 then 0
    else MakeMonthDays(mon - 1, leap) + (if mon - 1 == 2 && leap then 29 else MonthDays[mon - 2])
  }

  /** makeTimeCore: calendar fields into seconds since the epoch. A `year`
      above 1970 is a calendar year; 1970 and below is taken as an offset
      from 1970. */
  function MakeTimeCore(tm: Tm): (t: int)
    requires tm.mon <= 13
  {
    var year := if tm.year > 1970 then tm.year - 1970 else tm.year;
    year * (SecsPerDay * 365) + LeapDaysBefore(year) * SecsPerDay
      + MakeMonthDays(tm.mon, IsLeap(year)) * SecsPerDay
      + (tm.mday - 1) * SecsPerDay + tm.hour * SecsPerHour + tm.min * SecsPerMin + tm.sec
  }

  lemma {:induction false} LeapDaysAgree(y: nat)
    ensures y * 365 + LeapDaysBefore(y) == DaysBeforeYear(y)
  {
    if y > 0 {
      LeapDaysAgree(y - 1);
    }
  }

  lemma {:induction false} MonthDaysAgree(mon: nat, leap: bool)
    requires 1 <= mon <= 13
    ensures MakeMonthDays(mon, leap) == DaysBeforeMonth(mon - 1, leap)
  {
    if mon > 1 {
      MonthDaysAgree(mon - 1, leap);
    }
  }

  /** Round trip: assembling the fields of any time from 1971 on gives the
      time back. */
  lemma MakeBreakRoundTrip(t: nat)
    requires t >= 365 * SecsPerDay
    ensures MakeTimeCore(BreakTimeCore(t)) == t
  {
    var tm := BreakTimeCore(t);
    BreakTimeCoreExact(t);
    var y := tm.year - 1970;
    YearOfLaterTime(t);
    LeapDaysAgree(y);
    MonthDaysAgree(tm.mon, IsLeap(y));
  }

  /** A time in 1971 or later breaks into a year above 1970. */
  lemma YearOfLaterTime(t: nat)
    requires t >= 365 * SecsPerDay
    ensures BreakTimeCore(t).year > 1970
  {
    var days := t / SecsPerDay;
    assert days >= 365;
    assert !IsLeap(0);
  }

  /** The 1970 quirk: breaking any time of 1970 yields year 1970, which
      makeTimeCore reads as the offset 1970 (the year 3940), so the round
      trip fails for every time in 1970. */
  lemma Year1970NotRoundTrip(t: nat)
    requires t < 365 * SecsPerDay
    ensures BreakTimeCore(t).year == 1970
    ensures MakeTimeCore(BreakTimeCore(t)) > t
  {
    var days := t / SecsPerDay;
    assert days < 365;
    assert !IsLeap(0);
    var tm := BreakTimeCore(t);
    assert tm.year == 1970;
    assert tm.mday >= 1 && tm.hour >= 0 && tm.min >= 0 && tm.sec >= 0;
  }

  lemma {:induction false} DaysBeforeYearMono(a: nat, b: nat)
    requires a < b
    ensures DaysBeforeYear(a + 1) <= DaysBeforeYear(b)
    decreases b - a
  {
    if a + 1 < b {
      DaysBeforeYearMono(a, b - 1);
    }
  }

  /** The year containing day `d` is unique, so any year found by another
      loop is the one YearSplit finds. */
  lemma YearSplitUnique(d: nat, y: nat)
    requires DaysBeforeYear(y) <= d < DaysBeforeYear(y + 1)
    ensures YearSplit(0, d).0 == y
  {
    var r := YearSplit(0, d);
    if r.0 < y {
      DaysBeforeYearMono(r.0, y);
    } else if r.0 > y {
      DaysBeforeYearMono(y, r.0);
    }
  }

  /** calculateYear: the calendar year of `t` with its own accumulation
      loop; it agrees with the year breakTimeCore reports. */
  method CalculateYear(t: nat) returns (year: int)
    ensures year == BreakTimeCore(t).year
    ensures year >= 1970
  {
    var days := t / SecsPerDay;
    var y: nat := 0;
    var accumulated: nat := YearLength(0);
    while accumulated <= days
      invariant accumulated == DaysBeforeYear(y + 1)
      invariant DaysBeforeYear(y) <= days
      decreases days - accumulated
    {
      y := y + 1;
      accumulated := accumulated + YearLength(y);
    }
    YearSplitUnique(days, y);
    year := y + 1970;
  }

  /** hourCore: the hour of the day straight from the seconds, using C
      division; for times after the epoch it is breakTimeCore's hour. */
  function HourCore(t: int): (h: int)
    ensures t >= 0 ==> h == BreakTimeCore(t).hour
  {
    CDivModDay(t);
    CDiv(CMod(t, SecsPerDay), SecsPerHour)
  }

  /** minuteCore: the minute of the hour. */
  function MinuteCore(t: int): (m: int)
    ensures t >= 0 ==> m == BreakTimeCore(t).min
  {
    CDivModDay(t);
    CDiv(CMod(t, SecsPerHour), SecsPerMin)
  }

  /** secondCore: the second of the minute. */
  function SecondCore(t: int): (s: int)
    ensures t >= 0 ==> s == BreakTimeCore(t).sec
  {
    CDivModDay(t);
    CMod(t, SecsPerMin)
  }

  /** weekdayCore: the day of the week, 1 = Sunday. */
  function WeekdayCore(t: int): (w: int)
    ensures t >= 0 ==> w == (t / SecsPerDay + 4) % 7 + 1 && 1 <= w <= 7
  {
    CDivModDay(t);
    CMod(CDiv(t, SecsPerDay) + 4, 7) + 1
  }

  /** From the epoch on, weekdayCore agrees with the weekday of
      breakTimeCore (1970-01-01 was a Thursday, day 5). */
  lemma WeekdayCoreAgrees(t: nat)
    ensures WeekdayCore(t) == BreakTimeCore(t).wday
    ensures WeekdayCore(0) == 5
  {
  }

  /** For non-negative times the C operations agree with Euclidean ones, and
      the time-of-day fields computed from seconds-in-day agree with those
      computed by successive division. */
  lemma CDivModDay(t: int)
    ensures t >= 0 ==> CMod(t, SecsPerDay) == t % SecsPerDay && CDiv(t, SecsPerDay) == t / SecsPerDay
    ensures t >= 0 ==> CDiv(t % SecsPerDay, SecsPerHour) == (t / 3600) % 24
    ensures t >= 0 ==> CMod(t, SecsPerHour) == t % 3600 && CDiv(t % 3600, SecsPerMin) == (t / 60) % 60
    ensures t >= 0 ==> CMod(t, SecsPerMin) == t % 60
    ensures t >= 0 ==> CMod(t / SecsPerDay + 4, 7) == (t / SecsPerDay + 4) % 7
  {
    if t >= 0 {
      ClockSplit(t);
    }
  }
}

=== FILE: dns_section.dfy ===
/** Record-section bookkeeping of the mDNS responder (DNSSection): which
    section a record index falls in, the NSEC type bitmap, and the name
    collector that gathers the labels of a parsed packet. Section flags are
    modelled as sets of sections, the bitwise `|` and `&` as union and
    intersection. */
module DnsSection {
  import opened Base
  import ArduinoString

  datatype Section = Query | Answer | Authority | Additional

  /** A combination of section flags; `All` is every section. */
  type Sections = set<Section>

  const All: Sections := {Query, Answer, Authority, Additional}

  /** The bit value of a section flag. */
  function SectionBit(s: Section): nat
  {
    match s
    case Query => 1
    case Answer => 2
    case Authority => 4
    case Additional => 8
  }

  /** getSection: the record index against the running totals of the
      question, answer and authority counts. */
  function GetSection(i: nat, qd: nat, an: nat, ns: nat): (s: Section)
    ensures s == Query <==> i < qd
    ensures s == Answer <==> qd <= i < an
    ensures s == Authority <==> qd <= i && an <= i < ns
    ensures s == Additional <==> qd <= i && an <= i && ns <= i
  {
    if i < qd then Query
    else if i < an then Answer
    else if i < ns then Authority
    else Additional
  }

  /** Position of a section in packet order. */
  function SectionOrder(s: Section): nat
  {
    match s
    case Query => 0
    case Answer => 1
    case Authority => 2
    case Additional => 3
  }

  /** With running totals from the counts, later records never fall in an
      earlier section, and each section holds exactly its count of
      records. */
  lemma GetSectionOrdered(i: nat, j: nat, qd: nat, an: nat, ns: nat)
    requires i <= j
    ensures SectionOrder(GetSection(i, qd, qd + an, qd + an + ns)) <= SectionOrder(GetSection(j, qd, qd + an, qd + an + ns))
    ensures GetSection(i, qd, qd + an, qd + an + ns) == Answer <==> qd <= i < qd + an
  {
  }

  // ---------------------------------------------------------------- NSEC bitmap

  const TypeA: nat := 0x01
  const TypePtr: nat := 0x0C
  const TypeTxt: nat := 0x10
  const TypeSrv: nat := 0x21
  const TypeNsec: nat := 0x2F

  /** The record types the responder can announce in its bitmap. */
  const SupportedTypes: seq<nat> := [TypeA, TypePtr, TypeTxt, TypeSrv, TypeNsec]

  predicate Supported(t: nat)
  {
    t in SupportedTypes
  }

  /** calcSupportedRecordTypeByte: the bitmap byte of a type, counted from
      type 1 (section 4.1.2 of RFC 4034 counts from type 0). */
  function TypeByte(t: nat): (b: nat)
    requires t >= 1
    ensures b * 8 <= t - 1 < b * 8 + 8
  {
    (t - 1) / 8
  }

  /** calcSupportedRecordTypeMask as the bit position in the byte, 7 being
      the most significant. */
  function TypeBit(t: nat): (k: nat)
    requires t >= 1
    ensures k < 8 && k == 7 - (t - 1) % 8
  {
    7 - (t - 1) % 8
  }

  /** The mask of bit `k`, `1 << k`. */
  function Mask(k: nat): (m: bv8)
    requires k < 8
  {
    (1 as bv8) << k
  }

  /** Bit `k` of a byte. */
  predicate BitSet(x: bv8, k: nat)
    requires k < 8
  {
    x & Mask(k) != 0
  }

  /** The NSEC bitmap: window byte, length byte, then 32 bitmap bytes. */
  datatype Bitmap = Bitmap(data: seq<bv8>)

  const BitmapBytes: nat := 32

  predicate ValidBitmap(b: Bitmap)
  {
    |b.data| == 2 + BitmapBytes
  }

  /** The length byte: the number of bytes written out, header included. */
  function BitmapSize(b: Bitmap): nat
    requires ValidBitmap(b)
  {
    b.data[1] as nat
  }

  /** The type's bit is set in the bitmap. */
  predicate HasType(b: Bitmap, t: nat)
    requires ValidBitmap(b) && t >= 1 && TypeByte(t) < BitmapBytes
  {
    BitSet(b.data[2 + TypeByte(t)], TypeBit(t))
  }

  /** A fresh bitmap: window 0, length 2, no types. */
  function FreshBitmap(): (b: Bitmap)
    ensures ValidBitmap(b) && b.data[0] == 0 && BitmapSize(b) == 2
    ensures forall i :: 2 <= i < |b.data| ==> b.data[i] == 0
  {
    Bitmap([0, 2] + seq(BitmapBytes, _ => 0))
  }

  /** addType: a supported type sets its bit and stretches the length to
      cover its byte; any other type changes nothing. */
  function AddType(b: Bitmap, t: nat): (r: Bitmap)
    requires ValidBitmap(b)
    ensures ValidBitmap(r)
    ensures !Supported(t) ==> r == b
    ensures Supported(t) ==> HasType(r, t)
    ensures Supported(t) ==> BitmapSize(r) == Max(BitmapSize(b), 2 + TypeByte(t) + 1)
    ensures r.data[0] == b.data[0]
    ensures forall i :: 2 <= i < |b.data| && (!Supported(t) || i != 2 + TypeByte(t)) ==> r.data[i] == b.data[i]
  {
    if !Supported(t) then b
    else
      SupportedByte(t);
      var offs := 2 + TypeByte(t);
      Bitmap(Stretch(SetBitAt(b.data, offs, TypeBit(t)), offs + 1))
  }

  /** `data[i] |= 1 << k`. */
  function SetBitAt(data: seq<bv8>, i: nat, k: nat): (r: seq<bv8>)
    requires i < |data| && k < 8
    ensures |r| == |data| && r[i] == data[i] | Mask(k) && BitSet(r[i], k)
    ensures forall j :: 0 <= j < |data| && j != i ==> r[j] == data[j]
  {
    OrSetsBit(data[i], k);
    data[i := data[i] | Mask(k)]
  }

  /** The length byte raised to `n` if it is below. */
  function Stretch(data: seq<bv8>, n: nat): (r: seq<bv8>)
    requires 1 < |data| && 3 <= n <= 8
    ensures |r| == |data| && r[1] as nat == Max(data[1] as nat, n)
    ensures forall j :: 0 <= j < |data| && j != 1 ==> r[j] == data[j]
  {
    ByteRoundTrip(n);
    if (data[1] as nat) < n then data[1 := n as bv8] else data
  }

  /** The length values the bitmap can take convert to a byte and back. */
  lemma ByteRoundTrip(n: nat)
    requires 3 <= n <= 8
    ensures (n as bv8) as nat == n
  {
    if n == 3 { assert (3 as bv8) as nat == 3; }
    else if n == 4 { assert (4 as bv8) as nat == 4; }
    else if n == 5 { assert (5 as bv8) as nat == 5; }
    else if n == 6 { assert (6 as bv8) as nat == 6; }
    else if n == 7 { assert (7 as bv8) as nat == 7; }
    else { assert (8 as bv8) as nat == 8; }
  }

  /** Supported types sit in the first six bitmap bytes. */
  lemma SupportedByte(t: nat)
    requires Supported(t)
    ensures t >= 1 && TypeByte(t) < 6
  {
  }

  /** Or-ing in a bit's mask sets the bit. */
  lemma OrSetsBit(x: bv8, k: nat)
    requires k < 8
    ensures BitSet(x | Mask(k), k) && (x | Mask(k)) | Mask(k) == x | Mask(k)
  {
  }

  /** The byte and bit of each supported type: A (0, 7), PTR (1, 4), TXT
      (1, 0), SRV (4, 7), NSEC (5, 1); no two share a bit. */
  lemma SupportedPositions(t: nat, u: nat)
    requires Supported(t) && Supported(u) && t != u
    ensures TypeByte(t) < 6
    ensures TypeByte(t) != TypeByte(u) || TypeBit(t) != TypeBit(u)
  {
  }

  /** Adding a type is idempotent, never shrinks the length, and keeps the
      types already present. */
  lemma AddTypeLaws(b: Bitmap, t: nat, u: nat)
    requires ValidBitmap(b)
    ensures AddType(AddType(b, t), t) == AddType(b, t)
    ensures BitmapSize(AddType(b, t)) >= BitmapSize(b)
    ensures Supported(u) && HasType(b, u) ==> HasType(AddType(b, t), u)
  {
    if Supported(t) {
      AddTypeTwice(b, t);
      if Supported(u) && HasType(b, u) && u != t {
        SupportedPositions(t, u);
        AddTypeKeeps(b, t, u);
      }
    }
  }

  lemma AddTypeTwice(b: Bitmap, t: nat)
    requires ValidBitmap(b) && Supported(t)
    ensures AddType(AddType(b, t), t) == AddType(b, t)
  {
    SupportedByte(t);
    var offs := 2 + TypeByte(t);
    var k := TypeBit(t);
    var e := Stretch(SetBitAt(b.data, offs, k), offs + 1);
    OrSetsBit(b.data[offs], k);
    assert SetBitAt(e, offs, k) == e;
    assert Stretch(e, offs + 1) == e;
  }

  lemma AddTypeKeeps(b: Bitmap, t: nat, u: nat)
    requires ValidBitmap(b) && Supported(t) && Supported(u) && HasType(b, u)
    requires TypeByte(t) != TypeByte(u) || TypeBit(t) != TypeBit(u)
    ensures HasType(AddType(b, t), u)
  {
    var r := AddType(b, t);
    var ou := 2 + TypeByte(u);
    if TypeByte(t) == TypeByte(u) {
      var x := b.data[ou];
      assert r.data[ou] == x | Mask(TypeBit(t));
      assert (x | Mask(TypeBit(t))) & Mask(TypeBit(u)) != 0;
    } else {
      assert r.data[ou] == b.data[ou];
    }
  }

  /** The bitmap built from a list of types, as the constructor adds
      them. */
  function BitmapOf(types: seq<nat>): (b: Bitmap)
    ensures ValidBitmap(b)
  {
    if |types| == 0 then FreshBitmap()
    else AddType(BitmapOf(types[..|types| - 1]), types[|types| - 1])
  }

  /** Every supported type of the list is present in the bitmap, and an
      unsupported-only list leaves the fresh bitmap. */
  lemma {:induction false} BitmapOfHasTypes(types: seq<nat>)
    ensures forall k :: 0 <= k < |types| && Supported(types[k]) ==> HasType(BitmapOf(types), types[k])
    ensures (forall k :: 0 <= k < |types| ==> !Supported(types[k])) ==> BitmapOf(types) == FreshBitmap()
    decreases |types|
  {
    if |types| > 0 {
      var init := types[..|types| - 1];
      BitmapOfHasTypes(init);
      var b0 := BitmapOf(init);
      forall k | 0 <= k < |types| && Supported(types[k])
        ensures HasType(BitmapOf(types), types[k])
      {
        if k < |types| - 1 {
          assert init[k] == types[k];
          AddTypeLaws(b0, types[|types| - 1], types[k]);
        }
      }
      if forall k :: 0 <= k < |types| ==> !Supported(types[k]) {
        assert forall k :: 0 <= k < |init| ==> init[k] == types[k];
      }
    }
  }

  // ------------------------------------------------------------ name collector

  /** A label of a parsed name and the packet offset it was read at. */
  datatype Label = Label(text: string, offset: nat)

  datatype Name = Name(section: Section, labels: seq<Label>)

  /** All labels of the collected names, in the order they were read. */
  function AllLabels(names: seq<Name>): seq<Label>
  {
    if |names| == 0 then [] else names[0].labels + AllLabels(names[1..])
  }

  /** The label spans the packet offset. */
  predicate Covers(l: Label, target: nat)
  {
    l.offset <= target < l.offset + |l.text|
  }

  /** The index of the first label covering the target, or -1. */
  function FirstCover(ls: seq<Label>, target: nat): (k: int)
    ensures -1 <= k < |ls|
    ensures k == -1 <==> forall m :: 0 <= m < |ls| ==> !Covers(ls[m], target)
    ensures k >= 0 ==> Covers(ls[k], target) && forall m :: 0 <= m < k ==> !Covers(ls[m], target)
  {
    if |ls| == 0 then -1
    else if Covers(ls[0], target) then 0
    else
      var k := FirstCover(ls[1..], target);
      if k == -1 then -1 else k + 1
  }

  /** uncompress over a list of labels: the rest of the first label whose
      span covers the target, or the empty string. */
  function UncompressIn(ls: seq<Label>, target: nat): (r: string)
    ensures var k := FirstCover(ls, target);
            if k == -1 then r == [] else r == ls[k].text[target - ls[k].offset..] && r != []
  {
    if |ls| == 0 then []
    else if Covers(ls[0], target) then ls[0].text[target - ls[0].offset..]
    else UncompressIn(ls[1..], target)
  }

  /** NameCollector::uncompress: a compression pointer resolved against the
      labels read so far. */
  function Uncompress(names: seq<Name>, target: nat): (r: string)
  {
    UncompressIn(AllLabels(names), target)
  }

  /** NameCollector::name(labels): the labels joined by '.', an empty
      accumulated prefix being replaced rather than extended. */
  function NameOf(labels: seq<Label>): (s: string)
    decreases |labels|
  {
    if |labels| == 0 then []
    else
      var acc := NameOf(labels[..|labels| - 1]);
      if acc == [] then labels[|labels| - 1].text else acc + "." + labels[|labels| - 1].text
  }

  function Texts(labels: seq<Label>): (ts: seq<string>)
    ensures |ts| == |labels| && forall k :: 0 <= k < |labels| ==> ts[k] == labels[k].text
  {
    seq(|labels|, k requires 0 <= k < |labels| => labels[k].text)
  }

  /** With non-empty labels the name is the labels joined by '.'; with
      labels free of '.' splitting it at '.' gives the labels back. */
  lemma {:induction false} NameOfJoins(labels: seq<Label>)
    requires forall k :: 0 <= k < |labels| ==> labels[k].text != []
    ensures NameOf(labels) == ArduinoString.Join(Texts(labels), '.')
    decreases |labels|
  {
    if |labels| >= 2 {
      var init := labels[..|labels| - 1];
      NameOfJoins(init);
      JoinSnoc(Texts(init), labels[|labels| - 1].text, '.');
      assert Texts(init) + [labels[|labels| - 1].text] == Texts(labels);
      JoinNonEmpty(Texts(init), '.');
    } else if |labels| == 1 {
      assert NameOf(labels[..0]) == [];
    }
  }

  lemma {:induction false} JoinSnoc(parts: seq<string>, last: string, sep: char)
    requires |parts| >= 1
    ensures ArduinoString.Join(parts + [last], sep) == ArduinoString.Join(parts, sep) + [sep] + last
    decreases |parts|
  {
    if |parts| == 1 {
      assert (parts + [last])[1..] == [last];
    } else {
      assert (parts + [last])[1..] == parts[1..] + [last];
      JoinSnoc(parts[1..], last, sep);
    }
  }

  lemma {:induction false} JoinNonEmpty(parts: seq<string>, sep: char)
    requires |parts| >= 1 && parts[0] != []
    ensures ArduinoString.Join(parts, sep) != []
  {
    if |parts| >= 2 {
      assert |ArduinoString.Join(parts, sep)| >= |parts[0]|;
    }
  }

  /** An empty first label is dropped rather than giving a leading '.'. */
  lemma NameOfSkipsEmptyFirst()
    ensures NameOf([Label("", 0), Label("local", 1)]) == "local"
  {
    var ls := [Label("", 0), Label("local", 1)];
    assert ls[..1][..0] == [];
    assert NameOf(ls[..1]) == [];
  }

  /** The collector's state: the names read so far. */
  datatype Collector = Collector(names: seq<Name>)

  /** NameCollector::name(): the last name, or "". */
  function LastName(c: Collector): (s: string)
    ensures |c.names| == 0 ==> s == []
    ensures |c.names| > 0 ==> s == NameOf(c.names[|c.names| - 1].labels)
  {
    if |c.names| == 0 then [] else NameOf(c.names[|c.names| - 1].labels)
  }

  /** NameCollector::names(section): the section filter compares the loop's
      own section with itself, so every name is returned, in order. */
  function Names(c: Collector, filter: Sections): (r: seq<string>)
    ensures |r| == |c.names|
    ensures forall k :: 0 <= k < |r| ==> r[k] == NameOf(c.names[k].labels)
  {
    seq(|c.names|, k requires 0 <= k < |c.names| =>
      var section := c.names[k].section;
      if {section} * {section} == {section} then NameOf(c.names[k].labels) else [])
  }

  /** process_begin: a new, empty name in the given section. */
  function ProcessBegin(c: Collector, s: Section): (r: Collector)
    ensures |r.names| == |c.names| + 1 && r.names[..|c.names|] == c.names
    ensures r.names[|c.names|] == Name(s, [])
  {
    Collector(c.names + [Name(s, [])])
  }

  /** Appends a label to the name being read. */
  function AppendLabel(c: Collector, l: Label): (r: Collector)
    requires |c.names| > 0
    ensures |r.names| == |c.names| && r.names[..|c.names| - 1] == c.names[..|c.names| - 1]
    ensures var last := c.names[|c.names| - 1];
            r.names[|c.names| - 1] == Name(last.section, last.labels + [l])
  {
    var last := c.names[|c.names| - 1];
    Collector(c.names[|c.names| - 1 := Name(last.section, last.labels + [l])])
  }

  /** process_nocompressed: the label read at `current`. */
  function ProcessLabel(c: Collector, text: string, current: nat): (r: Collector)
    requires |c.names| > 0
    ensures AllLabels(r.names) == AllLabels(c.names) + [Label(text, current)]
  {
    AllLabelsAppend(c.names, Label(text, current));
    AppendLabel(c, Label(text, current))
  }

  /** process_iscompressed: the text a compression pointer resolves to,
      recorded at `current`. */
  function ProcessCompressed(c: Collector, offs: nat, current: nat): (r: Collector)
    requires |c.names| > 0
    ensures AllLabels(r.names) == AllLabels(c.names) + [Label(Uncompress(c.names, offs), current)]
  {
    AllLabelsAppend(c.names, Label(Uncompress(c.names, offs), current));
    AppendLabel(c, Label(Uncompress(c.names, offs), current))
  }

  lemma {:induction false} AllLabelsAppend(names: seq<Name>, l: Label)
    requires |names| > 0
    ensures var last := names[|names| - 1];
            AllLabels(names[|names| - 1 := Name(last.section, last.labels + [l])]) == AllLabels(names) + [l]
    decreases |names|
  {
    var last := names[|names| - 1];
    var n2 := names[|names| - 1 := Name(last.section, last.labels + [l])];
    if |names| == 1 {
      assert n2[1..] == [];
      assert names[1..] == [];
    } else {
      assert n2[1..] == names[1..][|names| - 2 := Name(last.section, last.labels + [l])];
      AllLabelsAppend(names[1..], l);
    }
  }

  /** The parser's calls for one name: `process_nocompressed` for each
      label read, in order. */
  function ReadLabels(c: Collector, labels: seq<Label>): (r: Collector)
    requires |c.names| > 0
    ensures |r.names| == |c.names|
    decreases |labels|
  {
    if |labels| == 0 then c
    else ReadLabels(ProcessLabel(c, labels[0].text, labels[0].offset), labels[1..])
  }

  lemma {:induction false} ReadLabelsExtends(c: Collector, labels: seq<Label>)
    requires |c.names| > 0
    ensures var last := c.names[|c.names| - 1];
            ReadLabels(c, labels).names == c.names[|c.names| - 1 := Name(last.section, last.labels + labels)]
    decreases |labels|
  {
    var last := c.names[|c.names| - 1];
    if |labels| == 0 {
      assert last.labels + labels == last.labels;
      assert c.names[|c.names| - 1 := last] == c.names;
    } else {
      var c1 := ProcessLabel(c, labels[0].text, labels[0].offset);
      ReadLabelsExtends(c1, labels[1..]);
      assert Label(labels[0].text, labels[0].offset) == labels[0];
      assert last.labels + [labels[0]] + labels[1..] == last.labels + labels;
    }
  }

  /** A name read label by label after `process_begin` is what `name()`
      then reports: its non-empty labels joined by '.'. The names
      collected before are kept, and the new one is listed last by
      `names()`. */
  lemma CollectedName(c: Collector, s: Section, labels: seq<Label>)
    requires forall k :: 0 <= k < |labels| ==> labels[k].text != []
    ensures var r := ReadLabels(ProcessBegin(c, s), labels);
            && LastName(r) == ArduinoString.Join(Texts(labels), '.')
            && |r.names| == |c.names| + 1 && r.names[..|c.names|] == c.names
            && r.names[|c.names|] == Name(s, labels)
  {
    var b := ProcessBegin(c, s);
    ReadLabelsExtends(b, labels);
    assert [] + labels == labels;
    NameOfJoins(labels);
  }
}

=== FILE: effect_registry.dfy ===
/** The registry of light effects (src/EffectRegistry.cpp): effects in
    registration order, the current one and the one last run, the history
    of effects run, and the automatic, random and sleep-driven switching
    between them. Each effect is its state machine from `LedEffect`; the
    transition's re-seeding and the event broadcast are left out. */
module EffectRegistry {
  import opened Base
  import FixedQueue
  import LE = LedEffect

  /** `MAX_EFFECTS_HISTORY`. */
  const MaxEffectsHistory: nat := 20

  /** `capu`: `x` capped from above at `u`. */
  function Capu(x: int, u: int): (r: int)
    ensures r <= u && r <= x && (r == x || r == u)
  {
    if x >= u then u else x
  }

  /** `inc`: the next position around `u` places. */
  function Inc(x: nat, i: nat, u: nat): (r: nat)
    requires u > 0
    ensures r < u
  {
    (x + i) % u
  }

  /** `qsuba`: subtraction stopping at 0. */
  function Qsuba(x: nat, b: nat): (r: nat)
    ensures r == Max(x - b, 0)
  {
    if x > b then x - b else 0
  }

  /** The registry's fields; `machines[i]` is the state of effect `i`,
      named `names[i]`. `sleepLightId` is the sleep light's name. */
  datatype Registry = Registry(
    names: seq<string>, machines: seq<LE.Machine>, lastEffects: seq<nat>,
    currentEffect: nat, lastEffectRun: nat, sleepEffect: nat,
    autoSwitch: bool, sleepState: bool, sleepModeEnabled: bool,
    sleepLightId: string)

  function Count(reg: Registry): nat { |reg.names| }

  /** Every index held points at a registered effect; the history is
      bounded. */
  predicate Valid(reg: Registry)
  {
    && |reg.machines| == |reg.names| > 0 && |reg.names| < U16
    && reg.currentEffect < |reg.names| && reg.lastEffectRun < |reg.names|
    && reg.sleepEffect < |reg.names|
    && |reg.lastEffects| <= MaxEffectsHistory
    && (forall k :: 0 <= k < |reg.lastEffects| ==> reg.lastEffects[k] < |reg.names|)
  }

  /** The registry before any effect registers. */
  function Empty(sleepLightId: string): (reg: Registry)
    ensures Count(reg) == 0
  {
    Registry([], [], [], 0, 0, 0, true, false, false, sleepLightId)
  }

  /** `registerEffect`: the effect goes last and its index is returned; the
      sleep light's index is remembered. */
  function RegisterEffect(reg: Registry, name: string): (p: (nat, Registry))
    requires |reg.machines| == |reg.names| < U16 - 1
    ensures p.0 == Count(reg) && p.1.names == reg.names + [name]
    ensures |p.1.machines| == |p.1.names|
    ensures p.1.sleepEffect == if name == reg.sleepLightId then p.0 else reg.sleepEffect
    ensures p.1.machines[p.0].state == LE.Idle
  {
    var index := |reg.names|;
    (index, reg.(names := reg.names + [name],
                 machines := reg.machines + [LE.Machine(LE.Idle, 0)],
                 sleepEffect := if name == reg.sleepLightId then index else reg.sleepEffect))
  }

  /** Registration keeps the registry valid once it holds an effect; the
      earlier effects keep their places. */
  lemma RegisterKeepsOrder(reg: Registry, name: string)
    requires |reg.machines| == |reg.names| < U16 - 1
    requires reg.currentEffect <= |reg.names| && reg.lastEffectRun <= |reg.names|
    requires reg.sleepEffect <= |reg.names| && reg.lastEffects == []
    ensures Valid(RegisterEffect(reg, name).1)
    ensures forall k :: 0 <= k < Count(reg) ==>
              RegisterEffect(reg, name).1.names[k] == reg.names[k]
  {
  }

  /** `transitionEffect`: the effect last run is asked to go idle when
      another is current, then the current effect is asked to run. */
  function TransitionEffect(reg: Registry, millis: nat): (reg': Registry)
    requires Valid(reg)
    ensures Valid(reg') && reg' == reg.(machines := reg'.machines)
  {
    var m := if reg.currentEffect != reg.lastEffectRun
             then reg.machines[reg.lastEffectRun := LE.DesiredState(reg.machines[reg.lastEffectRun], LE.Idle, millis)]
             else reg.machines;
    reg.(machines := m[reg.currentEffect := LE.DesiredState(m[reg.currentEffect], LE.Running, millis)])
  }

  /** Only the current effect and the one last run are asked anything. */
  lemma TransitionEffectTargets(reg: Registry, millis: nat)
    requires Valid(reg)
    ensures var reg' := TransitionEffect(reg, millis);
            && reg'.machines[reg.currentEffect]
               == LE.DesiredState(reg.machines[reg.currentEffect], LE.Running, millis)
            && (reg.currentEffect != reg.lastEffectRun ==>
                  reg'.machines[reg.lastEffectRun]
                  == LE.DesiredState(reg.machines[reg.lastEffectRun], LE.Idle, millis))
            && forall k :: 0 <= k < Count(reg) && k != reg.currentEffect && k != reg.lastEffectRun ==>
                 reg'.machines[k] == reg.machines[k]
  {
  }

  /** `nextEffectPos(efx)`: the index capped at the last effect becomes
      current. It returns the index of the effect last run, which changes
      only in `loop`. */
  function NextEffectPosIndex(reg: Registry, efx: nat, millis: nat): (p: (nat, Registry))
    requires Valid(reg)
    ensures Valid(p.1)
  {
    var reg' := TransitionEffect(reg.(currentEffect := Capu(efx, Count(reg) - 1)), millis);
    (reg'.lastEffectRun, reg')
  }

  /** A valid index is taken as it is, a larger one as the last effect. */
  lemma NextEffectPosIndexClamps(reg: Registry, efx: nat, millis: nat)
    requires Valid(reg)
    ensures var p := NextEffectPosIndex(reg, efx, millis);
            && p.1.currentEffect == (if efx < Count(reg) then efx else Count(reg) - 1)
            && p.0 == reg.lastEffectRun
  {
  }

  /** The first effect named `id`, if any. */
  function Find(names: seq<string>, id: string): (r: Option<nat>)
    ensures r.Some? ==> r.value < |names| && names[r.value] == id
                        && forall k :: 0 <= k < r.value ==> names[k] != id
    ensures r.None? <==> id !in names
  {
    if |names| == 0 then None
    else if names[0] == id then Some(0)
    else
      var r := Find(names[1..], id);
      assert names == [names[0]] + names[1..];
      if r.Some? then Some(r.value + 1) else None
  }

  /** `nextEffectPos(id)`: the first effect of that name becomes current;
      an unknown name changes nothing and returns 0. */
  method NextEffectPosId(reg: Registry, id: string, millis: nat) returns (pos: nat, reg': Registry)
    requires Valid(reg)
    ensures Valid(reg')
    ensures id !in reg.names ==> pos == 0 && reg' == reg
    ensures id in reg.names ==> reg'.currentEffect == Find(reg.names, id).value
                                && reg' == TransitionEffect(reg.(currentEffect := reg'.currentEffect), millis)
                                && pos == reg.lastEffectRun
  {
    var x := 0;
    while x < |reg.names|
      invariant 0 <= x <= |reg.names|
      invariant forall k :: 0 <= k < x ==> reg.names[k] != id
    {
      if reg.names[x] == id {
        reg' := TransitionEffect(reg.(currentEffect := x), millis);
        pos := reg'.lastEffectRun;
        FindFirst(reg.names, id, x);
        return;
      }
      x := x + 1;
    }
    pos, reg' := 0, reg;
  }

  lemma FindFirst(names: seq<string>, id: string, x: nat)
    requires x < |names| && names[x] == id
    requires forall k :: 0 <= k < x ==> names[k] != id
    ensures Find(names, id) == Some(x)
  {
  }

  /** `nextEffectPos()`: with automatic switching on and not asleep, the
      next effect around the list becomes current, one more when that is
      the sleep light; otherwise nothing changes and the current index is
      returned. */
  function NextEffectPosAuto(reg: Registry, millis: nat): (p: (nat, Registry))
    requires Valid(reg)
    ensures Valid(p.1)
  {
    if !reg.autoSwitch || reg.sleepState then (reg.currentEffect, reg)
    else
      var n := Count(reg);
      var next := Inc(reg.currentEffect, 1, n);
      var next' := if next == reg.sleepEffect then Inc(next, 1, n) else next;
      var reg' := TransitionEffect(reg.(currentEffect := next'), millis);
      (reg'.lastEffectRun, reg')
  }

  /** Automatic advance moves one or two places around the list and, with
      two effects or more, never lands on the sleep light. */
  lemma NextEffectPosAutoSkipsSleep(reg: Registry, millis: nat)
    requires Valid(reg)
    ensures !reg.autoSwitch || reg.sleepState ==> NextEffectPosAuto(reg, millis) == (reg.currentEffect, reg)
    ensures reg.autoSwitch && !reg.sleepState ==>
              var c := NextEffectPosAuto(reg, millis).1.currentEffect;
              && (c == Inc(reg.currentEffect, 1, Count(reg))
                  || c == Inc(Inc(reg.currentEffect, 1, Count(reg)), 1, Count(reg)))
              && (Count(reg) >= 2 ==> c != reg.sleepEffect)
  {
    SkipSleep(reg.currentEffect, reg.sleepEffect, Count(reg));
  }

  /** The index arithmetic of the automatic advance. */
  lemma SkipSleep(c: nat, sleep: nat, n: nat)
    requires c < n && sleep < n
    ensures var next := Inc(c, 1, n);
            var next' := if next == sleep then Inc(next, 1, n) else next;
            && (next' == next || next' == Inc(next, 1, n))
            && (n >= 2 ==> next' != sleep)
  {
    if n >= 2 {
      IncOne(sleep, n);
    }
  }

  /** One step around the list: the next index, or 0 after the last. */
  lemma IncOne(x: nat, n: nat)
    requires x < n
    ensures Inc(x, 1, n) == if x + 1 < n then x + 1 else 0
  {
    if x + 1 < n { DivUnique(x + 1, 0, x + 1, n); }
    else { DivUnique(x + 1, 1, 0, n); }
  }

  /** The weight of the first `i` effects together. */
  function Cumulative(weights: seq<nat>, i: nat): nat
    requires i <= |weights|
  {
    if i == 0 then 0 else Cumulative(weights, i - 1) + weights[i - 1]
  }

  lemma CumulativeGrows(weights: seq<nat>, i: nat, j: nat)
    requires i <= j <= |weights|
    ensures Cumulative(weights, i) <= Cumulative(weights, j)
    decreases j
  {
    if i < j { CumulativeGrows(weights, i, j - 1); }
  }

  /** Effect `i` exists and the draw is within the first `i + 1`
      weights. */
  predicate Covers(weights: seq<nat>, rnd: nat, i: nat)
  {
    i < |weights| && rnd <= Cumulative(weights, i + 1)
  }

  /** The selection loop of `nextRandomEffectPos` as written: the draw is
      reduced by each weight with `qsuba`, and the first effect that brings
      it to 0 is chosen; None leaves the current effect. */
  method PickAsWritten(weights: seq<nat>, rnd: nat) returns (chosen: Option<nat>)
    ensures chosen.Some? <==> exists i :: Covers(weights, rnd, i)
    ensures chosen.Some? ==> chosen.value < |weights| && rnd <= Cumulative(weights, chosen.value + 1)
                             && (chosen.value > 0 ==> rnd > Cumulative(weights, chosen.value))
  {
    var r := rnd;
    var i := 0;
    while i < |weights|
      invariant 0 <= i <= |weights|
      invariant r == rnd - Cumulative(weights, i) > 0 || (i == 0 && r == rnd)
    {
      r := Qsuba(r, weights[i]);
      if r == 0 {
        assert Covers(weights, rnd, i);
        chosen := Some(i);
        return;
      }
      i := i + 1;
    }
    chosen := None;
    forall j | 0 <= j ensures !Covers(weights, rnd, j) {
      if j < |weights| { CumulativeGrows(weights, j + 1, |weights|); }
    }
  }

  /** With two effects of weight 1 the draw is 0 or 1, and both choose the
      first: the last effect is never picked. */
  method LastNeverPicked() returns (picks: seq<Option<nat>>)
    ensures picks == [Some(0), Some(0)]
  {
    var weights := [1, 1];
    assert Cumulative(weights, 1) == 1;
    assert Covers(weights, 0, 0) && Covers(weights, 1, 0);
    var a := PickAsWritten(weights, 0);
    var b := PickAsWritten(weights, 1);
    picks := [a, b];
  }

  /** The selection with each effect owning as many draws as its weight:
      the first effect whose cumulative weight exceeds the draw. */
  method Pick(weights: seq<nat>, rnd: nat) returns (chosen: Option<nat>)
    ensures chosen.Some? <==> rnd < Cumulative(weights, |weights|)
    ensures chosen.Some? ==> chosen.value < |weights|
                             && Cumulative(weights, chosen.value) <= rnd < Cumulative(weights, chosen.value + 1)
  {
    var r := rnd;
    var i := 0;
    while i < |weights|
      invariant 0 <= i <= |weights|
      invariant rnd >= Cumulative(weights, i) && r == rnd - Cumulative(weights, i)
    {
      if r < weights[i] {
        chosen := Some(i);
        CumulativeGrows(weights, i + 1, |weights|);
        return;
      }
      r := r - weights[i];
      i := i + 1;
    }
    chosen := None;
  }

  /** Each draw below the total picks exactly the effect whose share holds
      it, so an effect of weight 0 is never picked and one of weight `w`
      by `w` draws. */
  lemma PickOwnsShare(weights: seq<nat>, rnd: nat, i: nat)
    requires i < |weights|
    requires Cumulative(weights, i) <= rnd < Cumulative(weights, i + 1)
    ensures weights[i] > 0
    ensures forall j :: 0 <= j < |weights| && j != i ==>
              !(Cumulative(weights, j) <= rnd < Cumulative(weights, j + 1))
  {
    forall j | 0 <= j < |weights| && j != i
      ensures !(Cumulative(weights, j) <= rnd < Cumulative(weights, j + 1))
    {
      if j < i { CumulativeGrows(weights, j + 1, i); }
      else { CumulativeGrows(weights, i + 1, j); }
    }
  }

  /** `nextRandomEffectPos`: with automatic switching on and not asleep,
      the draw `rnd` (below the total weight) picks the current effect by
      the selection loop as written; otherwise nothing changes. */
  method NextRandomEffectPos(reg: Registry, weights: seq<nat>, rnd: nat, millis: nat)
    returns (pos: nat, reg': Registry)
    requires Valid(reg) && |weights| == Count(reg)
    ensures Valid(reg') && pos == reg'.currentEffect
    ensures reg' == reg.(currentEffect := reg'.currentEffect, machines := reg'.machines)
    ensures !reg.autoSwitch || reg.sleepState ==> reg' == reg
    ensures reg.autoSwitch && !reg.sleepState && rnd < Cumulative(weights, |weights|) ==>
              pos < |weights| && rnd <= Cumulative(weights, pos + 1)
              && (pos > 0 ==> Cumulative(weights, pos) < rnd)
  {
    reg' := reg;
    if reg.autoSwitch && !reg.sleepState {
      if rnd < Cumulative(weights, |weights|) {
        assert Covers(weights, rnd, |weights| - 1);
      }
      var chosen := PickAsWritten(weights, rnd);
      if chosen.Some? {
        reg' := reg'.(currentEffect := chosen.value);
      }
      reg' := TransitionEffect(reg', millis);
    }
    pos := reg'.currentEffect;
  }

  /** `getEffect`: the index capped at the last effect. */
  function GetEffect(reg: Registry, index: nat): (k: nat)
    requires Valid(reg)
    ensures k < Count(reg)
    ensures index < Count(reg) ==> k == index
    ensures index >= Count(reg) ==> k == Count(reg) - 1
  {
    Capu(index, Count(reg) - 1)
  }

  /** `setSleepState`: an unchanged flag does nothing. Going to sleep
      switches to the sleep light; waking returns to the effect run before
      it, or picks at random without enough history. */
  method SetSleepState(reg: Registry, sleepFlag: bool, weights: seq<nat>, rnd: nat, millis: nat)
    returns (reg': Registry)
    requires Valid(reg) && |weights| == Count(reg)
    ensures Valid(reg') && reg'.sleepState == sleepFlag
    ensures reg' == reg.(currentEffect := reg'.currentEffect, machines := reg'.machines, sleepState := sleepFlag)
    ensures sleepFlag == reg.sleepState ==> reg' == reg
    ensures sleepFlag && !reg.sleepState && reg.sleepLightId in reg.names ==>
              reg'.currentEffect == Find(reg.names, reg.sleepLightId).value
    ensures !sleepFlag && reg.sleepState && |reg.lastEffects| >= 2 ==>
              reg'.currentEffect == reg.lastEffects[|reg.lastEffects| - 2]
  {
    if reg.sleepState == sleepFlag {
      return reg;
    }
    reg' := reg.(sleepState := sleepFlag);
    if sleepFlag {
      var _, r := NextEffectPosId(reg', reg.sleepLightId, millis);
      reg' := r;
    } else if |reg.lastEffects| < 2 {
      var _, r := NextRandomEffectPos(reg', weights, rnd, millis);
      reg' := r;
    } else {
      reg' := TransitionEffect(reg'.(currentEffect := reg.lastEffects[|reg.lastEffects| - 2]), millis);
    }
  }

  /** `enableSleep`: the sleep flag follows the setting and the time of
      day (`awake` is `isAwakeTime(now())`). */
  method EnableSleep(reg: Registry, enabled: bool, awake: bool, weights: seq<nat>, rnd: nat, millis: nat)
    returns (reg': Registry)
    requires Valid(reg) && |weights| == Count(reg)
    ensures Valid(reg') && reg'.sleepModeEnabled == enabled
    ensures reg'.sleepState == (enabled && !awake)
  {
    reg' := reg.(sleepModeEnabled := enabled);
    reg' := SetSleepState(reg', enabled && !awake, weights, rnd, millis);
  }

  /** `setup`: every effect is asked to get ready to run; the transition's
      own setup is left out. */
  function SetupAll(reg: Registry, millis: nat): (reg': Registry)
    requires Valid(reg)
    ensures Valid(reg') && reg' == reg.(machines := reg'.machines)
    ensures forall k :: 0 <= k < Count(reg) ==>
              reg'.machines[k] == LE.DesiredState(reg.machines[k], LE.Setup, millis)
  {
    reg.(machines := seq(|reg.machines|, k requires 0 <= k < |reg.machines| =>
                           LE.DesiredState(reg.machines[k], LE.Setup, millis)))
  }

  /** Repeating `setup` five times makes every effect ready to run,
      whatever state each was in. */
  lemma {:induction false} SetupAllReachesSetup(reg: Registry, millis: nat)
    requires Valid(reg)
    ensures var r := SetupAll(SetupAll(SetupAll(SetupAll(SetupAll(reg, millis), millis), millis), millis), millis);
            forall k :: 0 <= k < Count(reg) ==> r.machines[k].state == LE.Setup
  {
    var r1 := SetupAll(reg, millis);
    var r2 := SetupAll(r1, millis);
    var r3 := SetupAll(r2, millis);
    var r4 := SetupAll(r3, millis);
    var r5 := SetupAll(r4, millis);
    forall k | 0 <= k < Count(reg) ensures r5.machines[k].state == LE.Setup {
      LE.SetupReachedWithinFive(reg.machines[k], millis);
      var m := reg.machines[k];
      var m1 := LE.DesiredState(m, LE.Setup, millis);
      var m2 := LE.DesiredState(m1, LE.Setup, millis);
      var m3 := LE.DesiredState(m2, LE.Setup, millis);
      var m4 := LE.DesiredState(m3, LE.Setup, millis);
      assert LE.Desire(m, LE.Setup, millis, 5) == LE.Desire(m1, LE.Setup, millis, 4);
      assert LE.Desire(m1, LE.Setup, millis, 4) == LE.Desire(m2, LE.Setup, millis, 3);
      assert LE.Desire(m2, LE.Setup, millis, 3) == LE.Desire(m3, LE.Setup, millis, 2);
      assert LE.Desire(m3, LE.Setup, millis, 2) == LE.Desire(m4, LE.Setup, millis, 1);
    }
  }

  /** `loop`: once the effect last run has gone idle and another is
      current, the current one becomes the one run and enters the
      history; then the effect run takes its loop step. */
  function Loop(reg: Registry, windDownDone: bool, millis: nat): (reg': Registry)
    requires Valid(reg)
    ensures Valid(reg')
  {
    var switching := reg.lastEffectRun != reg.currentEffect
                     && reg.machines[reg.lastEffectRun].state == LE.Idle;
    var r := if switching
             then reg.(lastEffectRun := reg.currentEffect,
                       lastEffects := FixedQueue.Push(reg.lastEffects, MaxEffectsHistory, reg.currentEffect))
             else reg;
    PushKeepsIndices(reg.lastEffects, reg.currentEffect, Count(reg));
    r.(machines := r.machines[r.lastEffectRun := LE.Loop(r.machines[r.lastEffectRun], windDownDone, millis)])
  }

  lemma PushKeepsIndices(q: seq<nat>, v: nat, n: nat)
    requires |q| <= MaxEffectsHistory && v < n
    requires forall k :: 0 <= k < |q| ==> q[k] < n
    ensures forall k :: 0 <= k < |FixedQueue.Push(q, MaxEffectsHistory, v)| ==>
              FixedQueue.Push(q, MaxEffectsHistory, v)[k] < n
  {
  }

  /** The switch happens only once the old effect is idle, and then the
      history ends with the new effect. */
  lemma LoopSwitchesWhenIdle(reg: Registry, windDownDone: bool, millis: nat)
    requires Valid(reg)
    ensures var reg' := Loop(reg, windDownDone, millis);
            && (reg'.lastEffectRun != reg.lastEffectRun <==>
                  reg.lastEffectRun != reg.currentEffect && reg.machines[reg.lastEffectRun].state == LE.Idle)
            && (reg'.lastEffectRun != reg.lastEffectRun ==>
                  reg'.lastEffectRun == reg.currentEffect
                  && reg'.lastEffects[|reg'.lastEffects| - 1] == reg.currentEffect)
  {
  }
}

=== FILE: fixed_queue.dfy ===
/** The bounded queue of include/fixed_queue.h (the effect history and the
    clock-sync history): a queue of at most `maxSize` values that drops its
    oldest value to make room. Iteration runs over the underlying sequence,
    oldest first, so the sequence is the queue. */
module FixedQueue {
  import opened Base

  /** `push`: at `maxSize` the front is dropped first; the value goes last.
      `maxSize` is the template parameter; at 0 the drop would pop an empty
      deque. */
  function Push<T>(q: seq<T>, maxSize: nat, v: T): (r: seq<T>)
    requires 0 < maxSize && |q| <= maxSize
    ensures |r| <= maxSize
    ensures |r| > 0 && r[|r| - 1] == v
    ensures |q| < maxSize ==> |r| == |q| + 1
    ensures |q| == maxSize ==> |r| == maxSize
  {
    if |q| == maxSize then q[1..] + [v] else q + [v]
  }

  /** A push keeps the most recent values in insertion order: the result
      is the last `maxSize` of the queue followed by the value. */
  lemma PushKeepsOrder<T>(q: seq<T>, maxSize: nat, v: T)
    requires 0 < maxSize && |q| <= maxSize
    ensures Push(q, maxSize, v) == KeepLast(maxSize, q + [v])
  {
    if |q| == maxSize {
      assert (q + [v])[|q| + 1 - maxSize..] == q[1..] + [v];
    }
  }

  /** Pushing several values one at a time. */
  function PushAll<T>(q: seq<T>, maxSize: nat, values: seq<T>): (r: seq<T>)
    requires 0 < maxSize && |q| <= maxSize
    ensures |r| <= maxSize
    decreases |values|
  {
    if |values| == 0 then q else PushAll(Push(q, maxSize, values[0]), maxSize, values[1..])
  }

  /** However many values are pushed, the queue holds the last `maxSize`
      of everything pushed, oldest first. */
  lemma {:induction false} PushAllKeepsLast<T>(q: seq<T>, maxSize: nat, values: seq<T>)
    requires 0 < maxSize && |q| <= maxSize
    ensures PushAll(q, maxSize, values) == KeepLast(maxSize, q + values)
    decreases |values|
  {
    if |values| > 0 {
      var q' := Push(q, maxSize, values[0]);
      PushKeepsOrder(q, maxSize, values[0]);
      PushAllKeepsLast(q', maxSize, values[1..]);
      KeepLastAssoc(maxSize, q + [values[0]], values[1..]);
      assert q + [values[0]] + values[1..] == q + values;
    }
  }

  /** Dropping old values early does not change which values are last. */
  lemma KeepLastAssoc<T>(n: nat, s: seq<T>, t: seq<T>)
    ensures KeepLast(n, KeepLast(n, s) + t) == KeepLast(n, s + t)
  {
    if |s| > n {
      var k := KeepLast(n, s);
      assert (s + t)[|s + t| - Min(n, |s + t|)..] == (k + t)[|k + t| - Min(n, |k + t|)..];
    }
  }
}

=== FILE: fx_schedule.dfy ===
/** The daily sleep/wake schedule of src/FxSchedule.cpp: a list of alarms,
    topped up so that one alarm of each kind lies ahead, and fired when
    due. The alarm handlers are not modelled: the fired alarms are
    returned instead. */
module FxSchedule {
  import opened Base

  const SecsPerDay: int := 86400
  /** `dailyBedTime`: 00:30. */
  const DailyBedTime: int := 30 * 60
  /** `dailyWakeupTime`: 06:00. */
  const DailyWakeupTime: int := 6 * 3600

  datatype AlarmType = Bedtime | Wakeup

  /** `AlarmData` without its handler. */
  datatype Alarm = Alarm(value: int, kind: AlarmType)

  /** `alarmTypeToString`. */
  function AlarmTypeName(t: AlarmType): (s: string)
    ensures |s| > 0
  {
    match t
    case Wakeup => "Wake-Up"
    case Bedtime => "Bed time"
  }

  lemma AlarmTypeNamesDiffer()
    ensures AlarmTypeName(Wakeup) != AlarmTypeName(Bedtime)
  {
    assert AlarmTypeName(Wakeup)[0] != AlarmTypeName(Bedtime)[0];
  }

  /** `previousMidnight`: the C quotient by a day, times a day. */
  function PreviousMidnight(t: int): (m: int)
    ensures t >= 0 ==> m <= t < m + SecsPerDay && m % SecsPerDay == 0
    ensures t < 0 ==> t <= m
  {
    CDivNonNegativeOr(t);
    CDiv(t, SecsPerDay) * SecsPerDay
  }

  lemma CDivNonNegativeOr(t: int)
    ensures t >= 0 ==> CDiv(t, SecsPerDay) == t / SecsPerDay
    ensures t < 0 ==> CDiv(t, SecsPerDay) * SecsPerDay >= t
  {
    if t >= 0 { CDivNonNegative(t, SecsPerDay); }
    else {
      CDivNonNegative(-t, SecsPerDay);
    }
  }

  /** `isAwakeTime`: bedtime and wake-up are placed on the day of `t`; when
      bedtime came after wake-up the awake span would lie between them,
      otherwise (as configured) it lies outside them. */
  function IsAwakeTime(t: int): bool
  {
    var startDay := PreviousMidnight(t);
    var bedTime := startDay + DailyBedTime;
    var wakeTime := startDay + DailyWakeupTime;
    if bedTime > wakeTime then !(t >= bedTime || t < wakeTime)
    else t >= wakeTime || t < bedTime
  }

  /** The lights sleep exactly from 00:30 to 06:00 of each day. */
  lemma AsleepFromHalfPastMidnightToSix(t: int)
    requires t >= 0
    ensures !IsAwakeTime(t) <==> 1800 <= t % SecsPerDay < 21600
  {
    var m := PreviousMidnight(t);
    assert m == (t / SecsPerDay) * SecsPerDay;
    assert t % SecsPerDay == t - m;
  }

  /** The alarms of one kind strictly after `ref`, in order. */
  function FutureOf(alarms: seq<Alarm>, kind: AlarmType, ref: int): (r: seq<Alarm>)
    ensures |r| <= |alarms|
    ensures forall a :: a in r <==> a in alarms && a.value > ref && a.kind == kind
  {
    if |alarms| == 0 then []
    else
      var rest := FutureOf(alarms[..|alarms| - 1], kind, ref);
      var a := alarms[|alarms| - 1];
      assert alarms == alarms[..|alarms| - 1] + [a];
      if a.value > ref && a.kind == kind then rest + [a] else rest
  }

  /** True when some alarm of the kind lies after `ref`. */
  predicate HasFuture(alarms: seq<Alarm>, kind: AlarmType, ref: int)
  {
    exists a :: a in alarms && a.value > ref && a.kind == kind
  }

  lemma FutureOfEmpty(alarms: seq<Alarm>, kind: AlarmType, ref: int)
    ensures |FutureOf(alarms, kind, ref)| == 0 <==> !HasFuture(alarms, kind, ref)
  {
    var f := FutureOf(alarms, kind, ref);
    if |f| > 0 { assert f[0] in f; }
  }

  /** `countFutureAlarms`. */
  method CountFutureAlarms(alarms: seq<Alarm>, kind: AlarmType, ref: int) returns (count: nat)
    ensures count == |FutureOf(alarms, kind, ref)|
    ensures count == 0 <==> !HasFuture(alarms, kind, ref)
  {
    count := 0;
    var i := 0;
    while i < |alarms|
      invariant 0 <= i <= |alarms|
      invariant count == |FutureOf(alarms[..i], kind, ref)|
    {
      assert alarms[..i + 1][..i] == alarms[..i];
      if alarms[i].value > ref && alarms[i].kind == kind {
        count := count + 1;
      }
      i := i + 1;
    }
    assert alarms[..i] == alarms;
    FutureOfEmpty(alarms, kind, ref);
  }

  /** The alarm of a kind for the day of `time`: at `offset` after its
      midnight, or a day later once that has passed. */
  function NextAlarm(time: int, offset: int, kind: AlarmType): (a: Alarm)
    requires 0 <= offset < SecsPerDay
    ensures a.kind == kind && a.value > time
    ensures a.value == PreviousMidnight(time) + offset || a.value == PreviousMidnight(time) + offset + SecsPerDay
  {
    var at := PreviousMidnight(time) + offset;
    Alarm(if time < at then at else at + SecsPerDay, kind)
  }

  /** One half of `scheduleDay`: an alarm of the kind is added when none
      lies ahead. */
  function TopUp(alarms: seq<Alarm>, time: int, kind: AlarmType): (r: seq<Alarm>)
    ensures |alarms| <= |r| <= |alarms| + 1 && r[..|alarms|] == alarms
  {
    if |FutureOf(alarms, kind, time)| < 1 then alarms + [NextAlarm(time, OffsetOf(kind), kind)] else alarms
  }

  /** After a top-up an alarm of the kind lies ahead; the list grows only
      when none did, by that kind's alarm; other kinds are unaffected. */
  lemma TopUpCovers(alarms: seq<Alarm>, time: int, kind: AlarmType)
    ensures HasFuture(TopUp(alarms, time, kind), kind, time)
    ensures HasFuture(alarms, kind, time) ==> TopUp(alarms, time, kind) == alarms
    ensures !HasFuture(alarms, kind, time) ==>
              TopUp(alarms, time, kind) == alarms + [NextAlarm(time, OffsetOf(kind), kind)]
    ensures forall other :: other != kind ==>
              (HasFuture(TopUp(alarms, time, kind), other, time) <==> HasFuture(alarms, other, time))
  {
    FutureOfEmpty(alarms, kind, time);
    var a := NextAlarm(time, OffsetOf(kind), kind);
    assert a in alarms + [a];
  }

  /** `scheduleDay`: a wake-up alarm is added when none lies ahead, then a
      bedtime alarm likewise. */
  function ScheduleDay(alarms: seq<Alarm>, time: int): (r: seq<Alarm>)
    ensures |alarms| <= |r| <= |alarms| + 2 && r[..|alarms|] == alarms
  {
    TopUp(TopUp(alarms, time, Wakeup), time, Bedtime)
  }

  /** After scheduling, an alarm of each kind lies ahead; an alarm is added
      only for a kind that had none, and lands today or tomorrow at its
      time of day. */
  lemma ScheduleDayCoversBoth(alarms: seq<Alarm>, time: int)
    ensures HasFuture(ScheduleDay(alarms, time), Wakeup, time)
    ensures HasFuture(ScheduleDay(alarms, time), Bedtime, time)
    ensures HasFuture(alarms, Wakeup, time) && HasFuture(alarms, Bedtime, time)
            ==> ScheduleDay(alarms, time) == alarms
    ensures forall k :: |alarms| <= k < |ScheduleDay(alarms, time)| ==>
              var a := ScheduleDay(alarms, time)[k];
              && !HasFuture(alarms, a.kind, time)
              && (a.value == PreviousMidnight(time) + OffsetOf(a.kind)
                  || a.value == PreviousMidnight(time) + OffsetOf(a.kind) + SecsPerDay)
  {
    var w := TopUp(alarms, time, Wakeup);
    TopUpCovers(alarms, time, Wakeup);
    TopUpCovers(w, time, Bedtime);
  }

  /** The time of day of each kind's alarm. */
  function OffsetOf(kind: AlarmType): int
  {
    match kind
    case Wakeup => DailyWakeupTime
    case Bedtime => DailyBedTime
  }

  /** The alarms due at `time`, in order. */
  function Due(alarms: seq<Alarm>, time: int): (r: seq<Alarm>)
    ensures forall a :: a in r <==> a in alarms && a.value <= time
  {
    if |alarms| == 0 then []
    else
      var a := alarms[|alarms| - 1];
      assert alarms == alarms[..|alarms| - 1] + [a];
      var rest := Due(alarms[..|alarms| - 1], time);
      if a.value <= time then rest + [a] else rest
  }

  /** The alarms still pending at `time`, in order. */
  function Pending(alarms: seq<Alarm>, time: int): (r: seq<Alarm>)
    ensures forall a :: a in r <==> a in alarms && a.value > time
  {
    if |alarms| == 0 then []
    else
      var a := alarms[|alarms| - 1];
      assert alarms == alarms[..|alarms| - 1] + [a];
      var rest := Pending(alarms[..|alarms| - 1], time);
      if a.value > time then rest + [a] else rest
  }

  /** Every alarm is either due or pending, and none is lost. */
  lemma {:induction false} DuePendingSplit(alarms: seq<Alarm>, time: int)
    ensures |Due(alarms, time)| + |Pending(alarms, time)| == |alarms|
    ensures multiset(Due(alarms, time)) + multiset(Pending(alarms, time)) == multiset(alarms)
  {
    if |alarms| > 0 {
      var front := alarms[..|alarms| - 1];
      DuePendingSplit(front, time);
      assert alarms == front + [alarms[|alarms| - 1]];
    }
  }

  /** The erase loop of `alarm_loop`: each due alarm is fired and removed,
      the iterator otherwise moving on. */
  method FireDue(alarms: seq<Alarm>, time: int) returns (fired: seq<Alarm>, remaining: seq<Alarm>)
    ensures fired == Due(alarms, time)
    ensures remaining == Pending(alarms, time)
  {
    fired := [];
    remaining := [];
    var i := 0;
    while i < |alarms|
      invariant 0 <= i <= |alarms|
      invariant fired == Due(alarms[..i], time)
      invariant remaining == Pending(alarms[..i], time)
    {
      assert alarms[..i + 1][..i] == alarms[..i];
      if alarms[i].value <= time {
        fired := fired + [alarms[i]];
      } else {
        remaining := remaining + [alarms[i]];
      }
      i := i + 1;
    }
    assert alarms[..i] == alarms;
  }

  /** `alarm_loop`: on a new day `setupAlarmSchedule` tops up the schedule
      (and `currentDay` moves to today), and `adjustCurrentEffect` asks the
      effect registry to sleep exactly when it is not awake time; then the
      due alarms fire. `sleepRequest` is the flag handed to
      `EffectRegistry::setSleepState`, None when it is not called. */
  method AlarmLoop(alarms: seq<Alarm>, currentDay: int, today: int, time: int)
    returns (fired: seq<Alarm>, remaining: seq<Alarm>, day: int, sleepRequest: Option<bool>)
    ensures day == today
    ensures sleepRequest.Some? <==> currentDay != today
    ensures sleepRequest.Some? ==> (sleepRequest.value <==> !IsAwakeTime(time))
    ensures sleepRequest.Some? && time >= 0 ==> (sleepRequest.value <==> 1800 <= time % SecsPerDay < 21600)
    ensures var scheduled := if currentDay != today then ScheduleDay(alarms, time) else alarms;
            fired == Due(scheduled, time) && remaining == Pending(scheduled, time)
    ensures currentDay != today ==> HasFuture(remaining, Wakeup, time) && HasFuture(remaining, Bedtime, time)
  {
    var scheduled := alarms;
    day := currentDay;
    sleepRequest := None;
    if currentDay != today {
      ScheduleDayCoversBoth(alarms, time);
      scheduled := ScheduleDay(alarms, time);
      day := today;
      sleepRequest := Some(!IsAwakeTime(time));
      if time >= 0 {
        AsleepFromHalfPastMidnightToSix(time);
      }
    }
    fired, remaining := FireDue(scheduled, time);
    if currentDay != today {
      PendingKeepsFuture(scheduled, time, Wakeup);
      PendingKeepsFuture(scheduled, time, Bedtime);
    }
  }

  /** An alarm ahead of `time` is not fired. */
  lemma PendingKeepsFuture(alarms: seq<Alarm>, time: int, kind: AlarmType)
    requires HasFuture(alarms, kind, time)
    ensures HasFuture(Pending(alarms, time), kind, time)
  {
    var a :| a in alarms && a.value > time && a.kind == kind;
    assert a in Pending(alarms, time);
  }
}

=== FILE: fx_util.dfy ===
/** The pixel-array helpers of src/fxutil.cpp: a viewport limiting the
    pixels touched, shifts and rotations of a pixel set, mirroring, tiling
    a pattern, a shuffled index table, and the blend that walks one colour
    onto another. A pixel set is a sequence; FastLED's pixel ranges
    `set(a, b)` include both ends. */
module FxUtil {
  import opened Base

  /** `Viewport`: the pixels from `low` up to, not including, `high`. */
  datatype Viewport = Viewport(low: nat, high: nat)

  /** `Viewport::size`: `high - low`, 0 when `high` is not above `low`. */
  function Size(v: Viewport): (n: nat)
    ensures n == if v.high > v.low then v.high - v.low else 0
  {
    if v.high > v.low then v.high - v.low else 0
  }

  /** An empty viewport stands for the whole set. */
  function Effective(v: Viewport, n: nat): (v': Viewport)
    ensures Size(v) > 0 ==> v' == v
    ensures Size(v) == 0 ==> v' == Viewport(0, n)
  {
    if Size(v) == 0 then Viewport(0, n) else v
  }

  function Capu(x: int, u: int): int
  {
    if x >= u then u else x
  }

  /** `set(lo, hi) = color`: pixels `lo` through `hi` take the colour. */
  function Fill<T>(s: seq<T>, lo: nat, hi: nat, color: T): (r: seq<T>)
    ensures |r| == |s|
    ensures forall i :: 0 <= i < |s| ==> r[i] == if lo <= i <= hi then color else s[i]
  {
    seq(|s|, i requires 0 <= i < |s| => if lo <= i <= hi then color else s[i])
  }

  /** The guard shared by the shifts: nothing to move. */
  predicate NoMove<T>(s: seq<T>, v: Viewport, pos: nat)
  {
    pos == 0 || |s| == 0 || v.low >= |s|
  }

  /** What pixel `j` holds after a right shift of the pixels in
      [low, hiMark): the feed below index `pos`, otherwise the pixel `pos`
      places to its left. */
  function ShiftRightAt<T>(s: seq<T>, feed: T, low: nat, hiMark: nat, pos: nat, j: nat): T
    requires j < |s|
  {
    if low <= j < hiMark then (if j < pos then feed else s[j - pos]) else s[j]
  }

  /** `shiftRight`: the viewport's pixels move `pos` places right, the
      feed colour entering on the left; a shift by the viewport's size or
      more paints it all with the feed. */
  method ShiftRight<T>(s: seq<T>, feed: T, vwp: Viewport, pos: nat) returns (r: seq<T>)
    ensures |r| == |s|
    ensures NoMove(s, vwp, pos) ==> r == s
    ensures !NoMove(s, vwp, pos) && pos >= Size(Effective(vwp, |s|)) ==>
              var v := Effective(vwp, |s|);
              r == Fill(s, v.low, Capu(v.high, |s| - 1), feed)
    ensures !NoMove(s, vwp, pos) && pos < Size(Effective(vwp, |s|)) ==>
              var v := Effective(vwp, |s|);
              forall j :: 0 <= j < |s| ==> r[j] == ShiftRightAt(s, feed, v.low, Capu(v.high, |s|), pos, j)
  {
    if NoMove(s, vwp, pos) {
      return s;
    }
    var v := Effective(vwp, |s|);
    if pos >= Size(v) {
      return Fill(s, v.low, Capu(v.high, |s| - 1), feed);
    }
    var hiMark := Capu(v.high, |s|);
    r := s;
    var x := hiMark;
    while x > v.low
      invariant v.low <= x <= hiMark <= |s| && |r| == |s|
      invariant forall j :: 0 <= j < x ==> r[j] == s[j]
      invariant forall j :: x <= j < |s| ==> r[j] == ShiftRightAt(s, feed, v.low, hiMark, pos, j)
    {
      var y := x - 1;
      r := r[y := if y < pos then feed else r[y - pos]];
      x := x - 1;
    }
  }

  /** What pixel `j` holds after a left shift of pixels `low` through
      `hiMark`: the pixel `pos` places to its right, or the feed past the
      end of the set. */
  function ShiftLeftAt<T>(s: seq<T>, feed: T, low: nat, hiMark: nat, pos: nat, j: nat): T
    requires j < |s|
  {
    if low <= j <= hiMark then (if j + pos < |s| then s[j + pos] else feed) else s[j]
  }

  /** `shiftLeft`: the viewport's pixels move `pos` places left, the feed
      colour entering from the right end of the set. */
  method ShiftLeft<T>(s: seq<T>, feed: T, vwp: Viewport, pos: nat) returns (r: seq<T>)
    ensures |r| == |s|
    ensures NoMove(s, vwp, pos) ==> r == s
    ensures !NoMove(s, vwp, pos) && pos >= Size(Effective(vwp, |s|)) ==>
              var v := Effective(vwp, |s|);
              r == Fill(s, v.low, Capu(v.high, |s| - 1), feed)
    ensures !NoMove(s, vwp, pos) && pos < Size(Effective(vwp, |s|)) ==>
              var v := Effective(vwp, |s|);
              forall j :: 0 <= j < |s| ==> r[j] == ShiftLeftAt(s, feed, v.low, Capu(v.high, |s| - 1), pos, j)
  {
    if NoMove(s, vwp, pos) {
      return s;
    }
    var v := Effective(vwp, |s|);
    var hiMark := Capu(v.high, |s| - 1);
    if pos >= Size(v) {
      return Fill(s, v.low, hiMark, feed);
    }
    r := s;
    var x := v.low;
    while x <= hiMark
      invariant v.low <= x <= hiMark + 1 && hiMark < |s| && |r| == |s|
      invariant forall j :: x <= j < |s| ==> r[j] == s[j]
      invariant forall j :: 0 <= j < x ==> r[j] == ShiftLeftAt(s, feed, v.low, hiMark, pos, j)
    {
      var y := x + pos;
      r := r[x := if y < |s| then r[y] else feed];
      x := x + 1;
    }
  }

  /** Over the whole set, a right shift drops the last `pos` pixels and
      feeds `pos` on the left, and a left shift the mirror image. */
  lemma WholeSetShifts<T>(s: seq<T>, feed: T, pos: nat, j: nat)
    requires 0 < pos < |s| && j < |s|
    ensures ShiftRightAt(s, feed, 0, |s|, pos, j) == (seq(pos, _ => feed) + s[..|s| - pos])[j]
    ensures ShiftLeftAt(s, feed, 0, |s| - 1, pos, j) == (s[pos..] + seq(pos, _ => feed))[j]
  {
  }

  /** Over the whole set, a left shift undoes a right shift by the same
      amount on every pixel that was not pushed off the end. */
  lemma ShiftLeftUndoesShiftRight<T>(s: seq<T>, feed: T, pos: nat, j: nat)
    requires 0 < pos < |s| && j < |s| - pos
    ensures var shifted := seq(|s|, i requires 0 <= i < |s| => ShiftRightAt(s, feed, 0, |s|, pos, i));
            ShiftLeftAt(shifted, feed, 0, |s| - 1, pos, j) == s[j]
  {
  }

  /** What pixel `j` holds after rotating [low, hiMark) right by `p`: the
      pixels falling off the right re-enter at index `p - 1` and below from
      the saved buffer, which is `stale` where it was never filled. */
  function LoopRightAt<T>(s: seq<T>, low: nat, hiMark: nat, p: nat, stale: T, j: nat): T
    requires j < |s| && hiMark <= |s|
  {
    if low <= j < hiMark then
      if j < p then (if p <= hiMark then s[hiMark - p + j] else stale) else s[j - p]
    else s[j]
  }

  /** `loopRight`: the shift amount is taken modulo the viewport's size;
      the pixels leaving on the right are kept in a buffer and written back
      on the left. `stale` is what the uninitialised buffer holds. */
  method LoopRight<T>(s: seq<T>, vwp: Viewport, pos: nat, stale: T) returns (r: seq<T>)
    ensures |r| == |s|
    ensures NoMove(s, vwp, pos) ==> r == s
    ensures !NoMove(s, vwp, pos) ==>
              var v := Effective(vwp, |s|);
              forall j :: 0 <= j < |s| ==>
                r[j] == LoopRightAt(s, v.low, Capu(v.high, |s|), pos % Size(v), stale, j)
  {
    if NoMove(s, vwp, pos) {
      return s;
    }
    var v := Effective(vwp, |s|);
    var hiMark := Capu(v.high, |s|);
    var p := pos % Size(v);
    var buf := seq(p, _ => stale);
    r := s;
    var x := hiMark;
    while x > v.low
      invariant v.low <= x <= hiMark <= |s| && |r| == |s| && |buf| == p
      invariant RotatedFrom(s, r, v.low, hiMark, p, stale, x)
      invariant Saved(s, buf, hiMark, stale, x)
    {
      var y := x - 1;
      ghost var prevBuf := buf;
      if hiMark - x < p {
        buf := buf[hiMark - x := r[y]];
      }
      LoopRightStep(s, r, prevBuf, buf, v.low, hiMark, p, stale, x);
      r := r[y := if y < p then buf[p - y - 1] else r[y - p]];
      x := x - 1;
    }
  }

  /** The pixels from `x` on are rotated, the others untouched. */
  ghost predicate RotatedFrom<T>(s: seq<T>, r: seq<T>, low: nat, hiMark: nat, p: nat, stale: T, x: nat)
    requires hiMark <= |s| == |r|
  {
    && (forall j :: 0 <= j < x && j < |s| ==> r[j] == s[j])
    && (forall j :: hiMark <= j < |s| ==> r[j] == s[j])
    && (forall j :: x <= j < hiMark ==> r[j] == LoopRightAt(s, low, hiMark, p, stale, j))
  }

  /** The buffer holds, last first, the pixels already passed from the
      top; the rest of it is still stale. */
  ghost predicate Saved<T>(s: seq<T>, buf: seq<T>, hiMark: nat, stale: T, x: nat)
    requires x <= hiMark <= |s|
  {
    forall k :: 0 <= k < |buf| ==> buf[k] == if k < hiMark - x then s[hiMark - 1 - k] else stale
  }

  /** One pass of the `loopRight` loop keeps both invariants. */
  lemma LoopRightStep<T>(s: seq<T>, r: seq<T>, buf: seq<T>, buf': seq<T>, low: nat, hiMark: nat, p: nat, stale: T, x: nat)
    requires low < x <= hiMark <= |s| && |r| == |s| && |buf| == p
    requires RotatedFrom(s, r, low, hiMark, p, stale, x) && Saved(s, buf, hiMark, stale, x)
    requires buf' == if hiMark - x < p then buf[hiMark - x := r[x - 1]] else buf
    ensures |buf'| == p && Saved(s, buf', hiMark, stale, x - 1)
    ensures x - 1 < p ==> p - (x - 1) - 1 < |buf'|
    ensures x - 1 >= p ==> x - 1 - p < |r|
    ensures var r' := r[x - 1 := if x - 1 < p then buf'[p - (x - 1) - 1] else r[x - 1 - p]];
            RotatedFrom(s, r', low, hiMark, p, stale, x - 1)
  {
    var y := x - 1;
    assert r[y] == s[y];
    var r' := r[y := if y < p then buf'[p - y - 1] else r[y - p]];
    if y >= p {
      assert r[y - p] == s[y - p];
    }
    assert r'[y] == LoopRightAt(s, low, hiMark, p, stale, y);
  }

  /** Over the whole set, `loopRight` is a rotation: the last `pos mod n`
      pixels move to the front. */
  lemma WholeSetRotates<T>(s: seq<T>, pos: nat, stale: T, j: nat)
    requires j < |s|
    ensures var p := pos % |s|;
            LoopRightAt(s, 0, |s|, p, stale, j) == (s[|s| - p..] + s[..|s| - p])[j]
  {
  }

  /** `spreadColor`: the first pixel not yet of the colour is blended toward
      it (`blend` is FastLED's `nblend` at the gradient); true, with nothing
      changed, when every pixel already has the colour. */
  method SpreadColor<T(==)>(s: seq<T>, color: T, blend: T -> T) returns (done: bool, r: seq<T>)
    ensures done <==> forall i :: 0 <= i < |s| ==> s[i] == color
    ensures done ==> r == s
    ensures !done ==> exists k :: FirstMismatch(s, color, k) && r == s[k := blend(s[k])]
  {
    var clrPos := 0;
    while clrPos < |s|
      invariant 0 <= clrPos <= |s|
      invariant forall i :: 0 <= i < clrPos ==> s[i] == color
    {
      if s[clrPos] != color {
        break;
      }
      clrPos := clrPos + 1;
    }
    if clrPos == |s| {
      return true, s;
    }
    done, r := false, s[clrPos := blend(s[clrPos])];
  }

  /** Pixel `k` is the first not of the colour. */
  predicate FirstMismatch<T(==)>(s: seq<T>, color: T, k: int)
  {
    0 <= k < |s| && s[k] != color && forall i :: 0 <= i < k ==> s[i] == color
  }

  /** `areSame`: same length and the same pixels. */
  method AreSame<T(==)>(lhs: seq<T>, rhs: seq<T>) returns (same: bool)
    ensures same <==> lhs == rhs
  {
    if |lhs| != |rhs| {
      return false;
    }
    var i := 0;
    while i < |lhs|
      invariant 0 <= i <= |lhs|
      invariant lhs[..i] == rhs[..i]
    {
      if lhs[i] != rhs[i] {
        return false;
      }
      assert lhs[..i + 1] == lhs[..i] + [lhs[i]] && rhs[..i + 1] == rhs[..i] + [rhs[i]];
      i := i + 1;
    }
    assert lhs[..i] == lhs && rhs[..i] == rhs;
    same := true;
  }

  /** The indices 0 to n - 1 in order. */
  function Identity(n: nat): (r: seq<nat>)
    ensures |r| == n && forall i :: 0 <= i < n ==> r[i] == i
  {
    seq(n, i => i)
  }

  /** `shuffleIndexes`: the table 0..n-1, then `n/2 + n/8` swaps of entry
      `x` with a random entry; `draws[x]` is the `random16(0, n)` value of
      swap `x`, below `n`. */
  method ShuffleIndexes(n: nat, draws: seq<nat>) returns (a: seq<nat>)
    requires |draws| >= n / 2 + n / 8
    requires forall x :: 0 <= x < |draws| ==> draws[x] < n
    ensures |a| == n
    ensures multiset(a) == multiset(Identity(n))
  {
    a := Identity(n);
    var swIter := n / 2 + n / 8;
    var x := 0;
    while x < swIter
      invariant 0 <= x <= swIter && |a| == n
      invariant multiset(a) == multiset(Identity(n))
    {
      SwapBound(n, swIter, x);
      var r := draws[x];
      var tmp := a[x];
      a := a[x := a[r]][r := tmp];
      x := x + 1;
    }
  }

  lemma SwapBound(n: nat, swIter: nat, x: nat)
    requires swIter == n / 2 + n / 8 && x < swIter
    ensures x < n
  {
  }

  /** A permutation of 0..n-1 holds each index once. */
  lemma ShuffleHoldsEachIndex(a: seq<nat>, n: nat, v: nat)
    requires multiset(a) == multiset(Identity(n))
    ensures multiset(a)[v] == if v < n then 1 else 0
  {
    IdentityCounts(n, v);
  }

  lemma {:induction false} IdentityCounts(n: nat, v: nat)
    ensures multiset(Identity(n))[v] == if v < n then 1 else 0
  {
    if n > 0 {
      IdentityCounts(n - 1, v);
      assert Identity(n) == Identity(n - 1) + [n - 1];
    }
  }

  /** Pixel `d` of an endless repetition of the first `srcLength` pixels. */
  function TileAt<T>(src: seq<T>, srcLength: nat, d: nat): T
    requires 0 < srcLength <= |src|
  {
    src[d % srcLength]
  }

  /** `fillArray`: from `arrOfs` on, the array is covered with copies of the
      first `srcLength` source pixels, the last copy cut at the array's
      end. A `srcLength` of 0 would never advance. */
  method FillArray<T>(src: seq<T>, srcLength: nat, arr: seq<T>, arrOfs: nat) returns (r: seq<T>)
    requires 0 < srcLength <= |src|
    ensures |r| == |arr|
    ensures forall i :: 0 <= i < |arr| && i < arrOfs ==> r[i] == arr[i]
    ensures forall i :: arrOfs <= i < |arr| ==> r[i] == TileAt(src, srcLength, i - arrOfs)
  {
    r := arr;
    var cur := arrOfs;
    ghost var frames: nat := 0;
    while cur < |arr|
      invariant |r| == |arr| && cur == arrOfs + frames * srcLength
      invariant forall i :: 0 <= i < |arr| && (i < arrOfs || i >= cur) ==> r[i] == arr[i]
      invariant forall i :: arrOfs <= i < |arr| && i < cur ==> r[i] == TileAt(src, srcLength, i - arrOfs)
      decreases |arr| - cur
    {
      var len := Capu(cur + srcLength, |arr|) - cur;
      ghost var prev := r;
      r := CopyFrame(src, r, cur, len);
      FrameFilled(src, srcLength, prev, r, arrOfs, frames, len);
      cur := cur + srcLength;
      frames := frames + 1;
    }
  }

  /** One copy lays the next frame of the repetition. */
  lemma FrameFilled<T>(src: seq<T>, srcLength: nat, prev: seq<T>, r: seq<T>, arrOfs: nat, frames: nat, len: nat)
    requires 0 < srcLength <= |src| && len <= srcLength
    requires arrOfs + frames * srcLength + len <= |prev| == |r|
    requires forall i :: 0 <= i < |r| ==>
               r[i] == if arrOfs + frames * srcLength <= i < arrOfs + frames * srcLength + len
                       then src[i - (arrOfs + frames * srcLength)] else prev[i]
    ensures forall i :: arrOfs + frames * srcLength <= i < arrOfs + frames * srcLength + len ==>
              r[i] == TileAt(src, srcLength, i - arrOfs)
  {
    var cur := arrOfs + frames * srcLength;
    forall i | cur <= i < cur + len
      ensures r[i] == TileAt(src, srcLength, i - arrOfs)
    {
      DivUnique(i - arrOfs, frames, i - cur, srcLength);
    }
  }

  /** `copyArray(src, 0, dest, ofs, len)`. */
  function CopyFrame<T>(src: seq<T>, dest: seq<T>, ofs: nat, len: nat): (r: seq<T>)
    requires len <= |src| && ofs + len <= |dest|
    ensures |r| == |dest|
    ensures forall i :: 0 <= i < |dest| ==> r[i] == if ofs <= i < ofs + len then src[i - ofs] else dest[i]
  {
    dest[..ofs] + src[..len] + dest[ofs + len..]
  }

  /** The result of `mirrorLow`: the upper half copies the lower half. */
  function MirroredLow<T>(s: seq<T>, i: nat): T
    requires i < |s|
  {
    if i >= |s| - |s| / 2 then s[|s| - 1 - i] else s[i]
  }

  /** `mirrorLow`: pixel `n-1-x` takes pixel `x`, for `x` below `n/2`. */
  method MirrorLow<T>(s: seq<T>) returns (r: seq<T>)
    ensures |r| == |s|
    ensures forall i :: 0 <= i < |s| ==> r[i] == MirroredLow(s, i)
  {
    r := s;
    var swaps := |s| / 2;
    var x := 0;
    while x < swaps
      invariant 0 <= x <= swaps && |r| == |s|
      invariant forall i :: 0 <= i < |s| - x ==> r[i] == s[i]
      invariant forall i :: |s| - x <= i < |s| ==> r[i] == s[|s| - 1 - i]
    {
      HalfBelow(|s|, x);
      r := r[|s| - x - 1 := r[x]];
      x := x + 1;
    }
  }

  /** `mirrorHigh`: pixel `x` takes pixel `n-1-x`, for `x` below `n/2`. */
  method MirrorHigh<T>(s: seq<T>) returns (r: seq<T>)
    ensures |r| == |s|
    ensures forall i :: 0 <= i < |s| ==> r[i] == if i < |s| / 2 then s[|s| - 1 - i] else s[i]
  {
    r := s;
    var swaps := |s| / 2;
    var x := 0;
    while x < swaps
      invariant 0 <= x <= swaps && |r| == |s|
      invariant forall i :: 0 <= i < x ==> r[i] == s[|s| - 1 - i]
      invariant forall i :: x <= i < |s| ==> r[i] == s[i]
    {
      HalfBelow(|s|, x);
      r := r[x := r[|s| - x - 1]];
      x := x + 1;
    }
  }

  lemma HalfBelow(n: nat, x: nat)
    requires x < n / 2
    ensures 2 * x + 2 <= n
  {
  }

  /** A set reading the same both ways. */
  ghost predicate Palindrome<T>(s: seq<T>)
  {
    forall i :: 0 <= i < |s| ==> s[i] == s[|s| - 1 - i]
  }

  /** Both mirrors leave a palindrome; `mirrorLow` keeps the lower half and
      `mirrorHigh` the upper half. */
  lemma MirrorsArePalindromes<T>(s: seq<T>)
    ensures Palindrome(seq(|s|, i requires 0 <= i < |s| => MirroredLow(s, i)))
    ensures Palindrome(seq(|s|, i requires 0 <= i < |s| => if i < |s| / 2 then s[|s| - 1 - i] else s[i]))
  {
  }

  /** FastLED's `scale8_video`: `i * scale / 256`, plus one when both are
      nonzero, so that a nonzero value never scales to 0. */
  function Scale8Video(i: byte, scale: byte): (r: byte)
    ensures i > 0 && scale > 0 ==> r > 0
    ensures scale < 255 ==> r <= i
  {
    var j := (i as int * scale as int) / 256 + (if i > 0 && scale > 0 then 1 else 0);
    ScaleBound(i as int, scale as int);
    j as byte
  }

  lemma ScaleBound(i: int, scale: int)
    requires 0 <= i < 256 && 0 <= scale < 256
    ensures (i * scale) / 256 + 1 <= 256
    ensures scale < 255 && i > 0 ==> (i * scale) / 256 + 1 <= i
  {
    assert i * scale <= i * 255;
    if scale < 255 && i > 0 {
      assert i * scale <= i * 254;
      assert i * 254 < i * 256;
      assert (i * scale) / 256 < i;
    }
  }

  /** `rblend8`: one blend step of `a` toward `b` by `amt`/256, reporting
      whether `a` has reached `b`. An amount of 0 reports done at once; 255
      jumps to `b`. */
  function Rblend8(a: byte, b: byte, amt: byte): (p: (bool, byte))
  {
    if a == b || amt == 0 then (true, a)
    else if amt == 255 then (true, b)
    else if a < b then var a' := a + Scale8Video(b - a, amt); (a' == b, a')
    else var a' := a - Scale8Video(a - b, amt); (a' == b, a')
  }

  /** A step never overshoots and, unless it is a no-op, gets strictly
      closer; it reports done exactly when `a` has reached `b`, except at
      amount 0. */
  lemma Rblend8Approaches(a: byte, b: byte, amt: byte)
    ensures var (done, a') := Rblend8(a, b, amt);
            && (amt == 0 ==> done && a' == a)
            && (amt > 0 ==> (done <==> a' == b))
            && (a <= b ==> a <= a' <= b || amt == 0)
            && (b <= a ==> b <= a' <= a || amt == 0)
            && (amt > 0 && a != b ==> Distance(a', b) < Distance(a, b))
  {
  }

  function Distance(a: byte, b: byte): nat
  {
    if a <= b then (b - a) as nat else (a - b) as nat
  }

  /** Repeated steps. */
  function Rblend8Steps(a: byte, b: byte, amt: byte, k: nat): byte
    decreases k
  {
    if k == 0 then a else Rblend8Steps(Rblend8(a, b, amt).1, b, amt, k - 1)
  }

  /** With a nonzero amount, `a` reaches `b` within `|a - b|` steps and
      stays there. */
  lemma {:induction false} Rblend8Converges(a: byte, b: byte, amt: byte, k: nat)
    requires amt > 0 && k >= Distance(a, b)
    ensures Rblend8Steps(a, b, amt, k) == b
    decreases k
  {
    if k > 0 {
      Rblend8Approaches(a, b, amt);
      Rblend8Converges(Rblend8(a, b, amt).1, b, amt, k - 1);
    }
  }

  datatype Rgb = Rgb(r: byte, g: byte, b: byte)

  /** `rblend`: the per-channel step, with the same shortcuts for equal
      colours and the extreme amounts; done when all three channels are. */
  function Rblend(existing: Rgb, target: Rgb, amt: byte): (p: (bool, Rgb))
  {
    if existing == target || amt == 0 then (true, existing)
    else if amt == 255 then (true, target)
    else
      var red := Rblend8(existing.r, target.r, amt);
      var green := Rblend8(existing.g, target.g, amt);
      var blue := Rblend8(existing.b, target.b, amt);
      (red.0 && green.0 && blue.0, Rgb(red.1, green.1, blue.1))
  }

  /** With a nonzero amount, a colour step reports done exactly when the
      colour has reached the target. */
  lemma RblendDoneIffReached(existing: Rgb, target: Rgb, amt: byte)
    requires amt > 0
    ensures Rblend(existing, target, amt).0 <==> Rblend(existing, target, amt).1 == target
  {
    Rblend8Approaches(existing.r, target.r, amt);
    Rblend8Approaches(existing.g, target.g, amt);
    Rblend8Approaches(existing.b, target.b, amt);
  }
}

=== FILE: http_client.dfy ===
/** The life of one connection in the REST web server
    (`WebClient::handleRequest` and `WebClient::close` in
    lib/RestWebServer/src/WebClient.cpp): read and parse the request,
    process it, give the client time to close, then close. Each pass of the
    loop sees the connection through an observation: whether the client is
    still connected, whether it has data available, the clock, and whether
    parsing the request succeeded. */
module HttpClient {
  import opened Base
  import MimeTable
  import HttpResponse

  /** `HTTPClientStatus`. */
  datatype Status = Reading | Processing | Error | Disconnected | Closing | Closed

  /** `HTTP_MAX_DATA_WAIT` and `HTTP_MAX_CLOSE_WAIT`, in milliseconds. */
  const MaxDataWait: nat := 5000
  const MaxCloseWait: nat := 5000

  /** What one pass of the loop sees. `now` is `millis()`, a 32-bit
      counter; `parseOk` is what `_parseRequest` reports. */
  datatype Observation = Observation(connected: bool, available: bool, now: nat, parseOk: bool)

  /** What one pass of the loop does besides changing state. */
  datatype Action = Delay(ms: nat) | Respond(code: nat, contentType: string, body: string) | Process

  /** The canned error response: plain text holding the reason phrase. */
  function ErrorResponse(code: nat): (a: Action)
    ensures a.Respond? && a.code == code
    ensures a.contentType == "text/plain" && a.body == HttpResponse.ReasonPhrase(code)
  {
    Respond(code, MimeTable.Table[3].mimeType, HttpResponse.ReasonPhrase(code))
  }

  /** The loop's state: the status and `startClosing`, the moment the
      closing wait began (0 for none). */
  datatype Loop = Loop(status: Status, startClosing: nat)

  datatype StepResult = StepResult(next: Loop, actions: seq<Action>)

  /** How long since the request began. `_startHandlingTime` is a 64-bit
      `time_t`, so the difference with the 32-bit clock is signed and does
      not wrap. */
  function SinceStart(now: nat, startHandling: nat): int
  {
    now - startHandling
  }

  /** How long since closing began: both are `unsigned long`, so the
      difference wraps modulo 2^32. */
  function SinceClosing(now: nat, startClosing: nat): nat
  {
    Wrap32(now - startClosing)
  }

  /** Whether the closing wait goes on: it began (a `startClosing` of 0
      counts as never) and it is within `MaxCloseWait`. */
  predicate ClosingWindow(startClosing: nat, now: nat)
  {
    startClosing > 0 && SinceClosing(now, startClosing) <= MaxCloseWait
  }

  /** One pass of the `while` loop. Reading with no data yet either times
      out with 408 or, after a 25 ms delay, parses anyway; a failed parse
      answers 400. Processing hands the request to its handler. Closing
      waits 50 ms at a time while the window lasts and the client stays.
      Any other status ends the loop. */
  function Step(loop: Loop, startHandling: nat, o: Observation): (r: StepResult)
  {
    match loop.status
    case Reading =>
      if !o.available && SinceStart(o.now, startHandling) > MaxDataWait then
        StepResult(Loop(Closing, o.now), [ErrorResponse(408)])
      else
        var waited := if o.available then [] else [Delay(25)];
        if o.parseOk then StepResult(Loop(Processing, loop.startClosing), waited)
        else StepResult(Loop(Closing, o.now), waited + [ErrorResponse(400)])
    case Processing =>
      if o.connected then StepResult(Loop(Closing, o.now), [Process])
      else StepResult(Loop(Disconnected, loop.startClosing), [Process])
    case Closing =>
      if ClosingWindow(loop.startClosing, o.now) then
        StepResult(Loop(if o.connected then Closing else Disconnected, loop.startClosing), [Delay(50)])
      else StepResult(Loop(Disconnected, loop.startClosing), [])
    case _ => StepResult(Loop(Disconnected, loop.startClosing), [])
  }

  /** How far a status is from the end of the loop. */
  function Rank(s: Status): nat
  {
    match s
    case Reading => 3
    case Processing => 2
    case Disconnected => 0
    case _ => 1
  }

  /** The loop runs while the status is not Disconnected. Every pass
      moves strictly towards the end, except a pass that stays
      in Closing; that happens only within the closing window while the
      client is connected. Reading is never entered again. */
  lemma StepProgress(loop: Loop, startHandling: nat, o: Observation)
    requires loop.status != Disconnected
    ensures var n := Step(loop, startHandling, o).next;
            && (Rank(n.status) < Rank(loop.status) || (loop.status == Closing && n.status == Closing))
            && n.status != Reading
            && (n.status == Closing && loop.status == Closing
                ==> ClosingWindow(loop.startClosing, o.now) && o.connected && n.startClosing == loop.startClosing)
  {
  }

  /** Reading answers 408 exactly when no data is available past the
      wait, and 400 exactly when, otherwise, parsing fails; both move to
      Closing with the closing clock started now. */
  lemma ReadingResponses(loop: Loop, startHandling: nat, o: Observation)
    requires loop.status == Reading
    ensures var r := Step(loop, startHandling, o);
            && (ErrorResponse(408) in r.actions
                <==> !o.available && o.now - startHandling > MaxDataWait)
            && (ErrorResponse(400) in r.actions
                <==> !(!o.available && o.now - startHandling > MaxDataWait) && !o.parseOk)
            && (r.next.status == Closing <==> ErrorResponse(408) in r.actions || ErrorResponse(400) in r.actions)
            && (r.next.status == Closing ==> r.next.startClosing == o.now)
            && (r.next.status == Processing <==> r.actions == [] || r.actions == [Delay(25)])
  {
    var r := Step(loop, startHandling, o);
    if !o.available && o.now - startHandling > MaxDataWait {
      assert r.actions == [ErrorResponse(408)];
    } else if !o.parseOk {
      assert r.actions[|r.actions| - 1] == ErrorResponse(400);
      assert ErrorResponse(408) !in r.actions by {
        if o.available { assert r.actions == [ErrorResponse(400)]; }
        else { assert r.actions == [Delay(25), ErrorResponse(400)]; }
      }
    }
  }

  /** With no data yet but still within the wait, the request is parsed
      after a single 25 ms delay rather than waited for. */
  lemma ParsesAfterOneDelay(loop: Loop, startHandling: nat, o: Observation)
    requires loop.status == Reading && !o.available && o.now - startHandling <= MaxDataWait && o.parseOk
    ensures Step(loop, startHandling, o) == StepResult(Loop(Processing, loop.startClosing), [Delay(25)])
  {
  }

  /** The outcome of a run of the loop over a sequence of observations:
      the status it stopped in and everything it did. */
  datatype Run = Run(status: Status, actions: seq<Action>, passes: nat)

  /** The loop, one observation per pass, until the status is Disconnected
      or the observations run out. */
  function RunLoop(loop: Loop, startHandling: nat, obs: seq<Observation>): (r: Run)
    ensures r.passes <= |obs|
    ensures r.status == Disconnected || r.passes == |obs|
    decreases |obs|
  {
    if loop.status == Disconnected || |obs| == 0 then Run(loop.status, [], 0)
    else
      var s := Step(loop, startHandling, obs[0]);
      var rest := RunLoop(s.next, startHandling, obs[1..]);
      Run(rest.status, s.actions + rest.actions, rest.passes + 1)
  }

  /** Whether an observation ends the closing wait begun at `startClosing`. */
  predicate EndsClosing(startClosing: nat, o: Observation)
  {
    !ClosingWindow(startClosing, o.now) || !o.connected
  }

  /** Closing ends, at the latest, at the first observation where the
      window has passed or the client has gone. */
  lemma {:induction false} ClosingEnds(startClosing: nat, startHandling: nat, obs: seq<Observation>, k: nat)
    requires k < |obs| && EndsClosing(startClosing, obs[k])
    ensures RunLoop(Loop(Closing, startClosing), startHandling, obs).status == Disconnected
    ensures RunLoop(Loop(Closing, startClosing), startHandling, obs).passes <= k + 1
    decreases k
  {
    var s := Step(Loop(Closing, startClosing), startHandling, obs[0]);
    if k > 0 && s.next.status == Closing {
      assert s.next == Loop(Closing, startClosing);
      assert obs[1..][k - 1] == obs[k];
      ClosingEnds(startClosing, startHandling, obs[1..], k - 1);
    }
  }

  /** A closing wait that starts at clock value 0 ends at once: 0 reads
      as "never started". */
  lemma ClosingAtZeroEndsAtOnce(startHandling: nat, o: Observation)
    ensures Step(Loop(Closing, 0), startHandling, o) == StepResult(Loop(Disconnected, 0), [])
  {
  }

  /** The client's fields that `close` touches: the status, the moment
      handling stopped (0 for not yet) and how often the connection was
      stopped. */
  datatype Client = Client(status: Status, stopHandling: nat, stops: nat)

  /** `close`: stop the connection and record the time, unless it ran
      before, which a nonzero stop time shows. */
  function Close(c: Client, now: nat): (r: Client)
    ensures c.stopHandling > 0 ==> r == c
    ensures c.stopHandling == 0 ==> r.status == Closed && r.stopHandling == now && r.stops == c.stops + 1
  {
    if c.stopHandling > 0 then c
    else Client(Closed, now, c.stops + 1)
  }

  /** Closing twice is closing once, when the first close saw a nonzero
      clock. */
  lemma CloseIdempotent(c: Client, now: nat, later: nat)
    requires now > 0
    ensures Close(Close(c, now), later) == Close(c, now)
  {
  }

  /** A close at clock value 0 leaves no trace of having run, so a second
      close stops the connection again. */
  lemma CloseAtZeroRunsAgain(c: Client, later: nat)
    requires c.stopHandling == 0
    ensures Close(Close(c, 0), later).stops == c.stops + 2
  {
  }

  /** `handleRequest`: a client already gone skips the loop; otherwise the
      loop runs from Reading; then the client is closed at `closeTime` and
      its status returned. */
  function HandleRequest(c: Client, connected: bool, startHandling: nat, obs: seq<Observation>, closeTime: nat): (r: (Client, Run))
  {
    var run := if connected then RunLoop(Loop(Reading, 0), startHandling, obs) else Run(Disconnected, [], 0);
    if run.status != Disconnected then (c.(status := run.status), run)
    else (Close(c.(status := Disconnected), closeTime), run)
  }

  /** A handled request ends Closed, unless the client had been closed
      before, in which case it is returned Disconnected without being
      stopped again. */
  lemma HandleRequestCloses(c: Client, connected: bool, startHandling: nat, obs: seq<Observation>, closeTime: nat)
    requires HandleRequest(c, connected, startHandling, obs, closeTime).1.status == Disconnected
    ensures var r := HandleRequest(c, connected, startHandling, obs, closeTime).0;
            && (c.stopHandling == 0 ==> r.status == Closed && r.stops == c.stops + 1)
            && (c.stopHandling > 0 ==> r.status == Disconnected && r.stops == c.stops)
  {
  }

  /** A request that parses, on a client that stays connected, is
      processed once and answered by its handler, the loop then waiting
      for the client to close; the run ends once the window passes. */
  lemma {:induction false} ServedRequest(startHandling: nat, obs: seq<Observation>, k: nat)
    requires 2 <= k < |obs|
    requires obs[0].available && obs[0].parseOk && obs[1].connected
    requires EndsClosing(obs[1].now, obs[k])
    ensures var r := RunLoop(Loop(Reading, 0), startHandling, obs);
            && r.status == Disconnected
            && r.passes <= k + 1
            && |r.actions| >= 1 && r.actions[0] == Process
  {
    var s0 := Step(Loop(Reading, 0), startHandling, obs[0]);
    assert s0 == StepResult(Loop(Processing, 0), []);
    var obs1 := obs[1..];
    var s1 := Step(Loop(Processing, 0), startHandling, obs1[0]);
    assert s1 == StepResult(Loop(Closing, obs[1].now), [Process]);
    var obs2 := obs1[1..];
    assert obs2[k - 2] == obs[k];
    ClosingEnds(obs[1].now, startHandling, obs2, k - 2);
    var tail := RunLoop(Loop(Closing, obs[1].now), startHandling, obs2);
    assert RunLoop(Loop(Processing, 0), startHandling, obs1).actions == [Process] + tail.actions;
  }
}

=== FILE: http_headers.dfy ===
/** Reading the header section of a request (`WebClient::_parseHttpHeaders`
    in lib/RestWebServer/src/WebClient.cpp): each line is split at its
    first ':' into a name and a value, both trimmed; the headers the server
    was told to keep are stored in arrival order, and Content-Type and
    Content-Length are interpreted on the way. The lines arrive already
    split at CR LF; the section ends at the first empty line. */
module HttpHeaders {
  import opened Base
  import opened ArduinoString
  import opened QueryArgs

  /** C `isspace`: space, tab, line feed, vertical tab, form feed,
      carriage return. */
  predicate IsSpace(c: char)
  {
    c == ' ' || c == '\t' || c == '\n' || c == 11 as char || c == 12 as char || c == '\r'
  }

  predicate AllSpace(s: string)
  {
    forall k :: 0 <= k < |s| ==> IsSpace(s[k])
  }

  /** Neither end of `s` is white space. */
  predicate Trimmed(s: string)
  {
    |s| == 0 || (!IsSpace(s[0]) && !IsSpace(s[|s| - 1]))
  }

  /** The leading white space removed. */
  function TrimStart(s: string): (r: string)
    ensures |r| <= |s| && r == s[|s| - |r|..]
    ensures AllSpace(s[..|s| - |r|])
    ensures |r| > 0 ==> !IsSpace(r[0])
    decreases |s|
  {
    if |s| > 0 && IsSpace(s[0]) then
      var r := TrimStart(s[1..]);
      assert s[..|s| - |r|] == [s[0]] + s[1..][..|s| - 1 - |r|];
      r
    else s
  }

  /** The trailing white space removed. */
  function TrimEnd(s: string): (r: string)
    ensures |r| <= |s| && r == s[..|r|]
    ensures AllSpace(s[|r|..])
    ensures |r| > 0 ==> !IsSpace(r[|r| - 1])
    decreases |s|
  {
    if |s| > 0 && IsSpace(s[|s| - 1]) then
      var r := TrimEnd(s[..|s| - 1]);
      assert s[|r|..] == s[..|s| - 1][|r|..] + [s[|s| - 1]];
      r
    else s
  }

  /** `String::trim`: white space removed from both ends. */
  function Trim(s: string): (r: string)
    ensures Trimmed(r) && |r| <= |s|
  {
    TrimEnd(TrimStart(s))
  }

  /** The length of the leading white space. */
  function Lead(s: string): nat
  {
    |s| - |TrimStart(s)|
  }

  /** The trimmed text is the slice of `s` after its leading white space,
      with only white space after it. */
  lemma TrimSlice(s: string)
    ensures Lead(s) + |Trim(s)| <= |s|
    ensures s[Lead(s)..Lead(s) + |Trim(s)|] == Trim(s)
    ensures AllSpace(s[..Lead(s)]) && AllSpace(s[Lead(s) + |Trim(s)|..])
  {
    var t := TrimStart(s);
    var r := Trim(s);
    var i := Lead(s);
    assert r == TrimEnd(t);
    TrimSliceCore(s, t, r, i);
    assert AllSpace(s[..i]);
  }

  lemma TrimSliceCore(s: string, t: string, r: string, i: nat)
    requires i <= |s| && t == s[i..] && |r| <= |t| && r == t[..|r|] && AllSpace(t[|r|..])
    ensures i + |r| <= |s| && s[i..i + |r|] == r && AllSpace(s[i + |r|..])
  {
    SuffixSlices(s, i, |r|);
  }

  /** Slicing a suffix is slicing the whole. */
  lemma SuffixSlices<T>(s: seq<T>, i: nat, j: nat)
    requires i + j <= |s|
    ensures s[i..][..j] == s[i..i + j] && s[i..][j..] == s[i + j..]
  {
  }

  /** A trimmed text, with or without white space before it, trims to
      itself. */
  lemma TrimOfTrimmed(s: string)
    requires Trimmed(s)
    ensures Trim(s) == s
    ensures Trim(" " + s) == s
  {
    assert (" " + s)[1..] == s;
  }

  lemma {:induction false} TrimStartPadded(pad: string, core: string)
    requires AllSpace(pad) && (|core| == 0 || !IsSpace(core[0]))
    ensures TrimStart(pad + core) == core
    decreases |pad|
  {
    if |pad| > 0 {
      assert (pad + core)[1..] == pad[1..] + core;
      TrimStartPadded(pad[1..], core);
    }
  }

  lemma {:induction false} TrimEndPadded(core: string, pad: string)
    requires AllSpace(pad) && (|core| == 0 || !IsSpace(core[|core| - 1]))
    ensures TrimEnd(core + pad) == core
    decreases |pad|
  {
    if |pad| > 0 {
      assert (core + pad)[..|core + pad| - 1] == core + pad[..|pad| - 1];
      TrimEndPadded(core, pad[..|pad| - 1]);
    } else {
      assert core + pad == core;
    }
  }

  /** Trimming recovers a trimmed text from any white-space padding. */
  lemma TrimPadded(before: string, core: string, after: string)
    requires AllSpace(before) && AllSpace(after) && Trimmed(core)
    ensures Trim(before + core + after) == core
  {
    assert before + core + after == before + (core + after);
    if |core| == 0 {
      assert core + after == after;
      TrimStartPadded(before + after, "");
      assert before + after + "" == before + after;
      assert forall k :: 0 <= k < |before + after| ==> IsSpace((before + after)[k]);
      TrimEndPadded("", "");
    } else {
      TrimStartPadded(before, core + after);
      TrimEndPadded(core, after);
    }
  }

  /** The run of decimal digits `s` starts with. */
  function LeadingDigits(s: string): (n: nat)
    ensures n <= |s| && forall k :: 0 <= k < n ==> IsDigit(s[k])
    ensures n < |s| ==> !IsDigit(s[n])
    decreases |s|
  {
    if |s| > 0 && IsDigit(s[0]) then 1 + LeadingDigits(s[1..]) else 0
  }

  const LongMin: int := -0x8000_0000
  const LongMax: int := 0x7FFF_FFFF

  /** The number the leading digits of `u` denote. */
  function Magnitude(u: string): nat
  {
    ToNat(u[..LeadingDigits(u)])
  }

  /** `String::toInt`, that is `atol`, which is `strtol(s, NULL, 10)` on a
      32-bit `long`: leading white space, an optional sign, then decimal
      digits up to the first other character; no digits give 0, and a
      value out of range is clamped to the range. */
  function ToInt(s: string): (v: int)
    ensures LongMin <= v <= LongMax
  {
    var t := TrimStart(s);
    var negative := |t| > 0 && t[0] == '-';
    var u := if |t| > 0 && (t[0] == '-' || t[0] == '+') then t[1..] else t;
    var magnitude := Magnitude(u);
    var v: int := if negative then -(magnitude as int) else magnitude;
    if v < LongMin then LongMin else if v > LongMax then LongMax else v
  }

  lemma LeadingDigitsOf(digits: string)
    requires forall k :: 0 <= k < |digits| ==> IsDigit(digits[k])
    ensures LeadingDigits(digits) == |digits|
    ensures Magnitude(digits) == ToNat(digits)
  {
    if |digits| > 0 {
      LeadingDigitsOf(digits[1..]);
    }
    assert digits[..|digits|] == digits;
  }

  /** A text that starts with no white space is left alone by
      `TrimStart`. */
  lemma NoLeadingSpace(s: string)
    requires |s| > 0 && !IsSpace(s[0])
    ensures TrimStart(s) == s
  {
  }

  /** Reading back a printed number in range gives the number. */
  lemma ToIntFromNat(n: nat)
    requires n <= LongMax
    ensures ToInt(FromNat(n)) == n
  {
    var s := FromNat(n);
    NoLeadingSpace(s);
    LeadingDigitsOf(s);
    FromNatRoundTrip(n);
    assert s[0] != '-' && s[0] != '+';
  }

  /** Reading back a printed negative number in range gives the number. */
  lemma ToIntFromNegative(n: nat)
    requires n <= -LongMin
    ensures ToInt("-" + FromNat(n)) == -(n as int)
  {
    var s := FromNat(n);
    var m := "-" + s;
    NoLeadingSpace(m);
    assert m[1..] == s;
    LeadingDigitsOf(s);
    FromNatRoundTrip(n);
  }

  /** The request's `_contentLength` is a `size_t` assigned the `long` that
      `toInt` returns, so a negative value wraps around. */
  function ContentLengthOf(value: string): (n: nat)
    ensures n < U32
    ensures 0 <= ToInt(value) ==> n == ToInt(value)
    ensures ToInt(value) < 0 ==> n == U32 + ToInt(value)
  {
    var v := ToInt(value);
    Wrap32Long(v);
    Wrap32(v)
  }

  /** A `long` stored in 32 unsigned bits. */
  lemma Wrap32Long(v: int)
    requires LongMin <= v <= LongMax
    ensures v >= 0 ==> Wrap32(v) == v
    ensures v < 0 ==> Wrap32(v) == U32 + v
  {
    if v < 0 { DivUnique(v, -1, U32 + v, U32); } else { DivUnique(v, 0, v, U32); }
  }

  /** One line of the header section. */
  datatype HeaderLine = EndOfHeaders | Malformed | HeaderField(name: string, value: string)

  /** A line without ':' is ignored; otherwise the name is what precedes
      the first ':' and the value what follows it, both trimmed. */
  function ParseHeaderLine(line: string): (h: HeaderLine)
    ensures h.EndOfHeaders? <==> |line| == 0
    ensures h.Malformed? <==> |line| > 0 && ':' !in line
    ensures h.HeaderField? ==> Trimmed(h.name) && Trimmed(h.value)
  {
    if |line| == 0 then EndOfHeaders
    else
      var d := IndexOfChar(line, ':', 0);
      if d == -1 then
        assert forall j :: 0 <= j < |line| ==> line[j] != ':';
        Malformed
      else
        assert line[d] == ':';
        HeaderField(Trim(Substring(line, 0, d)), Trim(SubstringFrom(line, d + 1)))
  }

  /** Where a line that starts with a name free of ':' splits. */
  lemma SplitAtColon(name: string, tail: string)
    requires ':' !in name && |tail| > 0 && tail[0] == ':'
    ensures IndexOfChar(name + tail, ':', 0) == |name|
    ensures Substring(name + tail, 0, |name|) == name
    ensures SubstringFrom(name + tail, |name| + 1) == tail[1..]
  {
    var line := name + tail;
    assert line[|name|] == ':';
    forall j | 0 <= j < |name|
      ensures line[j] != ':'
    {
      assert line[j] == name[j];
    }
    assert line[..|name|] == name;
    assert line[|name| + 1..] == tail[1..];
  }

  /** A header written the usual way, `name: value`, reads back as that
      name and value. */
  lemma HeaderLineRoundTrip(name: string, value: string)
    requires |name| > 0 && ':' !in name && Trimmed(name) && Trimmed(value)
    ensures ParseHeaderLine(name + ": " + value) == HeaderField(name, value)
  {
    var tail := ": " + value;
    assert name + ": " + value == name + tail;
    SplitAtColon(name, tail);
    assert tail[1..] == " " + value;
    ParseSplitLine(name + tail, name, " " + value);
    TrimOfTrimmed(name);
    TrimOfTrimmed(value);
  }

  /** A line whose first ':' follows `name` parses to the trimmed name and
      the trimmed rest. */
  lemma ParseSplitLine(line: string, name: string, rest: string)
    requires |line| > |name|
    requires IndexOfChar(line, ':', 0) == |name|
    requires Substring(line, 0, |name|) == name && SubstringFrom(line, |name| + 1) == rest
    ensures ParseHeaderLine(line) == HeaderField(Trim(name), Trim(rest))
  {
  }

  /** What the header section leaves in the request. */
  datatype HeaderState = HeaderState(headers: seq<Argument>, contentLength: nat, boundary: string)

  const NoHeaders: HeaderState := HeaderState([], 0, "")

  /** A header name the server collects: the loop over the names of
      interest, compared ignoring case. */
  predicate Collected(interest: seq<string>, name: string)
    decreases |interest|
  {
    |interest| > 0 && (EqualsIgnoreCase(interest[0], name) || Collected(interest[1..], name))
  }

  /** The loop finds a name exactly when one of the names of interest
      equals it ignoring case. */
  lemma {:induction false} CollectedMeans(interest: seq<string>, name: string)
    ensures Collected(interest, name) <==> exists i :: 0 <= i < |interest| && EqualsIgnoreCase(interest[i], name)
    decreases |interest|
  {
    if |interest| > 0 {
      CollectedMeans(interest[1..], name);
      if Collected(interest[1..], name) {
        var i :| 0 <= i < |interest| - 1 && EqualsIgnoreCase(interest[1..][i], name);
        assert interest[i + 1] == interest[1..][i];
      }
      if exists i :: 0 <= i < |interest| && EqualsIgnoreCase(interest[i], name) {
        var i :| 0 <= i < |interest| && EqualsIgnoreCase(interest[i], name);
        if i > 0 {
          assert interest[1..][i - 1] == interest[i];
        }
      }
    }
  }

  /** `"` removed everywhere (`String::replace("\"", "")`). */
  function WithoutQuotes(s: string): (r: string)
    ensures '"' !in r && |r| <= |s|
  {
    if |s| == 0 then "" else (if s[0] == '"' then "" else [s[0]]) + WithoutQuotes(s[1..])
  }

  /** One header field taken in: stored when collected; a multipart
      Content-Type sets the boundary (what follows its first '=', quotes
      removed); otherwise a Content-Length sets the length. */
  function TakeField(st: HeaderState, interest: seq<string>, name: string, value: string): (r: HeaderState)
    ensures Collected(interest, name) ==> r.headers == st.headers + [Argument(name, value)]
    ensures !Collected(interest, name) ==> r.headers == st.headers
    ensures EqualsIgnoreCase(name, "Content-Length") ==> r.contentLength == ContentLengthOf(value)
    ensures !EqualsIgnoreCase(name, "Content-Length") ==> r.contentLength == st.contentLength
  {
    var headers := if Collected(interest, name) then st.headers + [Argument(name, value)] else st.headers;
    if EqualsIgnoreCase(name, "Content-Type") then
      assert !EqualsIgnoreCase(name, "Content-Length") by {
        assert ToLower(name[8]) == 't' != ToLower("Content-Length"[8]);
      }
      var boundary :=
        if StartsWith(value, "multipart/") then WithoutQuotes(SubstringFrom(value, IndexOfChar(value, '=', 0) + 1))
        else st.boundary;
      HeaderState(headers, st.contentLength, boundary)
    else if EqualsIgnoreCase(name, "Content-Length") then
      HeaderState(headers, ContentLengthOf(value), st.boundary)
    else HeaderState(headers, st.contentLength, st.boundary)
  }

  /** The loop of `_parseHttpHeaders` over the lines of the section, up to
      the first empty one. */
  function ParseHeaders(lines: seq<string>, interest: seq<string>, st: HeaderState): (r: HeaderState)
    ensures |st.headers| <= |r.headers| <= |st.headers| + |lines|
    decreases |lines|
  {
    if |lines| == 0 then st
    else match ParseHeaderLine(lines[0])
      case EndOfHeaders => st
      case Malformed => ParseHeaders(lines[1..], interest, st)
      case HeaderField(name, value) => ParseHeaders(lines[1..], interest, TakeField(st, interest, name, value))
  }

  /** `r` keeps the headers stored in `st`, and every header it adds is one
      the server collects. */
  ghost predicate Extends(st: HeaderState, r: HeaderState, interest: seq<string>)
  {
    && |st.headers| <= |r.headers| && r.headers[..|st.headers|] == st.headers
    && forall k :: |st.headers| <= k < |r.headers| ==> Collected(interest, r.headers[k].key)
  }

  lemma ExtendsTrans(a: HeaderState, b: HeaderState, c: HeaderState, interest: seq<string>)
    requires Extends(a, b, interest) && Extends(b, c, interest)
    ensures Extends(a, c, interest)
  {
    assert c.headers[..|a.headers|] == c.headers[..|b.headers|][..|a.headers|];
    forall k | |a.headers| <= k < |b.headers|
      ensures Collected(interest, c.headers[k].key)
    {
      assert c.headers[k] == c.headers[..|b.headers|][k];
    }
  }

  lemma TakeFieldExtends(st: HeaderState, interest: seq<string>, name: string, value: string)
    ensures Extends(st, TakeField(st, interest, name, value), interest)
  {
    var r := TakeField(st, interest, name, value);
    if Collected(interest, name) {
      assert r.headers[..|st.headers|] == st.headers;
      assert r.headers[|st.headers|].key == name;
    }
  }

  /** The headers already stored are kept, and every header added is one
      the server collects. */
  lemma {:induction false} ParseHeadersCollects(lines: seq<string>, interest: seq<string>, st: HeaderState)
    ensures Extends(st, ParseHeaders(lines, interest, st), interest)
    decreases |lines|
  {
    if |lines| == 0 {
      assert st.headers[..|st.headers|] == st.headers;
    } else {
      var h := ParseHeaderLine(lines[0]);
      if h.EndOfHeaders? {
        assert st.headers[..|st.headers|] == st.headers;
      } else if h.Malformed? {
        ParseHeadersCollects(lines[1..], interest, st);
      } else {
        var next := TakeField(st, interest, h.name, h.value);
        TakeFieldExtends(st, interest, h.name, h.value);
        ParseHeadersCollects(lines[1..], interest, next);
        ExtendsTrans(st, next, ParseHeaders(lines[1..], interest, next), interest);
      }
    }
  }

  /** A Content-Length line taken in sets the request's length. */
  lemma ContentLengthLine(value: string, interest: seq<string>)
    requires Trimmed(value)
    ensures ParseHeaders(["Content-Length: " + value, ""], interest, NoHeaders).contentLength
         == ContentLengthOf(value)
  {
    var lines := ["Content-Length: " + value, ""];
    assert "Content-Length: " + value == "Content-Length" + ": " + value;
    HeaderLineRoundTrip("Content-Length", value);
    assert EqualsIgnoreCase("Content-Length", "Content-Length");
    var st := TakeField(NoHeaders, interest, "Content-Length", value);
    assert lines[1..] == [""];
    assert ParseHeaders(lines, interest, NoHeaders) == ParseHeaders([""], interest, st);
  }

  /** A section holding a Content-Length of `n` gives the request that
      length; a negative one wraps to a length beyond any buffer. */
  lemma ContentLengthHeader(n: nat, interest: seq<string>)
    requires n <= LongMax
    ensures ParseHeaders(["Content-Length: " + FromNat(n), ""], interest, NoHeaders).contentLength == n
  {
    ContentLengthLine(FromNat(n), interest);
    ToIntFromNat(n);
  }

  lemma NegativeContentLength(n: nat, interest: seq<string>)
    requires 0 < n <= -LongMin
    ensures ParseHeaders(["Content-Length: -" + FromNat(n), ""], interest, NoHeaders).contentLength == U32 - n
  {
    var neg := "-" + FromNat(n);
    assert "Content-Length: -" + FromNat(n) == "Content-Length: " + neg;
    ContentLengthLine(neg, interest);
    ToIntFromNegative(n);
  }
}

=== FILE: http_method.dfy ===
/** The HTTP method table of the REST web server (`httpMethodStr`,
    `httpMethodFromName`, `httpMethodToString` in
    lib/RestWebServer/src/WebClient.cpp). The table is generated from the
    http_parser library's method map by stringifying each entry's NAME, so
    its order is the `HTTPMethod` enumeration and the method called
    "M-SEARCH" on the wire appears as "MSEARCH". `HTTP_ANY` is the value
    255, outside the table; a failed lookup returns it. */
module HttpMethod {
  const MethodNames: seq<string> := [
    "DELETE", "GET", "HEAD", "POST", "PUT", "CONNECT", "OPTIONS", "TRACE",
    "COPY", "LOCK", "MKCOL", "MOVE", "PROPFIND", "PROPPATCH", "SEARCH", "UNLOCK",
    "BIND", "REBIND", "UNBIND", "ACL", "REPORT", "MKACTIVITY", "CHECKOUT", "MERGE",
    "MSEARCH", "NOTIFY", "SUBSCRIBE", "UNSUBSCRIBE", "PATCH", "PURGE", "MKCALENDAR",
    "LINK", "UNLINK", "SOURCE"]

  const Delete: nat := 0
  const Get: nat := 1
  const Head: nat := 2
  const Post: nat := 3
  const Any: nat := 255

  /** The first index at or after `from` whose name equals `name`, or
      `Any`. */
  function FirstIndex(names: seq<string>, name: string, from: nat): (m: nat)
    requires |names| < Any
    ensures m == Any || (from <= m < |names| && names[m] == name)
    ensures m != Any ==> forall j :: from <= j < m ==> names[j] != name
    ensures m == Any <==> forall j :: from <= j < |names| ==> names[j] != name
    decreases |names| - from
  {
    if from >= |names| then Any
    else if names[from] == name then from
    else FirstIndex(names, name, from + 1)
  }

  /** `httpMethodFromName`: the method whose table name equals `name`
      exactly (case matters), or `Any` when there is none. */
  function FromName(name: string): (m: nat)
    ensures m == Any <==> name !in MethodNames
    ensures m != Any ==> m < |MethodNames| && MethodNames[m] == name
  {
    FirstIndex(MethodNames, name, 0)
  }

  /** The loop of `httpMethodFromName`: scan the table, stop at the first
      equal name. */
  method FromNameLoop(name: string) returns (m: nat)
    ensures m == FromName(name)
  {
    m := Any;
    var i := 0;
    while i < |MethodNames|
      invariant 0 <= i <= |MethodNames|
      invariant FirstIndex(MethodNames, name, 0) == FirstIndex(MethodNames, name, i)
    {
      if MethodNames[i] == name {
        m := i;
        return;
      }
      i := i + 1;
    }
  }

  /** `httpMethodToString`: the table name, or "HTTP UNKNOWN" outside the
      table (which includes `Any`). */
  function ToString(m: nat): (s: string)
    ensures m < |MethodNames| ==> s in MethodNames
    ensures m >= |MethodNames| ==> s !in MethodNames
  {
    if m >= |MethodNames| then "HTTP UNKNOWN" else MethodNames[m]
  }

  /** Every two table entries differ, so a name identifies its method. */
  lemma NamesDistinct()
    ensures forall i, j :: 0 <= i < j < |MethodNames| ==> MethodNames[i] != MethodNames[j]
  {
    NamesDistinctLow();
    NamesDistinctHigh();
    NamesDistinctAcross(17, 26);
    NamesDistinctAcross(26, 34);
  }

  /** The entries of the first half of the table differ. */
  lemma NamesDistinctLow()
    ensures forall i, j :: 0 <= i < j < 17 ==> MethodNames[i] != MethodNames[j]
  {
  }

  /** The entries of the second half of the table differ. */
  lemma NamesDistinctHigh()
    ensures forall i, j :: 17 <= i < j < |MethodNames| ==> MethodNames[i] != MethodNames[j]
  {
  }

  /** The entries of the first half differ from those of a block of the
      second. */
  lemma NamesDistinctAcross(lo: nat, hi: nat)
    requires 17 <= lo <= hi <= |MethodNames| && hi - lo <= 9
    ensures forall i, j :: 0 <= i < 17 && lo <= j < hi ==> MethodNames[i] != MethodNames[j]
  {
  }

  /** Naming a method and looking the name up gives the method back; any
      value outside the table looks up as `Any`. */
  lemma ToStringFromName(m: nat)
    ensures m < |MethodNames| ==> FromName(ToString(m)) == m
    ensures m >= |MethodNames| ==> FromName(ToString(m)) == Any
  {
    NamesDistinct();
  }

  /** GET and POST, the methods the firmware's routes use, look up as
      themselves. */
  lemma GetKnown()
    ensures FromName("GET") == Get
  {
    ToStringFromName(Get);
    assert ToString(Get) == "GET";
  }

  lemma PostKnown()
    ensures FromName("POST") == Post
  {
    ToStringFromName(Post);
    assert ToString(Post) == "POST";
  }

  lemma MSearchNotInFirstHalf()
    ensures forall j :: 0 <= j < 17 ==> MethodNames[j] != "M-SEARCH"
  {
  }

  lemma MSearchNotInSecondHalf()
    ensures forall j :: 17 <= j < |MethodNames| ==> MethodNames[j] != "M-SEARCH"
  {
  }

  /** The request line's "M-SEARCH" (the table stores "MSEARCH") is not
      recognised. */
  lemma MSearchUnknown()
    ensures FromName("M-SEARCH") == Any
  {
    MSearchNotInFirstHalf();
    MSearchNotInSecondHalf();
  }
}

=== FILE: http_request.dfy ===
/** A request as the REST web server reads it (`WebClient::_parseRequest`
    in lib/RestWebServer/src/WebClient.cpp) and the lookups a handler makes
    on it (lib/RestWebServer/src/WebRequest.cpp). The connection's bytes
    arrive as parameters: the request line, the lines of the header
    section, and what follows them. */
module HttpRequest {
  import opened Base
  import opened ArduinoString
  import opened QueryArgs
  import HttpMethod
  import opened HttpHeaders
  import opened RequestLine

  /** `HTTP_MAX_POST_DATA_LENGTH`: the largest body read into memory. */
  const MaxPostDataLength: nat := 4096
  /** `HTTP_RAW_BUFLEN`: the size of each read of the body. */
  const RawBufferLength: nat := 1436

  /** How a raw-data handler dealt with the body, when one took it
      (`canRaw`); its work is outside this model. */
  datatype RawOutcome = NoRawHandler | RawHandled(ok: bool)

  /** The request as handlers see it. */
  datatype Request = Request(
    httpMethod: nat, url: string, uri: string, version: string,
    args: seq<Argument>, headers: seq<Argument>,
    contentLength: nat, boundary: string, body: string)

  /** A C string read from a buffer: up to its first NUL. */
  function CString(s: string): (r: string)
    ensures |r| <= |s| && r == s[..|r|]
    ensures '\0' !in r
    ensures |r| < |s| ==> s[|r|] == '\0'
    decreases |s|
  {
    if |s| == 0 || s[0] == '\0' then ""
    else
      var r := [s[0]] + CString(s[1..]);
      assert forall k :: 1 <= k < |r| ==> r[k] == CString(s[1..])[k - 1];
      r
  }

  /** The body loop: reads of at most `RawBufferLength` bytes until the
      declared length is consumed or the stream (what the client sent
      before disconnecting) runs out; each read is appended as a C string,
      so bytes from a NUL to the end of that read are lost. */
  function ReadBody(stream: string, left: nat): (body: string)
    ensures |body| <= left && |body| <= |stream|
    decreases left
  {
    if left == 0 || |stream| == 0 then ""
    else
      var n := Min(Min(left, RawBufferLength), |stream|);
      CString(stream[..n]) + ReadBody(stream[n..], left - n)
  }

  /** A body free of NUL arrives whole: the first `left` bytes of the
      stream. */
  lemma {:induction false} ReadBodyWhole(stream: string, left: nat)
    requires left <= |stream| && '\0' !in stream[..left]
    ensures ReadBody(stream, left) == stream[..left]
    decreases left
  {
    if left > 0 {
      var n := Min(Min(left, RawBufferLength), |stream|);
      assert stream[..n] == stream[..left][..n];
      assert '\0' !in stream[..n];
      NoNulCString(stream[..n]);
      assert stream[n..][..left - n] == stream[..left][n..];
      ReadBodyWhole(stream[n..], left - n);
    }
  }

  lemma NoNulCString(s: string)
    requires '\0' !in s
    ensures CString(s) == s
  {
  }

  /** A NUL in the body cuts the rest of its read: "a", NUL, "b" arrives
      as "a". */
  lemma NulCutsBody()
    ensures ReadBody("a\0b", 3) == "a"
  {
    assert "a\0b"[..3] == "a\0b";
    assert CString("a\0b") == "a" + CString("\0b");
  }

  /** `_parseRequest` after the request line has been read: None when it
      reports failure. An unknown method, a raw handler's failure and a
      declared length over `MaxPostDataLength` fail; a length of zero
      leaves the body empty. The query is parsed by `_parseArguments` as
      written, so only bare keys reach the request. The server's hook is
      not modelled. */
  function ParseRequest(req: string, headerLines: seq<string>, interest: seq<string>,
                        raw: RawOutcome, stream: string): (r: Option<Request>)
    ensures r.Some? ==> r.value.httpMethod < |HttpMethod.MethodNames|
    ensures r.Some? && raw.NoRawHandler? ==> r.value.contentLength <= MaxPostDataLength
    ensures r.Some? ==> |r.value.body| <= r.value.contentLength
    ensures r.Some? ==> |r.value.args| <= MaxPostArgs
                        && forall k :: 0 <= k < |r.value.args| ==> r.value.args[k].value == ""
  {
    match SplitRequestLine(req)
    case None => None
    case Some(line) =>
      var m := HttpMethod.FromName(line.methodName);
      if m == HttpMethod.Any then None
      else
        var h := ParseHeaders(headerLines, interest, NoHeaders);
        var request := Request(m, line.url, line.uri, line.version,
                               RestArgumentsAsWritten(line.search), h.headers, h.contentLength, h.boundary, "");
        match raw
        case RawHandled(ok) => if ok then Some(request) else None
        case NoRawHandler =>
          if h.contentLength > MaxPostDataLength then None
          else Some(request.(body := ReadBody(stream, h.contentLength)))
  }

  /** A request line with fewer than two spaces is rejected. */
  lemma MissingSpaceRejected(req: string, headerLines: seq<string>, interest: seq<string>,
                             raw: RawOutcome, stream: string)
    requires ' ' !in req
    ensures ParseRequest(req, headerLines, interest, raw, stream).None?
  {
  }

  /** A declared length over the limit fails the request when no raw
      handler takes the body; so does a negative one, which wraps. */
  lemma OversizedBodyRejected(req: string, headerLines: seq<string>, interest: seq<string>, stream: string)
    requires ParseHeaders(headerLines, interest, NoHeaders).contentLength > MaxPostDataLength
    ensures ParseRequest(req, headerLines, interest, NoRawHandler, stream).None?
  {
  }

  /** `WebRequest::arg(name)`: the value of the first argument whose key
      equals `name` exactly, or "". */
  function Arg(args: seq<Argument>, name: string): (v: string)
    ensures v != "" ==> exists k :: 0 <= k < |args| && args[k].key == name && args[k].value == v
  {
    if |args| == 0 then ""
    else if args[0].key == name then args[0].value
    else
      var v := Arg(args[1..], name);
      assert v != "" ==> exists k :: 0 <= k < |args| - 1 && args[1..][k].key == name && args[1..][k].value == v;
      v
  }

  /** `WebRequest::hasArg`. */
  predicate HasArg(args: seq<Argument>, name: string)
  {
    exists k :: 0 <= k < |args| && args[k].key == name
  }

  /** `arg(name)` gives the first match's value; without a match, "". */
  lemma {:induction false} ArgIsFirstMatch(args: seq<Argument>, name: string, k: nat)
    requires k < |args| && args[k].key == name
    requires forall j :: 0 <= j < k ==> args[j].key != name
    ensures Arg(args, name) == args[k].value
    decreases k
  {
    if k > 0 {
      assert args[1..][k - 1] == args[k];
      ArgIsFirstMatch(args[1..], name, k - 1);
    }
  }

  lemma {:induction false} NoArgIsEmpty(args: seq<Argument>, name: string)
    requires !HasArg(args, name)
    ensures Arg(args, name) == ""
    decreases |args|
  {
    if |args| > 0 {
      assert args[0].key != name;
      NoArgIsEmpty(args[1..], name);
    }
  }

  /** `WebRequest::arg(int)` and `argName(int)`: the entry at `i`, or ""
      when `i` is out of range; the comparison is unsigned, so a negative
      index is out of range too. */
  function ArgAt(args: seq<Argument>, i: int): (v: string)
    ensures 0 <= i < |args| ==> v == args[i].value
    ensures !(0 <= i < |args|) ==> v == ""
  {
    if 0 <= i < |args| then args[i].value else ""
  }

  function ArgNameAt(args: seq<Argument>, i: int): (v: string)
    ensures 0 <= i < |args| ==> v == args[i].key
    ensures !(0 <= i < |args|) ==> v == ""
  {
    if 0 <= i < |args| then args[i].key else ""
  }

  /** `WebRequest::header(name)`: the value of the first stored header
      whose name equals `name` ignoring case, or "". */
  function Header(headers: seq<Argument>, name: string): (v: string)
    ensures v != "" ==> exists k :: 0 <= k < |headers| && EqualsIgnoreCase(headers[k].key, name) && headers[k].value == v
  {
    if |headers| == 0 then ""
    else if EqualsIgnoreCase(headers[0].key, name) then headers[0].value
    else
      var v := Header(headers[1..], name);
      assert v != "" ==> exists k :: 0 <= k < |headers| - 1 && EqualsIgnoreCase(headers[1..][k].key, name) && headers[1..][k].value == v;
      v
  }

  /** `WebRequest::hasHeader`. */
  predicate HasHeader(headers: seq<Argument>, name: string)
  {
    exists k :: 0 <= k < |headers| && EqualsIgnoreCase(headers[k].key, name)
  }

  /** Lookups by name ignore case: names that equal ignoring case find the
      same header. */
  lemma {:induction false} HeaderIgnoresCase(headers: seq<Argument>, a: string, b: string)
    requires EqualsIgnoreCase(a, b)
    ensures Header(headers, a) == Header(headers, b)
    ensures HasHeader(headers, a) <==> HasHeader(headers, b)
    decreases |headers|
  {
    forall k | 0 <= k < |headers|
      ensures EqualsIgnoreCase(headers[k].key, a) <==> EqualsIgnoreCase(headers[k].key, b)
    {
      EqualsIgnoreCaseEquivalence(headers[k].key, a, b);
      EqualsIgnoreCaseEquivalence(headers[k].key, b, a);
    }
    if |headers| > 0 {
      HeaderIgnoresCase(headers[1..], a, b);
    }
  }

  /** `header(int)` and `headerName(int)`: as for arguments. */
  function HeaderAt(headers: seq<Argument>, i: int): (v: string)
    ensures 0 <= i < |headers| ==> v == headers[i].value
    ensures !(0 <= i < |headers|) ==> v == ""
  {
    if 0 <= i < |headers| then headers[i].value else ""
  }

  function HeaderNameAt(headers: seq<Argument>, i: int): (v: string)
    ensures 0 <= i < |headers| ==> v == headers[i].key
    ensures !(0 <= i < |headers|) ==> v == ""
  {
    if 0 <= i < |headers| then headers[i].key else ""
  }

  /** Walking the arguments by index agrees with looking them up by name:
      the name at `i` finds the value at `i` unless an earlier argument
      has the same name. */
  lemma IndexedArgMatchesNamed(args: seq<Argument>, i: nat)
    requires i < |args| && forall j :: 0 <= j < i ==> args[j].key != args[i].key
    ensures Arg(args, ArgNameAt(args, i)) == ArgAt(args, i)
    ensures HasArg(args, ArgNameAt(args, i))
  {
    ArgIsFirstMatch(args, args[i].key, i);
  }

  /** The same for headers, whose names match ignoring case. */
  lemma {:induction false} IndexedHeaderMatchesNamed(headers: seq<Argument>, i: nat)
    requires i < |headers| && forall j :: 0 <= j < i ==> !EqualsIgnoreCase(headers[j].key, headers[i].key)
    ensures Header(headers, HeaderNameAt(headers, i)) == HeaderAt(headers, i)
    decreases i
  {
    if i > 0 {
      assert headers[1..][i - 1] == headers[i];
      IndexedHeaderMatchesNamed(headers[1..], i - 1);
    } else {
      EqualsIgnoreCaseEquivalence(headers[0].key, headers[0].key, headers[0].key);
    }
  }

  /** With the corrected parser (`HTTPServer::_parseArguments`), a query a
      client built from distinct keys is read back key by key: each key's
      lookup gives its value. */
  lemma QueryLookup(args: seq<Argument>, k: nat)
    requires Encodable(args) && 1 <= |args| <= MaxPostArgs
    requires |Query(args)| < U32 - 1
    requires k < |args| && forall j :: 0 <= j < k ==> args[j].key != args[k].key
    ensures Arg(ParseArguments(Query(args)), args[k].key) == args[k].value
    ensures HasArg(ParseArguments(Query(args)), args[k].key)
  {
    ParseQueryRoundTrip(args);
    ArgIsFirstMatch(args, args[k].key, k);
  }

  /** With `WebClient::_parseArguments` as written, the request holds no
      argument of such a query: every key's lookup gives "". */
  lemma QueryLookupAsWritten(args: seq<Argument>, k: nat)
    requires Encodable(args) && 1 <= |args| <= MaxPostArgs
    requires |Query(args)| < U32 - 1
    requires k < |args|
    ensures !HasArg(RestArgumentsAsWritten(Query(args)), args[k].key)
    ensures Arg(RestArgumentsAsWritten(Query(args)), args[k].key) == ""
  {
    RestDropsValuedArguments(args);
  }
}

=== FILE: http_response.dfy ===
/** Building a response head: the reason phrases of
    `Util::responseCodeToString` (lib/WebServer/src/detail/util.cpp), the
    header buffer of `WebClient::sendHeader` and the status line and framing
    headers of `WebClient::_prepareHeader`
    (lib/RestWebServer/src/WebClient.cpp). `size_t` is 32 bits wide. */
module HttpResponse {
  import opened Base
  import opened ArduinoString

  /** The two out-of-band values of the response's content length. */
  const ContentLengthUnknown: nat := U32 - 1
  const ContentLengthNotSet: nat := U32 - 2

  const Crlf: string := "\r\n"

  /** The status codes that have a reason phrase. */
  const ReasonCodes: set<int> := {
    100, 101, 200, 201, 202, 203, 204, 205, 206, 300, 301, 302, 303, 304, 305, 307,
    400, 401, 402, 403, 404, 405, 406, 407, 408, 409, 410, 411, 412, 413, 414, 415,
    416, 417, 500, 501, 502, 503, 504, 505}

  /** `Util::responseCodeToString`: the reason phrase, empty for a code the
      switch does not list. */
  function ReasonPhrase(code: int): (reason: string)
    ensures reason != [] <==> code in ReasonCodes
  {
    match code
    case 100 => "Continue"
    case 101 => "Switching Protocols"
    case 200 => "OK"
    case 201 => "Created"
    case 202 => "Accepted"
    case 203 => "Non-Authoritative Information"
    case 204 => "No Content"
    case 205 => "Reset Content"
    case 206 => "Partial Content"
    case 300 => "Multiple Choices"
    case 301 => "Moved Permanently"
    case 302 => "Found"
    case 303 => "See Other"
    case 304 => "Not Modified"
    case 305 => "Use Proxy"
    case 307 => "Temporary Redirect"
    case 400 => "Bad Request"
    case 401 => "Unauthorized"
    case 402 => "Payment Required"
    case 403 => "Forbidden"
    case 404 => "Not Found"
    case 405 => "Method Not Allowed"
    case 406 => "Not Acceptable"
    case 407 => "Proxy Authentication Required"
    case 408 => "Request Time-out"
    case 409 => "Conflict"
    case 410 => "Gone"
    case 411 => "Length Required"
    case 412 => "Precondition Failed"
    case 413 => "Request Entity Too Large"
    case 414 => "Request-URI Too Large"
    case 415 => "Unsupported Media Type"
    case 416 => "Requested range not satisfiable"
    case 417 => "Expectation Failed"
    case 500 => "Internal Server Error"
    case 501 => "Not Implemented"
    case 502 => "Bad Gateway"
    case 503 => "Service Unavailable"
    case 504 => "Gateway Time-out"
    case 505 => "HTTP Version not supported"
    case _ => ""
  }

  /** `String(int)`: a minus sign for negative values, then the digits. */
  function IntString(n: int): (s: string)
    ensures n >= 0 ==> s == FromNat(n)
    ensures n < 0 ==> s == "-" + FromNat(-n)
  {
    if n < 0 then "-" + FromNat(-n) else FromNat(n)
  }

  /** "HTTP/" + version + ' ' + code + ' ' + reason + CRLF. */
  function StatusLine(version: string, code: int): string
  {
    "HTTP/" + version + " " + IntString(code) + " " + ReasonPhrase(code) + Crlf
  }

  /** The status code a client reads from a status line: the digits between
      the first and the second space. */
  function StatusCodeOf(line: string): Option<nat>
  {
    var first := IndexOfChar(line, ' ', 0);
    if first < 0 then None
    else
      var second := IndexOfChar(line, ' ', first + 1);
      if second < 0 then None
      else
        var digits := line[first + 1..second];
        if |digits| > 0 && forall k :: 0 <= k < |digits| ==> IsDigit(digits[k]) then Some(ToNat(digits))
        else None
  }

  lemma MiddleSlice(a: string, b: string, c: string)
    ensures (a + b + c)[|a|..|a| + |b|] == b
  {
  }

  /** The first space at or after `from` is at `pos`. */
  lemma SpaceAt(line: string, from: nat, pos: nat)
    requires from <= pos < |line| && line[pos] == ' '
    requires forall j :: from <= j < pos ==> line[j] != ' '
    ensures IndexOfChar(line, ' ', from) == pos
  {
  }

  /** In `left + digits + right` with `left` ending in its only space and
      `right` starting with one, the spaces delimit the digits. */
  lemma DelimitedDigits(left: string, digits: string, right: string)
    requires |left| > 0 && left[|left| - 1] == ' '
    requires forall j :: 0 <= j < |left| - 1 ==> left[j] != ' '
    requires forall k :: 0 <= k < |digits| ==> IsDigit(digits[k])
    requires |right| > 0 && right[0] == ' '
    ensures IndexOfChar(left + digits + right, ' ', 0) == |left| - 1
    ensures IndexOfChar(left + digits + right, ' ', |left|) == |left| + |digits|
    ensures (left + digits + right)[|left|..|left| + |digits|] == digits
  {
    var line := left + digits + right;
    SpaceAt(line, 0, |left| - 1);
    assert forall j :: |left| <= j < |left| + |digits| ==> line[j] != ' ' by {
      forall j | |left| <= j < |left| + |digits| ensures line[j] != ' ' {
        assert line[j] == digits[j - |left|];
      }
    }
    SpaceAt(line, |left|, |left| + |digits|);
    MiddleSlice(left, digits, right);
  }

  /** The status code is read back from any line of the shape
      "HTTP/" version ' ' digits ' ' rest, whatever follows the second
      space. */
  lemma StatusTextCode(version: string, digits: string, rest: string)
    requires ' ' !in version
    requires |digits| > 0 && forall k :: 0 <= k < |digits| ==> IsDigit(digits[k])
    ensures StatusCodeOf("HTTP/" + version + " " + digits + " " + rest) == Some(ToNat(digits))
  {
    var left := "HTTP/" + version + " ";
    assert forall j :: 0 <= j < |left| - 1 ==> left[j] != ' ' by {
      forall j | 0 <= j < |left| - 1 ensures left[j] != ' ' {
        if j >= 5 {
          assert left[j] == version[j - 5];
        }
      }
    }
    DelimitedDigits(left, digits, " " + rest);
    assert "HTTP/" + version + " " + digits + " " + rest == left + digits + (" " + rest);
  }

  /** A client reads back the status code from the status line, as long as
      the request's version text holds no space. */
  lemma StatusLineCode(version: string, code: nat)
    requires ' ' !in version
    ensures StatusCodeOf(StatusLine(version, code)) == Some(code)
  {
    var digits := FromNat(code);
    StatusTextCode(version, digits, ReasonPhrase(code) + Crlf);
    assert StatusLine(version, code) == "HTTP/" + version + " " + digits + " " + (ReasonPhrase(code) + Crlf);
    FromNatRoundTrip(code);
  }

  /** One response header. */
  datatype Field = Field(name: string, value: string)

  /** "name: value" CRLF. */
  function Line(f: Field): string
  {
    f.name + ": " + f.value + Crlf
  }

  /** The header block holding the fields in order. */
  function Render(fields: seq<Field>): string
    decreases |fields|
  {
    if |fields| == 0 then "" else Line(fields[0]) + Render(fields[1..])
  }

  lemma {:induction false} RenderAppend(a: seq<Field>, b: seq<Field>)
    ensures Render(a + b) == Render(a) + Render(b)
    decreases |a|
  {
    if |a| == 0 {
      assert a + b == b;
    } else {
      assert (a + b)[1..] == a[1..] + b;
      RenderAppend(a[1..], b);
    }
  }

  /** `WebClient::sendHeader`: the header line is put in front of the
      buffer (`first`) or after it. */
  function SendHeader(headers: string, name: string, value: string, first: bool): (h: string)
    ensures |h| == |headers| + |Line(Field(name, value))|
  {
    var headerLine := name + ": " + value + Crlf;
    if first then headerLine + headers else headers + headerLine
  }

  /** The buffer always renders a field list: sendHeader adds the field at
      the front or at the back of the list. */
  lemma SendHeaderRender(fields: seq<Field>, name: string, value: string, first: bool)
    ensures SendHeader(Render(fields), name, value, first)
         == Render(if first then [Field(name, value)] + fields else fields + [Field(name, value)])
  {
    var f := Field(name, value);
    assert Render([f]) == Line(f) + Render([]);
    if first {
      RenderAppend([f], fields);
    } else {
      RenderAppend(fields, [f]);
    }
  }

  /** The server settings the response head depends on. */
  datatype ServerConfig = ServerConfig(serverAgent: string, corsEnabled: bool)

  /** The part of the client's state the response head reads and writes:
      the content length (`_contentLength`, possibly one of the two
      out-of-band values), chunked mode, the buffered headers and the byte
      count `_contentWritten`. */
  datatype ResponseState = ResponseState(contentLength: nat, chunked: bool, headers: string, written: nat)

  datatype Prepared = Prepared(response: string, state: ResponseState)

  function ContentTypeOrHtml(contentType: Option<string>): string
  {
    if contentType.None? then "text/html" else contentType.value
  }

  /** The framing headers: a length when there is one, chunked transfer
      coding when the length is unknown. A length not set yet is taken from
      the caller. */
  function FramingFields(stored: nat, given: nat): (fields: seq<Field>)
    ensures Field("Transfer-Encoding", "chunked") in fields <==> stored == ContentLengthUnknown
    ensures (exists v :: Field("Content-Length", v) in fields) <==> stored != ContentLengthUnknown
  {
    if stored == ContentLengthNotSet then [Field("Content-Length", FromNat(given))]
    else if stored == ContentLengthUnknown then [Field("Accept-Ranges", "none"), Field("Transfer-Encoding", "chunked")]
    else [Field("Content-Length", FromNat(stored))]
  }

  function CorsFields(enabled: bool): seq<Field>
  {
    if enabled then
      [Field("Access-Control-Allow-Origin", "*"), Field("Access-Control-Allow-Methods", "*"),
       Field("Access-Control-Allow-Headers", "*")]
    else []
  }

  function ServerFields(agent: string): seq<Field>
  {
    if |agent| > 0 then [Field("Server", agent)] else []
  }

  /** The framing headers `_prepareHeader` appends: a length when there is
      one, chunked transfer coding when the length is unknown. A length not
      set yet is taken from the caller. */
  function WithFraming(h: string, stored: nat, given: nat): string
  {
    if stored == ContentLengthNotSet then SendHeader(h, "Content-Length", FromNat(given), false)
    else if stored == ContentLengthUnknown then
      SendHeader(SendHeader(h, "Accept-Ranges", "none", false), "Transfer-Encoding", "chunked", false)
    else SendHeader(h, "Content-Length", FromNat(stored), false)
  }

  function WithCors(h: string, enabled: bool): string
  {
    if enabled then
      SendHeader(SendHeader(SendHeader(h, "Access-Control-Allow-Origin", "*", false),
                            "Access-Control-Allow-Methods", "*", false),
                 "Access-Control-Allow-Headers", "*", false)
    else h
  }

  function WithServer(h: string, agent: string): string
  {
    if |agent| > 0 then SendHeader(h, "Server", agent, false) else h
  }

  /** The header buffer as `_prepareHeader` completes it: Content-Type in
      front, then the server name, framing, CORS and "Connection: close"
      headers after whatever was queued. */
  function HeaderBlock(contentType: Option<string>, contentLength: nat, config: ServerConfig,
                       queued: string, stored: nat): (h: string)
    ensures EndsWith(h, "Connection: close\r\n")
  {
    var h0 := SendHeader(queued, "Content-Type", ContentTypeOrHtml(contentType), true);
    var h3 := WithCors(WithFraming(WithServer(h0, config.serverAgent), stored, contentLength), config.corsEnabled);
    ConnectionCloseLast(h3);
    SendHeader(h3, "Connection", "close", false)
  }

  lemma ConnectionCloseLast(h: string)
    ensures EndsWith(SendHeader(h, "Connection", "close", false), "Connection: close\r\n")
  {
    assert "Connection" + ": " + "close" + Crlf == "Connection: close\r\n";
    AppendedSuffix(h, "Connection: close\r\n");
  }

  lemma AppendedSuffix(a: string, b: string)
    ensures EndsWith(a + b, b)
  {
    assert (a + b)[|a + b| - |b|..] == b;
  }

  lemma PrependedPrefix(a: string, b: string)
    ensures StartsWith(a + b, a)
  {
    assert (a + b)[..|a|] == a;
  }

  /** `WebClient::_prepareHeader`: the status line, the completed header
      buffer and the blank line; the buffer is emptied, chunked mode is
      switched on for an unknown length, and a length not set yet is taken
      from the caller. */
  function PrepareHeader(version: string, code: int, contentType: Option<string>, contentLength: nat,
                         config: ServerConfig, st: ResponseState): (p: Prepared)
    ensures p.state.headers == []
    ensures StartsWith(p.response, StatusLine(version, code))
    ensures EndsWith(p.response, "Connection: close\r\n\r\n")
    ensures p.state.chunked <==> st.chunked || st.contentLength == ContentLengthUnknown
    ensures st.contentLength == ContentLengthNotSet ==> p.state.contentLength == contentLength
    ensures st.contentLength != ContentLengthNotSet ==> p.state.contentLength == st.contentLength
    ensures p.state.written == st.written
  {
    var sl := StatusLine(version, code);
    var h := HeaderBlock(contentType, contentLength, config, st.headers, st.contentLength);
    ResponseEnds(sl, h);
    var newLength := if st.contentLength == ContentLengthNotSet then contentLength else st.contentLength;
    Prepared(sl + h + Crlf, ResponseState(newLength, st.chunked || st.contentLength == ContentLengthUnknown, "", st.written))
  }

  lemma ResponseEnds(sl: string, h: string)
    requires EndsWith(h, "Connection: close\r\n")
    ensures StartsWith(sl + h + Crlf, sl)
    ensures EndsWith(sl + h + Crlf, "Connection: close\r\n\r\n")
  {
    var body := h[..|h| - |"Connection: close\r\n"|];
    assert h == body + "Connection: close\r\n";
    PrependedPrefix(sl, h + Crlf);
    assert sl + h + Crlf == (sl + body) + "Connection: close\r\n\r\n";
    AppendedSuffix(sl + body, "Connection: close\r\n\r\n");
  }

  /** The response head, field by field: Content-Type, then the headers
      the handler queued, the server name, the framing headers, the CORS
      headers and "Connection: close". */
  function HeadFields(contentType: Option<string>, contentLength: nat, config: ServerConfig,
                      queued: seq<Field>, stored: nat): seq<Field>
  {
    [Field("Content-Type", ContentTypeOrHtml(contentType))] + queued + ServerFields(config.serverAgent)
      + FramingFields(stored, contentLength) + CorsFields(config.corsEnabled) + [Field("Connection", "close")]
  }

  lemma WithServerRender(fields: seq<Field>, agent: string)
    ensures WithServer(Render(fields), agent) == Render(fields + ServerFields(agent))
  {
    if |agent| > 0 {
      SendHeaderRender(fields, "Server", agent, false);
    } else {
      assert fields + ServerFields(agent) == fields;
    }
  }

  lemma WithFramingRender(fields: seq<Field>, stored: nat, given: nat)
    ensures WithFraming(Render(fields), stored, given) == Render(fields + FramingFields(stored, given))
  {
    if stored == ContentLengthNotSet {
      SendHeaderRender(fields, "Content-Length", FromNat(given), false);
    } else if stored == ContentLengthUnknown {
      var ar := Field("Accept-Ranges", "none");
      SendHeaderRender(fields, ar.name, ar.value, false);
      SendHeaderRender(fields + [ar], "Transfer-Encoding", "chunked", false);
      assert fields + FramingFields(stored, given) == fields + [ar] + [Field("Transfer-Encoding", "chunked")];
    } else {
      SendHeaderRender(fields, "Content-Length", FromNat(stored), false);
    }
  }

  lemma WithCorsRender(fields: seq<Field>, enabled: bool)
    ensures WithCors(Render(fields), enabled) == Render(fields + CorsFields(enabled))
  {
    if enabled {
      var o := Field("Access-Control-Allow-Origin", "*");
      var m := Field("Access-Control-Allow-Methods", "*");
      SendHeaderRender(fields, o.name, o.value, false);
      SendHeaderRender(fields + [o], m.name, m.value, false);
      SendHeaderRender(fields + [o] + [m], "Access-Control-Allow-Headers", "*", false);
      assert fields + CorsFields(enabled) == fields + [o] + [m] + [Field("Access-Control-Allow-Headers", "*")];
    } else {
      assert fields + CorsFields(enabled) == fields;
    }
  }

  /** The string the header buffer accumulates is the rendering of the
      field list. */
  lemma HeaderBlockLayout(contentType: Option<string>, contentLength: nat, config: ServerConfig,
                          queued: seq<Field>, stored: nat)
    ensures HeaderBlock(contentType, contentLength, config, Render(queued), stored)
         == Render(HeadFields(contentType, contentLength, config, queued, stored))
  {
    var ct := Field("Content-Type", ContentTypeOrHtml(contentType));
    var f0 := [ct] + queued;
    SendHeaderRender(queued, ct.name, ct.value, true);
    var f1 := f0 + ServerFields(config.serverAgent);
    WithServerRender(f0, config.serverAgent);
    var f2 := f1 + FramingFields(stored, contentLength);
    WithFramingRender(f1, stored, contentLength);
    var f3 := f2 + CorsFields(config.corsEnabled);
    WithCorsRender(f2, config.corsEnabled);
    SendHeaderRender(f3, "Connection", "close", false);
  }

  /** The whole response head is the status line, the rendered fields and
      the blank line. */
  lemma PrepareHeaderLayout(version: string, code: int, contentType: Option<string>, contentLength: nat,
                            config: ServerConfig, st: ResponseState, queued: seq<Field>)
    requires st.headers == Render(queued)
    ensures PrepareHeader(version, code, contentType, contentLength, config, st).response
         == StatusLine(version, code) + Render(HeadFields(contentType, contentLength, config, queued, st.contentLength)) + Crlf
  {
    HeaderBlockLayout(contentType, contentLength, config, queued, st.contentLength);
  }
}

=== FILE: http_server.dfy ===
/** The server side of the web server library (lib/WebServer): the list
    of request handlers and its maintenance (`HTTPServer`), the handlers'
    routing rules (lib/WebServer/src/detail/RequestHandlers.cpp), the
    choice of handler for a request (`WebClient::_parseRequest` in
    lib/RestWebServer/src/WebClient.cpp), and the server's lookups of
    arguments, headers and authentication parameters. */
module HttpServer {
  import opened Base
  import opened ArduinoString
  import opened QueryArgs
  import HttpMethod

  // ---------------------------------------------------------------------
  // Authentication parameters

  /** `_extractParam`: the text after the first occurrence of `param`, up
      to the next `delimit`, or to the end when none follows (the -1 of a
      failed search reads as the largest unsigned index, which `substring`
      clamps); "" when `param` does not occur. */
  function ExtractParam(authReq: string, param: string, delimit: char): (r: string)
    ensures IndexOf(authReq, param, 0) == -1 ==> r == []
    ensures |r| <= |authReq|
  {
    var begin := IndexOf(authReq, param, 0);
    if begin == -1 then []
    else
      var from := begin + |param|;
      var end := IndexOfChar(authReq, delimit, from);
      Substring(authReq, from, if end == -1 then U32 - 1 else end)
  }

  /** `indexOf` finds the first occurrence of `pat`. */
  lemma FirstOccurrence(s: string, pat: string, k: nat)
    requires k < |s| && OccursAt(s, pat, k)
    requires forall j :: 0 <= j < k ==> !OccursAt(s, pat, j)
    ensures IndexOf(s, pat, 0) == k
  {
    FirstOccurrenceFrom(s, pat, 0, k);
  }

  lemma {:induction false} FirstOccurrenceFrom(s: string, pat: string, from: nat, k: nat)
    requires from <= k < |s| && OccursAt(s, pat, k)
    requires forall j :: from <= j < k ==> !OccursAt(s, pat, j)
    ensures IndexOf(s, pat, from) == k
    decreases k - from
  {
    if from < k {
      FirstOccurrenceFrom(s, pat, from + 1, k);
    }
  }

  /** An occurrence ending within a prefix is an occurrence in the whole. */
  lemma OccursInPrefix(p: string, rest: string, pat: string, j: nat)
    requires j + |pat| <= |p|
    ensures OccursAt(p + rest, pat, j) <==> OccursAt(p, pat, j)
  {
    assert (p + rest)[j..j + |pat|] == p[j..j + |pat|];
  }

  /** The parameter's value is found in a header "pre param value delimit
      post" when `param` first occurs right after `pre` and the value has
      no delimiter. */
  lemma ExtractParamValue(pre: string, param: string, value: string, delimit: char, post: string)
    requires |param| > 0
    requires forall j :: 0 <= j < |pre| ==> !OccursAt(pre + param, param, j)
    requires delimit !in value
    ensures ExtractParam(pre + param + value + [delimit] + post, param, delimit) == value
  {
    var s := pre + param + value + [delimit] + post;
    var from := |pre| + |param|;
    assert s[..from] == pre + param;
    assert s[from..from + |value|] == value;
    ParamFound(s, pre, param);
    DelimiterAfter(s, from, value, delimit);
  }

  /** `param` first occurs right after `pre` when `s` starts with
      `pre + param` and `pre + param` holds no earlier occurrence. */
  lemma ParamFound(s: string, pre: string, param: string)
    requires |param| > 0 && |pre| + |param| <= |s| && s[..|pre| + |param|] == pre + param
    requires forall j :: 0 <= j < |pre| ==> !OccursAt(pre + param, param, j)
    ensures IndexOf(s, param, 0) == |pre|
  {
    var p := pre + param;
    assert s == p + s[|p|..];
    assert OccursAt(s, param, |pre|) by {
      assert s[|pre|..|pre| + |param|] == p[|pre|..] == param;
    }
    forall j | 0 <= j < |pre| ensures !OccursAt(s, param, j) {
      OccursInPrefix(p, s[|p|..], param, j);
    }
    FirstOccurrence(s, param, |pre|);
  }

  /** The first delimiter from `from` on is the one right after `value`. */
  lemma DelimiterAfter(s: string, from: nat, value: string, delimit: char)
    requires from + |value| < |s| && s[from..from + |value|] == value && s[from + |value|] == delimit
    requires delimit !in value
    ensures IndexOfChar(s, delimit, from) == from + |value|
  {
    forall j | from <= j < from + |value| ensures s[j] != delimit {
      assert s[j] == s[from..from + |value|][j - from];
    }
    DelimiterAt(s, delimit, from, from + |value|);
  }

  lemma {:induction false} DelimiterAt(s: string, c: char, from: nat, k: nat)
    requires from <= k < |s| && s[k] == c
    requires forall j :: from <= j < k ==> s[j] != c
    ensures IndexOfChar(s, c, from) == k
    decreases k - from
  {
    if from < k {
      DelimiterAt(s, c, from + 1, k);
    }
  }

  /** Without a delimiter after it, the value runs to the end. */
  lemma ExtractParamToEnd(pre: string, param: string, value: string, delimit: char)
    requires |param| > 0
    requires forall j :: 0 <= j < |pre| ==> !OccursAt(pre + param, param, j)
    requires delimit !in value
    requires |pre| + |param| + |value| < U32 - 1
    ensures ExtractParam(pre + param + value, param, delimit) == value
  {
    var s := pre + param + value;
    var from := |pre| + |param|;
    assert s[..from] == pre + param;
    assert s[from..] == value;
    ParamFound(s, pre, param);
    NoDelimiterAfter(s, from, delimit);
  }

  /** No delimiter follows `from` when the rest has none. */
  lemma NoDelimiterAfter(s: string, from: nat, delimit: char)
    requires from <= |s| && delimit !in s[from..]
    ensures IndexOfChar(s, delimit, from) == -1
  {
    forall j | from <= j < |s| ensures s[j] != delimit {
      assert s[j] == s[from..][j - from];
    }
  }

  // ---------------------------------------------------------------------
  // The handler list

  /** The handlers as the server links them: `nodes` in list order, and
      the `_firstHandler` and `_lastHandler` pointers. Handlers are known
      by their identity. */
  datatype HandlerList = HandlerList(nodes: seq<nat>, first: Option<nat>, last: Option<nat>)

  /** First and last point at the ends of the list, and are null exactly
      when it is empty. */
  predicate Linked(l: HandlerList)
  {
    if |l.nodes| == 0 then l.first.None? && l.last.None?
    else l.first == Some(l.nodes[0]) && l.last == Some(l.nodes[|l.nodes| - 1])
  }

  predicate Distinct(s: seq<nat>)
  {
    forall i, j :: 0 <= i < j < |s| ==> s[i] != s[j]
  }

  const NoHandlers: HandlerList := HandlerList([], None, None)

  /** `_addRequestHandler`: without a last handler, the new one becomes
      both first and last; otherwise it is linked after the last. */
  function AddHandler(l: HandlerList, h: nat): (r: HandlerList)
    requires Linked(l)
    ensures Linked(r)
    ensures r.nodes == l.nodes + [h]
    ensures |l.nodes| > 0 ==> r.first == l.first
  {
    if l.last.None? then HandlerList([h], Some(h), Some(h))
    else HandlerList(l.nodes + [h], l.first, Some(h))
  }

  /** The list without the first occurrence of `h`. */
  function Without(s: seq<nat>, h: nat): (r: seq<nat>)
  {
    if |s| == 0 then []
    else if s[0] == h then s[1..]
    else [s[0]] + Without(s[1..], h)
  }

  /** Removing a handler that is there drops exactly one entry, the one
      at its first position. */
  lemma {:induction false} WithoutAt(s: seq<nat>, h: nat, k: nat)
    requires k < |s| && s[k] == h && forall j :: 0 <= j < k ==> s[j] != h
    ensures Without(s, h) == s[..k] + s[k + 1..]
    decreases k
  {
    if k > 0 {
      WithoutAt(s[1..], h, k - 1);
      assert s[1..][..k - 1] == s[1..k];
      assert s[1..][k..] == s[k + 1..];
      assert [s[0]] + s[1..k] == s[..k];
    }
  }

  lemma {:induction false} WithoutAbsent(s: seq<nat>, h: nat)
    requires h !in s
    ensures Without(s, h) == s
    decreases |s|
  {
    if |s| > 0 {
      WithoutAbsent(s[1..], h);
    }
  }

  /** `_removeRequestHandler`: walk the list with a trailing `previous`;
      at the handler, link its predecessor (or the first pointer) past it,
      move the last pointer back when it was last, and report true; false
      when the walk ends without finding it. */
  method RemoveHandler(l: HandlerList, h: nat) returns (r: HandlerList, removed: bool)
    requires Linked(l) && Distinct(l.nodes)
    ensures removed <==> h in l.nodes
    ensures r.nodes == Without(l.nodes, h)
    ensures Linked(r) && Distinct(r.nodes)
    ensures !removed ==> r == l
  {
    var i := 0;
    while i < |l.nodes|
      invariant 0 <= i <= |l.nodes|
      invariant forall j :: 0 <= j < i ==> l.nodes[j] != h
    {
      if l.nodes[i] == h {
        r := Unlink(l, i);
        removed := true;
        UnlinkRemoves(l, h, i);
        return;
      }
      i := i + 1;
    }
    WithoutAbsent(l.nodes, h);
    r := l;
    removed := false;
  }

  /** The pointer updates for the handler found at position `i`: its
      successor becomes first when it had no predecessor, and its
      predecessor becomes last when it was last. */
  function Unlink(l: HandlerList, i: nat): (r: HandlerList)
    requires i < |l.nodes|
  {
    var next := if i + 1 < |l.nodes| then Some(l.nodes[i + 1]) else None;
    var previous := if i == 0 then None else Some(l.nodes[i - 1]);
    HandlerList(l.nodes[..i] + l.nodes[i + 1..],
                if previous.None? then next else l.first,
                if l.last == Some(l.nodes[i]) then previous else l.last)
  }

  lemma UnlinkRemoves(l: HandlerList, h: nat, i: nat)
    requires Linked(l) && Distinct(l.nodes)
    requires i < |l.nodes| && l.nodes[i] == h && forall j :: 0 <= j < i ==> l.nodes[j] != h
    ensures var r := Unlink(l, i);
            r.nodes == Without(l.nodes, h) && Linked(r) && Distinct(r.nodes)
  {
    var nodes := l.nodes[..i] + l.nodes[i + 1..];
    WithoutAt(l.nodes, h, i);
    assert |l.nodes| > 1 ==> l.nodes[0] != l.nodes[|l.nodes| - 1];
    forall a, b | 0 <= a < b < |nodes| ensures nodes[a] != nodes[b] {
      var a' := if a < i then a else a + 1;
      var b' := if b < i then b else b + 1;
      assert nodes[a] == l.nodes[a'] && nodes[b] == l.nodes[b'];
    }
    if |nodes| > 0 {
      if i == 0 {
        assert nodes[0] == l.nodes[1];
      } else {
        assert nodes[0] == l.nodes[0];
      }
      if i == |l.nodes| - 1 {
        assert nodes[|nodes| - 1] == l.nodes[i - 1];
      } else {
        assert nodes[|nodes| - 1] == l.nodes[|l.nodes| - 1];
      }
    }
  }

  /** Adding then removing a handler gives the list back. */
  lemma AddThenRemove(l: HandlerList, h: nat)
    requires Linked(l) && h !in l.nodes
    ensures Without(AddHandler(l, h).nodes, h) == l.nodes
  {
    var s := l.nodes + [h];
    WithoutAt(s, h, |l.nodes|);
    assert s[..|l.nodes|] == l.nodes;
  }

  // ---------------------------------------------------------------------
  // Handlers and routing

  /** The handler kinds: a function handler for a URI and a method (with
      or without an upload function), a static file handler mapping a
      base URI to a file system path that is a file or a directory, and a
      handler serving in-memory resources under a base URI. */
  datatype Handler =
    | FunctionHandler(uri: string, httpMethod: nat, hasUpload: bool)
    | StaticFileHandler(uri: string, path: string, isFile: bool)
    | StaticMemoryHandler(uri: string, resources: set<string>)

  /** The page a directory request is given, `getPath`'s default. */
  const DefaultPage: string := "index.html"

  /** `StaticFileRequestHandler::getPath`: the base path for a file;
      for a directory, the base path followed by what the request adds to
      the base URI, plus the default page after a trailing '/'. */
  function StaticPath(path: string, isFile: bool, baseUri: string, requestUri: string): (p: string)
  {
    if isFile then path
    else
      var q := path + SubstringFrom(requestUri, |baseUri|);
      if EndsWith(q, "/") then q + DefaultPage else q
  }

  /** `StaticInMemoryRequestHandler::getPath`: what the request adds to
      the base URI, with a leading '/' put in when missing and the default
      page after a trailing '/'. */
  function MemoryPath(baseUri: string, requestUri: string): (p: string)
  {
    var b := SubstringFrom(requestUri, |baseUri|);
    var b' := if StartsWith(b, "/") then b else "/" + b;
    if EndsWith(b', "/") then b' + DefaultPage else b'
  }

  /** A file handler serves its own path; a directory handler serves the
      request's path under its base, with the default page for a
      directory. */
  lemma StaticPathShape(path: string, baseUri: string, rest: string)
    ensures StaticPath(path, true, baseUri, baseUri + rest) == path
    ensures !EndsWith(path + rest, "/") ==> StaticPath(path, false, baseUri, baseUri + rest) == path + rest
    ensures EndsWith(path + rest, "/") ==> StaticPath(path, false, baseUri, baseUri + rest) == path + rest + DefaultPage
  {
    assert (baseUri + rest)[|baseUri|..] == rest;
  }

  /** In-memory paths always start with '/' and never end with it. */
  lemma MemoryPathShape(baseUri: string, requestUri: string)
    ensures var p := MemoryPath(baseUri, requestUri);
            StartsWith(p, "/") && !EndsWith(p, "/")
  {
    var b := SubstringFrom(requestUri, |baseUri|);
    var b' := if StartsWith(b, "/") then b else "/" + b;
    assert StartsWith(b', "/") by {
      if !StartsWith(b, "/") { assert b'[..1] == "/"; }
    }
    var p := MemoryPath(baseUri, requestUri);
    if EndsWith(b', "/") {
      assert p == b' + DefaultPage;
      assert p[..1] == b'[..1];
      assert p[|p| - 1] == 'l';
    }
  }

  /** A request for the base URI itself, or for a directory under it, is
      given the default page. */
  lemma MemoryPathDefault(baseUri: string, rest: string)
    requires rest == [] || rest == "/"
    ensures MemoryPath(baseUri, baseUri + rest) == "/" + DefaultPage
  {
    assert (baseUri + rest)[|baseUri|..] == rest;
  }

  /** Lower-casing a path, as the in-memory lookup does. */
  function LowerPath(s: string): (r: string)
    ensures |r| == |s| && forall i :: 0 <= i < |s| ==> r[i] == ToLower(s[i])
  {
    seq(|s|, i requires 0 <= i < |s| => ToLower(s[i]))
  }

  /** `match`: a function handler takes its method (or any method when it
      was registered for any) on exactly its URI, as `Uri::canHandle`
      compares whole strings; the static handlers take only GET, a file
      handler on exactly its URI and a directory handler on any URI under
      its base; the in-memory handler when the lower-cased path names one
      of its resources. */
  predicate Match(h: Handler, requestUri: string, m: nat)
  {
    match h
    case FunctionHandler(uri, hm, _) => (hm == HttpMethod.Any || hm == m) && uri == requestUri
    case StaticFileHandler(uri, _, isFile) =>
      m == HttpMethod.Get && !((isFile && requestUri != uri) || !StartsWith(requestUri, uri))
    case StaticMemoryHandler(uri, resources) =>
      m == HttpMethod.Get && LowerPath(MemoryPath(uri, requestUri)) in resources
  }

  /** What a handler's `canHandle` adds to `match`: the filter's verdict,
      and for a static file handler, whether the file exists. Both come
      from outside this model. */
  datatype Context = Context(filterAccepts: bool, existing: set<string>)

  /** `canHandle(client)`: `match` on the request, then the filter, and
      for file handlers the existence of the resolved path. */
  predicate CanHandle(h: Handler, requestUri: string, m: nat, ctx: Context)
  {
    Match(h, requestUri, m) && ctx.filterAccepts
    && (h.StaticFileHandler? ==> StaticPath(h.path, h.isFile, h.uri, requestUri) in ctx.existing)
  }

  /** `canRaw`: only a function handler with an upload function, for a
      method other than GET, that the filter accepts, takes the body raw;
      the others keep the base class's refusal. */
  predicate CanRaw(h: Handler, ctx: Context)
  {
    h.FunctionHandler? && h.hasUpload && h.httpMethod != HttpMethod.Get && ctx.filterAccepts
  }

  /** A function handler matches exactly the requests for its URI with
      its method, or any method when registered for any. */
  lemma FunctionMatch(uri: string, hm: nat, up: bool, requestUri: string, m: nat)
    ensures Match(FunctionHandler(uri, hm, up), requestUri, m)
            <==> requestUri == uri && (hm == HttpMethod.Any || hm == m)
  {
  }

  /** Static handlers never take a method other than GET, a file handler
      only its own URI, a directory handler every URI under its base. */
  lemma StaticMatch(uri: string, path: string, isFile: bool, requestUri: string, m: nat)
    ensures m != HttpMethod.Get ==> !Match(StaticFileHandler(uri, path, isFile), requestUri, m)
    ensures isFile ==> (Match(StaticFileHandler(uri, path, isFile), requestUri, HttpMethod.Get) <==> requestUri == uri)
    ensures !isFile ==> (Match(StaticFileHandler(uri, path, isFile), requestUri, HttpMethod.Get) <==> StartsWith(requestUri, uri))
  {
  }

  /** A GET request, or a handler without an upload function, is never
      taken raw. */
  lemma NoRawForGet(h: Handler, ctx: Context)
    requires h.FunctionHandler? && (h.httpMethod == HttpMethod.Get || !h.hasUpload)
    ensures !CanRaw(h, ctx)
  {
  }

  /** The handler a request goes to: the first in list order that can
      handle it, or None. Each handler's context comes from `ctxs`. */
  function FindHandler(handlers: seq<Handler>, ctxs: seq<Context>, requestUri: string, m: nat): (r: Option<nat>)
    requires |ctxs| == |handlers|
    ensures r.Some? ==> r.value < |handlers| && CanHandle(handlers[r.value], requestUri, m, ctxs[r.value])
    ensures r.Some? ==> forall j :: 0 <= j < r.value ==> !CanHandle(handlers[j], requestUri, m, ctxs[j])
    ensures r.None? ==> forall j :: 0 <= j < |handlers| ==> !CanHandle(handlers[j], requestUri, m, ctxs[j])
    decreases |handlers|
  {
    if |handlers| == 0 then None
    else if CanHandle(handlers[0], requestUri, m, ctxs[0]) then Some(0)
    else
      match FindHandler(handlers[1..], ctxs[1..], requestUri, m)
      case None => None
      case Some(k) => Some(k + 1)
  }

  /** The handler-attaching loop of `_parseRequest`, proved to pick the
      handler `FindHandler` names. */
  method AttachHandler(handlers: seq<Handler>, ctxs: seq<Context>, requestUri: string, m: nat) returns (r: Option<nat>)
    requires |ctxs| == |handlers|
    ensures r == FindHandler(handlers, ctxs, requestUri, m)
  {
    var i := 0;
    while i < |handlers|
      invariant 0 <= i <= |handlers|
      invariant forall j :: 0 <= j < i ==> !CanHandle(handlers[j], requestUri, m, ctxs[j])
    {
      if CanHandle(handlers[i], requestUri, m, ctxs[i]) {
        FindHandlerFirst(handlers, ctxs, requestUri, m, i);
        return Some(i);
      }
      i := i + 1;
    }
    return None;
  }

  /** The first handler that can handle the request is the one found. */
  lemma {:induction false} FindHandlerFirst(handlers: seq<Handler>, ctxs: seq<Context>, requestUri: string, m: nat, k: nat)
    requires |ctxs| == |handlers| && k < |handlers|
    requires CanHandle(handlers[k], requestUri, m, ctxs[k])
    requires forall j :: 0 <= j < k ==> !CanHandle(handlers[j], requestUri, m, ctxs[j])
    ensures FindHandler(handlers, ctxs, requestUri, m) == Some(k)
    decreases k
  {
    if k > 0 {
      forall j | 0 <= j < k - 1 ensures !CanHandle(handlers[1..][j], requestUri, m, ctxs[1..][j]) {
        assert handlers[1..][j] == handlers[j + 1] && ctxs[1..][j] == ctxs[j + 1];
      }
      FindHandlerFirst(handlers[1..], ctxs[1..], requestUri, m, k - 1);
    }
  }

  // ---------------------------------------------------------------------
  // Argument and header lookups

  /** The first value stored under `name` in `args`, if any. */
  function Lookup(args: seq<Argument>, name: string): (v: Option<string>)
    ensures v.Some? <==> exists k :: 0 <= k < |args| && args[k].key == name
    ensures v.Some? ==> exists k :: (0 <= k < |args| && args[k].key == name && args[k].value == v.value
                                     && forall j :: 0 <= j < k ==> args[j].key != name)
  {
    if |args| == 0 then None
    else if args[0].key == name then Some(args[0].value)
    else
      var v := Lookup(args[1..], name);
      if v.None? then
        assert forall k :: 1 <= k < |args| ==> args[k] == args[1..][k - 1];
        None
      else
        var k :| 0 <= k < |args| - 1 && args[1..][k].key == name && args[1..][k].value == v.value
                 && forall j :: 0 <= j < k ==> args[1..][j].key != name;
        assert args[k + 1].key == name && args[k + 1].value == v.value;
        assert forall j :: 1 <= j < k + 1 ==> args[j] == args[1..][j - 1];
        v
  }

  /** `HTTPServer::arg(name)`: the POST arguments are searched before the
      query's; "" when neither has the name. */
  function ServerArg(postArgs: seq<Argument>, args: seq<Argument>, name: string): (v: string)
  {
    match Lookup(postArgs, name)
    case Some(v) => v
    case None => match Lookup(args, name) case Some(v) => v case None => ""
  }

  /** `HTTPServer::hasArg`: the name is in either list. */
  predicate ServerHasArg(postArgs: seq<Argument>, args: seq<Argument>, name: string)
  {
    Lookup(postArgs, name).Some? || Lookup(args, name).Some?
  }

  /** A POST argument wins over a query argument of the same name; a name
      only in the query is found there; `hasArg` agrees with whether either
      list has the key. */
  lemma ServerArgPrecedence(postArgs: seq<Argument>, args: seq<Argument>, name: string)
    ensures (exists k :: 0 <= k < |postArgs| && postArgs[k].key == name)
            ==> exists k :: 0 <= k < |postArgs| && postArgs[k].key == name && ServerArg(postArgs, args, name) == postArgs[k].value
    ensures (forall k :: 0 <= k < |postArgs| ==> postArgs[k].key != name)
            ==> ServerArg(postArgs, args, name) == (match Lookup(args, name) case Some(v) => v case None => "")
    ensures ServerHasArg(postArgs, args, name)
            <==> (exists k :: 0 <= k < |postArgs| && postArgs[k].key == name)
                 || (exists k :: 0 <= k < |args| && args[k].key == name)
    ensures !ServerHasArg(postArgs, args, name) ==> ServerArg(postArgs, args, name) == ""
  {
  }

  /** `HTTPServer::arg(int)` and `argName(int)`: a signed comparison
      against the count, so the index must not be negative. */
  function ServerArgAt(args: seq<Argument>, i: int): (v: string)
    requires i >= 0
    ensures i < |args| ==> v == args[i].value
    ensures i >= |args| ==> v == ""
  {
    if i < |args| then args[i].value else ""
  }

  function ServerArgNameAt(args: seq<Argument>, i: int): (v: string)
    requires i >= 0
    ensures i < |args| ==> v == args[i].key
    ensures i >= |args| ==> v == ""
  {
    if i < |args| then args[i].key else ""
  }

  /** `AUTHORIZATION_HEADER`. */
  const Authorization: string := "Authorization"

  /** `collectHeaders`: the headers to keep, "Authorization" first, then
      the requested names in order, all without values yet. */
  function CollectHeaders(keys: seq<string>): (h: seq<Argument>)
    ensures |h| == |keys| + 1
    ensures h[0] == Argument(Authorization, "")
    ensures forall i :: 1 <= i < |h| ==> h[i] == Argument(keys[i - 1], "")
  {
    [Argument(Authorization, "")] + seq(|keys|, i requires 0 <= i < |keys| => Argument(keys[i], ""))
  }

  /** `HTTPServer::header(name)`: the first slot whose name equals `name`
      ignoring case gives its value, even an empty one. */
  function ServerHeader(headers: seq<Argument>, name: string): (v: string)
    ensures v != "" ==> exists k :: 0 <= k < |headers| && EqualsIgnoreCase(headers[k].key, name) && headers[k].value == v
    decreases |headers|
  {
    if |headers| == 0 then ""
    else if EqualsIgnoreCase(headers[0].key, name) then headers[0].value
    else
      var v := ServerHeader(headers[1..], name);
      assert v != "" ==> exists k :: 0 <= k < |headers| - 1 && EqualsIgnoreCase(headers[1..][k].key, name) && headers[1..][k].value == v;
      v
  }

  /** `HTTPServer::hasHeader(name)`: some slot with that name, ignoring
      case, holds a non-empty value. */
  predicate ServerHasHeader(headers: seq<Argument>, name: string)
  {
    exists k :: 0 <= k < |headers| && EqualsIgnoreCase(headers[k].key, name) && |headers[k].value| > 0
  }

  /** Slot names are distinct ignoring case. */
  predicate DistinctNames(headers: seq<Argument>)
  {
    forall i, j :: 0 <= i < j < |headers| ==> !EqualsIgnoreCase(headers[i].key, headers[j].key)
  }

  /** With distinct slot names, `hasHeader` holds exactly when `header`
      gives a non-empty value. */
  lemma {:induction false} HasHeaderIffValue(headers: seq<Argument>, name: string)
    requires DistinctNames(headers)
    ensures ServerHasHeader(headers, name) <==> ServerHeader(headers, name) != ""
    decreases |headers|
  {
    if |headers| > 0 {
      DistinctTail(headers);
      HasHeaderIffValue(headers[1..], name);
      if EqualsIgnoreCase(headers[0].key, name) {
        HasHeaderAtHead(headers, name);
      } else {
        HasHeaderInTail(headers, name);
      }
    }
  }

  lemma DistinctTail(headers: seq<Argument>)
    requires |headers| > 0 && DistinctNames(headers)
    ensures DistinctNames(headers[1..])
  {
    var tail := headers[1..];
    forall i, j | 0 <= i < j < |tail| ensures !EqualsIgnoreCase(tail[i].key, tail[j].key) {
      assert tail[i] == headers[i + 1] && tail[j] == headers[j + 1];
    }
  }

  /** With distinct names, a slot named `name` at the head is the only
      one. */
  lemma HasHeaderAtHead(headers: seq<Argument>, name: string)
    requires |headers| > 0 && DistinctNames(headers) && EqualsIgnoreCase(headers[0].key, name)
    ensures ServerHasHeader(headers, name) <==> |headers[0].value| > 0
  {
    forall k | 1 <= k < |headers| ensures !EqualsIgnoreCase(headers[k].key, name) {
      if EqualsIgnoreCase(headers[k].key, name) {
        EqualsIgnoreCaseEquivalence(headers[0].key, name, headers[k].key);
      }
    }
  }

  /** A head slot with another name does not count. */
  lemma HasHeaderInTail(headers: seq<Argument>, name: string)
    requires |headers| > 0 && !EqualsIgnoreCase(headers[0].key, name)
    ensures ServerHasHeader(headers, name) <==> ServerHasHeader(headers[1..], name)
  {
    var tail := headers[1..];
    if ServerHasHeader(headers, name) {
      var k :| 0 <= k < |headers| && EqualsIgnoreCase(headers[k].key, name) && |headers[k].value| > 0;
      assert tail[k - 1] == headers[k];
    }
    if ServerHasHeader(tail, name) {
      var k :| 0 <= k < |tail| && EqualsIgnoreCase(tail[k].key, name) && |tail[k].value| > 0;
      assert headers[k + 1] == tail[k];
    }
  }

  /** Freshly collected headers have no values, so `hasHeader` fails for
      every name, "Authorization" included, until a request fills them. */
  lemma CollectedHeadersEmpty(keys: seq<string>, name: string)
    ensures !ServerHasHeader(CollectHeaders(keys), name)
    ensures ServerHeader(CollectHeaders(keys), name) == ""
  {
  }

  /** With a duplicate name, `header` and `hasHeader` disagree: the first
      slot is empty, the second is not. */
  lemma DuplicateHeaderDisagrees()
    ensures var h := [Argument("X", ""), Argument("x", "1")];
            ServerHasHeader(h, "X") && ServerHeader(h, "X") == ""
  {
    var h := [Argument("X", ""), Argument("x", "1")];
    assert EqualsIgnoreCase(h[1].key, "X");
    assert EqualsIgnoreCase(h[0].key, "X");
  }
}

=== FILE: led_effect.dfy ===
/** The life cycle every light effect goes through (src/LedEffect.cpp): the
    short name taken from its description, the seven-state machine, the
    requests that steer it and the loop that advances it. The effect's own
    drawing is left out; the outcome of a wind-down step is a parameter. */
module LedEffect {
  import opened Base

  /** `LED_EFFECT_ID_SIZE`: five characters and the terminating NUL. */
  const IdSize: nat := 6

  /** The part of a C string before its first NUL. */
  function CString(s: seq<char>): (r: seq<char>)
    ensures '\0' !in r
    ensures r <= s && (|r| < |s| ==> s[|r|] == '\0')
  {
    if |s| == 0 || s[0] == '\0' then [] else [s[0]] + CString(s[1..])
  }

  /** A NUL at `n` with none before it ends the C string there. */
  lemma CStringStops(s: seq<char>, n: nat)
    requires n < |s| && s[n] == '\0'
    requires forall j :: 0 <= j < n ==> s[j] != '\0'
    ensures CString(s) == s[..n]
    decreases n
  {
    if n > 0 {
      CStringStops(s[1..], n - 1);
    }
  }

  /** Whether the description's prefix ends at index `i`: a ':' or the
      end of the C string. */
  predicate StopsAt(description: seq<char>, i: nat)
  {
    i >= |description| || description[i] == ':' || description[i] == '\0'
  }

  /** The effect's name: the description up to the first ':' or its end,
      cut to five characters. */
  function IdOf(description: seq<char>): (id: seq<char>)
    ensures |id| < IdSize && id <= description
    ensures forall i :: 0 <= i < |id| ==> !StopsAt(description, i)
    ensures |id| < IdSize - 1 ==> StopsAt(description, |id|)
  {
    if |description| == 0 || description[0] == ':' || description[0] == '\0' then []
    else if |description| == 1 then description
    else PrefixBefore(description, 1)
  }

  function PrefixBefore(description: seq<char>, i: nat): (id: seq<char>)
    requires 1 <= i <= IdSize - 1 && i <= |description|
    requires forall j :: 0 <= j < i ==> !StopsAt(description, j)
    ensures |id| < IdSize && id <= description && i <= |id|
    ensures forall k :: 0 <= k < |id| ==> !StopsAt(description, k)
    ensures |id| < IdSize - 1 ==> StopsAt(description, |id|)
    decreases IdSize - i
  {
    if i == IdSize - 1 || StopsAt(description, i) then description[..i]
    else PrefixBefore(description, i + 1)
  }

  /** The constructor's copy loop: characters go into a six-character array
      until a ':' or NUL, which is stored as NUL; the last slot is then
      forced to NUL. The name is the array as a C string. */
  method ConstructId(description: seq<char>) returns (name: seq<char>)
    ensures name == IdOf(description)
  {
    var id := seq(IdSize, _ => '\0');
    var i := 0;
    while i < IdSize
      invariant 0 <= i <= IdSize && |id| == IdSize
      invariant forall j :: 0 <= j < i ==> !StopsAt(description, j) && id[j] == description[j]
      invariant forall j :: i <= j < IdSize ==> id[j] == '\0'
    {
      var c := if i < |description| then description[i] else '\0';
      if c == ':' || c == '\0' {
        id := id[i := '\0'];
        break;
      }
      id := id[i := c];
      i := i + 1;
    }
    id := id[IdSize - 1 := '\0'];
    name := CString(id);
    IdMatches(description, id, if i == IdSize then IdSize - 1 else i);
  }

  /** An array holding the first `n` description characters and then NULs
      reads as the name. */
  lemma IdMatches(description: seq<char>, id: seq<char>, n: nat)
    requires n < IdSize && |id| == IdSize
    requires forall j :: 0 <= j < n ==> !StopsAt(description, j) && id[j] == description[j]
    requires forall j :: n <= j < IdSize ==> id[j] == '\0'
    requires n < IdSize - 1 ==> StopsAt(description, n)
    ensures CString(id) == IdOf(description)
  {
    CStringStops(id, n);
    var d := IdOf(description);
    assert |d| == n;
    assert id[..n] == description[..n];
  }

  /** `EffectState`, in declaration order. */
  datatype EffectState = Setup | Running | WindDownPrep | WindDown
                       | TransitionBreakPrep | TransitionBreak | Idle

  /** The state and the time the pause between effects started. */
  datatype Machine = Machine(state: EffectState, transOffStart: nat)

  function Ordinal(s: EffectState): (k: nat)
    ensures k < 7
  {
    match s
    case Setup => 0
    case Running => 1
    case WindDownPrep => 2
    case WindDown => 3
    case TransitionBreakPrep => 4
    case TransitionBreak => 5
    case Idle => 6
  }

  /** `nextState`; `millis` is the clock, read when the pause starts. */
  function NextState(m: Machine, millis: nat): (m': Machine)
  {
    match m.state
    case Setup => m.(state := Running)
    case Running => m.(state := WindDownPrep)
    case WindDownPrep => m.(state := WindDown)
    case WindDown => Machine(TransitionBreakPrep, millis)
    case TransitionBreakPrep => m.(state := TransitionBreak)
    case TransitionBreak => m.(state := Idle)
    case Idle => m.(state := Setup)
  }

  /** The states form one cycle in declaration order: each step moves to
      the next, Idle wraps to Setup, and the pause clock is stamped only
      on entering TransitionBreakPrep. */
  lemma NextStateCycles(m: Machine, millis: nat)
    ensures Ordinal(NextState(m, millis).state) == (Ordinal(m.state) + 1) % 7
    ensures NextState(m, millis).transOffStart
            == if m.state == WindDown then millis else m.transOffStart
  {
  }

  function NextStates(m: Machine, millis: nat, n: nat): Machine
    decreases n
  {
    if n == 0 then m else NextStates(NextState(m, millis), millis, n - 1)
  }

  /** Seven steps come back to the starting state. */
  lemma SevenStepsReturn(m: Machine, millis: nat)
    ensures NextStates(m, millis, 7).state == m.state
  {
    var m1 := NextState(m, millis);
    var m2 := NextState(m1, millis);
    var m3 := NextState(m2, millis);
    var m4 := NextState(m3, millis);
    var m5 := NextState(m4, millis);
    var m6 := NextState(m5, millis);
    assert NextStates(m, millis, 7) == NextStates(m2, millis, 5);
    assert NextStates(m2, millis, 5) == NextStates(m4, millis, 3);
    assert NextStates(m4, millis, 3) == NextStates(m6, millis, 1);
  }

  /** `desiredState`: a request for state `dst`. A state already reached
      is left alone; otherwise the machine moves one step toward the
      request, or ignores a request it cannot honour. */
  function DesiredState(m: Machine, dst: EffectState, millis: nat): (m': Machine)
  {
    if m.state == dst then m
    else match m.state
      case Setup => if dst == Idle then m.(state := Idle) else m
      case Running => m.(state := WindDownPrep)
      case WindDownPrep => if dst == Running then m.(state := Running) else m.(state := WindDown)
      case WindDown =>
        if dst == Running then m.(state := Running)
        else if dst == WindDownPrep then m
        else Machine(TransitionBreakPrep, millis)
      case TransitionBreakPrep =>
        if dst == Idle || dst == Setup then m.(state := Idle)
        else if dst == Running then m.(state := Setup)
        else if dst == TransitionBreak then m.(state := TransitionBreak)
        else m
      case TransitionBreak =>
        if dst == Idle || dst == Setup then m.(state := Idle)
        else if dst == Running then m.(state := Setup)
        else m
      case Idle => if dst == Running || dst == Setup then m.(state := Setup) else m
  }

  /** The request rules: nothing happens at the target; Running winds down
      for any other target; Setup gives way only to Idle; Idle answers
      only Running and Setup, with Setup; the pause states turn a Running
      request into Setup and an Idle or Setup request into Idle. */
  lemma DesiredStateRules(m: Machine, dst: EffectState, millis: nat)
    ensures m.state == dst ==> DesiredState(m, dst, millis) == m
    ensures m.state == Running && dst != Running ==> DesiredState(m, dst, millis).state == WindDownPrep
    ensures m.state == Setup ==> (DesiredState(m, dst, millis).state != Setup <==> dst == Idle)
    ensures m.state == Idle ==>
              (DesiredState(m, dst, millis).state != Idle <==> dst in {Running, Setup})
              && (dst in {Running, Setup} ==> DesiredState(m, dst, millis).state == Setup)
    ensures m.state in {TransitionBreakPrep, TransitionBreak} ==>
              (dst == Running ==> DesiredState(m, dst, millis).state == Setup)
              && (dst in {Idle, Setup} ==> DesiredState(m, dst, millis).state == Idle)
  {
  }

  /** A request changes the state at most to the next one in the cycle,
      back to Running during a wind-down, or to Idle or Setup from a
      pause; the pause clock is stamped only when a wind-down is cut
      short. */
  lemma DesiredStateSteps(m: Machine, dst: EffectState, millis: nat)
    ensures var s := DesiredState(m, dst, millis).state;
            s == m.state || s == NextState(m, millis).state
            || (m.state in {WindDownPrep, WindDown} && s == Running)
            || (m.state in {Setup, TransitionBreakPrep, TransitionBreak} && s in {Idle, Setup})
    ensures DesiredState(m, dst, millis).transOffStart != m.transOffStart ==>
              m.state == WindDown && DesiredState(m, dst, millis).state == TransitionBreakPrep
  {
  }

  function Desire(m: Machine, dst: EffectState, millis: nat, n: nat): Machine
    decreases n
  {
    if n == 0 then m else Desire(DesiredState(m, dst, millis), dst, millis, n - 1)
  }

  /** Asking for Idle again and again reaches it within four requests,
      from any state: a running effect winds down and pauses first. */
  lemma IdleReachedWithinFour(m: Machine, millis: nat)
    ensures Desire(m, Idle, millis, 4).state == Idle
  {
    var m1 := DesiredState(m, Idle, millis);
    var m2 := DesiredState(m1, Idle, millis);
    assert Desire(m, Idle, millis, 4) == Desire(m2, Idle, millis, 2);
  }

  /** Asking for Setup reaches it within five requests, from any state. */
  lemma SetupReachedWithinFive(m: Machine, millis: nat)
    ensures Desire(m, Setup, millis, 5).state == Setup
  {
    var m1 := DesiredState(m, Setup, millis);
    var m2 := DesiredState(m1, Setup, millis);
    var m3 := DesiredState(m2, Setup, millis);
    assert Desire(m, Setup, millis, 5) == Desire(m2, Setup, millis, 3);
    assert Desire(m2, Setup, millis, 3) == Desire(m3, Setup, millis, 2);
  }

  /** `transitionBreak`: the pause lasts until a second has passed since it
      started; the sum is `unsigned long` arithmetic. */
  function PauseOver(m: Machine, millis: nat): bool
  {
    millis > Wrap32(m.transOffStart + 1000)
  }

  /** `loop`: the one-step states advance, the repeating ones advance when
      their step reports completion, Running and Idle stay. `windDownDone`
      is what the wind-down step reported. */
  function Loop(m: Machine, windDownDone: bool, millis: nat): (m': Machine)
  {
    match m.state
    case Setup => NextState(m, millis)
    case Running => m
    case WindDownPrep => NextState(m, millis)
    case WindDown => if windDownDone then NextState(m, millis) else m
    case TransitionBreakPrep => NextState(m, millis)
    case TransitionBreak => if PauseOver(m, millis) then NextState(m, millis) else m
    case Idle => m
  }

  /** The loop never skips a state and never leaves Running or Idle by
      itself. */
  lemma LoopAdvances(m: Machine, done: bool, millis: nat)
    ensures Loop(m, done, millis).state in {m.state, NextState(m, millis).state}
    ensures m.state in {Running, Idle} ==> Loop(m, done, millis) == m
    ensures m.state in {Setup, WindDownPrep, TransitionBreakPrep} ==>
              Loop(m, done, millis) == NextState(m, millis)
  {
  }

  /** The pause ends once the clock passes its start by more than a
      second; a pause starting within a second of the 32-bit clock's
      wrap-around ends at once. */
  lemma PauseLength(m: Machine, millis: nat)
    requires m.transOffStart < U32
    ensures m.transOffStart + 1000 < U32 ==> (PauseOver(m, millis) <==> millis > m.transOffStart + 1000)
    ensures m.transOffStart + 1000 >= U32 && millis > m.transOffStart ==> PauseOver(m, millis)
  {
  }
}

=== FILE: mdns.dfy ===
/** The record helpers of the mDNS responder (LightMDNS): cache-flush and
    TTL settings, TXT records per section 6.4 of RFC 6763, the reverse
    address name of section 3.5 of RFC 1035, header and source-address
    screening, the wire form of names of section 3.1 of RFC 1035, and the
    service list. UDP output is modelled as the bytes that would be
    written; sending a message is a parameter giving its status. */
module Mdns {
  import opened Base
  import ArduinoString
  import Base64

  // ---------------------------------------------------------------- record settings

  /** How a record is owned on the link (DNSRecordUniqueness). */
  datatype Uniqueness = Unique | Shared | Contextual

  const CacheFlush: nat := 0x80
  const CacheNoFlush: nat := 0x00

  /** configureCacheFlush: the flag is never set while probing; otherwise
      records owned by this host alone (unique, or contextual like TXT) ask
      others to flush, shared ones do not. */
  function ConfigureCacheFlush(u: Uniqueness, probing: bool): (flag: nat)
    ensures flag == CacheFlush || flag == CacheNoFlush
    ensures flag == CacheFlush <==> !probing && u != Shared
  {
    if probing then CacheNoFlush
    else if u == Unique || u == Contextual then CacheFlush
    else assert u == Shared; CacheNoFlush
  }

  /** The default cap on the TTL of shared records. */
  const SharedMaxDefault: nat := 10

  /** configureTTL: a zero TTL stays zero; a shared record's TTL is capped
      at `sharedMax`; any other TTL is kept. */
  function ConfigureTtl(u: Uniqueness, sharedMax: nat, ttl: nat): (r: nat)
    ensures r <= ttl
    ensures ttl == 0 ==> r == 0
    ensures u != Shared ==> r == ttl
    ensures u == Shared ==> r <= sharedMax && (r == ttl || r == sharedMax)
  {
    if ttl == 0 then 0 else if u == Shared then Min(ttl, sharedMax) else ttl
  }

  // ---------------------------------------------------------------- TXT records

  /** Longest key recommended by section 6.4 of RFC 6763. */
  const KeyLengthMax: nat := 9

  /** Longest single string of a TXT record. */
  const TotalLengthMax: nat := 255

  /** isValidDNSKeyChar: printable US-ASCII other than '='. */
  predicate ValidKeyChar(c: char)
  {
    0x20 as char <= c <= 0x7E as char && c != '='
  }

  /** validate: the key is 1 to 9 characters, does not start with '=', and
      every character is printable ASCII other than '='. The leading '='
      test is implied by the last one. */
  function Validate(key: string): (ok: bool)
    ensures ok <==> 1 <= |key| <= KeyLengthMax && forall i :: 0 <= i < |key| ==> ValidKeyChar(key[i])
    ensures ok ==> '=' !in key
  {
    if |key| == 0 || |key| > KeyLengthMax then false
    else if key[0] == '=' then false
    else forall i | 0 <= i < |key| :: ValidKeyChar(key[i])
  }

  /** One TXT entry: key, raw value bytes, and whether the value is sent
      Base64-encoded. */
  datatype Entry = Entry(key: string, value: seq<byte>, binary: bool)

  /** The position of the first entry whose key equals `key` ignoring
      case, at or after `from`; -1 if there is none. */
  function FindKey(entries: seq<Entry>, key: string, from: nat): (i: int)
    ensures i == -1 || (from <= i < |entries| && ArduinoString.EqualsIgnoreCase(entries[i].key, key))
    ensures i >= 0 ==> forall j :: from <= j < i ==> !ArduinoString.EqualsIgnoreCase(entries[j].key, key)
    ensures i == -1 <==> forall j :: from <= j < |entries| ==> !ArduinoString.EqualsIgnoreCase(entries[j].key, key)
    decreases |entries| - from
  {
    if from >= |entries| then -1
    else if ArduinoString.EqualsIgnoreCase(entries[from].key, key) then from
    else FindKey(entries, key, from + 1)
  }

  /** insert: an invalid key is refused; the first entry whose key matches
      ignoring case gets the new value and binary flag (its key's spelling
      is kept); otherwise a new entry is appended. */
  function Insert(entries: seq<Entry>, key: string, value: seq<byte>, binary: bool): (r: (seq<Entry>, bool))
    ensures r.1 <==> Validate(key)
    ensures !r.1 ==> r.0 == entries
  {
    if !Validate(key) then (entries, false)
    else
      var i := FindKey(entries, key, 0);
      if i >= 0 then (entries[i := Entry(entries[i].key, value, binary)], true)
      else (entries + [Entry(key, value, binary)], true)
  }

  /** A TXT record as insert builds it: every key valid, no two keys equal
      ignoring case. */
  predicate WellFormed(entries: seq<Entry>)
  {
    (forall i :: 0 <= i < |entries| ==> Validate(entries[i].key)) &&
    (forall i, j :: 0 <= i < j < |entries| ==> !ArduinoString.EqualsIgnoreCase(entries[i].key, entries[j].key))
  }

  /** After a successful insert the key finds an entry holding the new
      value and flag; the record grows only when no key matched. */
  lemma InsertFinds(entries: seq<Entry>, key: string, value: seq<byte>, binary: bool)
    requires Validate(key)
    ensures var r := Insert(entries, key, value, binary).0;
            var i := FindKey(r, key, 0);
            i >= 0 && r[i].value == value && r[i].binary == binary &&
            |r| == |entries| + (if FindKey(entries, key, 0) >= 0 then 0 else 1)
  {
    var r := Insert(entries, key, value, binary).0;
    var i := FindKey(entries, key, 0);
    if i >= 0 {
      assert forall j :: 0 <= j < |r| ==> r[j].key == entries[j].key;
      assert FindKey(r, key, 0) == i;
    } else {
      ArduinoString.EqualsIgnoreCaseEquivalence(key, key, key);
      assert forall j :: 0 <= j < |entries| ==> r[j] == entries[j];
      assert ArduinoString.EqualsIgnoreCase(r[|entries|].key, key);
      assert FindKey(r, key, 0) == |entries|;
    }
  }

  /** insert keeps a record well formed: keys stay valid and distinct
      ignoring case. */
  lemma InsertKeepsWellFormed(entries: seq<Entry>, key: string, value: seq<byte>, binary: bool)
    requires WellFormed(entries)
    ensures WellFormed(Insert(entries, key, value, binary).0)
  {
    var r := Insert(entries, key, value, binary).0;
    if Validate(key) {
      var i := FindKey(entries, key, 0);
      if i >= 0 {
        assert forall j :: 0 <= j < |r| ==> r[j].key == entries[j].key;
      } else {
        assert forall j :: 0 <= j < |entries| ==> r[j] == entries[j];
        assert r[|entries|].key == key;
      }
    }
  }

  /** insert leaves the lookup of any key that does not match the inserted
      one as it was. */
  lemma InsertKeepsOthers(entries: seq<Entry>, key: string, value: seq<byte>, binary: bool, other: string)
    requires !ArduinoString.EqualsIgnoreCase(other, key)
    ensures FindKey(Insert(entries, key, value, binary).0, other, 0) == FindKey(entries, other, 0)
  {
    var r := Insert(entries, key, value, binary).0;
    var f := FindKey(entries, other, 0);
    if Validate(key) {
      var i := FindKey(entries, key, 0);
      if i >= 0 {
        assert forall j :: 0 <= j < |r| ==> r[j].key == entries[j].key;
      } else {
        ArduinoString.EqualsIgnoreCaseEquivalence(key, other, other);
        assert forall j :: 0 <= j < |entries| ==> r[j] == entries[j];
        assert !ArduinoString.EqualsIgnoreCase(r[|entries|].key, other);
      }
      if f >= 0 {
        assert r[f].key == entries[f].key;
      }
    }
  }

  /** Bytes of a value read as characters. */
  function BytesToChars(b: seq<byte>): (s: string)
    ensures |s| == |b| && forall k :: 0 <= k < |b| ==> s[k] as int == b[k] as int
  {
    seq(|b|, k requires 0 <= k < |b| => b[k] as int as char)
  }

  /** Characters as the bytes written to the wire (Arduino strings hold
      bytes). */
  function CharsToBytes(s: string): (b: seq<byte>)
    ensures |b| == |s| && forall k :: 0 <= k < |s| ==> b[k] as int == s[k] as int % 0x100
  {
    seq(|s|, k requires 0 <= k < |s| => (s[k] as int % 0x100) as byte)
  }

  /** The number of characters the value takes on the wire. */
  function ValueLength(e: Entry): nat
  {
    if |e.value| == 0 then 0 else if e.binary then Base64.Length(|e.value|) else |e.value|
  }

  /** The value as written: Base64 for binary values (by the library's
      encoder as it stands), raw bytes otherwise. */
  function ValueText(e: Entry): (t: string)
    ensures |t| == ValueLength(e)
    ensures !e.binary ==> CharsToBytes(t) == e.value
  {
    if e.binary then Base64.EncodeAsWritten(e.value) else BytesToChars(e.value)
  }

  /** One entry as text: the key, then "=value" when the value is not
      empty. */
  function EntryText(e: Entry): (t: string)
    ensures |t| == |e.key| + (if |e.value| == 0 then 0 else 1 + ValueLength(e))
    ensures t[..|e.key|] == e.key
  {
    e.key + (if |e.value| == 0 then "" else "=" + ValueText(e))
  }

  /** The bytes length() counts for one entry: a length byte, the key, and
      '=' plus the value when there is one. */
  function EntryLength(e: Entry): (n: nat)
    ensures n == 1 + |EntryText(e)|
  {
    var v := ValueLength(e);
    1 + |e.key| + (if v > 0 then v + 1 else 0)
  }

  function SumLengths(entries: seq<Entry>): nat
  {
    if |entries| == 0 then 0 else SumLengths(entries[..|entries| - 1]) + EntryLength(entries[|entries| - 1])
  }

  /** length(): the entry lengths summed and kept as a 16-bit count. */
  function Length(entries: seq<Entry>): (n: nat)
    ensures n < U16
    ensures SumLengths(entries) < U16 ==> n == SumLengths(entries)
  {
    Wrap16(SumLengths(entries))
  }

  /** writeStringLengthAndContent: a length byte, capped at `max`, then
      that many characters. */
  function WriteString(s: string, max: nat): (b: seq<byte>)
    requires max < 0x100
    ensures |b| == 1 + Min(|s|, max)
  {
    var size := Min(|s|, max);
    [size as byte] + CharsToBytes(s[..size])
  }

  function WriteEntries(entries: seq<Entry>): seq<byte>
  {
    if |entries| == 0 then []
    else WriteEntries(entries[..|entries| - 1]) + WriteString(EntryText(entries[|entries| - 1]), TotalLengthMax)
  }

  const TxtEmptyLength: nat := 1

  /** The TXT record data written: a single zero byte for an empty record,
      otherwise one length-prefixed string per entry. */
  function WriteTxt(entries: seq<Entry>): seq<byte>
  {
    if |entries| == 0 then [0] else WriteEntries(entries)
  }

  /** The length field written ahead of the TXT data. */
  function AnnouncedLength(entries: seq<Entry>): nat
  {
    if |entries| == 0 then TxtEmptyLength else Length(entries)
  }

  lemma {:induction false} WriteEntriesLength(entries: seq<Entry>)
    requires forall k :: 0 <= k < |entries| ==> |EntryText(entries[k])| <= TotalLengthMax
    ensures |WriteEntries(entries)| == SumLengths(entries)
    decreases |entries|
  {
    if |entries| > 0 {
      WriteEntriesLength(entries[..|entries| - 1]);
    }
  }

  /** The announced record length matches the bytes written, as long as no
      entry's text exceeds 255 characters and the total fits 16 bits;
      otherwise the write truncates and the count wraps. */
  lemma TxtLengthMatchesWire(entries: seq<Entry>)
    requires forall k :: 0 <= k < |entries| ==> |EntryText(entries[k])| <= TotalLengthMax
    requires SumLengths(entries) < U16
    ensures AnnouncedLength(entries) == |WriteTxt(entries)|
  {
    WriteEntriesLength(entries);
  }

  /** toString: each entry's text, separated by ',' (the separator is put
      before every entry after the text has become non-empty). */
  function ToStringFrom(acc: string, entries: seq<Entry>): string
    decreases |entries|
  {
    if |entries| == 0 then acc
    else ToStringFrom(acc + (if |acc| == 0 then "" else ",") + EntryText(entries[0]), entries[1..])
  }

  function ToString(entries: seq<Entry>): string
  {
    ToStringFrom("", entries)
  }

  function Texts(entries: seq<Entry>): (t: seq<string>)
    ensures |t| == |entries| && forall k :: 0 <= k < |entries| ==> t[k] == EntryText(entries[k])
  {
    seq(|entries|, k requires 0 <= k < |entries| => EntryText(entries[k]))
  }

  lemma {:induction false} ToStringFromJoin(acc: string, entries: seq<Entry>)
    requires |acc| > 0
    ensures ToStringFrom(acc, entries) == acc + (if |entries| == 0 then "" else "," + ArduinoString.Join(Texts(entries), ','))
    decreases |entries|
  {
    if |entries| > 0 {
      var next := acc + "," + EntryText(entries[0]);
      ToStringFromJoin(next, entries[1..]);
      assert Texts(entries)[1..] == Texts(entries[1..]);
    }
  }

  /** With non-empty keys (which insert guarantees) toString is the entry
      texts joined with ','. */
  lemma ToStringJoins(entries: seq<Entry>)
    requires forall k :: 0 <= k < |entries| ==> |entries[k].key| > 0
    ensures ToString(entries) == ArduinoString.Join(Texts(entries), ',')
  {
    if |entries| > 0 {
      var first := EntryText(entries[0]);
      assert |first| > 0;
      assert ToString(entries) == ToStringFrom(first, entries[1..]) by {
        assert "" + "" + first == first;
      }
      ToStringFromJoin(first, entries[1..]);
      assert Texts(entries)[1..] == Texts(entries[1..]);
      assert Texts(entries)[0] == first;
      if |entries| > 1 {
        assert ArduinoString.Join(Texts(entries), ',') == first + [','] + ArduinoString.Join(Texts(entries[1..]), ',');
      }
    }
  }

  // ---------------------------------------------------------------- reverse name

  /** makeReverseArpaName: the four octets in reverse order, in decimal,
      under "in-addr.arpa". */
  function ReverseArpaName(addr: seq<byte>): (name: string)
    requires |addr| == 4
  {
    ArduinoString.Join([ArduinoString.FromNat(addr[3] as nat), ArduinoString.FromNat(addr[2] as nat),
                        ArduinoString.FromNat(addr[1] as nat), ArduinoString.FromNat(addr[0] as nat),
                        "in-addr", "arpa"], '.')
  }

  /** The reverse name's labels are the octets from last to first, each
      reading back as its octet, then "in-addr" and "arpa". */
  lemma ReverseArpaLabels(addr: seq<byte>)
    requires |addr| == 4
    ensures var labels := ArduinoString.Split(ReverseArpaName(addr), '.');
            |labels| == 6 && labels[4] == "in-addr" && labels[5] == "arpa" &&
            forall k :: 0 <= k < 4 ==> (forall j :: 0 <= j < |labels[k]| ==> ArduinoString.IsDigit(labels[k][j])) &&
                                       ArduinoString.ToNat(labels[k]) == addr[3 - k] as nat
  {
    var d3, d2, d1, d0 := ArduinoString.FromNat(addr[3] as nat), ArduinoString.FromNat(addr[2] as nat),
                          ArduinoString.FromNat(addr[1] as nat), ArduinoString.FromNat(addr[0] as nat);
    var parts := [d3, d2, d1, d0, "in-addr", "arpa"];
    DigitsHaveNoDot(d3);
    DigitsHaveNoDot(d2);
    DigitsHaveNoDot(d1);
    DigitsHaveNoDot(d0);
    assert "in-addr"[2] == '-';
    assert '.' !in "in-addr" && '.' !in "arpa";
    ArduinoString.SplitJoin(parts, '.');
    ArduinoString.FromNatRoundTrip(addr[3] as nat);
    ArduinoString.FromNatRoundTrip(addr[2] as nat);
    ArduinoString.FromNatRoundTrip(addr[1] as nat);
    ArduinoString.FromNatRoundTrip(addr[0] as nat);
  }

  lemma DigitsHaveNoDot(d: string)
    requires forall j :: 0 <= j < |d| ==> ArduinoString.IsDigit(d[j])
    ensures '.' !in d
  {
    forall j | 0 <= j < |d|
      ensures d[j] != '.'
    {
      assert ArduinoString.IsDigit(d[j]);
    }
  }

  // ---------------------------------------------------------------- packet screening

  /** The header fields the screening reads; flag bits are 0 or 1. */
  datatype Header = Header(queryResponse: nat, opCode: nat, authoritativeAnswer: nat, truncated: bool,
                           zReserved: nat, responseCode: nat, queryCount: nat, answerCount: nat,
                           authorityCount: nat, additionalCount: nat)

  const HeaderSize: nat := 12
  const OpcodeUpdate: nat := 5
  const RcodeNotZone: nat := 10
  const ReasonableCount: nat := 100
  const LabelLengthMax: nat := 63

  /** The reasons checkHeader gives, in the order it tests them. */
  datatype HeaderError =
    | TooSmall | BadOpcode | BadResponseCode | QueryWithAa | UnreasonableCounts
    | ReservedBitSet | BadFirstLabel | SuspiciousTruncation

  /** What an acceptable packet satisfies, all conditions at once. */
  predicate HeaderAcceptable(h: Header, packetSize: nat, firstByte: int)
  {
    packetSize >= HeaderSize + 6 * h.queryCount + 6 * h.authorityCount &&
    h.opCode <= OpcodeUpdate && h.responseCode <= RcodeNotZone &&
    !(h.queryResponse == 0 && h.authoritativeAnswer == 1) &&
    h.queryCount <= ReasonableCount && h.answerCount <= ReasonableCount &&
    h.authorityCount <= ReasonableCount && h.additionalCount <= ReasonableCount &&
    h.zReserved == 0 && 0 <= firstByte <= LabelLengthMax &&
    !(h.truncated && packetSize < 512)
  }

  /** checkHeader: the first failing test, or None for an acceptable
      packet. */
  function CheckHeader(h: Header, packetSize: nat, firstByte: int): (r: Option<HeaderError>)
    ensures r.None? <==> HeaderAcceptable(h, packetSize, firstByte)
    ensures r == Some(TooSmall) <==> packetSize < HeaderSize + 6 * h.queryCount + 6 * h.authorityCount
    ensures r == Some(BadOpcode) ==> h.opCode > OpcodeUpdate
    ensures r == Some(QueryWithAa) ==> h.queryResponse == 0 && h.authoritativeAnswer == 1
    ensures r == Some(BadFirstLabel) ==> firstByte < 0 || firstByte > LabelLengthMax
    ensures r == Some(SuspiciousTruncation) ==> h.truncated && packetSize < 512
  {
    if packetSize < HeaderSize + h.queryCount * 6 + h.authorityCount * 6 then Some(TooSmall)
    else if h.opCode > OpcodeUpdate then Some(BadOpcode)
    else if h.responseCode > RcodeNotZone then Some(BadResponseCode)
    else if h.queryResponse == 0 && h.authoritativeAnswer == 1 then Some(QueryWithAa)
    else if h.queryCount > ReasonableCount || h.answerCount > ReasonableCount ||
            h.authorityCount > ReasonableCount || h.additionalCount > ReasonableCount then Some(UnreasonableCounts)
    else if h.zReserved != 0 then Some(ReservedBitSet)
    else if firstByte < 0 || firstByte > LabelLengthMax then Some(BadFirstLabel)
    else if h.truncated && packetSize < 512 then Some(SuspiciousTruncation)
    else None
  }

  datatype AddressError = Unspecified | Loopback | LinkLocalBroadcast | LinkLocalMismatch

  predicate LinkLocal(a: seq<byte>)
    requires |a| == 4
  {
    a[0] == 169 && a[1] == 254
  }

  /** checkAddress: a sender address is refused when it is 0.0.0.0, in
      127/8, a 169.254.0.x or 169.254.255.x link-local address, or a
      link-local address outside our own link-local /24. The source tests
      the last three octets with a bitwise or, which is zero exactly when
      all three are. */
  function CheckAddress(local: seq<byte>, addr: seq<byte>): (r: Option<AddressError>)
    requires |local| == 4 && |addr| == 4
    ensures r.None? <==>
              !(addr[0] == 0 && addr[1] == 0 && addr[2] == 0 && addr[3] == 0) && addr[0] != 127 &&
              (LinkLocal(addr) ==> addr[2] != 0 && addr[2] != 255 && LinkLocal(local) && local[2] == addr[2])
    ensures r == Some(Loopback) <==> addr[0] == 127
  {
    if addr[0] == 0 && addr[1] == 0 && addr[2] == 0 && addr[3] == 0 then Some(Unspecified)
    else if addr[0] == 127 then Some(Loopback)
    else if LinkLocal(addr) then
      if addr[2] == 0 || addr[2] == 255 then Some(LinkLocalBroadcast)
      else if !(LinkLocal(local) && addr[2] == local[2]) then Some(LinkLocalMismatch)
      else None
    else None
  }

  // ---------------------------------------------------------------- names on the wire

  /** A name's text split into length-prefixed labels ending in a zero
      byte: the text up to the first '.' is one label, the rest is encoded
      the same way. A final '.' ends the name without an empty label; two
      consecutive dots give a zero length byte inside the name. */
  function EncodeName(s: string): (b: seq<byte>)
    requires |s| < 0x100
    ensures |b| >= 1 && b[|b| - 1] == 0
    decreases |s|
  {
    var i := ArduinoString.IndexOfChar(s, '.', 0);
    if i < 0 then
      if |s| == 0 then [0] else [|s| as byte] + CharsToBytes(s) + [0]
    else [i as byte] + CharsToBytes(s[..i]) + EncodeName(s[i + 1..])
  }

  /** writeDNSName: the name cut to 63 characters, then encoded. */
  function WriteDnsName(name: string): seq<byte>
  {
    EncodeName(name[..Min(|name|, LabelLengthMax)])
  }

  /** sizeofDNSName: the size the record length fields assume. */
  function SizeofDnsName(name: string): nat
  {
    |name| + 2
  }

  lemma {:induction false} EncodeNameLength(s: string)
    requires |s| < 0x100
    ensures |EncodeName(s)| == if |s| == 0 then 1 else if s[|s| - 1] == '.' then |s| + 1 else |s| + 2
    decreases |s|
  {
    var i := ArduinoString.IndexOfChar(s, '.', 0);
    if i < 0 {
      if |s| > 0 {
        assert s[|s| - 1] != '.';
        assert EncodeName(s) == [|s| as byte] + CharsToBytes(s) + [0];
      }
    } else {
      var rest := s[i + 1..];
      EncodeNameStep(s, i);
      EncodeNameLength(rest);
      if |rest| == 0 {
        assert s[|s| - 1] == '.';
      } else {
        assert rest[|rest| - 1] == s[|s| - 1];
      }
    }
  }

  /** A label takes its length byte and its characters. */
  lemma EncodeNameStep(s: string, i: nat)
    requires |s| < 0x100 && ArduinoString.IndexOfChar(s, '.', 0) == i
    ensures |EncodeName(s)| == 1 + i + |EncodeName(s[i + 1..])|
  {
    assert EncodeName(s) == [i as byte] + CharsToBytes(s[..i]) + EncodeName(s[i + 1..]);
  }

  /** The bytes writeDNSName emits number sizeofDNSName exactly when the
      name is 1 to 63 characters and does not end in '.'; an empty name
      writes one byte, a trailing '.' one byte less, and a longer name is
      cut to 63 characters. */
  lemma WriteDnsNameSize(name: string)
    ensures |WriteDnsName(name)| == SizeofDnsName(name) <==>
              1 <= |name| <= LabelLengthMax && name[|name| - 1] != '.'
    ensures |WriteDnsName(name)| <= LabelLengthMax + 2
  {
    EncodeNameLength(name[..Min(|name|, LabelLengthMax)]);
  }

  /** Reads length-prefixed labels up to the zero byte; None when the bytes
      end first. */
  function DecodeLabels(b: seq<byte>): Option<seq<string>>
    decreases |b|
  {
    if |b| == 0 then None
    else if b[0] == 0 then Some([])
    else if |b| < 1 + b[0] as nat then None
    else match DecodeLabels(b[1 + b[0] as nat..])
      case None => None
      case Some(rest) => Some([BytesToChars(b[1..1 + b[0] as nat])] + rest)
  }

  /** Every character fits a byte. */
  predicate ByteString(s: string)
  {
    forall k :: 0 <= k < |s| ==> s[k] as int < 0x100
  }

  lemma CharsBytesRoundTrip(s: string)
    requires ByteString(s)
    ensures BytesToChars(CharsToBytes(s)) == s
  {
  }

  /** A length byte followed by that many bytes reads as one label ahead of
      whatever follows. */
  lemma DecodeLabelPrefix(l: seq<byte>, t: seq<byte>)
    requires 1 <= |l| < 0x100
    ensures DecodeLabels([|l| as byte] + l + t) ==
              match DecodeLabels(t)
              case None => None
              case Some(rest) => Some([BytesToChars(l)] + rest)
  {
    var b := [|l| as byte] + l + t;
    assert b[0] as nat == |l|;
    assert b[1..1 + |l|] == l;
    assert b[1 + |l|..] == t;
  }

  /** A name with no empty label reads back as its labels, so joined with
      '.' it is the name again. */
  lemma {:induction false} EncodeNameRoundTrip(s: string)
    requires |s| < 0x100 && ByteString(s)
    requires forall k :: 0 <= k < |ArduinoString.Split(s, '.')| ==> |ArduinoString.Split(s, '.')[k]| > 0
    ensures DecodeLabels(EncodeName(s)) == Some(ArduinoString.Split(s, '.'))
    decreases |s|
  {
    var i := ArduinoString.IndexOfChar(s, '.', 0);
    if i < 0 {
      assert ArduinoString.Split(s, '.') == [s];
      assert |s| > 0;
      assert EncodeName(s) == [|s| as byte] + CharsToBytes(s) + [0];
      DecodeLabelPrefix(CharsToBytes(s), [0]);
      assert DecodeLabels([0]) == Some([]);
      CharsBytesRoundTrip(s);
      assert DecodeLabels(EncodeName(s)) == Some([BytesToChars(CharsToBytes(s))] + []);
      assert [BytesToChars(CharsToBytes(s))] + [] == [s];
    } else {
      var rest := s[i + 1..];
      var split := ArduinoString.Split(s, '.');
      assert split == [s[..i]] + ArduinoString.Split(rest, '.');
      assert |split[0]| > 0;
      forall k | 0 <= k < |ArduinoString.Split(rest, '.')|
        ensures |ArduinoString.Split(rest, '.')[k]| > 0
      {
        assert ArduinoString.Split(rest, '.')[k] == split[k + 1];
      }
      EncodeNameRoundTrip(rest);
      assert EncodeName(s) == [i as byte] + CharsToBytes(s[..i]) + EncodeName(rest);
      DecodeLabelPrefix(CharsToBytes(s[..i]), EncodeName(rest));
      CharsBytesRoundTrip(s[..i]);
    }
  }

  // ---------------------------------------------------------------- services

  datatype Protocol = Tcp | Udp

  /** protocolPostfix: the service-type suffix under ".local". */
  function ProtocolPostfix(p: Protocol): string
  {
    match p
    case Tcp => "._tcp.local"
    case Udp => "._udp.local"
  }

  /** The result codes of the service calls. */
  datatype Status = TryLater | Success | Failure | InvalidArgument | OutOfMemory | ServerError | PacketBad | NameConflict

  /** A registered service with its derived service type (`_serv`) and
      fully-qualified service name (`_fqsn`). */
  datatype Service = Service(port: nat, proto: Protocol, name: string, serv: string, fqsn: string)

  /** The responder's service list, the set of service types announced,
      and whether the responder is running. */
  datatype Services = Services(services: seq<Service>, serviceTypes: set<string>, enabled: bool)

  const ServiceLengthMax: nat := 100

  /** The service type: the text after the name's last '.' (all of it when
      there is none) with the protocol suffix. */
  function ServiceType(name: string, proto: Protocol): (t: string)
    ensures ArduinoString.EndsWith(t, ProtocolPostfix(proto))
  {
    ArduinoString.SubstringFrom(name, ArduinoString.LastIndexOfChar(name, '.') + 1) + ProtocolPostfix(proto)
  }

  /** The service types of the listed services. */
  function TypesOf(services: seq<Service>): set<string>
  {
    set k | 0 <= k < |services| :: services[k].serv
  }

  /** The service-type set is that of the listed services. */
  predicate TypesConsistent(s: Services)
  {
    s.serviceTypes == TypesOf(s.services)
  }

  lemma TypesOfAppend(services: seq<Service>, svc: Service)
    ensures TypesOf(services + [svc]) == TypesOf(services) + {svc.serv}
  {
    var all := services + [svc];
    forall x | x in TypesOf(services) + {svc.serv}
      ensures x in TypesOf(all)
    {
      if x == svc.serv {
        assert all[|services|].serv == x;
      } else {
        var k :| 0 <= k < |services| && services[k].serv == x;
        assert all[k].serv == x;
      }
    }
  }

  /** _serviceRecordInsert. `fits` is the outcome of the packet-size test
      (the complete record including the new service within 1410 bytes) and
      `sent` the status of announcing the new service. An empty name, port 0,
      a full list or a TXT key over 255 characters is an invalid argument
      (the name-size test never fails, since the size is at least 2); a
      record too large for one packet is out of memory; otherwise the
      service is appended and its type recorded. */
  function ServiceInsert(s: Services, proto: Protocol, port: nat, name: string, text: seq<Entry>,
                         fits: bool, sent: Status): (r: (Services, Status))
    ensures var invalid := |name| == 0 || port == 0 || |s.services| >= ServiceLengthMax ||
                           exists k :: 0 <= k < |text| && |text[k].key| > TotalLengthMax;
            (invalid ==> r == (s, InvalidArgument)) &&
            (!invalid && !fits ==> r == (s, OutOfMemory)) &&
            (!invalid && fits ==>
               r.0.services == s.services + [Service(port, proto, name, ServiceType(name, proto), name + ProtocolPostfix(proto))] &&
               r.0.serviceTypes == s.serviceTypes + {ServiceType(name, proto)} &&
               r.0.enabled == s.enabled &&
               r.1 == (if s.enabled then sent else TryLater))
  {
    if |name| == 0 || port == 0 then (s, InvalidArgument)
    else if |s.services| >= ServiceLengthMax then (s, InvalidArgument)
    else if SizeofDnsName(name) == 0 then (s, InvalidArgument)
    else if exists k :: 0 <= k < |text| && |text[k].key| > TotalLengthMax then (s, InvalidArgument)
    else
      var service := Service(port, proto, name, ServiceType(name, proto), name + ProtocolPostfix(proto));
      if !fits then (s, OutOfMemory)
      else
        (s.(services := s.services + [service], serviceTypes := s.serviceTypes + {service.serv}),
         if s.enabled then sent else TryLater)
  }

  /** The services a removal by protocol, port and (unless empty) name
      hits. */
  predicate Matches(svc: Service, proto: Protocol, port: nat, name: string)
  {
    svc.port == port && svc.proto == proto && (|name| == 0 || svc.name == name)
  }

  /** The services that do not match, in their order. */
  function Survivors(services: seq<Service>, proto: Protocol, port: nat, name: string): (r: seq<Service>)
    ensures |r| <= |services|
    ensures forall k :: 0 <= k < |r| ==> r[k] in services && !Matches(r[k], proto, port, name)
    ensures forall k :: 0 <= k < |services| && !Matches(services[k], proto, port, name) ==> services[k] in r
    ensures |r| == |services| <==> forall k :: 0 <= k < |services| ==> !Matches(services[k], proto, port, name)
    decreases |services|
  {
    if |services| == 0 then []
    else
      var rest := Survivors(services[1..], proto, port, name);
      if Matches(services[0], proto, port, name) then rest else [services[0]] + rest
  }

  /** Survivors is a filter: it distributes over concatenation, and a single
      service survives exactly when it does not match. Together these fix
      the result completely, order and duplicates included. */
  lemma {:induction false} SurvivorsAppend(a: seq<Service>, b: seq<Service>, proto: Protocol, port: nat, name: string)
    ensures Survivors(a + b, proto, port, name) == Survivors(a, proto, port, name) + Survivors(b, proto, port, name)
    ensures forall svc :: Survivors([svc], proto, port, name) == if Matches(svc, proto, port, name) then [] else [svc]
    decreases |a|
  {
    forall svc ensures Survivors([svc], proto, port, name) == if Matches(svc, proto, port, name) then [] else [svc] {
      assert [svc][1..] == [];
    }
    if |a| == 0 {
      assert a + b == b;
    } else {
      assert (a + b)[1..] == a[1..] + b;
      SurvivorsAppend(a[1..], b, proto, port, name);
    }
  }

  /** _serviceRecordRemove(proto, port, name): drops the matching services,
      rebuilds the service types from the survivors, and reports an invalid
      argument when nothing matched; otherwise the status of the last
      release sent, or TryLater when the responder is stopped. */
  function ServiceRemove(s: Services, proto: Protocol, port: nat, name: string, sent: Status): (r: (Services, Status))
    ensures r.0.services == Survivors(s.services, proto, port, name)
    ensures TypesConsistent(r.0)
    ensures r.0.enabled == s.enabled
    ensures r.1 == if forall k :: 0 <= k < |s.services| ==> !Matches(s.services[k], proto, port, name) then InvalidArgument
                   else if s.enabled then sent else TryLater
  {
    var kept := Survivors(s.services, proto, port, name);
    var types := TypesOf(kept);
    (Services(kept, types, s.enabled),
     if |kept| == |s.services| then InvalidArgument else if s.enabled then sent else TryLater)
  }

  /** Removing a service right after inserting it into a list where nothing
      matched the same protocol, port and name restores the list. */
  lemma InsertThenRemove(s: Services, proto: Protocol, port: nat, name: string, text: seq<Entry>, sent: Status)
    requires TypesConsistent(s)
    requires forall k :: 0 <= k < |s.services| ==> !Matches(s.services[k], proto, port, name)
    requires |name| > 0 && port > 0 && |s.services| < ServiceLengthMax
    requires forall k :: 0 <= k < |text| ==> |text[k].key| <= TotalLengthMax
    ensures var ins := ServiceInsert(s, proto, port, name, text, true, sent).0;
            TypesConsistent(ins) && ServiceRemove(ins, proto, port, name, sent).0 == s
  {
    var ins := ServiceInsert(s, proto, port, name, text, true, sent).0;
    var svc := Service(port, proto, name, ServiceType(name, proto), name + ProtocolPostfix(proto));
    assert ins.services == s.services + [svc];
    SurvivorsDropLast(s.services, svc, proto, port, name);
    TypesOfAppend(s.services, svc);
  }

  lemma {:induction false} SurvivorsDropLast(services: seq<Service>, svc: Service, proto: Protocol, port: nat, name: string)
    requires forall k :: 0 <= k < |services| ==> !Matches(services[k], proto, port, name)
    requires Matches(svc, proto, port, name)
    ensures Survivors(services + [svc], proto, port, name) == services
    decreases |services|
  {
    if |services| == 0 {
      assert [svc][1..] == [];
    } else {
      assert (services + [svc])[1..] == services[1..] + [svc];
      SurvivorsDropLast(services[1..], svc, proto, port, name);
      assert services == [services[0]] + services[1..];
    }
  }

  /** _serviceRecordRemove(name): the same by name alone. `sent` is the
      status of the last release message, sent only while enabled; with no
      service of that name the answer is an invalid argument whatever was
      sent. */
  function ServiceRemoveByName(s: Services, name: string, sent: Status): (r: (Services, Status))
    ensures forall k :: 0 <= k < |r.0.services| ==> r.0.services[k].name != name && r.0.services[k] in s.services
    ensures forall k :: 0 <= k < |s.services| && s.services[k].name != name ==> s.services[k] in r.0.services
    ensures TypesConsistent(r.0)
    ensures r.0.enabled == s.enabled
    ensures r.1 == if forall k :: 0 <= k < |s.services| ==> s.services[k].name != name then InvalidArgument
                   else if s.enabled then sent else TryLater
  {
    var kept := OtherNames(s.services, name);
    var types := TypesOf(kept);
    (Services(kept, types, s.enabled),
     if |kept| == |s.services| then InvalidArgument else if s.enabled then sent else TryLater)
  }

  /** The services with a different name, in their order. */
  function OtherNames(services: seq<Service>, name: string): (r: seq<Service>)
    ensures |r| <= |services|
    ensures forall k :: 0 <= k < |r| ==> r[k] in services && r[k].name != name
    ensures forall k :: 0 <= k < |services| && services[k].name != name ==> services[k] in r
    ensures |r| == |services| <==> forall k :: 0 <= k < |services| ==> services[k].name != name
    decreases |services|
  {
    if |services| == 0 then []
    else
      var rest := OtherNames(services[1..], name);
      if services[0].name == name then rest else [services[0]] + rest
  }

  /** _serviceRecordClear: empties both lists; the status is that of the
      last release sent, TryLater when nothing was sent. */
  function ServiceClear(s: Services, sent: Status): (r: (Services, Status))
    ensures r.0.services == [] && r.0.serviceTypes == {} && r.0.enabled == s.enabled
    ensures r.1 == TryLater || r.1 == sent
    ensures r.1 == sent <==> (s.enabled && |s.services| > 0) || sent == TryLater
  {
    (Services([], {}, s.enabled), if s.enabled && |s.services| > 0 then sent else TryLater)
  }
}

=== FILE: mic.dfy ===
/** The microphone loop of src/mic.cpp: each batch of 16-bit samples is
    kept in the audio ring buffer, and a batch whose loudest sample passes
    the bump threshold signals a bump and is counted in a ten-bin
    histogram of loud levels. The PDM driver, the entropy feed and the log
    line are left out; the batch read by the driver is a parameter. */
module Mic {
  import opened Base
  import CircularBuffer

  /** `AUDIO_HIST_BINS_COUNT`. */
  const BinsCount: nat := 10
  /** The width of a histogram bin. */
  const BinWidth: nat := 500
  /** `INT16_MIN`, where the search for the loudest sample starts. */
  const Int16Min: int := -0x8000

  predicate IsInt16(x: int)
  {
    -0x8000 <= x < 0x8000
  }

  predicate AllInt16(samples: seq<int>)
  {
    forall i :: 0 <= i < |samples| ==> IsInt16(samples[i])
  }

  /** The microphone's state: the audio ring buffer, the `maxAudio`
      histogram (16-bit counters), `audioBumpThreshold`, `samplesRead` and
      `fxBump`. */
  datatype State = State(audio: CircularBuffer.Ring<int>, hist: seq<nat>, threshold: nat,
                         samplesRead: nat, bump: bool)

  predicate Valid(st: State)
  {
    CircularBuffer.Valid(st.audio) && |st.hist| == BinsCount && st.threshold < U16
    && forall i :: 0 <= i < |st.hist| ==> st.hist[i] < U16
  }

  /** The loudest sample of a batch, starting from `INT16_MIN`. */
  function Loudest(samples: seq<int>): (m: int)
    ensures m >= Int16Min
    ensures forall i :: 0 <= i < |samples| ==> samples[i] <= m
  {
    if |samples| == 0 then Int16Min
    else Max(Loudest(samples[..|samples| - 1]), samples[|samples| - 1])
  }

  /** The loudest sample is one of the batch (`INT16_MIN` for an empty
      one), so it passes a threshold exactly when some sample does. */
  lemma {:induction false} LoudestIsASample(samples: seq<int>)
    requires AllInt16(samples)
    ensures |samples| == 0 ==> Loudest(samples) == Int16Min
    ensures |samples| > 0 ==> Loudest(samples) in samples
  {
    if |samples| > 1 {
      var front := samples[..|samples| - 1];
      LoudestIsASample(front);
      assert Loudest(front) in front;
      assert front[..] <= samples;
    }
  }

  lemma LoudIffSomeSampleLoud(samples: seq<int>, threshold: nat)
    requires AllInt16(samples)
    ensures Loudest(samples) > threshold <==> exists i :: 0 <= i < |samples| && samples[i] > threshold
  {
    LoudestIsASample(samples);
    if Loudest(samples) > threshold {
      var i :| 0 <= i < |samples| && samples[i] == Loudest(samples);
    }
  }

  /** The search loop of `mic_run` for the loudest sample. */
  method MaxSample(samples: seq<int>) returns (m: int)
    requires AllInt16(samples)
    ensures m == Loudest(samples)
  {
    m := Int16Min;
    var i := 0;
    while i < |samples|
      invariant 0 <= i <= |samples|
      invariant m == Loudest(samples[..i])
    {
      assert samples[..i + 1][..i] == samples[..i];
      if samples[i] > m {
        m := samples[i];
      }
      i := i + 1;
    }
    assert samples[..i] == samples;
  }

  /** The upper bound of bin `x`, computed in 16 bits. */
  function BinThreshold(threshold: nat, x: nat): nat
  {
    Wrap16(threshold + (x + 1) * BinWidth)
  }

  /** The bin a loud sample goes to: the first from `x` on whose bound it
      does not pass, or the last bin when it passes them all. */
  function BinFrom(threshold: nat, sample: int, x: nat): (b: nat)
    requires x <= BinsCount
    ensures x <= b < BinsCount || (x == BinsCount && b == BinsCount - 1)
    decreases BinsCount - x
  {
    if x == BinsCount then BinsCount - 1
    else if sample <= BinThreshold(threshold, x) then x
    else BinFrom(threshold, sample, x + 1)
  }

  function BinOf(threshold: nat, sample: int): (b: nat)
    ensures b < BinsCount
  {
    BinFrom(threshold, sample, 0)
  }

  /** `mic_run` on one batch: an empty batch changes nothing; otherwise the
      batch joins the audio buffer and, if its loudest sample passes the
      threshold, the bump flag is raised and exactly one histogram bin
      counts it. The read count is then cleared. */
  method Run(st: State, samples: seq<int>) returns (st': State)
    requires Valid(st) && AllInt16(samples)
    ensures Valid(st') && st'.threshold == st.threshold && st'.samplesRead == 0
    ensures |samples| == 0 ==> st' == st.(samplesRead := 0)
    ensures CircularBuffer.Contents(st'.audio)
            == KeepLast(CircularBuffer.Capacity(st.audio), CircularBuffer.Contents(st.audio) + samples)
    ensures st'.bump <==> st.bump || Loudest(samples) > st.threshold
    ensures Loudest(samples) <= st.threshold ==> st'.hist == st.hist
    ensures Loudest(samples) > st.threshold ==>
              var b := BinOf(st.threshold, Loudest(samples));
              st'.hist == st.hist[b := Wrap16(st.hist[b] + 1)]
  {
    if |samples| == 0 {
      return st.(samplesRead := 0);
    }
    var audio := CircularBuffer.PushBackAll(st.audio, samples);
    var m := MaxSample(samples);
    var hist := st.hist;
    var bump := st.bump;
    if m > st.threshold {
      bump := true;
      var b := BinOf(st.threshold, m);
      hist := hist[b := Wrap16(hist[b] + 1)];
    }
    st' := State(audio, hist, st.threshold, 0, bump);
  }

  /** A sample can only pass a threshold below 2^15, so the bin bounds
      (at most 5000 above it) never wrap in 16 bits. */
  lemma LoudBoundsNeverWrap(threshold: nat, sample: int, x: nat)
    requires IsInt16(sample) && sample > threshold && x < BinsCount
    ensures BinThreshold(threshold, x) == threshold + (x + 1) * BinWidth
  {
  }

  /** A loud sample lands in the bin of width 500 holding it, counting up
      from the threshold; louder ones than the ten bins reach land in the
      last. */
  lemma {:induction false} BinHoldsSample(threshold: nat, sample: int, x: nat)
    requires IsInt16(sample) && sample > threshold && x <= BinsCount
    requires sample > threshold + x * BinWidth
    ensures var b := BinFrom(threshold, sample, x);
            && (b < BinsCount - 1 ==> threshold + b * BinWidth < sample <= threshold + (b + 1) * BinWidth)
            && (b == BinsCount - 1 ==> threshold + b * BinWidth < sample)
    decreases BinsCount - x
  {
    if x < BinsCount {
      LoudBoundsNeverWrap(threshold, sample, x);
      if sample > BinThreshold(threshold, x) {
        BinHoldsSample(threshold, sample, x + 1);
      }
    }
  }

  /** The bin of a loud sample, without the search: bin `b` holds exactly
      the samples above `threshold + 500 b` and not above the next bound. */
  lemma BinOfLoudSample(threshold: nat, sample: int)
    requires IsInt16(sample) && sample > threshold
    ensures var b := BinOf(threshold, sample);
            && threshold + b * BinWidth < sample
            && (b < BinsCount - 1 ==> sample <= threshold + (b + 1) * BinWidth)
  {
    BinHoldsSample(threshold, sample, 0);
  }
}

=== FILE: mime_table.dfy ===
/** The content types of the REST web server (`mime::mimeTable` and
    `mime::getContentType` in lib/RestWebServer/src/detail/mimetable.cpp):
    a table of file-name suffixes and content types, searched in order for
    the first suffix the path ends with. The last entry has the empty
    suffix, which every path ends with. */
module MimeTable {
  import opened ArduinoString

  datatype Entry = Entry(suffix: string, mimeType: string)

  const Table: seq<Entry> := [
    Entry(".html", "text/html"),
    Entry(".htm", "text/html"),
    Entry(".css", "text/css"),
    Entry(".txt", "text/plain"),
    Entry(".js", "application/javascript"),
    Entry(".json", "application/json"),
    Entry(".png", "image/png"),
    Entry(".gif", "image/gif"),
    Entry(".jpg", "image/jpeg"),
    Entry(".ico", "image/x-icon"),
    Entry(".svg", "image/svg+xml"),
    Entry(".ttf", "application/x-font-ttf"),
    Entry(".otf", "application/x-font-opentype"),
    Entry(".woff", "application/font-woff"),
    Entry(".woff2", "application/font-woff2"),
    Entry(".eot", "application/vnd.ms-fontobject"),
    Entry(".sfnt", "application/font-sfnt"),
    Entry(".xml", "text/xml"),
    Entry(".pdf", "application/pdf"),
    Entry(".zip", "application/zip"),
    Entry(".gz", "application/x-gzip"),
    Entry(".appcache", "text/cache-manifest"),
    Entry("", "application/octet-stream")]

  /** The indices of the `html` and `none` entries of the `mime::type`
      enumeration, which follows the table's order. */
  const Html: nat := 0
  const None: nat := 22

  /** The first entry at or after `from` whose suffix `path` ends with, or
      `|table|` when there is none. */
  function FirstMatch(table: seq<Entry>, path: string, from: nat): (i: nat)
    ensures from <= i <= |table| || (i == from && from > |table|)
    ensures i < |table| ==> EndsWith(path, table[i].suffix)
    ensures forall j :: from <= j < i && j < |table| ==> !EndsWith(path, table[j].suffix)
    decreases |table| - from
  {
    if from >= |table| then from
    else if EndsWith(path, table[from].suffix) then from
    else FirstMatch(table, path, from + 1)
  }

  /** `getContentType`: the content type of the first entry whose suffix
      the path ends with, and the `none` entry's type when the search
      falls through. */
  function ContentType(path: string): (m: string)
  {
    var i := FirstMatch(Table, path, 0);
    if i < |Table| then Table[i].mimeType else Table[None].mimeType
  }

  /** The entry `getContentType` settles on: it always exists, since the
      last suffix is empty; it is the first whose suffix matches. */
  lemma ContentTypeEntry(path: string)
    ensures var i := FirstMatch(Table, path, 0);
            && i < |Table|
            && EndsWith(path, Table[i].suffix)
            && (forall j :: 0 <= j < i ==> !EndsWith(path, Table[j].suffix))
            && ContentType(path) == Table[i].mimeType
  {
    assert EndsWith(path, Table[|Table| - 1].suffix);
  }

  /** The result is always one of the table's content types. */
  lemma ContentTypeInTable(path: string)
    ensures exists i :: 0 <= i < |Table| && Table[i].mimeType == ContentType(path)
  {
    ContentTypeEntry(path);
    var i := FirstMatch(Table, path, 0);
    assert Table[i].mimeType == ContentType(path);
  }

  /** A path ending with none of the listed extensions is served as
      application/octet-stream. */
  lemma UnknownExtension(path: string)
    requires forall j :: 0 <= j < None ==> !EndsWith(path, Table[j].suffix)
    ensures ContentType(path) == "application/octet-stream"
  {
    ContentTypeEntry(path);
  }

  /** Two suffixes differ in one of their last two characters, so no
      string ends with both. */
  predicate Clash(a: string, b: string)
  {
    (|a| > 0 && |b| > 0 && a[|a| - 1] != b[|b| - 1])
    || (|a| > 1 && |b| > 1 && a[|a| - 2] != b[|b| - 2])
  }

  lemma ClashExcludes(path: string, a: string, b: string)
    requires EndsWith(path, b) && Clash(a, b)
    ensures !EndsWith(path, a)
  {
    var n := |path|;
    assert path[n - |b|..][|b| - 1] == path[n - 1];
    if |b| > 1 {
      assert path[n - |b|..][|b| - 2] == path[n - 2];
    }
    if |a| <= n {
      assert path[n - |a|..][|a| - 1] == path[n - 1];
      if |a| > 1 {
        assert path[n - |a|..][|a| - 2] == path[n - 2];
      }
    }
  }

  /** The entry at index `k` is the one a path ending with its suffix gets,
      when every earlier suffix clashes with it. */
  lemma MatchesEntry(stem: string, k: nat)
    requires k < |Table|
    requires forall j :: 0 <= j < k ==> Clash(Table[j].suffix, Table[k].suffix)
    ensures ContentType(stem + Table[k].suffix) == Table[k].mimeType
  {
    var path := stem + Table[k].suffix;
    assert path[|path| - |Table[k].suffix|..] == Table[k].suffix;
    forall j | 0 <= j < k
      ensures !EndsWith(path, Table[j].suffix)
    {
      ClashExcludes(path, Table[j].suffix, Table[k].suffix);
    }
    ContentTypeEntry(path);
  }

  /** Pages, scripts, JSON documents and gzip archives, the types the
      firmware serves, are recognised by their extension. */
  lemma HtmlExtension(stem: string)
    ensures ContentType(stem + ".html") == "text/html"
  {
    MatchesEntry(stem, Html);
  }

  lemma ScriptExtension(stem: string)
    ensures ContentType(stem + ".js") == "application/javascript"
  {
    MatchesEntry(stem, 4);
  }

  lemma JsonExtension(stem: string)
    ensures ContentType(stem + ".json") == "application/json"
  {
    MatchesEntry(stem, 5);
  }

  lemma GzipExtension(stem: string)
    ensures ContentType(stem + ".gz") == "application/x-gzip"
  {
    MatchesEntry(stem, 20);
  }

  /** The loop of `getContentType`, proved to compute `ContentType`. */
  method ContentTypeLoop(path: string) returns (m: string)
    ensures m == ContentType(path)
  {
    var i := 0;
    while i < |Table|
      invariant 0 <= i <= |Table|
      invariant FirstMatch(Table, path, 0) == FirstMatch(Table, path, i)
    {
      if EndsWith(path, Table[i].suffix) {
        return Table[i].mimeType;
      }
      i := i + 1;
    }
    return Table[None].mimeType;
  }
}

=== FILE: ntp.dfy ===
/** The NTP exchange of the time library (NTPClient): the 48-byte request
    and the decode and validation of the answer, per section 7.3 of RFC
    5905. The UDP socket is replaced by the poll index at which an answer
    arrived and the answer's bytes. */
module Ntp {
  import opened Base

  const PacketSize: nat := 48

  /** Seconds from 1900-01-01 (the NTP era) to 1970-01-01. */
  const SeventyYears: int := 2208988800

  /** 2020-01-01 and 2070-01-01 in Unix seconds, the plausibility window. */
  const TwentyTwenty: int := 1577836800
  const TwentySeventy: int := 3155760000

  /** Polls beyond this index count as a timeout. */
  const MaxPolls: nat := 250

  /** The request: LI/version/mode 0xE3, stratum 0, poll 6, precision 0xEC,
      the reference id bytes 49, 0x4E, 49, 52 at 12..15, zero elsewhere. */
  function RequestPacket(): (p: seq<byte>)
    ensures |p| == PacketSize
    ensures p[0] == 0xE3 && p[1] == 0 && p[2] == 6 && p[3] == 0xEC
    ensures p[12] == 49 && p[13] == 0x4E && p[14] == 49 && p[15] == 52
    ensures forall i :: 4 <= i < 12 || 16 <= i < PacketSize ==> p[i] == 0
  {
    [0xE3, 0, 6, 0xEC] + seq(8, _ => 0) + [49, 0x4E, 49, 52] + seq(32, _ => 0)
  }

  /** Bytes in network order as one unsigned number. */
  function BigEndian(b: seq<byte>): (n: nat)
    ensures n < Pow256(|b|)
  {
    if |b| == 0 then 0 else BigEndian(b[..|b| - 1]) * 256 + b[|b| - 1] as nat
  }

  function Pow256(k: nat): (p: nat)
    ensures p >= 1
  {
    if k == 0 then 1 else 256 * Pow256(k - 1)
  }

  /** A 32-bit value as four bytes in network order. */
  function ToBigEndian32(x: nat): (b: seq<byte>)
    requires x < U32
    ensures |b| == 4
  {
    [(x / 0x100_0000) as byte, ((x / 0x1_0000) % 0x100) as byte, ((x / 0x100) % 0x100) as byte, (x % 0x100) as byte]
  }

  /** Writing a 32-bit value in network order and reading it back is the
      identity. */
  lemma BigEndianRoundTrip(x: nat)
    requires x < U32
    ensures BigEndian(ToBigEndian32(x)) == x
  {
    var b := ToBigEndian32(x);
    assert b[..3][..2][..1][..0] == [];
    assert BigEndian(b[..1]) == x / 0x100_0000;
    DivBy256Twice(x / 0x100);
    DivBy256Twice(x);
    assert BigEndian(b[..2]) == (x / 0x100_0000) * 256 + (x / 0x1_0000) % 0x100;
    assert BigEndian(b[..2]) == x / 0x1_0000;
    assert b[..3][..2] == b[..2];
    var y := x / 0x100;
    assert BigEndian(b[..3]) == (y / 0x100) * 256 + y % 0x100;
    assert BigEndian(b[..3]) == x / 0x100;
    assert b[..4][..3] == b[..3] && b[..4] == b;
  }

  /** Dividing by 256 twice is dividing by 65536. */
  lemma DivBy256Twice(x: nat)
    ensures x / 0x1_0000 == (x / 0x100) / 0x100
  {
    var y := x / 0x100;
    assert x == y * 0x100 + x % 0x100;
    assert y == (y / 0x100) * 0x100 + y % 0x100;
    assert x == (y / 0x100) * 0x1_0000 + (y % 0x100) * 0x100 + x % 0x100;
    DivUnique(x, y / 0x100, (y % 0x100) * 0x100 + x % 0x100, 0x1_0000);
  }

  /** What update() concluded. The wait is the processing delay reported to
      the caller, ten milliseconds per poll. */
  datatype Outcome =
    | TimedOut
    | ShortPacket(wait: int)
    | KissOfDeath(wait: int)
    | OutOfRange(wait: int, utc: int)
    | Valid(wait: int, epoch: int)

  /** update(): an answer arriving at poll `arrival` (0-based) of length
      `packet` is accepted when it came within the poll budget, holds at
      least the 44 bytes up to the transmit timestamp, has a non-zero
      stratum, and its transmit seconds (bytes 40..43) less the seventy
      years fall strictly inside 2020..2070. Bytes past the 48th are
      ignored. */
  function Update(arrival: nat, packet: seq<byte>): (o: Outcome)
    ensures arrival > MaxPolls <==> o.TimedOut?
    ensures !o.TimedOut? ==> o.wait == 10 * (arrival + 2)
    ensures o.ShortPacket? <==> arrival <= MaxPolls && |packet| < 44
    ensures o.KissOfDeath? <==> arrival <= MaxPolls && |packet| >= 44 && packet[1] == 0
    ensures o.Valid? ==> TwentyTwenty < o.epoch < TwentySeventy
    ensures (o.Valid? || o.OutOfRange?) ==>
              |packet| >= 44 && packet[1] != 0 &&
              (if o.Valid? then o.epoch else o.utc) == BigEndian(packet[40..44]) - SeventyYears
    ensures o.OutOfRange? ==> !(TwentyTwenty < o.utc < TwentySeventy)
  {
    if arrival > MaxPolls then TimedOut
    else
      var wait := 10 * (arrival + 2);
      if |packet| < 44 then ShortPacket(wait)
      else if packet[1] == 0 then KissOfDeath(wait)
      else
        var secs := BigEndian(packet[40..44]);
        var utc := secs - SeventyYears;
        if TwentyTwenty < utc < TwentySeventy then Valid(wait, utc) else OutOfRange(wait, utc)
  }

  /** The success flag update() returns. */
  predicate Succeeded(o: Outcome)
  {
    o.Valid?
  }

  /** A server echoing the request back is rejected: its stratum is 0. */
  lemma EchoedRequestRejected(arrival: nat)
    requires arrival <= MaxPolls
    ensures Update(arrival, RequestPacket()).KissOfDeath?
  {
  }

  /** An answer whose transmit seconds encode a Unix time in the window is
      decoded to exactly that time; any other time is refused. */
  lemma UpdateDecodesTransmitTime(arrival: nat, packet: seq<byte>, unix: int)
    requires arrival <= MaxPolls && |packet| >= 44 && packet[1] != 0
    requires 0 <= unix + SeventyYears < U32
    requires packet[40..44] == ToBigEndian32(unix + SeventyYears)
    ensures Succeeded(Update(arrival, packet)) <==> TwentyTwenty < unix < TwentySeventy
    ensures Succeeded(Update(arrival, packet)) ==> Update(arrival, packet).epoch == unix
  {
    BigEndianRoundTrip(unix + SeventyYears);
  }
}

=== FILE: palette_factory.dfy ===
/** The holiday theme of src/PaletteFactory.cpp: the holiday is either
    chosen by hand or, in automatic mode, followed from the calendar while
    WiFi (and so the clock) is up. Whether WiFi is up and the current time
    are parameters; palettes are named, not built. */
module PaletteFactory {
  import opened TimeUtil

  /** `PaletteFactory`: automatic mode and the current holiday; a new
      factory is automatic with no holiday. */
  datatype Factory = Factory(autoChangeHoliday: bool, holiday: Holiday)

  const Initial: Factory := Factory(true, Holiday.None)

  /** The palettes handed out, by name. */
  datatype Palette = HalloweenColors | HalloweenStripeColors | HeatColors | LavaColors
                   | ChristmasColors | RainbowColors | RainbowGradient | OceanColors
                   | PartierColors | PartierColorsCompl

  /** `isAuto`. */
  function IsAuto(f: Factory): bool
  {
    f.autoChangeHoliday
  }

  /** `setAuto`: only the mode changes. */
  function SetAuto(f: Factory, autoMode: bool): (f': Factory)
    ensures IsAuto(f') == autoMode && f'.holiday == f.holiday
  {
    f.(autoChangeHoliday := autoMode)
  }

  /** `currentHoliday`: the holiday of today while WiFi is up, Party
      otherwise. */
  function CurrentHoliday(wifi: bool, now: nat): (h: Holiday)
    ensures h != Holiday.None
    ensures !wifi ==> h == Party
  {
    if wifi then BuildHoliday(now, now) else Party
  }

  /** `adjustHoliday`: in automatic mode and with WiFi up, the holiday is
      recomputed for `time` (0 meaning now); otherwise it is kept. */
  function AdjustHoliday(f: Factory, time: nat, wifi: bool, now: nat): (f': Factory)
    ensures IsAuto(f') == IsAuto(f)
    ensures !IsAuto(f) || !wifi ==> f' == f
    ensures IsAuto(f) && wifi ==> f'.holiday == BuildHoliday(time, now)
  {
    if !f.autoChangeHoliday || !wifi then f
    else f.(holiday := if time == 0 then CurrentHoliday(wifi, now) else BuildHoliday(time, now))
  }

  /** `setHoliday`: `None` asks for automatic mode, which is adjusted at
      once; any other holiday is fixed by hand and ends automatic mode. */
  function SetHoliday(f: Factory, h: Holiday, wifi: bool, now: nat): (f': Factory)
    ensures IsAuto(f') <==> h == Holiday.None
    ensures h != Holiday.None ==> f'.holiday == h
    ensures h == Holiday.None && wifi ==> f'.holiday == BuildHoliday(now, now)
    ensures h == Holiday.None && !wifi ==> f'.holiday == f.holiday
  {
    var f1 := SetAuto(f, h == Holiday.None);
    if h == Holiday.None then AdjustHoliday(f1, 0, wifi, now) else f1.(holiday := h)
  }

  /** A holiday set by hand stays whatever the time: later adjustments
      leave it alone, until `None` is set again. */
  lemma ManualHolidaySticks(f: Factory, h: Holiday, wifi: bool, now: nat, time: nat, wifi2: bool, now2: nat)
    requires h != Holiday.None
    ensures AdjustHoliday(SetHoliday(f, h, wifi, now), time, wifi2, now2).holiday == h
  {
  }

  /** Once automatic mode has been asked for with WiFi up, a holiday (never
      `None`) is always set, and adjusting follows the calendar. */
  lemma AutomaticFollowsCalendar(f: Factory, wifi: bool, now: nat, time: nat, now2: nat)
    requires wifi
    ensures SetHoliday(f, Holiday.None, wifi, now).holiday != Holiday.None
    ensures AdjustHoliday(SetHoliday(f, Holiday.None, wifi, now), time, true, now2).holiday
            == BuildHoliday(time, now2)
  {
  }

  /** `isHolidayLimitedHue`. */
  function IsHolidayLimitedHue(f: Factory): (limited: bool)
    ensures limited <==> f.holiday == Halloween
  {
    f.holiday == Halloween
  }

  /** `mainPalette`: adjust for `time`, then the holiday's palette. */
  function MainPalette(f: Factory, time: nat, wifi: bool, now: nat): (p: (Factory, Palette))
    ensures p.0 == AdjustHoliday(f, time, wifi, now)
  {
    var f' := AdjustHoliday(f, time, wifi, now);
    (f', match f'.holiday
         case Halloween => HalloweenColors
         case Thanksgiving => HeatColors
         case Christmas => ChristmasColors
         case NewYear => RainbowGradient
         case _ => PartierColors)
  }

  /** `secondaryPalette`: adjust for `time`, then the holiday's second
      palette. */
  function SecondaryPalette(f: Factory, time: nat, wifi: bool, now: nat): (p: (Factory, Palette))
    ensures p.0 == AdjustHoliday(f, time, wifi, now)
  {
    var f' := AdjustHoliday(f, time, wifi, now);
    (f', match f'.holiday
         case Halloween => HalloweenStripeColors
         case Thanksgiving => LavaColors
         case Christmas => RainbowColors
         case NewYear => OceanColors
         case _ => PartierColorsCompl)
  }

  /** The two palettes of a holiday differ, and only the four themed
      holidays leave the party palettes; the Halloween palettes are exactly
      the limited-hue ones. */
  lemma PalettesByHoliday(f: Factory, time: nat, wifi: bool, now: nat)
    ensures MainPalette(f, time, wifi, now).1 != SecondaryPalette(f, time, wifi, now).1
    ensures var f' := AdjustHoliday(f, time, wifi, now);
            var themed := f'.holiday in {Halloween, Thanksgiving, Christmas, NewYear};
            (MainPalette(f, time, wifi, now).1 == PartierColors <==> !themed)
    ensures var f' := AdjustHoliday(f, time, wifi, now);
            (MainPalette(f, time, wifi, now).1 == HalloweenColors <==> IsHolidayLimitedHue(f'))
  {
  }
}

=== FILE: pico_log.dfy ===
/** The framing of the firmware's own logger (lib/PicoLog/src/PicoLog.cpp):
    each message is a header (clock, task, level) and the formatted text,
    ended by one newline and queued as characters in a ring buffer, which a
    task drains to the serial port in chunks. Formatting of the message
    text itself is left to `vsnprintf` and is a parameter here. */
module PicoLog {
  import opened Base
  import opened ArduinoString
  import opened CircularBuffer

  function Zeros(z: nat): (s: string)
    ensures |s| == z && forall k :: 0 <= k < z ==> s[k] == '0'
  {
    seq(z, _ => '0')
  }

  /** `%0<w>lu`: the decimal digits, zero-padded to at least `w`. */
  function Pad(n: nat, w: nat): (s: string)
    ensures |s| == Max(w, |FromNat(n)|)
  {
    var digits := FromNat(n);
    if |digits| >= w then digits else Zeros(w - |digits|) + digits
  }

  /** Zero-padding keeps the value. */
  lemma PadValue(n: nat, w: nat)
    ensures forall k :: 0 <= k < |Pad(n, w)| ==> IsDigit(Pad(n, w)[k])
    ensures ToNat(Pad(n, w)) == n
  {
    FromNatRoundTrip(n);
    var digits := FromNat(n);
    if |digits| < w {
      ZerosValue(w - |digits|, digits);
    }
  }

  lemma {:induction false} ZerosValue(z: nat, s: string)
    requires forall k :: 0 <= k < |s| ==> IsDigit(s[k])
    ensures forall k :: 0 <= k < |Zeros(z) + s| ==> IsDigit((Zeros(z) + s)[k])
    ensures ToNat(Zeros(z) + s) == ToNat(s)
    decreases |s|
  {
    var t := Zeros(z) + s;
    if |s| == 0 {
      assert t == Zeros(z);
      ZerosOnly(z);
    } else {
      assert t[..|t| - 1] == Zeros(z) + s[..|s| - 1];
      ZerosValue(z, s[..|s| - 1]);
    }
  }

  lemma {:induction false} ZerosOnly(z: nat)
    ensures ToNat(Zeros(z)) == 0
    decreases z
  {
    if z > 0 {
      assert Zeros(z)[..z - 1] == Zeros(z - 1);
      ZerosOnly(z - 1);
    }
  }

  lemma SmallWidth(n: nat, w: nat)
    requires 1 <= w && n < Pow10(w)
    ensures |Pad(n, w)| == w
  {
    DigitsBelow(n, w);
  }

  function Pow10(k: nat): (p: nat)
    ensures p >= 1
  {
    if k == 0 then 1 else 10 * Pow10(k - 1)
  }

  lemma {:induction false} DigitsBelow(n: nat, w: nat)
    requires 1 <= w && n < Pow10(w)
    ensures |FromNat(n)| <= w
    decreases w
  {
    if n >= 10 {
      assert w > 1;
      DigitsBelow(n / 10, w - 1);
    }
  }

  /** The clock fields `printTimestamp` shows: hours of the day, minutes,
      seconds and milliseconds of `millis() + timebase`. The seconds are
      held in an `unsigned long`, so they wrap at 2^32. */
  datatype Clock = Clock(hours: nat, minutes: nat, seconds: nat, millis: nat)

  function TimestampFields(msecs: nat): (c: Clock)
    ensures c.hours < 24 && c.minutes < 60 && c.seconds < 60 && c.millis < 1000
  {
    var secs := Wrap32(msecs / 1000);
    Clock((secs % 86400) / 3600, (secs / 60) % 60, secs % 60, msecs % 1000)
  }

  /** Until the seconds wrap, the fields spell the time of day: together
      they give back the milliseconds since midnight. */
  lemma TimestampTimeOfDay(msecs: nat)
    requires msecs / 1000 < U32
    ensures var c := TimestampFields(msecs);
            ((c.hours * 60 + c.minutes) * 60 + c.seconds) * 1000 + c.millis == msecs % 86_400_000
  {
    var secs := msecs / 1000;
    assert Wrap32(secs) == secs;
    SecondsOfDay(secs);
    MillisOfDay(msecs);
  }

  /** Hours, minutes and seconds recombine into the seconds of the day. */
  lemma SecondsOfDay(secs: nat)
    ensures ((secs % 86400) / 3600 * 60 + (secs / 60) % 60) * 60 + secs % 60 == secs % 86400
  {
    var day := secs % 86400;
    HourWithinDay(secs);
    MinuteWithinHour(secs);
    var r := day % 3600;
    assert day == (day / 3600) * 3600 + r;
    assert r == (r / 60) * 60 + r % 60;
  }

  /** The milliseconds of the day split into whole seconds of the day and
      the milliseconds of the second. */
  lemma MillisOfDay(msecs: nat)
    ensures msecs % 86_400_000 == ((msecs / 1000) % 86400) * 1000 + msecs % 1000
  {
    var secs := msecs / 1000;
    var day := secs % 86400;
    assert msecs == secs * 1000 + msecs % 1000;
    assert secs == (secs / 86400) * 86400 + day;
    DivUnique(msecs, secs / 86400, day * 1000 + msecs % 1000, 86_400_000);
  }

  /** The seconds into the hour do not depend on whole days. */
  lemma HourWithinDay(x: nat)
    ensures (x % 86400) % 3600 == x % 3600
  {
    assert x == (x / 86400) * 86400 + x % 86400;
    DivAddMultiple(x % 86400, (x / 86400) * 24, 3600);
  }

  /** Minutes and seconds read from the seconds into the hour. */
  lemma MinuteWithinHour(x: nat)
    ensures (x % 3600) / 60 == (x / 60) % 60
    ensures (x % 3600) % 60 == x % 60
  {
    var q := x / 60;
    var r := x % 60;
    assert x == q * 60 + r;
    assert q == (q / 60) * 60 + q % 60;
    assert x == (q / 60) * 3600 + ((q % 60) * 60 + r);
    DivUnique(x, q / 60, (q % 60) * 60 + r, 3600);
    DivUnique((q % 60) * 60 + r, q % 60, r, 60);
  }

  /** `"%02lu:%02lu:%02lu.%03lu"`: always twelve characters. */
  function Timestamp(msecs: nat): (s: string)
  {
    var c := TimestampFields(msecs);
    Pad(c.hours, 2) + ":" + Pad(c.minutes, 2) + ":" + Pad(c.seconds, 2) + "." + Pad(c.millis, 3)
  }

  lemma TimestampShape(msecs: nat)
    ensures var s := Timestamp(msecs);
            |s| == 12 && s[2] == ':' && s[5] == ':' && s[8] == '.'
  {
    var c := TimestampFields(msecs);
    SmallWidth(c.hours, 2);
    SmallWidth(c.minutes, 2);
    SmallWidth(c.seconds, 2);
    SmallWidth(c.millis, 3);
  }

  /** `logLevelTags`: one letter per `LogLevel`, SILENT to TRACE. */
  const LevelTags: string := "SFEWIDT"

  /** `printLevel`: `" %c: "` with the level's letter. */
  function LevelText(level: nat): (s: string)
    requires level < |LevelTags|
    ensures |s| == 4 && s[1] == LevelTags[level]
  {
    [' ', LevelTags[level], ':', ' ']
  }

  /** Reads the level back from its text. */
  function ParseLevel(s: string): (level: Option<nat>)
  {
    if |s| == 4 && s[0] == ' ' && s[2] == ':' && s[3] == ' ' then IndexIn(LevelTags, s[1])
    else None
  }

  function IndexIn(tags: string, c: char): (r: Option<nat>)
    ensures r.Some? ==> r.value < |tags| && tags[r.value] == c
    ensures r.None? ==> c !in tags
  {
    if |tags| == 0 then None
    else if tags[0] == c then Some(0)
    else match IndexIn(tags[1..], c)
      case None => None
      case Some(i) => Some(i + 1)
  }

  /** Every level is told apart by its text. */
  lemma LevelTextRoundTrip(level: nat)
    requires level < |LevelTags|
    ensures ParseLevel(LevelText(level)) == Some(level)
  {
    var r := IndexIn(LevelTags, LevelTags[level]);
    assert r.Some?;
    assert LevelTags[0] == 'S' && LevelTags[1] == 'F' && LevelTags[2] == 'E' && LevelTags[3] == 'W';
    assert LevelTags[4] == 'I' && LevelTags[5] == 'D' && LevelTags[6] == 'T';
  }

  /** `printThread`: the task's name and priority, and its base priority
      too when the two differ. */
  function ThreadText(name: string, priority: nat, basePriority: nat): (s: string)
  {
    if priority == basePriority then " [" + name + "-" + FromNat(priority) + "]"
    else " [" + name + "-" + FromNat(priority) + "/" + FromNat(basePriority) + "]"
  }

  /** `print`: the header and the formatted text, then a newline. The
      newline goes to the queue with the rest, the returned size leaves it
      out. */
  function Frame(msecs: nat, name: string, priority: nat, basePriority: nat,
                 level: nat, text: string): (r: (string, nat))
    requires level < |LevelTags|
  {
    var line := Timestamp(msecs) + ThreadText(name, priority, basePriority) + LevelText(level) + text;
    (line + "\n", |line|)
  }

  /** A frame is one line: the header, the text, and exactly one newline
      at the end when neither the task name nor the text holds one. */
  lemma FrameIsOneLine(msecs: nat, name: string, priority: nat, basePriority: nat,
                       level: nat, text: string)
    requires level < |LevelTags|
    requires '\n' !in name && '\n' !in text
    ensures var r := Frame(msecs, name, priority, basePriority, level, text);
            && r.1 + 1 == |r.0|
            && r.0[r.1] == '\n'
            && '\n' !in r.0[..r.1]
            && EndsWith(r.0[..r.1], text)
            && r.0[..12] == Timestamp(msecs)
  {
    TimestampShape(msecs);
    var ts := Timestamp(msecs);
    var th := ThreadText(name, priority, basePriority);
    var lv := LevelText(level);
    var line := ts + th + lv + text;
    TimestampOneLine(msecs);
    ThreadTextOneLine(name, priority, basePriority);
    assert '\n' !in lv;
    assert (line + "\n")[..|line|] == line;
    assert line[|line| - |text|..] == text;
    assert line[..12] == ts;
  }

  lemma TimestampOneLine(msecs: nat)
    ensures '\n' !in Timestamp(msecs)
  {
    TimestampShape(msecs);
    var ts := Timestamp(msecs);
    var c := TimestampFields(msecs);
    PadValue(c.hours, 2);
    PadValue(c.minutes, 2);
    PadValue(c.seconds, 2);
    PadValue(c.millis, 3);
    forall k | 0 <= k < |ts| ensures ts[k] != '\n' {
      if k < 2 { assert ts[k] == Pad(c.hours, 2)[k]; }
      else if 2 < k < 5 { assert ts[k] == Pad(c.minutes, 2)[k - 3]; }
      else if 5 < k < 8 { assert ts[k] == Pad(c.seconds, 2)[k - 6]; }
      else if 8 < k { assert ts[k] == Pad(c.millis, 3)[k - 9]; }
    }
  }

  lemma ThreadTextOneLine(name: string, priority: nat, basePriority: nat)
    requires '\n' !in name
    ensures '\n' !in ThreadText(name, priority, basePriority)
  {
    var p := FromNat(priority);
    var b := FromNat(basePriority);
    assert '\n' !in p by { assert forall k :: 0 <= k < |p| ==> IsDigit(p[k]); }
    assert '\n' !in b by { assert forall k :: 0 <= k < |b| ==> IsDigit(b[k]); }
  }

  /** `SERIAL_BUFFER_SIZE`: the size of the stack buffer each chunk is
      copied into before being written out. */
  const SerialBufferSize: nat := 256

  /** Whether the NUL that `flushData` stores after a chunk of `sz`
      characters lands inside the buffer. */
  predicate TerminatorFits(sz: nat)
  {
    sz < SerialBufferSize
  }

  /** The chunk size of `flushData` as written: `min(size, 256)`. */
  function ChunkAsWritten(size: nat): nat
  {
    Min(size, SerialBufferSize)
  }

  /** With 256 or more characters queued, the terminator is written one
      past the end of the 256-character buffer. */
  lemma FullChunkOverflows(size: nat)
    requires size >= SerialBufferSize
    ensures !TerminatorFits(ChunkAsWritten(size))
  {
  }

  /** The chunk size leaving room for the terminator, as the comment on
      that line intends. */
  function Chunk(size: nat): (sz: nat)
  {
    Min(size, SerialBufferSize - 1)
  }

  /** Every chunk leaves room for its terminator, and a non-empty queue
      always yields a non-empty chunk. */
  lemma ChunkFits(size: nat)
    ensures TerminatorFits(Chunk(size))
    ensures Chunk(size) <= size
    ensures size > 0 ==> Chunk(size) > 0
  {
  }

  /** The characters of a sequence of chunks, in order. */
  function Flatten(chunks: seq<string>): string
  {
    if |chunks| == 0 then "" else Flatten(chunks[..|chunks| - 1]) + chunks[|chunks| - 1]
  }

  /** One pass of the drain loop moves one chunk of `min(size, 256)`
      characters from the queue to the output; a chunk that leaves
      characters behind is a full buffer. */
  lemma FlushStep(whole: string, written: seq<string>, q: Ring<char>)
    requires Valid(q) && !Empty(q) && Flatten(written) + Contents(q) == whole
    ensures var p := PopFrontMany(q, ChunkAsWritten(Size(q)));
            && Flatten(written + [p.1]) + Contents(p.2) == whole
            && 0 < |p.1| == ChunkAsWritten(Size(q))
            && (!Empty(p.2) ==> |p.1| == SerialBufferSize)
            && Size(p.2) < Size(q)
  {
    var sz := ChunkAsWritten(Size(q));
    PopFrontManyFifo(q, sz);
    var p := PopFrontMany(q, sz);
    assert Contents(q)[..sz] + Contents(q)[sz..] == Contents(q);
    assert (written + [p.1])[..|written|] == written;
  }

  lemma ChunkGrows(a: nat, b: nat)
    requires a <= b
    ensures ChunkAsWritten(a) <= ChunkAsWritten(b)
  {
  }

  /** Appending a chunk keeps every chunk within `cap`, and every chunk
      full while more remain to be written. */
  lemma SnocChunk(written: seq<string>, c: string, cap: nat, more: bool)
    requires forall k :: 0 <= k < |written| ==> 0 < |written[k]| <= cap
    requires 0 < |c| <= cap
    requires more ==> |c| == SerialBufferSize && forall k :: 0 <= k < |written| ==> |written[k]| == SerialBufferSize
    ensures forall k :: 0 <= k < |written + [c]| ==> 0 < |(written + [c])[k]| <= cap
    ensures more ==> forall k :: 0 <= k < |written + [c]| ==> |(written + [c])[k]| == SerialBufferSize
    ensures |written| > 0 ==> (written + [c])[0] == written[0]
    ensures (forall k :: 0 <= k < |written| ==> |written[k]| == SerialBufferSize) ==>
              forall k :: 0 <= k < |written + [c]| - 1 ==> |(written + [c])[k]| == SerialBufferSize
  {
  }

  /** `flushData`: an empty queue is left alone (the task waits); otherwise
      the largest queue size seen is updated and the queue is drained in
      chunks of `min(size, 256)` characters, each written out whole. Every
      chunk but the last fills the buffer, and some chunk's terminator
      lands past the buffer exactly when 256 or more characters were
      queued. */
  method FlushData(queue: Ring<char>, maxBufferSize: nat)
    returns (written: seq<string>, queue': Ring<char>, maxBufferSize': nat)
    requires Valid(queue)
    ensures Empty(queue) ==> written == [] && queue' == queue && maxBufferSize' == maxBufferSize
    ensures !Empty(queue) ==> maxBufferSize' == Max(maxBufferSize, Size(queue))
    ensures Flatten(written) == Contents(queue)
    ensures forall k :: 0 <= k < |written| ==> 0 < |written[k]| <= SerialBufferSize
    ensures forall k :: 0 <= k < |written| - 1 ==> |written[k]| == SerialBufferSize
    ensures (forall k :: 0 <= k < |written| ==> TerminatorFits(|written[k]|)) <==> Size(queue) < SerialBufferSize
    ensures Valid(queue') && Size(queue') == 0 && Capacity(queue') == Capacity(queue)
  {
    written := [];
    queue' := queue;
    maxBufferSize' := maxBufferSize;
    if Empty(queue) {
      return;
    }
    if Size(queue) > maxBufferSize {
      maxBufferSize' := Size(queue);
    }
    while !Empty(queue')
      invariant Valid(queue') && Capacity(queue') == Capacity(queue)
      invariant Flatten(written) + Contents(queue') == Contents(queue)
      invariant Size(queue') <= Size(queue)
      invariant |written| == 0 ==> queue' == queue
      invariant |written| > 0 ==> |written[0]| == ChunkAsWritten(Size(queue))
      invariant forall k :: 0 <= k < |written| ==> 0 < |written[k]| <= ChunkAsWritten(Size(queue))
      invariant !Empty(queue') ==> forall k :: 0 <= k < |written| ==> |written[k]| == SerialBufferSize
      invariant forall k :: 0 <= k < |written| - 1 ==> |written[k]| == SerialBufferSize
      decreases Size(queue')
    {
      var p := PopFrontMany(queue', ChunkAsWritten(Size(queue')));
      FlushStep(Contents(queue), written, queue');
      ChunkGrows(Size(queue'), Size(queue));
      SnocChunk(written, p.1, ChunkAsWritten(Size(queue)), !Empty(p.2));
      written := written + [p.1];
      queue' := p.2;
    }
    if Size(queue) >= SerialBufferSize {
      assert !TerminatorFits(|written[0]|);
    }
  }
}

=== FILE: pixel_js.dfy ===
/** The rules of the web page script in include/pixel_js.h: how effect
    descriptions are shortened, how the brightness percentages of the
    page map to the strip's raw brightness and back, the audio histogram
    labels, the holiday list, and how a control rolls back when the
    device refuses an update. Page rendering, the jQuery calls and the
    HTTP requests themselves are left out. */
module PixelJs {
  import opened Base
  import opened ArduinoString

  /** `overflowString`: a string longer than the limit is cut to leave room
      for an ellipsis (JavaScript's `substring` taking a negative end as
      0); others are kept. */
  function OverflowString(str: string, ovrThreshold: nat): (r: string)
    ensures |str| <= ovrThreshold ==> r == str
    ensures |str| > ovrThreshold ==> |r| == Max(ovrThreshold, 3) && r[|r| - 3..] == "..."
    ensures |str| > ovrThreshold ==> r[..|r| - 3] == str[..|r| - 3]
  {
    if |str| > ovrThreshold then str[..Max(ovrThreshold - 3, 0)] + "..." else str
  }

  /** A shortened string is never longer than the limit (or the ellipsis),
      and shortening twice changes nothing more when the limit leaves room
      for the ellipsis. */
  lemma OverflowStringSettles(str: string, t: nat)
    ensures |OverflowString(str, t)| <= Max(t, 3)
    ensures t >= 3 ==> OverflowString(OverflowString(str, t), t) == OverflowString(str, t)
  {
  }

  /** The brightness request of `updateBrightness`: the percentage scaled
      to 0–256, squared over 256 (FastLED's dimming curve undone), rounded
      half up and capped at 255. */
  function RawBrightness(percent: nat): (raw: nat)
    ensures raw <= 255
    ensures percent <= 99 ==> raw == (32 * percent * percent + 625) / 1250
  {
    RawBelowCap(percent);
    Min((32 * percent * percent + 625) / 1250, 255)
  }

  /** Below 100% the rounded value never reaches the cap. */
  lemma RawBelowCap(percent: nat)
    ensures percent <= 99 ==> (32 * percent * percent + 625) / 1250 <= 255
  {
    if percent <= 99 {
      SquareMono(percent, 99);
    }
  }

  /** The rounding stated exactly: `raw` is `16 percent² / 625` rounded
      half up, as `Math.round` does, unless capped. */
  lemma RawBrightnessRounds(percent: nat)
    ensures var raw := RawBrightness(percent);
            raw == 255 || (1250 * raw <= 32 * percent * percent + 625 < 1250 * (raw + 1))
  {
  }

  /** `q` is `Math.round(Math.sqrt(raw * 256) * 100 / 256)`, that is the
      rounding of `25 √raw / 4`, stated without square roots:
      `q - ½ ≤ 25 √raw / 4 < q + ½`. */
  predicate IsPercentOf(raw: nat, q: nat)
  {
    (q == 0 || (4 * q - 2) * (4 * q - 2) <= 625 * raw) && 625 * raw < (4 * q + 2) * (4 * q + 2)
  }

  /** The percentage shown for a raw brightness, by search instead of a
      square root. */
  method PercentOf(raw: nat) returns (q: nat)
    ensures IsPercentOf(raw, q)
  {
    q := 0;
    while (4 * q + 2) * (4 * q + 2) <= 625 * raw
      invariant q == 0 || (4 * q - 2) * (4 * q - 2) <= 625 * raw
      decreases 625 * raw - 4 * q
    {
      SquareMono(4 * q, 4 * q + 2);
      q := q + 1;
    }
  }

  lemma SquareMono(a: int, b: int)
    requires 0 <= a <= b
    ensures a * a <= b * b
  {
    assert a * a <= a * b <= b * b;
  }

  /** The rounded square root is unique. */
  lemma PercentOfUnique(raw: nat, q1: nat, q2: nat)
    requires IsPercentOf(raw, q1) && IsPercentOf(raw, q2)
    ensures q1 == q2
  {
    if q1 < q2 {
      SquareMono(4 * q1 + 2, 4 * q2 - 2);
    } else if q2 < q1 {
      SquareMono(4 * q2 + 2, 4 * q1 - 2);
    }
  }

  /** The percentage the status view shows: 10 below 10, otherwise
      rounded half up to a multiple of 10. */
  function DisplayPercent(q: nat): (d: nat)
    ensures d % 10 == 0 && d >= 10
    ensures q >= 10 ==> d - 5 <= q < d + 5
  {
    if q < 10 then 10 else ((q + 5) / 10) * 10
  }

  /** Every step of the page's brightness list survives the trip to raw
      brightness and back to the displayed step. */
  lemma BrightnessRoundTrip(percent: nat, q: nat)
    requires percent % 10 == 0 && 10 <= percent <= 100
    requires IsPercentOf(RawBrightness(percent), q)
    ensures DisplayPercent(q) == percent
  {
    RawBrightnessBounds(percent);
    if q >= percent + 5 {
      SquareMono(4 * percent + 18, 4 * q - 2);
      assert false;
    }
    if percent >= 20 && q + 6 <= percent {
      SquareMono(4 * q + 2, 4 * percent - 22);
      assert false;
    }
    if q >= 10 {
      assert percent <= q + 5 < percent + 10;
      DivUnique(q + 5, percent / 10, q + 5 - percent, 10);
    }
  }

  /** The raw value of each step lies between the squares bounding its
      display window. */
  lemma RawBrightnessBounds(percent: nat)
    requires percent % 10 == 0 && 10 <= percent <= 100
    ensures 625 * RawBrightness(percent) < (4 * percent + 18) * (4 * percent + 18)
    ensures percent >= 20 ==> (4 * percent - 22) * (4 * percent - 22) <= 625 * RawBrightness(percent)
  {
    var k := percent / 10;
    assert percent == 10 * k && 1 <= k <= 10;
    if k == 1 { assert RawBrightness(10) == 3; }
    else if k == 2 { assert RawBrightness(20) == 10; }
    else if k == 3 { assert RawBrightness(30) == 23; }
    else if k == 4 { assert RawBrightness(40) == 41; }
    else if k == 5 { assert RawBrightness(50) == 64; }
    else if k == 6 { assert RawBrightness(60) == 92; }
    else if k == 7 { assert RawBrightness(70) == 125; }
    else if k == 8 { assert RawBrightness(80) == 164; }
    else if k == 9 { assert RawBrightness(90) == 207; }
    else { assert RawBrightness(100) == 255; }
  }

  /** The label of histogram bin `ix` of `count`: the bin's lower bound,
      `threshold + 500 ix`, marked with `>` on the last bin. */
  function HistogramLabel(threshold: nat, ix: nat, count: nat): (text: string)
    ensures |text| > 0 && (text[0] == '>' <==> ix == count - 1)
  {
    (if ix == count - 1 then ">" else "") + FromNat(threshold + ix * 500)
  }

  /** A label reads back as its bin's bound, so distinct bins have
      distinct labels. */
  lemma HistogramLabelReadsBack(threshold: nat, ix: nat, count: nat)
    ensures var text := HistogramLabel(threshold, ix, count);
            var digits := if ix == count - 1 then text[1..] else text;
            digits == FromNat(threshold + ix * 500) && ToNat(digits) == threshold + ix * 500
  {
    FromNatRoundTrip(threshold + ix * 500);
    var text := HistogramLabel(threshold, ix, count);
    if ix == count - 1 {
      assert text[1..] == FromNat(threshold + ix * 500);
    }
  }

  lemma HistogramLabelsDistinct(threshold: nat, i: nat, j: nat, count: nat)
    requires i != j
    ensures HistogramLabel(threshold, i, count) != HistogramLabel(threshold, j, count)
  {
    HistogramLabelReadsBack(threshold, i, count);
    HistogramLabelReadsBack(threshold, j, count);
  }

  /** An entry of the holiday list: the value sent back, and the text
      shown. */
  datatype ListEntry = ListEntry(value: string, text: string)

  /** The holiday list entry: "None" is shown as "Automatic" but keeps
      "None" as its value. */
  function HolidayOption(hld: string): (o: ListEntry)
    ensures o.value == hld
    ensures o.text == "Automatic" <==> hld == "None" || hld == "Automatic"
    ensures hld != "None" ==> o.text == hld
  {
    ListEntry(hld, if hld == "None" then "Automatic" else hld)
  }

  /** The holiday list's selection from a status report: "None" (the
      automatic entry) while the theme follows the calendar, else the
      theme. */
  function SelectedTheme(autoTheme: bool, theme: string): (v: string)
    ensures autoTheme ==> v == "None" && HolidayOption(v).text == "Automatic"
    ensures !autoTheme ==> v == theme
  {
    if autoTheme then "None" else theme
  }

  /** A select control: the value shown and the value last confirmed by
      the device (the `current…` attribute). */
  datatype Select = Select(shown: string, stored: string)

  /** `updateEffect` sends a request only for a real entry that differs
      from the current effect. */
  function EffectUpdateSent(c: Select): (sent: bool)
    ensures sent <==> c.shown != "none" && c.shown != c.stored
  {
    c.shown != "none" && c.shown != c.stored
  }

  /** The answer to a select update: success confirms the shown value,
      failure shows the stored one again. */
  function SelectOutcome(c: Select, ok: bool): (c': Select)
    ensures c'.shown == c'.stored
    ensures ok ==> c'.shown == c.shown
    ensures !ok ==> c'.stored == c.stored
  {
    if ok then c.(stored := c.shown) else c.(shown := c.stored)
  }

  /** After a refused update the control is as it was before the user's
      choice; after an accepted one a repeated choice sends nothing. */
  lemma SelectRollsBack(before: Select, choice: string, ok: bool)
    requires before.shown == before.stored
    ensures !ok ==> SelectOutcome(before.(shown := choice), false) == before
    ensures !EffectUpdateSent(SelectOutcome(before.(shown := choice), true).(shown := choice))
  {
  }

  /** The answer to a toggle update: the box keeps the new state on
      success and is negated back on failure. */
  function ToggleOutcome(selected: bool, ok: bool): (checked: bool)
    ensures ok <==> checked == selected
  {
    if ok then selected else !selected
  }

  /** A click flips the box; a refused update flips it back. */
  lemma ToggleRollsBack(before: bool)
    ensures ToggleOutcome(!before, false) == before
    ensures ToggleOutcome(!before, true) == !before
  {
  }
}

=== FILE: query_args.dfy ===
/** Splitting a query string into URL-decoded name/value arguments
    (`HTTPServer::_parseArguments` and `WebClient::_parseArguments`). Both
    count the argument slots the same way and walk the string with the
    same `indexOf` logic; they differ only in which arguments they keep. */
module QueryArgs {
  import opened Base
  import opened ArduinoString
  import UrlCodec

  /** WEBSERVER_MAX_POST_ARGS. */
  const MaxPostArgs: nat := 32

  /** A query segment as the scan sees it: with or without an '='. */
  datatype Segment = KeyOnly(key: string) | KeyValue(key: string, value: string)

  /** A stored argument (`RequestArgument`, `NameValuePair`). */
  datatype Argument = Argument(key: string, value: string)

  function Occurrences(s: string, c: char): (n: nat)
    ensures n <= |s|
    ensures n == 0 <==> c !in s
    decreases |s|
  {
    if |s| == 0 then 0
    else (if s[0] == c then 1 else 0) + Occurrences(s[1..], c)
  }

  lemma {:induction false} OccurrencesAppend(a: string, b: string, c: char)
    ensures Occurrences(a + b, c) == Occurrences(a, c) + Occurrences(b, c)
    decreases |a|
  {
    if |a| > 0 {
      assert (a + b)[1..] == a[1..] + b;
      OccurrencesAppend(a[1..], b, c);
    } else {
      assert a + b == b;
    }
  }

  /** The slots allocated: none for an empty string, else one plus the
      number of '&' after the first character, capped at MaxPostArgs. */
  function ArgSlots(data: string): (n: nat)
    ensures n <= MaxPostArgs
    ensures n == 0 <==> |data| == 0
  {
    if |data| == 0 then 0 else Min(1 + Occurrences(data[1..], '&'), MaxPostArgs)
  }

  /** The '&' in `data[1..]` up to the next '&' after position `i`: one
      more than up to `i`. */
  lemma OccurrencesToNext(data: string, i: nat, next: nat)
    requires i < next < |data| && data[next] == '&'
    requires forall j :: i + 1 <= j < next ==> data[j] != '&'
    ensures Occurrences(data[1..next + 1], '&') == Occurrences(data[1..i + 1], '&') + 1
  {
    var before := data[1..i + 1];
    var between := data[i + 1..next];
    assert '&' !in between by {
      forall j | 0 <= j < |between| ensures between[j] != '&' {
        assert between[j] == data[i + 1 + j];
      }
    }
    OccurrencesAppend(before, between, '&');
    assert data[1..next + 1] == (before + between) + [data[next]];
    OccurrencesAppend(before + between, [data[next]], '&');
  }

  /** The '&' in `data[1..]` when there is none after position `i`. */
  lemma OccurrencesToEnd(data: string, i: nat)
    requires i < |data|
    requires forall j :: i + 1 <= j < |data| ==> data[j] != '&'
    ensures Occurrences(data[1..], '&') == Occurrences(data[1..i + 1], '&')
  {
    var before := data[1..i + 1];
    var between := data[i + 1..];
    assert '&' !in between by {
      forall j | 0 <= j < |between| ensures between[j] != '&' {
        assert between[j] == data[i + 1 + j];
      }
    }
    OccurrencesAppend(before, between, '&');
    assert data[1..] == before + between;
  }

  /** The counting loop: `i = data.indexOf('&', i + 1)` until it fails. */
  method CountSlots(data: string) returns (count: nat)
    ensures count == ArgSlots(data)
  {
    if |data| == 0 {
      return 0;
    }
    count := 1;
    var i := 0;
    while true
      invariant 0 <= i < |data|
      invariant count == 1 + Occurrences(data[1..i + 1], '&')
      decreases |data| - i
    {
      var next := IndexOfChar(data, '&', i + 1);
      if next == -1 {
        OccurrencesToEnd(data, i);
        break;
      }
      OccurrencesToNext(data, i, next);
      count := count + 1;
      i := next;
    }
    if count > MaxPostArgs {
      count := MaxPostArgs;
    }
  }

  /** One pass of the argument loop and the passes after it, with `slots`
      slots left. `rest` is the query from the loop's current `pos` on, and
      the delimiter positions are counted from there: `indexOf(c, pos)` on
      the whole query is `pos` plus the first `c` in `rest`. A segment whose
      first '=' lies past the next '&' (or that has none) is a bare key; the
      loop stops after the last segment or when the slots run out. */
  function Scan(rest: string, slots: nat): (segs: seq<Segment>)
    ensures |segs| <= slots
    ensures slots > 0 ==> |segs| >= 1
    decreases slots
  {
    if slots == 0 then []
    else
      var next := IndexOfChar(rest, '&', 0);
      var seg := RawSegment(rest, IndexOfChar(rest, '=', 0), next);
      if next < 0 then [seg] else [seg] + Scan(rest[next + 1..], slots - 1)
  }

  /** The undecoded segment at the start of `rest`, given its first '=' and
      first '&' (-1 when absent). The value's right bound is
      `next_arg_index`, which is `(unsigned) -1` for the last segment and
      so reaches past any string. */
  function RawSegment(rest: string, eq: int, next: int): Segment
  {
    if eq < 0 || (eq > next && next > -1) then
      KeyOnly(if next < 0 then SubstringFrom(rest, 0) else Substring(rest, 0, next))
    else
      KeyValue(Substring(rest, 0, eq), Substring(rest, eq + 1, if next < 0 then U32 - 1 else next))
  }

  /** Both parts of a segment pass through `urlDecode` before they are
      stored. */
  function Decoded(seg: Segment): Segment
  {
    match seg
    case KeyOnly(k) => KeyOnly(UrlCodec.Decode(k))
    case KeyValue(k, v) => KeyValue(UrlCodec.Decode(k), UrlCodec.Decode(v))
  }

  function DecodedAll(segs: seq<Segment>): (decoded: seq<Segment>)
    ensures |decoded| == |segs|
    ensures forall k :: 0 <= k < |segs| ==> decoded[k] == Decoded(segs[k])
  {
    if |segs| == 0 then [] else [Decoded(segs[0])] + DecodedAll(segs[1..])
  }

  function ToArgument(seg: Segment): Argument
  {
    match seg
    case KeyOnly(k) => Argument(k, "")
    case KeyValue(k, v) => Argument(k, v)
  }

  function ToArguments(segs: seq<Segment>): (args: seq<Argument>)
    ensures |args| == |segs|
    ensures forall k :: 0 <= k < |segs| ==> args[k] == ToArgument(segs[k])
  {
    if |segs| == 0 then [] else [ToArgument(segs[0])] + ToArguments(segs[1..])
  }

  /** `HTTPServer::_parseArguments`: every segment is stored, a bare key
      with an empty value. */
  function ParseArguments(data: string): (args: seq<Argument>)
    ensures |data| == 0 <==> |args| == 0
    ensures |args| <= ArgSlots(data) <= MaxPostArgs
  {
    ToArguments(DecodedAll(Scan(data, ArgSlots(data))))
  }

  function KeysOnly(segs: seq<Segment>): (args: seq<Argument>)
    ensures |args| <= |segs|
    ensures forall k :: 0 <= k < |args| ==> args[k].value == ""
  {
    if |segs| == 0 then []
    else if segs[0].KeyOnly? then [Argument(segs[0].key, "")] + KeysOnly(segs[1..])
    else KeysOnly(segs[1..])
  }

  /** `WebClient::_parseArguments` as written: a key=value segment is
      decoded into a fresh pair that is never appended, so only bare keys
      reach the request. */
  function RestArgumentsAsWritten(data: string): (args: seq<Argument>)
    ensures |args| <= MaxPostArgs
    ensures forall k :: 0 <= k < |args| ==> args[k].value == ""
  {
    KeysOnly(DecodedAll(Scan(data, ArgSlots(data))))
  }

  /** Raw (still encoded) key=value texts joined with '&'. */
  function Joined(raw: seq<Argument>): string
  {
    Join(SegmentTexts(raw), '&')
  }

  function SegmentTexts(raw: seq<Argument>): (texts: seq<string>)
    ensures |texts| == |raw|
    ensures forall k :: 0 <= k < |raw| ==> texts[k] == raw[k].key + "=" + raw[k].value
  {
    if |raw| == 0 then [] else [raw[0].key + "=" + raw[0].value] + SegmentTexts(raw[1..])
  }

  /** No raw key holds '=' or '&', and no raw value holds '&'. */
  predicate Delimited(raw: seq<Argument>)
  {
    forall k :: 0 <= k < |raw| ==> '=' !in raw[k].key && '&' !in raw[k].key && '&' !in raw[k].value
  }

  lemma {:induction false} JoinOccurrences(parts: seq<string>)
    requires |parts| >= 1
    requires forall k :: 0 <= k < |parts| ==> '&' !in parts[k]
    ensures Occurrences(Join(parts, '&'), '&') == |parts| - 1
    decreases |parts|
  {
    if |parts| > 1 {
      JoinOccurrences(parts[1..]);
      OccurrencesAppend(parts[0] + ['&'], Join(parts[1..], '&'), '&');
      OccurrencesAppend(parts[0], ['&'], '&');
    }
  }

  /** Where the scan finds the delimiters of a segment `k=v` that is
      followed by '&' or by the end. */
  lemma SegmentDelimiters(rest: string, k: string, v: string, tail: string, last: bool)
    requires '=' !in k && '&' !in k && '&' !in v
    requires rest == if last then k + "=" + v else k + "=" + v + "&" + tail
    ensures IndexOfChar(rest, '=', 0) == |k|
    ensures IndexOfChar(rest, '&', 0) == if last then -1 else |k| + 1 + |v|
  {
    assert rest[|k|] == '=';
    forall j | 0 <= j < |k| ensures rest[j] != '=' && rest[j] != '&' {
      assert rest[j] == k[j];
    }
    forall j | |k| < j < |k| + 1 + |v| ensures rest[j] != '&' {
      assert rest[j] == v[j - |k| - 1];
    }
    if !last {
      assert rest[|k| + 1 + |v|] == '&';
    }
  }

  /** The segment `k=v`, delimited as the scan finds it, is the pair of its
      two texts; what follows the '&' is the tail. */
  lemma RawSegmentOfParts(rest: string, k: string, v: string, tail: string, last: bool)
    requires |rest| < U32 - 1
    requires rest == if last then k + "=" + v else k + "=" + v + "&" + tail
    ensures RawSegment(rest, |k|, if last then -1 else |k| + 1 + |v|) == KeyValue(k, v)
    ensures !last ==> rest[|k| + 1 + |v| + 1..] == tail
  {
    var end := |k| + 1 + |v|;
    assert Substring(rest, 0, |k|) == k by {
      assert rest[..|k|] == k;
    }
    assert Substring(rest, |k| + 1, if last then U32 - 1 else end) == v by {
      assert rest[|k| + 1..end] == v;
    }
  }

  /** One pass of the scan over a segment `k=v`: it yields the pair
      and continues after the '&', if there is one. */
  lemma ScanSegment(rest: string, slots: nat, k: string, v: string, tail: string, last: bool)
    requires '=' !in k && '&' !in k && '&' !in v
    requires slots >= 1 && |rest| < U32 - 1
    requires rest == if last then k + "=" + v else k + "=" + v + "&" + tail
    ensures var segs := Scan(rest, slots);
            segs[0] == KeyValue(k, v) &&
            (last ==> |segs| == 1) &&
            (!last ==> segs[1..] == Scan(tail, slots - 1))
  {
    SegmentDelimiters(rest, k, v, tail, last);
    RawSegmentOfParts(rest, k, v, tail, last);
  }

  /** The same pass as an equation between scans. */
  lemma ScanStep(rest: string, slots: nat, k: string, v: string, tail: string, last: bool)
    requires '=' !in k && '&' !in k && '&' !in v
    requires slots >= 1 && |rest| < U32 - 1
    requires rest == if last then k + "=" + v else k + "=" + v + "&" + tail
    ensures var first := KeyValue(k, v);
            (last ==> Scan(rest, slots) == [first]) &&
            (!last ==> Scan(rest, slots) == [first] + Scan(tail, slots - 1))
  {
    ScanSegment(rest, slots, k, v, tail, last);
    ConsSplit(Scan(rest, slots));
  }

  /** A non-empty sequence is its head followed by its tail. */
  lemma ConsSplit(segs: seq<Segment>)
    requires |segs| >= 1
    ensures segs == [segs[0]] + segs[1..]
    ensures |segs| == 1 ==> segs == [segs[0]]
  {
  }

  /** The first raw text of a joined query, then '&' and the rest. */
  lemma JoinedFirst(raw: seq<Argument>)
    requires |raw| >= 1
    ensures |raw| == 1 ==> Joined(raw) == raw[0].key + "=" + raw[0].value
    ensures |raw| > 1 ==> Joined(raw) == raw[0].key + "=" + raw[0].value + "&" + Joined(raw[1..])
  {
    if |raw| > 1 {
      assert SegmentTexts(raw)[1..] == SegmentTexts(raw[1..]);
    }
  }

  /** The scan splits a joined query back into its raw texts, provided
      there are slots enough. */
  lemma {:induction false} ScanJoined(raw: seq<Argument>, slots: nat)
    requires Delimited(raw) && 1 <= |raw| <= slots
    requires |Joined(raw)| < U32 - 1
    ensures Scan(Joined(raw), slots) == AsSegments(raw)
    decreases |raw|, 1
  {
    if |raw| == 1 {
      ScanJoinedOne(raw, slots);
    } else {
      ScanJoinedMany(raw, slots);
    }
  }

  /** The inductive step: the tail scans back by induction, then the first
      segment is put in front. */
  lemma {:induction false} ScanJoinedMany(raw: seq<Argument>, slots: nat)
    requires Delimited(raw) && 2 <= |raw| <= slots
    requires |Joined(raw)| < U32 - 1
    ensures Scan(Joined(raw), slots) == AsSegments(raw)
    decreases |raw|, 0
  {
    ScanJoinedTailReady(raw, slots);
    ScanJoined(raw[1..], slots - 1);
    ScanJoinedCons(raw, slots);
  }

  lemma ScanJoinedTailReady(raw: seq<Argument>, slots: nat)
    requires Delimited(raw) && 2 <= |raw| <= slots
    requires |Joined(raw)| < U32 - 1
    ensures Delimited(raw[1..]) && 1 <= |raw[1..]| <= slots - 1 && |Joined(raw[1..])| < U32 - 1
  {
    JoinedTailShorter(raw);
    DelimitedTail(raw);
  }

  lemma ScanJoinedOne(raw: seq<Argument>, slots: nat)
    requires Delimited(raw) && |raw| == 1 <= slots
    requires |Joined(raw)| < U32 - 1
    ensures Scan(Joined(raw), slots) == AsSegments(raw)
  {
    JoinedFirst(raw);
    ScanStep(Joined(raw), slots, raw[0].key, raw[0].value, "", true);
    AsSegmentsHead(raw);
  }

  lemma ScanJoinedCons(raw: seq<Argument>, slots: nat)
    requires Delimited(raw) && 2 <= |raw| <= slots
    requires |Joined(raw)| < U32 - 1
    requires Scan(Joined(raw[1..]), slots - 1) == AsSegments(raw[1..])
    ensures Scan(Joined(raw), slots) == AsSegments(raw)
  {
    JoinedFirst(raw);
    ScanStep(Joined(raw), slots, raw[0].key, raw[0].value, Joined(raw[1..]), false);
    AsSegmentsHead(raw);
  }

  lemma JoinedTailShorter(raw: seq<Argument>)
    requires |raw| >= 2
    ensures |Joined(raw[1..])| < |Joined(raw)|
  {
    JoinedFirst(raw);
  }

  /** The first segment, then the others. */
  lemma AsSegmentsHead(raw: seq<Argument>)
    requires |raw| >= 1
    ensures AsSegments(raw) == [KeyValue(raw[0].key, raw[0].value)] + AsSegments(raw[1..])
    ensures |raw| == 1 ==> AsSegments(raw) == [KeyValue(raw[0].key, raw[0].value)]
  {
  }

  lemma DelimitedTail(raw: seq<Argument>)
    requires Delimited(raw) && |raw| >= 1
    ensures Delimited(raw[1..])
  {
    forall k | 0 <= k < |raw| - 1 ensures '=' !in raw[1..][k].key && '&' !in raw[1..][k].key && '&' !in raw[1..][k].value {
      assert raw[1..][k] == raw[k + 1];
    }
  }

  /** A client-side query: each argument's name and value percent-encoded,
      joined as name=value pairs with '&'. */
  predicate Encodable(args: seq<Argument>)
  {
    forall k :: 0 <= k < |args| ==> UrlCodec.ByteString(args[k].key) && UrlCodec.ByteString(args[k].value)
  }

  function EncodeAll(args: seq<Argument>): (raw: seq<Argument>)
    requires Encodable(args)
    ensures |raw| == |args| && Delimited(raw)
    ensures forall k :: 0 <= k < |args| ==>
              raw[k] == Argument(UrlCodec.Encode(args[k].key), UrlCodec.Encode(args[k].value))
  {
    if |args| == 0 then []
    else [Argument(UrlCodec.Encode(args[0].key), UrlCodec.Encode(args[0].value))] + EncodeAll(args[1..])
  }

  function Query(args: seq<Argument>): string
    requires Encodable(args)
  {
    Joined(EncodeAll(args))
  }

  /** Each argument as a key=value segment. */
  function AsSegments(args: seq<Argument>): (segs: seq<Segment>)
    ensures |segs| == |args|
  {
    if |args| == 0 then [] else [KeyValue(args[0].key, args[0].value)] + AsSegments(args[1..])
  }

  lemma {:induction false} AsSegmentsInverse(args: seq<Argument>)
    ensures ToArguments(AsSegments(args)) == args
    ensures KeysOnly(AsSegments(args)) == []
    decreases |args|
  {
    if |args| > 0 {
      AsSegmentsInverse(args[1..]);
      assert AsSegments(args)[1..] == AsSegments(args[1..]);
    }
  }

  /** Decoding the encoded texts gives back the arguments. */
  lemma {:induction false} DecodedEncodeAll(args: seq<Argument>)
    requires Encodable(args)
    ensures DecodedAll(AsSegments(EncodeAll(args))) == AsSegments(args)
    decreases |args|
  {
    if |args| > 0 {
      UrlCodec.DecodeEncode(args[0].key);
      UrlCodec.DecodeEncode(args[0].value);
      assert EncodeAll(args)[1..] == EncodeAll(args[1..]);
      assert AsSegments(EncodeAll(args))[1..] == AsSegments(EncodeAll(args)[1..]);
      DecodedEncodeAll(args[1..]);
    }
  }

  /** Parsing an encoded query of at most MaxPostArgs arguments gives back
      the arguments, names and values decoded. */
  lemma ParseQueryRoundTrip(args: seq<Argument>)
    requires Encodable(args) && 1 <= |args| <= MaxPostArgs
    requires |Query(args)| < U32 - 1
    ensures ParseArguments(Query(args)) == args
  {
    QueryScan(args);
    AsSegmentsInverse(args);
  }

  /** An encoded query of n arguments holds n - 1 '&' after its first
      character, which is no '&', so the server counts n slots. */
  lemma QuerySlots(args: seq<Argument>)
    requires Encodable(args) && 1 <= |args| <= MaxPostArgs
    ensures ArgSlots(Query(args)) == |args|
  {
    JoinedSlots(EncodeAll(args));
  }

  /** The slot count of any joined query is its number of segments. */
  lemma JoinedSlots(raw: seq<Argument>)
    requires Delimited(raw) && 1 <= |raw| <= MaxPostArgs
    ensures ArgSlots(Joined(raw)) == |raw|
  {
    var data := Joined(raw);
    DelimitedParts(raw);
    JoinOccurrences(SegmentTexts(raw));
    JoinedStartsClean(raw);
    assert data == [data[0]] + data[1..];
    OccurrencesAppend([data[0]], data[1..], '&');
  }

  lemma DelimitedParts(raw: seq<Argument>)
    requires Delimited(raw)
    ensures forall k :: 0 <= k < |raw| ==> '&' !in SegmentTexts(raw)[k]
  {
    forall k | 0 <= k < |raw| ensures '&' !in SegmentTexts(raw)[k] {
      assert SegmentTexts(raw)[k] == raw[k].key + "=" + raw[k].value;
    }
  }

  /** A joined query starts with the first key, or with '=' when that key
      is empty: never with '&'. */
  lemma JoinedStartsClean(raw: seq<Argument>)
    requires Delimited(raw) && |raw| >= 1
    ensures |Joined(raw)| > 0 && Joined(raw)[0] != '&'
  {
    JoinedFirst(raw);
    var data := Joined(raw);
    if |raw[0].key| > 0 {
      assert data[0] == raw[0].key[0];
    } else {
      assert data[0] == '=';
    }
  }

  /** The scan of an encoded query, with all its slots. */
  lemma QueryScan(args: seq<Argument>)
    requires Encodable(args) && 1 <= |args| <= MaxPostArgs
    requires |Query(args)| < U32 - 1
    ensures ArgSlots(Query(args)) == |args|
    ensures DecodedAll(Scan(Query(args), ArgSlots(Query(args)))) == AsSegments(args)
  {
    QuerySlots(args);
    ScanJoined(EncodeAll(args), |args|);
    DecodedEncodeAll(args);
  }

  /** The as-written REST parser loses every `key=value` argument of a
      well-formed query, where the corrected parser keeps them all. */
  lemma RestDropsValuedArguments(args: seq<Argument>)
    requires Encodable(args) && 1 <= |args| <= MaxPostArgs
    requires |Query(args)| < U32 - 1
    ensures RestArgumentsAsWritten(Query(args)) == []
    ensures ParseArguments(Query(args)) == args
  {
    QueryScan(args);
    AsSegmentsInverse(args);
  }

  /** A bare key alone (no '=' and no '&') is one argument with an empty
      value, under both parsers. */
  lemma BareKey(key: string)
    requires UrlCodec.ByteString(key) && |key| >= 1
    ensures ParseArguments(UrlCodec.Encode(key)) == [Argument(key, "")]
    ensures RestArgumentsAsWritten(UrlCodec.Encode(key)) == [Argument(key, "")]
  {
    var data := UrlCodec.Encode(key);
    assert '&' !in data[1..] by {
      forall j | 0 <= j < |data[1..]| ensures data[1..][j] != '&' {
        assert data[1..][j] == data[j + 1];
      }
    }
    assert ArgSlots(data) == 1;
    assert IndexOfChar(data, '=', 0) == -1;
    assert IndexOfChar(data, '&', 0) == -1;
    UrlCodec.DecodeEncode(key);
  }

  /** A query that opens with '&' loses its arguments: the slot count skips
      the first character, so "&a=1" gets one slot, and the first segment,
      before that '&', is an empty bare key. */
  lemma LeadingAmpersand()
    ensures ParseArguments("&a=1") == [Argument("", "")]
  {
    var data := "&a=1";
    assert data[1..] == "a=1";
    assert Occurrences("a=1", '&') == 0;
    assert ArgSlots(data) == 1;
    assert IndexOfChar(data, '&', 0) == 0;
    assert IndexOfChar(data, '=', 0) == 2;
    assert Scan(data, 1) == [KeyOnly("")];
  }
}

=== FILE: request_line.dfy ===
/** The request line of the REST web server (`WebClient::_parseRequest`
    in lib/RestWebServer/src/WebClient.cpp): the method, the URL and the
    protocol version, and the URL's split into path and query. */
module RequestLine {
  import opened Base
  import opened ArduinoString

  /** The parts of the request line "METHOD URL HTTP/VERSION". */
  datatype RequestLine = RequestLine(methodName: string, url: string, version: string, uri: string, search: string)

  /** The URL split at its first '?' into the path and the query; a URL
      without '?' is all path. */
  function SplitUrl(url: string): (r: (string, string))
  {
    var q := IndexOfChar(url, '?', 0);
    if q == -1 then (url, "") else (Substring(url, 0, q), SubstringFrom(url, q + 1))
  }

  /** The split of the request line: the method before the first space,
      the URL up to the next space, the version after the " HTTP/" that
      follows (six characters skipped unread). None when either space is
      missing. */
  function SplitRequestLine(req: string): (r: Option<RequestLine>)
  {
    var addrStart := IndexOfChar(req, ' ', 0);
    var addrEnd := IndexOfChar(req, ' ', addrStart + 1);
    if addrStart == -1 || addrEnd == -1 then None
    else
      var url := Substring(req, addrStart + 1, addrEnd);
      var (uri, search) := SplitUrl(url);
      Some(RequestLine(Substring(req, 0, addrStart), url, SubstringFrom(req, addrEnd + 6), uri, search))
  }

  /** The request line is rejected exactly when it lacks a space, or a
      second space after the first. */
  lemma SplitRequestLineRejects(req: string)
    ensures SplitRequestLine(req).None?
            <==> (' ' !in req || ' ' !in req[IndexOfChar(req, ' ', 0) + 1..])
  {
    var addrStart := IndexOfChar(req, ' ', 0);
    var addrEnd := IndexOfChar(req, ' ', addrStart + 1);
    if addrStart == -1 {
      assert forall j :: 0 <= j < |req| ==> req[j] != ' ';
    } else if addrEnd != -1 {
      assert req[addrStart + 1..][addrEnd - addrStart - 1] == req[addrEnd];
    }
  }

  /** `indexOf` finds the first `c` at or after `from`. */
  lemma FirstAt(s: string, c: char, from: nat, k: nat)
    requires from <= k < |s| && s[k] == c
    requires forall j :: from <= j < k ==> s[j] != c
    ensures IndexOfChar(s, c, from) == k
  {
  }

  lemma FirstSpace(m: string, url: string, after: string)
    requires ' ' !in m
    ensures IndexOfChar(m + [' '] + url + [' '] + after, ' ', 0) == |m|
  {
    var req := m + [' '] + url + [' '] + after;
    assert req[|m|] == ' ';
    forall j | 0 <= j < |m| ensures req[j] != ' ' {
      assert req[j] == m[j];
    }
    FirstAt(req, ' ', 0, |m|);
  }

  lemma SecondSpace(m: string, url: string, after: string)
    requires ' ' !in url
    ensures IndexOfChar(m + [' '] + url + [' '] + after, ' ', |m| + 1) == |m| + 1 + |url|
  {
    var req := m + [' '] + url + [' '] + after;
    var b := |m| + 1 + |url|;
    assert req[b] == ' ';
    forall j | |m| + 1 <= j < b ensures req[j] != ' ' {
      assert req[j] == url[j - |m| - 1];
    }
    FirstAt(req, ' ', |m| + 1, b);
  }

  lemma RequestLinePieces(m: string, url: string, after: string)
    requires |after| >= 5
    ensures var req := m + [' '] + url + [' '] + after;
            && req[..|m|] == m
            && req[|m| + 1..|m| + 1 + |url|] == url
            && req[|m| + 1 + |url| + 6..] == after[5..]
  {
  }

  /** A line "m url after", with no space in the method or the URL, splits
      into exactly those parts, the version being `after` less its first
      five characters ("HTTP/"). */
  lemma RequestLineSplits(m: string, url: string, after: string)
    requires ' ' !in m && ' ' !in url && |after| >= 5
    ensures SplitRequestLine(m + [' '] + url + [' '] + after)
            == Some(RequestLine(m, url, after[5..], SplitUrl(url).0, SplitUrl(url).1))
  {
    FirstSpace(m, url, after);
    SecondSpace(m, url, after);
    RequestLinePieces(m, url, after);
  }

  /** A URL "path?query" splits back into its path and query, and a URL
      without '?' is all path. */
  lemma UrlQuery(path: string, query: string)
    requires '?' !in path
    ensures SplitUrl(path + "?" + query) == (path, query)
    ensures SplitUrl(path) == (path, "")
  {
    var url := path + "?" + query;
    assert url[|path|] == '?';
    forall j | 0 <= j < |path| ensures url[j] != '?' {
      assert url[j] == path[j];
    }
    FirstAt(url, '?', 0, |path|);
    assert url[..|path|] == path;
    assert url[|path| + 1..] == query;
    assert IndexOfChar(path, '?', 0) == -1;
  }

  /** The request line a client writes is split back into its parts. */
  lemma RequestLineRoundTrip(methodName: string, path: string, query: Option<string>, version: string)
    requires ' ' !in methodName && ' ' !in path && '?' !in path
    requires query.Some? ==> ' ' !in query.value
    ensures var url := if query.None? then path else path + "?" + query.value;
            SplitRequestLine(methodName + " " + url + " HTTP/" + version)
            == Some(RequestLine(methodName, url, version, path, if query.None? then "" else query.value))
  {
    var url := if query.None? then path else path + "?" + query.value;
    assert ' ' !in url by {
      if query.Some? {
        forall k | 0 <= k < |url| ensures url[k] != ' ' {
          if k < |path| { assert url[k] == path[k]; }
          else if k > |path| { assert url[k] == query.value[k - |path| - 1]; }
        }
      }
    }
    var after := "HTTP/" + version;
    assert after[5..] == version;
    assert methodName + " " + url + " HTTP/" + version == methodName + [' '] + url + [' '] + after;
    RequestLineSplits(methodName, url, after);
    UrlQuery(path, if query.None? then "" else query.value);
  }
}

=== FILE: responder.dfy ===
/** The query matcher of the mDNS responder (Responder). One matcher per
    name the responder owns — the host name, the reverse address name, the
    service-discovery name, then one per service type — follows the labels
    of each question as they are read, and at the end of the question
    records whether the question asked for a record type it serves. A
    matcher's text pointer is modelled as an index into its name; its match
    flag, an int the source only ever sets to 0 or 1, as a bool. */
module Responder {
  import opened Base
  import ArduinoString
  import DnsSection

  /** The name every service-discovery query asks for. */
  const ServiceSdName: string := "_services._dns-sd._udp.local"

  /** matcher_t: the name matched against, the index of the next character
      to compare and the number of characters left, the match flag, the
      packet offset of the question, and the outcome flags. */
  datatype Matcher = Matcher(text: string, pos: int, length: int, matched: bool, position: nat,
                             requested: bool, unsupported: bool)

  /** A matcher at the start of its name. */
  function Fresh(text: string): (m: Matcher)
    ensures m.pos == 0 && m.length == |text| && m.matched && !m.requested && !m.unsupported
  {
    Matcher(text, 0, |text|, true, 0, false, false)
  }

  /** The name's characters from `pos` equal the label, ignoring case. */
  predicate LabelEquals(text: string, pos: int, part: string)
  {
    0 <= pos && pos + |part| <= |text| && ArduinoString.EqualsIgnoreCase(text[pos..pos + |part|], part)
  }

  /** matchStringPart: the label matches when at least its length is left
      and it equals the next characters ignoring case; either way the
      pointer moves past the label's length and then past one '.' if the
      pointer lands on one. Returns the match and the moved pointer and
      count. */
  function MatchStringPart(text: string, pos: int, length: int, part: string): (r: (bool, int, int))
    requires 0 <= pos && length == |text| - pos
    ensures r.0 <==> length >= |part| && LabelEquals(text, pos, part)
    ensures r.1 == pos + |part| + (if 0 <= pos + |part| < |text| && text[pos + |part|] == '.' then 1 else 0)
    ensures r.2 == |text| - r.1
  {
    var matches := length >= |part| && ArduinoString.EqualsIgnoreCase(text[pos..pos + |part|], part);
    var p := pos + |part|;
    var n := length - |part|;
    if p < |text| && text[p] == '.' then (matches, p + 1, n - 1) else (matches, p, n)
  }

  /** The responder's two matcher rows, the offset of the current question
      and its type/class bytes. `top` keeps the outcome across questions;
      `each` is worked on within one question. */
  datatype State = State(top: seq<Matcher>, each: seq<Matcher>, starting: nat, control: seq<nat>)

  /** Every matcher's pointer and count agree with its name. */
  predicate Consistent(m: Matcher)
  {
    0 <= m.pos && m.length == |m.text| - m.pos
  }

  predicate Valid(s: State)
  {
    |s.top| == |s.each| && |s.control| == 4 &&
    (forall i :: 0 <= i < |s.each| ==> Consistent(s.each[i])) &&
    (forall i :: 0 <= i < |s.top| ==> Consistent(s.top[i]))
  }

  /** begin: host name, reverse address name, service-discovery name, then
      each service type, all fresh, in both rows. */
  function Begin(fqhn: string, arpa: string, serviceTypes: seq<string>): (s: State)
    ensures Valid(s) && s.each == s.top && |s.top| == 3 + |serviceTypes|
    ensures s.top[0] == Fresh(fqhn) && s.top[1] == Fresh(arpa) && s.top[2] == Fresh(ServiceSdName)
    ensures forall i :: 0 <= i < |serviceTypes| ==> s.top[3 + i] == Fresh(serviceTypes[i])
  {
    var top := [Fresh(fqhn), Fresh(arpa), Fresh(ServiceSdName)] +
               seq(|serviceTypes|, i requires 0 <= i < |serviceTypes| => Fresh(serviceTypes[i]));
    State(top, top, 0, [0, 0, 0, 0])
  }

  /** process_begin: a question records where it starts. */
  function ProcessBegin(s: State, section: DnsSection.Section, starting: nat): (r: State)
    ensures section != DnsSection.Query ==> r == s
    ensures section == DnsSection.Query ==> r == s.(starting := starting)
  {
    if section != DnsSection.Query then s else s.(starting := starting)
  }

  /** process_update: a question records its type and class bytes. */
  function ProcessUpdate(s: State, section: DnsSection.Section, control: seq<nat>): (r: State)
    requires |control| == 4
    ensures section != DnsSection.Query ==> r == s
    ensures section == DnsSection.Query ==> r == s.(control := control)
  {
    if section != DnsSection.Query then s else s.(control := control)
  }

  /** One matcher meeting a label: only a matcher still matching and not
      yet requested compares and moves on. */
  function StepMatcher(m: Matcher, part: string): (r: Matcher)
    requires Consistent(m)
    ensures Consistent(r)
    ensures r.text == m.text && r.position == m.position && r.requested == m.requested && r.unsupported == m.unsupported
    ensures m.requested || !m.matched ==> r == m
    ensures !m.requested && m.matched ==>
              (r.matched <==> m.length >= |part| && LabelEquals(m.text, m.pos, part)) && r.pos >= m.pos + |part|
  {
    if !m.requested && m.matched then
      var x := MatchStringPart(m.text, m.pos, m.length, part);
      m.(matched := x.0, pos := x.1, length := x.2)
    else m
  }

  /** process_nocompressed: a label of a question moves every live matcher;
      labels of other sections change nothing. */
  function ProcessNoCompressed(s: State, part: string, section: DnsSection.Section): (r: State)
    requires Valid(s)
    ensures Valid(r) && r.top == s.top && r.starting == s.starting && r.control == s.control
    ensures section != DnsSection.Query ==> r == s
    ensures section == DnsSection.Query ==> forall i :: 0 <= i < |s.each| ==> r.each[i] == StepMatcher(s.each[i], part)
  {
    if section != DnsSection.Query then s
    else s.(each := seq(|s.each|, i requires 0 <= i < |s.each| => StepMatcher(s.each[i], part)))
  }

  /** process_iscompressed: a compression pointer kills the matchers that
      recorded a different question offset. */
  function ProcessIsCompressed(s: State, offs: nat, section: DnsSection.Section): (r: State)
    requires Valid(s)
    ensures Valid(r) && r.top == s.top && r.starting == s.starting && r.control == s.control
    ensures section != DnsSection.Query ==> r == s
    ensures section == DnsSection.Query ==> forall i :: 0 <= i < |s.each| ==>
              r.each[i] == s.each[i].(matched := s.each[i].matched && (s.each[i].position == 0 || s.each[i].position == offs))
  {
    if section != DnsSection.Query then s
    else s.(each := seq(|s.each|, i requires 0 <= i < |s.each| =>
                          var m := s.each[i];
                          if m.position != 0 && m.position != offs then m.(matched := false) else m))
  }

  /** Which record types matcher `r` answers: the host name answers A, the
      reverse name PTR, the others PTR, TXT and SRV. */
  predicate Serves(r: nat, recordType: nat)
  {
    if r == 0 then recordType == DnsSection.TypeA
    else if r == 1 then recordType == DnsSection.TypePtr
    else recordType == DnsSection.TypePtr || recordType == DnsSection.TypeTxt || recordType == DnsSection.TypeSrv
  }

  const RecordHi: nat := 0x00
  const ClassIn: nat := 0x01
  const CacheFlush: nat := 0x80
  const CacheNoFlush: nat := 0x00

  /** The type's high byte is 0, the class byte carries IN, with or
      without the cache-flush bit. */
  predicate ControlOk(control: seq<nat>)
    requires |control| == 4
  {
    control[0] == RecordHi && (control[2] == CacheNoFlush || control[2] == CacheFlush) && control[3] == ClassIn
  }

  /** A matcher that consumed its whole name during the question is
      complete. */
  predicate Complete(m: Matcher)
  {
    !m.requested && m.matched && m.length == 0
  }

  /** The end of a question for matcher `r`: a complete matcher takes the
      question's offset if it has none, and a well-formed question then
      marks it requested when its type is served, unsupported otherwise. */
  function EndMatcher(m: Matcher, r: nat, starting: nat, control: seq<nat>): (x: Matcher)
    requires |control| == 4
    ensures x.text == m.text && x.pos == m.pos && x.length == m.length && x.matched == m.matched
    ensures x.requested <==> m.requested || (Complete(m) && ControlOk(control) && Serves(r, control[1]))
    ensures x.unsupported <==> m.unsupported || (Complete(m) && ControlOk(control) && !Serves(r, control[1]))
  {
    if Complete(m) then
      var p := if m.position == 0 then m.(position := starting) else m;
      if ControlOk(control) then
        if Serves(r, control[1]) then p.(requested := true) else p.(unsupported := true)
      else p
    else m
  }

  /** process_end: each matcher's outcome flags are copied into the top
      row, and the working row restarts as a copy of the top row. The
      question offset stored in the working row is therefore dropped. */
  function ProcessEnd(s: State, section: DnsSection.Section): (r: State)
    requires Valid(s)
    ensures Valid(r) && r.starting == s.starting && r.control == s.control
    ensures section != DnsSection.Query ==> r == s
    ensures section == DnsSection.Query ==>
              r.each == r.top && |r.top| == |s.top| &&
              forall i :: 0 <= i < |s.top| ==>
                var e := EndMatcher(s.each[i], i, s.starting, s.control);
                r.top[i] == s.top[i].(requested := e.requested, unsupported := e.unsupported)
  {
    if section != DnsSection.Query then s
    else
      var top := seq(|s.top|, i requires 0 <= i < |s.top| =>
                       var e := EndMatcher(s.each[i], i, s.starting, s.control);
                       s.top[i].(requested := e.requested, unsupported := e.unsupported));
      s.(top := top, each := top)
  }

  /** The replies end() sends: a negative answer (NSEC), the address
      record, the complete record set, or one service's records or negative
      answer. */
  datatype Reply = NextSecure | AddressRecord | CompleteRecord | ServiceRecord(index: nat) | ServiceNextSecure(index: nat)

  /** end: a negative answer if any of the three fixed matchers saw an
      unsupported type; the address record for a host-name or reverse-name
      request (once each); the complete record set for a service-discovery
      request, and only without one the per-service replies. */
  function End(top: seq<Matcher>): (replies: seq<Reply>)
    requires |top| >= 3
    ensures NextSecure in replies <==> top[0].unsupported || top[1].unsupported || top[2].unsupported
    ensures CompleteRecord in replies <==> top[2].requested
    ensures multiset(replies)[AddressRecord] == (if top[0].requested then 1 else 0) + (if top[1].requested then 1 else 0)
    ensures forall i :: 0 <= i < |top| - 3 ==>
              (ServiceRecord(i) in replies <==> !top[2].requested && top[3 + i].requested) &&
              (ServiceNextSecure(i) in replies <==> !top[2].requested && top[3 + i].unsupported)
  {
    var fixed := FixedReplies(top);
    var rest := LaterReplies(top);
    JoinReplies(top, fixed, rest);
    fixed + rest
  }

  /** What the fixed replies and the later ones each say carries over to
      the two joined. */
  lemma JoinReplies(top: seq<Matcher>, fixed: seq<Reply>, rest: seq<Reply>)
    requires |top| >= 3
    requires CompleteRecord !in fixed
    requires forall i :: ServiceRecord(i) !in fixed && ServiceNextSecure(i) !in fixed
    requires NextSecure in fixed <==> top[0].unsupported || top[1].unsupported || top[2].unsupported
    requires multiset(fixed)[AddressRecord] == (if top[0].requested then 1 else 0) + (if top[1].requested then 1 else 0)
    requires NextSecure !in rest && AddressRecord !in rest
    requires CompleteRecord in rest <==> top[2].requested
    requires forall i :: 0 <= i < |top| - 3 ==>
              (ServiceRecord(i) in rest <==> !top[2].requested && top[3 + i].requested) &&
              (ServiceNextSecure(i) in rest <==> !top[2].requested && top[3 + i].unsupported)
    ensures var replies := fixed + rest;
            && (NextSecure in replies <==> top[0].unsupported || top[1].unsupported || top[2].unsupported)
            && (CompleteRecord in replies <==> top[2].requested)
            && multiset(replies)[AddressRecord] == (if top[0].requested then 1 else 0) + (if top[1].requested then 1 else 0)
            && forall i :: 0 <= i < |top| - 3 ==>
                 (ServiceRecord(i) in replies <==> !top[2].requested && top[3 + i].requested) &&
                 (ServiceNextSecure(i) in replies <==> !top[2].requested && top[3 + i].unsupported)
  {
    assert multiset(fixed + rest) == multiset(fixed) + multiset(rest);
  }

  /** The replies about the three fixed matchers: at most one negative
      answer, then the address record once per requested name. */
  function FixedReplies(top: seq<Matcher>): (replies: seq<Reply>)
    requires |top| >= 3
    ensures CompleteRecord !in replies
    ensures forall i :: ServiceRecord(i) !in replies && ServiceNextSecure(i) !in replies
    ensures NextSecure in replies <==> top[0].unsupported || top[1].unsupported || top[2].unsupported
    ensures multiset(replies)[AddressRecord] == (if top[0].requested then 1 else 0) + (if top[1].requested then 1 else 0)
  {
    var negated: seq<Reply> := if top[0].unsupported || top[1].unsupported || top[2].unsupported then [NextSecure] else [];
    var name: seq<Reply> := if top[0].requested then [AddressRecord] else [];
    var addr: seq<Reply> := if top[1].requested then [AddressRecord] else [];
    negated + name + addr
  }

  /** The replies after the fixed ones: the complete record set for a
      service-discovery request, else the per-service replies. */
  function LaterReplies(top: seq<Matcher>): (rest: seq<Reply>)
    requires |top| >= 3
    ensures NextSecure !in rest && AddressRecord !in rest
    ensures CompleteRecord in rest <==> top[2].requested
    ensures forall i :: 0 <= i < |top| - 3 ==>
              (ServiceRecord(i) in rest <==> !top[2].requested && top[3 + i].requested) &&
              (ServiceNextSecure(i) in rest <==> !top[2].requested && top[3 + i].unsupported)
  {
    if top[2].requested then [CompleteRecord]
    else
      ServiceReplies(top[3..], 0)
  }

  /** The per-service replies, in service order. */
  function ServiceReplies(ms: seq<Matcher>, base: nat): (replies: seq<Reply>)
    ensures NextSecure !in replies && AddressRecord !in replies && CompleteRecord !in replies
    ensures forall i :: base <= i < base + |ms| ==>
              (ServiceRecord(i) in replies <==> ms[i - base].requested) &&
              (ServiceNextSecure(i) in replies <==> ms[i - base].unsupported)
    ensures forall i: nat :: ServiceRecord(i) in replies || ServiceNextSecure(i) in replies ==> base <= i < base + |ms|
    decreases |ms|
  {
    if |ms| == 0 then []
    else
      (if ms[0].requested then [ServiceRecord(base)] else []) +
      (if ms[0].unsupported then [ServiceNextSecure(base)] else []) +
      ServiceReplies(ms[1..], base + 1)
  }

  /** Feeds the labels of one question's name to the responder. */
  function FeedLabels(s: State, labels: seq<string>): (r: State)
    requires Valid(s)
    ensures Valid(r) && r.top == s.top && r.starting == s.starting && r.control == s.control
    decreases |labels|
  {
    if |labels| == 0 then s else FeedLabels(ProcessNoCompressed(s, labels[0], DnsSection.Query), labels[1..])
  }

  /** A live matcher fed the labels its remaining name is made of consumes
      the whole name and still matches. */
  lemma {:induction false} MatcherConsumesOwnName(m: Matcher, labels: seq<string>)
    requires Consistent(m) && m.matched && !m.requested && |labels| >= 1
    requires m.pos <= |m.text| && m.text[m.pos..] == ArduinoString.Join(labels, '.')
    ensures var r := FeedMatcher(m, labels); r.matched && r.length == 0 && !r.requested
    decreases |labels|
  {
    var l := labels[0];
    var rest := m.text[m.pos..];
    ArduinoString.EqualsIgnoreCaseEquivalence(l, l, l);
    if |labels| == 1 {
      assert rest == l;
      assert m.text[m.pos..m.pos + |l|] == l;
    } else {
      assert rest == l + ['.'] + ArduinoString.Join(labels[1..], '.');
      assert m.text[m.pos..m.pos + |l|] == rest[..|l|] == l;
      assert m.text[m.pos + |l|] == rest[|l|] == '.';
      var n := StepMatcher(m, l);
      assert n.pos == m.pos + |l| + 1;
      assert n.text[n.pos..] == rest[|l| + 1..];
      MatcherConsumesOwnName(n, labels[1..]);
    }
  }

  /** One matcher fed a sequence of labels. */
  function FeedMatcher(m: Matcher, labels: seq<string>): (r: Matcher)
    requires Consistent(m)
    ensures Consistent(r) && r.text == m.text && r.requested == m.requested && r.unsupported == m.unsupported && r.position == m.position
    decreases |labels|
  {
    if |labels| == 0 then m else FeedMatcher(StepMatcher(m, labels[0]), labels[1..])
  }

  /** Feeding the responder moves each matcher as if fed alone. */
  lemma {:induction false} FeedLabelsPointwise(s: State, labels: seq<string>, i: nat)
    requires Valid(s) && i < |s.each|
    ensures FeedLabels(s, labels).each[i] == FeedMatcher(s.each[i], labels)
    decreases |labels|
  {
    if |labels| > 0 {
      FeedLabelsPointwise(ProcessNoCompressed(s, labels[0], DnsSection.Query), labels[1..], i);
    }
  }

  /** A question for the host name with type A and class IN, read part by
      part, makes the responder send the address record; asked with any
      other type, the responder sends a negative answer instead. */
  lemma HostNameQuestion(fqhn: string, arpa: string, serviceTypes: seq<string>, starting: nat,
                         recordType: nat, classByte: nat)
    requires classByte == CacheNoFlush || classByte == CacheFlush
    ensures var s0 := ProcessBegin(Begin(fqhn, arpa, serviceTypes), DnsSection.Query, starting);
            var s1 := FeedLabels(s0, ArduinoString.Split(fqhn, '.'));
            var s2 := ProcessUpdate(s1, DnsSection.Query, [RecordHi, recordType, classByte, ClassIn]);
            var s3 := ProcessEnd(s2, DnsSection.Query);
            (recordType == DnsSection.TypeA ==> AddressRecord in End(s3.top)) &&
            (recordType != DnsSection.TypeA ==> NextSecure in End(s3.top))
  {
    var s0 := ProcessBegin(Begin(fqhn, arpa, serviceTypes), DnsSection.Query, starting);
    var labels := ArduinoString.Split(fqhn, '.');
    var s1 := FeedLabels(s0, labels);
    assert s0.each[0] == Fresh(fqhn);
    FeedLabelsPointwise(s0, labels, 0);
    MatcherConsumesOwnName(s0.each[0], labels);
    var s2 := ProcessUpdate(s1, DnsSection.Query, [RecordHi, recordType, classByte, ClassIn]);
    assert Complete(s2.each[0]);
    assert ControlOk(s2.control);
    var s3 := ProcessEnd(s2, DnsSection.Query);
    var e := EndMatcher(s2.each[0], 0, s2.starting, s2.control);
    assert s3.top[0].requested == e.requested && s3.top[0].unsupported == e.unsupported;
  }

  /** The offset a question records is dropped when the working row is
      reset from the top row, whose offsets begin() set to 0 and nothing
      changes; so compression pointers never disqualify a matcher. */
  lemma CompressionPointersIgnored(s: State, offs: nat)
    requires Valid(s)
    requires forall i :: 0 <= i < |s.top| ==> s.top[i].position == 0
    ensures var e := ProcessEnd(s, DnsSection.Query);
            (forall i :: 0 <= i < |e.top| ==> e.top[i].position == 0) &&
            ProcessIsCompressed(e, offs, DnsSection.Query) == e
  {
    var e := ProcessEnd(s, DnsSection.Query);
    assert ProcessIsCompressed(e, offs, DnsSection.Query).each == e.each;
  }
}

=== FILE: string_utils.dfy ===
/** Path and hex helpers of lib/StringUtils/src/stringutils.cpp: the file
    name and directory of a '/'-separated path, and the upper-case hex
    rendering of a byte array. */
module StringUtils {
  import opened Base
  import opened ArduinoString

  /** `FS_PATH_SEPARATOR`. */
  const Separator: char := '/'

  /** `fileName`: "" for a path ending with the separator, the text after
      the last separator, or the whole path when there is none. */
  function FileName(path: string): (r: string)
  {
    if EndsWith(path, [Separator]) then ""
    else
      var x := LastIndexOfChar(path, Separator);
      if x >= 0 then SubstringFrom(path, x + 1) else path
  }

  /** The file name is the separator-free tail of the path. */
  lemma FileNameShape(path: string)
    ensures Separator !in FileName(path)
    ensures EndsWith(path, FileName(path))
  {
    var r := FileName(path);
    if !EndsWith(path, [Separator]) {
      var x := LastIndexOfChar(path, Separator);
      if x >= 0 {
        assert r == path[x + 1..];
        forall k | 0 <= k < |r| ensures r[k] != Separator {
          assert r[k] == path[x + 1 + k];
        }
        assert path[|path| - |r|..] == r;
      } else {
        assert path[|path| - |r|..] == r;
      }
    }
  }

  /** `fileDir`: the text before the last separator, or "" when there is
      none. */
  function FileDir(path: string): (r: string)
    ensures StartsWith(path, r)
    ensures |r| < |path| || r == []
  {
    var x := LastIndexOfChar(path, Separator);
    if x < 0 then "" else Substring(path, 0, x)
  }

  /** A path holding a separator, and not ending with one, is its
      directory, the separator and its file name. */
  lemma DirAndName(path: string)
    requires Separator in path && !EndsWith(path, [Separator])
    ensures FileDir(path) + [Separator] + FileName(path) == path
  {
    var x := LastIndexOfChar(path, Separator);
    assert x >= 0 by {
      var k :| 0 <= k < |path| && path[k] == Separator;
      assert k <= x;
    }
    assert path[..x] + [path[x]] + path[x + 1..] == path;
  }

  /** A path ending with the separator names a directory: no file name,
      and the directory is the path without its final separator. */
  lemma TrailingSeparator(dir: string)
    ensures FileName(dir + [Separator]) == ""
    ensures FileDir(dir + [Separator]) == dir
  {
    var p := dir + [Separator];
    assert p[|p| - 1..] == [Separator];
    assert p[..|dir|] == dir;
  }

  /** A path without separator is all file name and no directory. */
  lemma NoSeparator(path: string)
    requires Separator !in path
    ensures FileName(path) == path && FileDir(path) == ""
  {
    if |path| > 0 {
      assert path[|path| - 1..][0] == path[|path| - 1];
    }
  }

  /** The upper-case hex digit `%X` prints for `v` < 16. */
  function UpperHexDigit(v: nat): (c: char)
    requires v < 16
  {
    if v < 10 then ('0' as int + v) as char else ('A' as int + v - 10) as char
  }

  /** The value of an upper-case hex digit. */
  function UpperHexValue(c: char): (v: nat)
  {
    if '0' <= c <= '9' then c as int - '0' as int
    else if 'A' <= c <= 'F' then c as int - 'A' as int + 10
    else 0
  }

  predicate IsUpperHex(c: char)
  {
    '0' <= c <= '9' || 'A' <= c <= 'F'
  }

  /** `snprintf(buf, 3, "%02X", b)`: the two digits of a byte. */
  function HexPair(b: byte): (s: string)
    ensures |s| == 2 && IsUpperHex(s[0]) && IsUpperHex(s[1])
    ensures UpperHexValue(s[0]) * 16 + UpperHexValue(s[1]) == b as int
  {
    [UpperHexDigit(b as int / 16), UpperHexDigit(b as int % 16)]
  }

  /** `asHexString`: two upper-case hex digits per byte, in order. */
  function AsHexString(data: seq<byte>): (s: string)
    ensures |s| == 2 * |data|
  {
    if |data| == 0 then "" else HexPair(data[0]) + AsHexString(data[1..])
  }

  /** Reads back pairs of hex digits as bytes. */
  function ReadHexPairs(s: string): (data: seq<byte>)
    requires |s| % 2 == 0
    decreases |s|
  {
    if |s| == 0 then []
    else
      var v := UpperHexValue(s[0]) * 16 + UpperHexValue(s[1]);
      [if v < 256 then v as byte else 0] + ReadHexPairs(s[2..])
  }

  /** Every character is an upper-case hex digit, and reading the digits
      back gives the bytes. */
  lemma {:induction false} AsHexStringRoundTrip(data: seq<byte>)
    ensures forall i :: 0 <= i < |AsHexString(data)| ==> IsUpperHex(AsHexString(data)[i])
    ensures ReadHexPairs(AsHexString(data)) == data
    decreases |data|
  {
    if |data| > 0 {
      AsHexStringRoundTrip(data[1..]);
      var p := HexPair(data[0]);
      var s := AsHexString(data);
      assert s == p + AsHexString(data[1..]);
      assert s[2..] == AsHexString(data[1..]);
      forall i | 0 <= i < |s| ensures IsUpperHex(s[i]) {
        if i >= 2 { assert s[i] == AsHexString(data[1..])[i - 2]; }
      }
    }
  }
}

=== FILE: time_format.dfy ===
/** Month and weekday names of the time library (TimeFormat). Index 0 of
    each table is the error entry; months are 1..12 and days 1..7 with
    Sunday 1. The functions write into a caller's buffer, modelled as the
    buffer's new contents. */
module TimeFormat {

  const MonthNames: seq<string> := ["Error", "January", "February", "March", "April", "May", "June",
                                    "July", "August", "September", "October", "November", "December"]

  /** The packed three-letter month table. */
  const MonthShortNames: string := "ErrJanFebMarAprMayJunJulAugSepOctNovDec"

  const DayNames: seq<string> := ["Error", "Sunday", "Monday", "Tuesday", "Wednesday", "Thursday",
                                  "Friday", "Saturday"]

  const DayShortNames: string := "ErrSunMonTueWedThuFriSat"

  /** Length of the longest full name. */
  const MaxNameLen: nat := 9

  const Nul: char := 0 as char

  /** strcpy of a name into the buffer: the name, its terminating NUL, and
      the rest of the buffer untouched. */
  function CopyName(name: string, buffer: string): (r: (string, nat))
    requires |name| < |buffer|
    ensures |r.0| == |buffer| && r.1 == |name|
    ensures r.0[..|name|] == name && r.0[|name|] == Nul
    ensures r.0[|name| + 1..] == buffer[|name| + 1..]
  {
    (name + [Nul] + buffer[|name| + 1..], |name|)
  }

  /** Three characters from a packed table into the buffer, no terminator. */
  function CopyShort(table: string, index: nat, buffer: string): (r: (string, nat))
    requires index + 3 <= |table| && 3 <= |buffer|
    ensures |r.0| == |buffer| && r.1 == 3
    ensures r.0[..3] == table[index..index + 3]
    ensures r.0[3..] == buffer[3..]
  {
    (table[index..index + 3] + buffer[3..], 3)
  }

  /** monthStr: the full month name, returning the number of characters. */
  function MonthStr(month: nat, buffer: string): (r: (string, nat))
    requires month <= 12 && |buffer| > MaxNameLen
    ensures |r.0| == |buffer| && 3 <= r.1 <= MaxNameLen
    ensures r.0[..r.1] == MonthNames[month] && r.0[r.1] == Nul
    ensures month == 0 ==> r.0[..r.1] == "Error"
  {
    CopyName(MonthNames[month], buffer)
  }

  /** monthShortStr: three characters at offset month*3 of the packed
      table. */
  function MonthShortStr(month: nat, buffer: string): (r: (string, nat))
    requires month <= 12 && |buffer| >= 3
    ensures |r.0| == |buffer| && r.1 == 3 && r.0[3..] == buffer[3..]
    ensures r.0[..3] == MonthShortNames[month * 3..month * 3 + 3]
  {
    CopyShort(MonthShortNames, month * 3, buffer)
  }

  /** dayStr: the full weekday name. */
  function DayStr(day: nat, buffer: string): (r: (string, nat))
    requires day <= 7 && |buffer| > MaxNameLen
    ensures |r.0| == |buffer| && 5 <= r.1 <= MaxNameLen
    ensures r.0[..r.1] == DayNames[day] && r.0[r.1] == Nul
    ensures day == 0 ==> r.0[..r.1] == "Error"
  {
    CopyName(DayNames[day], buffer)
  }

  /** dayShortStr: three characters at offset day*3 of the packed table. */
  function DayShortStr(day: nat, buffer: string): (r: (string, nat))
    requires day <= 7 && |buffer| >= 3
    ensures |r.0| == |buffer| && r.1 == 3 && r.0[3..] == buffer[3..]
    ensures r.0[..3] == DayShortNames[day * 3..day * 3 + 3]
  {
    CopyShort(DayShortNames, day * 3, buffer)
  }

  /** Three known characters of `s` at `i` form the slice `s[i..i + 3]`. */
  lemma ThreeChars(s: string, i: nat, a: char, b: char, c: char)
    requires i + 3 <= |s| && s[i] == a && s[i + 1] == b && s[i + 2] == c
    ensures s[i..i + 3] == [a, b, c]
  {
  }

  /** The packed short month table agrees with the full names: at every
      index 0..12, `monthShortStr` yields the first three letters of what
      `monthStr` yields, "Err" for the error slot included. */
  lemma MonthShortNamesArePrefixes(month: nat)
    requires month <= 12
    ensures MonthShortNames[month * 3..month * 3 + 3] == MonthNames[month][..3]
  {
    // Each group of months is its own proof only to keep each one small;
    // together they cover every index.
    if month <= 1 {
      ShortMonthsErrToJan(month);
    } else if month <= 3 {
      ShortMonthsFebToMar(month);
    } else if month <= 7 {
      ShortMonthsAprToJul(month);
    } else {
      ShortMonthsAugToDec(month);
    }
  }

  lemma ShortMonthsErrToJan(month: nat)
    requires month <= 1
    ensures MonthShortNames[month * 3..month * 3 + 3] == MonthNames[month][..3]
  {
    if month == 0 {
      ThreeChars(MonthShortNames, 0, 'E', 'r', 'r');
    } else {
      ThreeChars(MonthShortNames, 3, 'J', 'a', 'n');
    }
  }

  lemma ShortMonthsFebToMar(month: nat)
    requires 2 <= month <= 3
    ensures MonthShortNames[month * 3..month * 3 + 3] == MonthNames[month][..3]
  {
    if month == 2 {
      ThreeChars(MonthShortNames, 6, 'F', 'e', 'b');
    } else {
      ThreeChars(MonthShortNames, 9, 'M', 'a', 'r');
    }
  }

  lemma ShortMonthsAprToJul(month: nat)
    requires 4 <= month <= 7
    ensures MonthShortNames[month * 3..month * 3 + 3] == MonthNames[month][..3]
  {
    if month == 4 {
      ThreeChars(MonthShortNames, 12, 'A', 'p', 'r');
    } else if month == 5 {
      ThreeChars(MonthShortNames, 15, 'M', 'a', 'y');
    } else if month == 6 {
      ThreeChars(MonthShortNames, 18, 'J', 'u', 'n');
    } else {
      ThreeChars(MonthShortNames, 21, 'J', 'u', 'l');
    }
  }

  lemma ShortMonthsAugToDec(month: nat)
    requires 8 <= month <= 12
    ensures MonthShortNames[month * 3..month * 3 + 3] == MonthNames[month][..3]
  {
    if month == 8 {
      ThreeChars(MonthShortNames, 24, 'A', 'u', 'g');
    } else if month == 9 {
      ThreeChars(MonthShortNames, 27, 'S', 'e', 'p');
    } else if month == 10 {
      ThreeChars(MonthShortNames, 30, 'O', 'c', 't');
    } else if month == 11 {
      ThreeChars(MonthShortNames, 33, 'N', 'o', 'v');
    } else {
      ThreeChars(MonthShortNames, 36, 'D', 'e', 'c');
    }
  }

  /** The packed short day table agrees with the full names at every index
      0..7. */
  lemma DayShortNamesArePrefixes(day: nat)
    requires day <= 7
    ensures DayShortNames[day * 3..day * 3 + 3] == DayNames[day][..3]
  {
  }
}

=== FILE: time_service.dfy ===
/** The clock-sync state of the time library (TimeService): the 12-hour
    view of a time, the calendar assembly with a zone offset, and the sync
    bookkeeping that turns the board's millisecond counter into UTC. The
    millisecond counter and the NTP exchange are parameters. */
module TimeService {
  import opened Base
  import opened CoreTime

  /** hourFormat12: the hour of the day on a 12-hour dial, 12 for midnight
      and noon. */
  function HourFormat12(t: nat): (r: int)
    ensures 1 <= r <= 12
    ensures r % 12 == BreakTimeCore(t).hour % 12
  {
    var h := BreakTimeCore(t).hour;
    if h == 0 then 12 else if h > 12 then h - 12 else h
  }

  /** isPM: the hour (C division, so any time_t) is 12 or later. */
  function IsPm(t: int): (b: bool)
    ensures t >= 0 ==> (b <==> BreakTimeCore(t).hour >= 12)
  {
    HourCore(t) >= 12
  }

  /** isAM: the negation of isPM. */
  function IsAm(t: int): (b: bool)
    ensures t >= 0 ==> (b <==> BreakTimeCore(t).hour < 12)
  {
    !IsPm(t)
  }

  /** The hour on a 12-hour dial and the AM/PM flag recover the 24-hour
      hour. */
  lemma HourFormat12Recovers(t: nat)
    ensures BreakTimeCore(t).hour == (HourFormat12(t) % 12) + (if IsPm(t) then 12 else 0)
  {
    var h := BreakTimeCore(t).hour;
    assert IsPm(t) <==> h >= 12;
    Dial12(h);
  }

  /** The 12-hour dial on a plain hour. */
  lemma Dial12(h: int)
    requires 0 <= h < 24
    ensures (if h == 0 then 12 else if h > 12 then h - 12 else h) % 12 + (if h >= 12 then 12 else 0) == h
  {
  }

  /** makeTime: makeTimeCore plus the tm's zone offset. */
  function MakeTime(tm: Tm): (t: int)
    requires tm.mon <= 13
    ensures t - tm.offset == MakeTimeCore(tm.(offset := 0))
  {
    MakeTimeCore(tm) + tm.offset
  }

  /** Breaking a time (after 1970) and assembling it with an offset gives
      the time moved by that offset. */
  lemma MakeTimeBreakRoundTrip(t: nat, offset: int)
    requires t >= 365 * SecsPerDay
    ensures MakeTime(BreakTimeCore(t).(offset := offset)) == t + offset
  {
    MakeBreakRoundTrip(t);
    var tm := BreakTimeCore(t);
    assert MakeTimeCore(tm.(offset := offset)) == MakeTimeCore(tm);
  }

  /** Sync status of the clock. */
  datatype SyncStatus = TimeNotSet | TimeNeedsSync | TimeSet

  /** The clock-sync state: the counter value and UTC milliseconds of the
      last sync, the drift correction in milliseconds and the re-sync
      interval in seconds. */
  datatype Clock = Clock(status: SyncStatus, syncLocal: int, syncUnix: int, drift: int, syncInterval: nat)

  /** utcNowMillis: the counter's progress since the last sync added to the
      synced UTC time and the drift; once the re-sync instant has passed the
      status drops from timeSet to timeNeedsSync (never set stays never
      set). Returns the new clock and the UTC milliseconds. */
  function UtcNowMillis(c: Clock, sysClock: int): (r: (Clock, int))
    ensures r.1 - c.syncUnix - c.drift == sysClock - c.syncLocal
    ensures r.0 == c.(status := r.0.status)
    ensures r.0.status == TimeNotSet <==> c.status == TimeNotSet
    ensures r.0.status == TimeSet <==> c.status == TimeSet && r.1 < c.syncUnix + c.syncInterval * 1000
    ensures c.status == TimeNeedsSync ==> r.0.status == TimeNeedsSync
  {
    var utc := (sysClock - c.syncLocal) + c.syncUnix + c.drift;
    if c.syncUnix + c.syncInterval * 1000 <= utc then
      (c.(status := if c.status == TimeNotSet then TimeNotSet else TimeNeedsSync), utc)
    else (c, utc)
  }

  /** setTime(t): the counter value now and the UTC time become the sync
      point, and the clock is set. */
  function SetTime(c: Clock, sysClock: int, t: int): (r: Clock)
    ensures r.status == TimeSet && r.syncLocal == sysClock && r.syncUnix == t * 1000
    ensures r.drift == c.drift && r.syncInterval == c.syncInterval
  {
    c.(status := TimeSet, syncLocal := sysClock, syncUnix := t * 1000)
  }

  /** After setTime(t), UTC reads t seconds plus the counter's progress and
      the drift, and the clock stays set until the interval has elapsed. */
  lemma SetTimeThenNow(c: Clock, sysClock: int, t: int, elapsed: int)
    ensures var r := UtcNowMillis(SetTime(c, sysClock, t), sysClock + elapsed);
            r.1 == t * 1000 + elapsed + c.drift &&
            (r.0.status == TimeSet <==> elapsed + c.drift < c.syncInterval * 1000)
  {
  }

  /** setTime(hr, min, sec, day, month, year, offset): a year above 1970 is
      a calendar year, any other is read as an offset from 1970 and made a
      calendar year; the assembled time (makeTime, offset included) is set
      and returned. */
  function SetTimeFields(c: Clock, sysClock: int, hr: int, min: int, sec: int, day: int,
                         month: int, year: int, offset: int): (r: (Clock, int))
    requires month <= 13
    ensures r.0 == SetTime(c, sysClock, r.1)
    ensures year > 1970 ==> r.1 == MakeTime(Tm(sec, min, hr, day, month, year, 0, 0, 0, offset))
    ensures year <= 1970 ==> r.1 == MakeTime(Tm(sec, min, hr, day, month, year + 1970, 0, 0, 0, offset))
  {
    var yr := if year > 1970 then year else year + 1970;
    var t := MakeTime(Tm(sec, min, hr, day, month, yr, 0, 0, 0, offset));
    (SetTime(c, sysClock, t), t)
  }

  /** A year offset of 0 becomes 1970, which makeTimeCore reads as an
      offset again: the time set lies 1970 years after the epoch instead of
      at it. */
  lemma SetTimeYearZero(c: Clock, sysClock: int)
    ensures SetTimeFields(c, sysClock, 0, 0, 0, 1, 1, 0, 0).1 == 1970 * 365 * SecsPerDay + LeapDaysBefore(1970) * SecsPerDay
  {
  }

  /** addDrift: accumulates the adjustment and returns the previous drift. */
  function AddDrift(c: Clock, adjustment: int): (r: (Clock, int))
    ensures r.1 == c.drift
    ensures r.0 == c.(drift := r.0.drift) && r.0.drift - adjustment == c.drift
  {
    (c.(drift := c.drift + adjustment), c.drift)
  }

  /** setDrift: overwrites the drift and returns the previous one. */
  function SetDrift(c: Clock, adjustment: int): (r: (Clock, int))
    ensures r.1 == c.drift
    ensures r.0 == c.(drift := adjustment)
  {
    (c.(drift := adjustment), c.drift)
  }

  /** Two drift additions are one addition of the sum; an addition moves
      the UTC reading by exactly the adjustment; setting the drift back to
      the returned value undoes the change. */
  lemma DriftLaws(c: Clock, a: int, b: int, sysClock: int)
    ensures AddDrift(AddDrift(c, a).0, b).0 == AddDrift(c, a + b).0
    ensures UtcNowMillis(AddDrift(c, a).0, sysClock).1 == UtcNowMillis(c, sysClock).1 + a
    ensures var r := SetDrift(c, a); SetDrift(r.0, r.1).0 == c
  {
  }

  /** The NTP answer: the epoch seconds decoded and the processing delay in
      milliseconds; `None` when the exchange failed. */
  datatype NtpAnswer = NtpAnswer(epoch: int, delay: int)

  /** syncTimeNTP: refreshes the status first; a clock that is still set is
      not synced and the server is not asked. Otherwise a valid answer sets
      the time, with the sync counter value moved back by the delay. */
  function SyncTimeNtp(c: Clock, sysClock: int, answer: Option<NtpAnswer>): (r: (Clock, bool, bool))
    ensures var c1 := UtcNowMillis(c, sysClock).0;
            (r.1 <==> c1.status != TimeSet) &&
            (r.2 <==> r.1 && answer.Some?) &&
            (!r.2 ==> r.0 == c1) &&
            (r.2 ==> r.0.status == TimeSet && r.0.syncUnix == answer.value.epoch * 1000 &&
                     r.0.syncLocal == sysClock - answer.value.delay && r.0.drift == c.drift)
  {
    var c1 := UtcNowMillis(c, sysClock).0;
    if c1.status == TimeSet then (c1, false, false)
    else if answer.None? then (c1, true, false)
    else
      var c2 := SetTime(c1, sysClock, answer.value.epoch);
      (c2.(syncLocal := c2.syncLocal - answer.value.delay), true, true)
  }

  /** After a successful NTP sync, UTC reads the epoch plus the reported
      delay, the counter's progress since the sync and the drift; the clock
      stays set until that reading reaches the re-sync instant. A failed
      exchange leaves every later reading as it would have been. */
  lemma SyncTimeNtpThenNow(c: Clock, sysClock: int, answer: Option<NtpAnswer>, elapsed: int)
    requires UtcNowMillis(c, sysClock).0.status != TimeSet
    ensures var r := SyncTimeNtp(c, sysClock, answer);
            var now := UtcNowMillis(r.0, sysClock + elapsed);
            (answer.Some? ==>
               r.2 &&
               now.1 == answer.value.epoch * 1000 + answer.value.delay + elapsed + c.drift &&
               (now.0.status == TimeSet <==> answer.value.delay + elapsed + c.drift < c.syncInterval * 1000)) &&
            (answer.None? ==> !r.2 && now.1 == UtcNowMillis(c, sysClock + elapsed).1)
  {
  }
}

=== FILE: time_util.dfy ===
/** The application's calendar helpers (src/timeutil.cpp): the holiday a
    date falls in, holiday names, the month/day key, and the clock drift
    measured between NTP synchronisations. */
module TimeUtil {
  import opened Base
  import opened ArduinoString
  import CoreTime

  /** `Holiday`, in declaration order. */
  datatype Holiday = None | Party | ValentineDay | StPatrick | MemorialDay | IndependenceDay
                   | Halloween | Thanksgiving | Christmas | NewYear

  /** `encodeMonthDay` on the calendar fields: the month in the high byte
      and the day in the low byte of a 16-bit value. */
  function EncodeMonthDay(month: int, day: int): (md: nat)
    ensures md < U16
  {
    Wrap16((month % 256) * 256 + day % 256)
  }

  /** For calendar months and days the key reads back, and keys order
      dates as the calendar does. */
  lemma EncodeMonthDayOrder(m1: int, d1: int, m2: int, d2: int)
    requires 1 <= m1 <= 12 && 1 <= d1 <= 31 && 1 <= m2 <= 12 && 1 <= d2 <= 31
    ensures EncodeMonthDay(m1, d1) / 256 == m1 && EncodeMonthDay(m1, d1) % 256 == d1
    ensures EncodeMonthDay(m1, d1) < EncodeMonthDay(m2, d2) <==> m1 < m2 || (m1 == m2 && d1 < d2)
  {
    DivUnique(m1 * 256 + d1, m1, d1, 256);
  }

  /** `encodeMonthDay(time)`: a time of 0 means the current time, which is
      a parameter here. */
  function EncodeMonthDayAt(time: nat, now: nat): (md: nat)
    ensures md < U16
  {
    var tm := CoreTime.BreakTimeCore(if time == 0 then now else time);
    EncodeMonthDay(tm.mon, tm.mday)
  }

  /** `buildHoliday` on the month/day key: open intervals of keys, tested
      in order, Party when none matches. */
  function HolidayOfKey(md: nat): (h: Holiday)
    ensures h != Holiday.None
  {
    if 0x020B < md < 0x0210 then ValentineDay
    else if 0x030E < md < 0x0313 then StPatrick
    else if 0x0518 < md < 0x0600 then MemorialDay
    else if 0x0700 < md < 0x0706 then IndependenceDay
    else if 0x0A00 < md < 0x0B04 then Halloween
    else if 0x0B03 < md < 0x0B1F then Thanksgiving
    else if 0x0C16 < md < 0x0C1C then Christmas
    else if md > 0x0C1E || md < 0x0103 then NewYear
    else Party
  }

  function BuildHoliday(time: nat, now: nat): (h: Holiday)
    ensures h != Holiday.None
  {
    HolidayOfKey(EncodeMonthDayAt(time, now))
  }

  /** The holiday windows stated as calendar dates: Valentine's Day 12–15
      February, St Patrick's 15–18 March, Memorial Day 25–31 May,
      Independence Day 1–5 July, Halloween 1 October–3 November,
      Thanksgiving 4–30 November, Christmas 23–27 December, New Year
      31 December–2 January, Party otherwise. */
  function HolidayOnDate(month: int, day: int): Holiday
  {
    if month == 2 && 12 <= day <= 15 then ValentineDay
    else if month == 3 && 15 <= day <= 18 then StPatrick
    else if month == 5 && 25 <= day then MemorialDay
    else if month == 7 && day <= 5 then IndependenceDay
    else if month == 10 || (month == 11 && day <= 3) then Halloween
    else if month == 11 && day <= 30 then Thanksgiving
    else if month == 12 && 23 <= day <= 27 then Christmas
    else if (month == 12 && day == 31) || (month == 1 && day <= 2) then NewYear
    else Party
  }

  /** On calendar dates the key intervals are the date windows. */
  lemma HolidayWindows(month: int, day: int)
    requires 1 <= month <= 12 && 1 <= day <= 31
    ensures HolidayOfKey(EncodeMonthDay(month, day)) == HolidayOnDate(month, day)
  {
    EncodeMonthDayOrder(month, day, month, day);
    assert EncodeMonthDay(month, day) == month * 256 + day;
  }

  /** `holidayToString`. */
  function HolidayName(h: Holiday): (s: string)
    ensures |s| >= 4
  {
    match h
    case None => "None"
    case Party => "Party"
    case ValentineDay => "ValentineDay"
    case StPatrick => "StPatrick"
    case MemorialDay => "MemorialDay"
    case IndependenceDay => "IndependenceDay"
    case Halloween => "Halloween"
    case Thanksgiving => "Thanksgiving"
    case Christmas => "Christmas"
    case NewYear => "NewYear"
  }

  /** `parseHoliday`: names compared ignoring case, in order; anything
      else, "None" and "Party" included, gives Party. */
  function ParseHoliday(s: string): (h: Holiday)
    ensures h != Holiday.None
  {
    if EqualsIgnoreCase(s, "ValentineDay") then ValentineDay
    else if EqualsIgnoreCase(s, "StPatrick") then StPatrick
    else if EqualsIgnoreCase(s, "MemorialDay") then MemorialDay
    else if EqualsIgnoreCase(s, "IndependenceDay") then IndependenceDay
    else if EqualsIgnoreCase(s, "Halloween") then Halloween
    else if EqualsIgnoreCase(s, "Thanksgiving") then Thanksgiving
    else if EqualsIgnoreCase(s, "Christmas") then Christmas
    else if EqualsIgnoreCase(s, "NewYear") then NewYear
    else Party
  }

  /** Names of one length differ in their first letter, ignoring case. */
  lemma FirstLetterDiffers(a: string, b: string)
    requires |a| > 0 && |b| > 0 && ToLower(a[0]) != ToLower(b[0])
    ensures !EqualsIgnoreCase(a, b)
  {
  }

  /** Strings equal ignoring case match the same names. */
  lemma SameVerdict(a: string, b: string, name: string)
    requires EqualsIgnoreCase(a, b)
    ensures EqualsIgnoreCase(a, name) <==> EqualsIgnoreCase(b, name)
  {
    EqualsIgnoreCaseEquivalence(b, a, name);
    EqualsIgnoreCaseEquivalence(a, b, name);
  }

  /** Parsing ignores case. */
  lemma ParseHolidayIgnoresCase(a: string, b: string)
    requires EqualsIgnoreCase(a, b)
    ensures ParseHoliday(a) == ParseHoliday(b)
  {
    SameVerdict(a, b, "ValentineDay");
    SameVerdict(a, b, "StPatrick");
    SameVerdict(a, b, "MemorialDay");
    SameVerdict(a, b, "IndependenceDay");
    SameVerdict(a, b, "Halloween");
    SameVerdict(a, b, "Thanksgiving");
    SameVerdict(a, b, "Christmas");
    SameVerdict(a, b, "NewYear");
  }

  /** Every holiday but None is read back from its name; None reads as
      Party, the automatic choice. */
  lemma ParseHolidayName(h: Holiday)
    ensures h != Holiday.None ==> ParseHoliday(HolidayName(h)) == h
    ensures ParseHoliday(HolidayName(Holiday.None)) == Party
  {
    var s := HolidayName(h);
    EqualsIgnoreCaseEquivalence(s, s, s);
    match h
    case StPatrick =>
    case Halloween =>
      FirstLetterDiffers("Halloween", "StPatrick");
    case Christmas =>
      FirstLetterDiffers("Christmas", "StPatrick");
      FirstLetterDiffers("Christmas", "Halloween");
    case Thanksgiving =>
      FirstLetterDiffers("Thanksgiving", "ValentineDay");
    case _ =>
  }

  /** `TimeSync`: the local clock (`millis()`, 32-bit) and the official
      time in seconds at one synchronisation. */
  datatype TimeSync = TimeSync(localMillis: nat, unixSeconds: int)

  /** How far the local clock ran ahead of official time between two
      synchronisations, in milliseconds; both deltas are 64-bit and do not
      wrap. */
  function DriftMs(from: TimeSync, to: TimeSync): int
  {
    (to.localMillis - from.localMillis) - (to.unixSeconds - from.unixSeconds) * 1000
  }

  /** The conversion of a 64-bit value to a 32-bit `int`. */
  function ToInt32(x: int): (r: int)
    ensures -0x8000_0000 <= r < 0x8000_0000
    ensures -0x8000_0000 <= x < 0x8000_0000 ==> r == x
  {
    (x + 0x8000_0000) % U32 - 0x8000_0000
  }

  /** `getDrift`. */
  function GetDrift(from: TimeSync, to: TimeSync): int
  {
    ToInt32(DriftMs(from, to))
  }

  /** Drift over consecutive intervals adds up to the drift over their
      union. */
  lemma DriftAdds(a: TimeSync, b: TimeSync, c: TimeSync)
    ensures DriftMs(a, b) + DriftMs(b, c) == DriftMs(a, c)
  {
  }

  /** `getTotalDrift` as written: the loop's `prevSync` is set to the first
      synchronisation and never moved, so it adds the drift from the first
      synchronisation to each later one. Fewer than two give 0. */
  function TotalDriftAsWritten(syncs: seq<TimeSync>): int
  {
    if |syncs| < 2 then 0 else SumFromFirst(syncs[0], syncs[1..])
  }

  function SumFromFirst(first: TimeSync, later: seq<TimeSync>): int
  {
    if |later| == 0 then 0
    else SumFromFirst(first, later[..|later| - 1]) + GetDrift(first, later[|later| - 1])
  }

  /** Three synchronisations each 10 ms fast over a second: the drift
      accumulated is 20 ms, the function reports 30. */
  lemma TotalDriftCountsEarlyDriftAgain()
    ensures var syncs := [TimeSync(0, 0), TimeSync(1010, 1), TimeSync(2020, 2)];
            TotalDriftAsWritten(syncs) == 30
            && DriftMs(syncs[0], syncs[2]) == 20
  {
    var first := TimeSync(0, 0);
    var later := [TimeSync(1010, 1), TimeSync(2020, 2)];
    assert [first, TimeSync(1010, 1), TimeSync(2020, 2)][1..] == later;
    assert later[..1] == [TimeSync(1010, 1)];
    assert later[..1][..0] == [];
    assert SumFromFirst(first, later[..1]) == 10;
    assert SumFromFirst(first, later) == 10 + 20;
  }

  /** `getTotalDrift` with `prevSync` moved along: the sum of the drifts
      between consecutive synchronisations. */
  method TotalDrift(syncs: seq<TimeSync>) returns (drift: int)
    ensures |syncs| < 2 ==> drift == 0
    ensures |syncs| >= 2 ==> drift == SumConsecutive(syncs)
  {
    drift := 0;
    if |syncs| < 2 {
      return;
    }
    var prev := syncs[0];
    var i := 1;
    while i < |syncs|
      invariant 1 <= i <= |syncs|
      invariant prev == syncs[i - 1]
      invariant drift == SumConsecutive(syncs[..i])
    {
      assert syncs[..i + 1][..i] == syncs[..i];
      drift := drift + GetDrift(prev, syncs[i]);
      prev := syncs[i];
      i := i + 1;
    }
    assert syncs[..i] == syncs;
  }

  /** The sum of `getDrift` over consecutive pairs. */
  function SumConsecutive(syncs: seq<TimeSync>): int
  {
    if |syncs| < 2 then 0
    else SumConsecutive(syncs[..|syncs| - 1]) + GetDrift(syncs[|syncs| - 2], syncs[|syncs| - 1])
  }

  /** Every step's drift fits an `int`, so `getDrift` does not wrap. */
  predicate StepsFit(syncs: seq<TimeSync>)
  {
    forall k :: 1 <= k < |syncs| ==> -0x8000_0000 <= DriftMs(syncs[k - 1], syncs[k]) < 0x8000_0000
  }

  lemma StepsFitPrefix(syncs: seq<TimeSync>)
    requires |syncs| >= 1 && StepsFit(syncs)
    ensures StepsFit(syncs[..|syncs| - 1])
  {
    var front := syncs[..|syncs| - 1];
    forall k | 1 <= k < |front| ensures -0x8000_0000 <= DriftMs(front[k - 1], front[k]) < 0x8000_0000 {
      assert front[k - 1] == syncs[k - 1];
    }
  }

  /** While each step's drift fits an `int`, the total is the drift from
      the first synchronisation to the last. */
  lemma {:induction false} SumConsecutiveTelescopes(syncs: seq<TimeSync>)
    requires |syncs| >= 2 && StepsFit(syncs)
    ensures SumConsecutive(syncs) == DriftMs(syncs[0], syncs[|syncs| - 1])
    decreases |syncs|
  {
    var n := |syncs|;
    var last := GetDrift(syncs[n - 2], syncs[n - 1]);
    assert last == DriftMs(syncs[n - 2], syncs[n - 1]);
    if n > 2 {
      var front := syncs[..n - 1];
      StepsFitPrefix(syncs);
      SumConsecutiveTelescopes(front);
      assert SumConsecutive(syncs) == SumConsecutive(front) + last;
      DriftAdds(syncs[0], syncs[n - 2], syncs[n - 1]);
    }
  }

  /** `getLastTimeDrift`: the drift between the last two
      synchronisations, 0 with fewer than two. */
  function LastTimeDrift(syncs: seq<TimeSync>): (d: int)
    ensures |syncs| < 2 ==> d == 0
  {
    if |syncs| < 2 then 0 else GetDrift(syncs[|syncs| - 2], syncs[|syncs| - 1])
  }

  /** The last drift is what the total gains by the last
      synchronisation. */
  lemma LastDriftIsLastStep(syncs: seq<TimeSync>)
    requires |syncs| >= 2
    ensures SumConsecutive(syncs) == SumConsecutive(syncs[..|syncs| - 1]) + LastTimeDrift(syncs)
  {
  }

  /** `getAverageTimeDrift`: the total drift `getTotalDrift` reports (as
      written), per hour of official time between the first and last
      synchronisation, in C integer division. The span is converted to a
      32-bit `int`; a span that converts to 0 (two synchronisations within
      the same second) would divide by zero. */
  function AverageTimeDrift(syncs: seq<TimeSync>): (d: int)
    requires |syncs| >= 2 ==> ToInt32(syncs[|syncs| - 1].unixSeconds - syncs[0].unixSeconds) != 0
    ensures |syncs| < 2 ==> d == 0
  {
    if |syncs| < 2 then 0
    else CDiv(TotalDriftAsWritten(syncs) * 3600, ToInt32(syncs[|syncs| - 1].unixSeconds - syncs[0].unixSeconds))
  }

  /** With two synchronisations, a clock running a constant `r` ms fast per
      second of official time averages `3600 r` ms per hour, as long as the
      drift fits the 32-bit `int` that `getDrift` returns. */
  lemma AverageOfSteadyDrift(first: TimeSync, last: TimeSync, r: int, secs: nat)
    requires 0 < secs < 0x8000_0000
    requires last.unixSeconds == first.unixSeconds + secs
    requires DriftMs(first, last) == r * secs
    requires -0x8000_0000 <= r * secs < 0x8000_0000
    ensures AverageTimeDrift([first, last]) == 3600 * r
  {
    assert [first, last][1..] == [last];
    assert [last][..0] == [];
    assert SumFromFirst(first, [last]) == GetDrift(first, last);
    assert GetDrift(first, last) == DriftMs(first, last);
    assert TotalDriftAsWritten([first, last]) == DriftMs(first, last);
    assert ToInt32(last.unixSeconds - first.unixSeconds) == secs;
    var num := r * secs * 3600;
    assert DriftMs(first, last) * 3600 == (3600 * r) * secs;
    if num >= 0 {
      assert r >= 0;
      DivUnique(num, 3600 * r, 0, secs);
    } else {
      assert r < 0;
      DivUnique(-num, -3600 * r, 0, secs);
    }
  }

  /** The early drift counted again carries into the average: three
      synchronisations each 10 ms fast over a second average 54000 ms per
      hour, where the clock gains 36000. */
  lemma AverageCountsEarlyDriftAgain()
    ensures AverageTimeDrift([TimeSync(0, 0), TimeSync(1010, 1), TimeSync(2020, 2)]) == 54000
  {
    TotalDriftCountsEarlyDriftAgain();
  }
}

=== FILE: timezone.dfy ===
/** Daylight-saving rules of the time library (Timezone): the yearly
    transition instants of a pair of rules, the DST test for local and UTC
    times, the local/UTC conversions and the zone fields of a broken-down
    time.

    The rule enumerations are zero-based (week 0 = Last, 1..4 = First to
    Fourth; day 0 = Sunday; month 0 = January) while the calendar functions
    they feed are one-based; the model keeps that mix exactly. The epoch of
    the `tm_year` field (`TM_EPOCH_YEAR`) is not part of this model's
    source and is a parameter. The cached transitions of the source are a
    memo of the functions below and are not modelled as state. */
module Timezone {
  import opened Base
  import opened CoreTime

  /** A time change rule; `offset` is minutes east of UTC. */
  datatype Rule = Rule(week: nat, dow: nat, month: nat, hour: nat, offset: int)

  /** Values the rule enumerations and the `uint8_t` hour can hold; month 12
      is one past December, accepted so that the roll-over branch of a
      "Last" rule stays reachable. */
  predicate ValidRule(r: Rule)
  {
    r.week <= 4 && r.dow <= 6 && r.month <= 12 && r.hour <= 255
  }

  /** The month and year whose first day anchors a rule: the rule's month,
      or for a "Last" rule the following one (rolling over the year past
      12). */
  function AnchorMonth(r: Rule, yr: int): (my: (nat, int))
    requires ValidRule(r)
    ensures my.0 <= 13
    ensures r.week != 0 ==> my == (r.month, yr)
    ensures r.week == 0 && r.month < 12 ==> my == (r.month + 1, yr)
    ensures r.week == 0 && r.month == 12 ==> my == (1, yr + 1)
  {
    if r.week != 0 then (r.month, yr)
    else if r.month + 1 > 12 then (1, yr + 1)
    else (r.month + 1, yr)
  }

  /** Midnight-plus-hour of the first day of the anchor month, as
      makeTimeCore computes it. */
  function AnchorTime(r: Rule, yr: int, epochYear: int): int
    requires ValidRule(r)
  {
    var my := AnchorMonth(r, yr);
    MakeTimeCore(Tm(0, 0, r.hour, 1, my.0, my.1 - epochYear, 0, 0, 0, 0))
  }

  /** The weekday (1 = Sunday) a rule's transition lands on: the zero-based
      rule day read as one-based, so a Sunday rule lands on a Saturday. */
  function LandingWeekday(dow: nat): nat
  {
    (dow + 6) % 7 + 1
  }

  /** transitionTime: the anchor time moved to the rule's weekday and week. */
  function TransitionTime(r: Rule, yr: int, epochYear: int): int
    requires ValidRule(r)
  {
    ShiftToRule(AnchorTime(r, yr, epochYear), r.dow, r.week)
  }

  /** From the anchor `s`, forward to the rule's weekday (at most six
      days), then by whole weeks for the rule's week; a "Last" rule (week 0)
      is taken as the first week and backed up by one week. */
  function ShiftToRule(s: int, dow: nat, week: nat): int
  {
    var w := if week == 0 then 1 else week;
    var twDay := WeekdayCore(s);
    var t := s + (CMod(dow - twDay + 7, 7) + (w - 1) * 7) * SecsPerDay;
    if week == 0 then t - 7 * SecsPerDay else t
  }

  /** The transition lies a whole number of days after the anchor: inside
      week `week` of the anchor month, or for a "Last" rule inside the week
      before the anchor (the last week of the rule's month); and, away from
      the epoch, on the weekday LandingWeekday(dow). */
  lemma TransitionTimeSpec(r: Rule, yr: int, epochYear: int)
    requires ValidRule(r)
    ensures var s := AnchorTime(r, yr, epochYear);
            var t := TransitionTime(r, yr, epochYear);
            (t - s) % SecsPerDay == 0 &&
            (r.week != 0 ==> s + (r.week - 1) * 7 * SecsPerDay <= t < s + r.week * 7 * SecsPerDay) &&
            (r.week == 0 ==> s - 7 * SecsPerDay <= t < s) &&
            (s >= 7 * SecsPerDay ==> WeekdayCore(t) == LandingWeekday(r.dow))
  {
    ShiftToRuleWeeks(AnchorTime(r, yr, epochYear), r.dow, r.week);
    if AnchorTime(r, yr, epochYear) >= 7 * SecsPerDay {
      ShiftToRuleLands(AnchorTime(r, yr, epochYear), r.dow, r.week);
    }
  }

  /** The shift is a whole number of days inside the rule's week. */
  lemma ShiftToRuleWeeks(s: int, dow: nat, week: nat)
    requires dow <= 6 && week <= 4
    ensures var t := ShiftToRule(s, dow, week);
            (t - s) % SecsPerDay == 0 &&
            (week != 0 ==> s + (week - 1) * 7 * SecsPerDay <= t < s + week * 7 * SecsPerDay) &&
            (week == 0 ==> s - 7 * SecsPerDay <= t < s)
  {
    var k, j := ShiftToRuleForm(s, dow, week);
    ShiftBounds(k, j, week);
  }

  /** Away from the epoch the shift lands on LandingWeekday(dow). */
  lemma ShiftToRuleLands(s: int, dow: nat, week: nat)
    requires dow <= 6 && week <= 4 && s >= 7 * SecsPerDay
    ensures WeekdayCore(ShiftToRule(s, dow, week)) == LandingWeekday(dow)
  {
    var k, j := ShiftToRuleForm(s, dow, week);
    TransitionLandsOnDay(s, dow, k, j, ShiftToRule(s, dow, week));
  }

  /** ShiftToRule moves by `k` days to the weekday plus `j` days of whole
      weeks (a week back for a "Last" rule). */
  lemma ShiftToRuleForm(s: int, dow: nat, week: nat) returns (k: int, j: int)
    requires dow <= 6 && week <= 4
    ensures 0 <= k < 7 && k == (dow - WeekdayCore(s) + 7) % 7
    ensures j == (if week == 0 then -7 else (week - 1) * 7) && j >= -7 && j % 7 == 0
    ensures ShiftToRule(s, dow, week) == s + (k + j) * SecsPerDay
  {
    WeekdayCoreAtMost7(s);
    ForwardDays(dow, WeekdayCore(s));
    k := CMod(dow - WeekdayCore(s) + 7, 7);
    j := if week == 0 then -7 else (week - 1) * 7;
    assert j == -7 || j == 0 || j == 7 || j == 14 || j == 21;
  }

  lemma ShiftBounds(k: int, j: int, week: nat)
    requires 0 <= k < 7 && week <= 4 && j == (if week == 0 then -7 else (week - 1) * 7)
    ensures ((k + j) * SecsPerDay) % SecsPerDay == 0
    ensures week != 0 ==> (week - 1) * 7 * SecsPerDay <= (k + j) * SecsPerDay < week * 7 * SecsPerDay
    ensures week == 0 ==> - 7 * SecsPerDay <= (k + j) * SecsPerDay < 0
  {
    DivAddMultiple(0, k + j, SecsPerDay);
  }

  /** The forward day count of transitionTime is a plain remainder in
      0..6, since the weekday never exceeds 7. */
  lemma ForwardDays(dow: nat, twDay: int)
    requires dow <= 6 && twDay <= 7
    ensures CMod(dow - twDay + 7, 7) == (dow - twDay + 7) % 7
    ensures 0 <= CMod(dow - twDay + 7, 7) < 7
  {
    CDivNonNegative(dow - twDay + 7, 7);
  }

  lemma WeekdayCoreAtMost7(s: int)
    ensures WeekdayCore(s) <= 7
  {
  }

  /** Moving a non-negative time by whole days shifts the weekday formula's
      day count by the same number of days. */
  lemma WeekdayShift(s: int, m: int)
    requires s >= 0 && s + m * SecsPerDay >= 0
    ensures WeekdayCore(s + m * SecsPerDay) == (s / SecsPerDay + m + 4) % 7 + 1
  {
    DivAddMultiple(s, m, SecsPerDay);
  }

  lemma TransitionLandsOnDay(s: int, dow: nat, k: int, j: int, t: int)
    requires dow <= 6 && s >= 7 * SecsPerDay && j >= -7 && j % 7 == 0
    requires k == (dow - WeekdayCore(s) + 7) % 7
    requires t == s + (k + j) * SecsPerDay
    ensures WeekdayCore(t) == LandingWeekday(dow)
  {
    WeekdayShift(s, 0);
    WeekdayShift(s, k + j);
    WeekdayArith(s / SecsPerDay, dow, k, j);
  }

  /** The weekday arithmetic of a shift by `k + j` days from day `d`. */
  lemma WeekdayArith(d: int, dow: nat, k: int, j: int)
    requires dow <= 6 && j % 7 == 0 && k == (dow - ((d + 4) % 7 + 1) + 7) % 7
    ensures (d + k + j + 4) % 7 + 1 == LandingWeekday(dow)
  {
    var a := (d + 4) % 7;
    assert k == (dow + 6 - a) % 7;
    assert d + k + j + 4 == d + 4 + k + (j / 7) * 7;
    DivAddMultiple(d + 4 + k, j / 7, 7);
    ModAddInner(k, d + 4, 7);
    assert (d + k + j + 4) % 7 == (k + a) % 7;
    ModAddInner(a, dow + 6 - a, 7);
  }

  /** The four transition instants of a year: DST and standard-time starts
      in local time and in UTC. */
  datatype Transitions = Transitions(dstLoc: int, stdLoc: int, dstUtc: int, stdUtc: int, year: int)

  /** A zone: the DST rule and the standard-time rule. */
  datatype Zone = Zone(dst: Rule, std: Rule)

  predicate ValidZone(z: Zone)
  {
    ValidRule(z.dst) && ValidRule(z.std)
  }

  /** calcTimeChanges: each UTC instant is the local instant minus the offset
      in force just before it, i.e. the opposing rule's offset. */
  function CalcTimeChanges(z: Zone, year: int, epochYear: int): (tr: Transitions)
    requires ValidZone(z)
    ensures tr.year == year
    ensures tr.dstLoc == TransitionTime(z.dst, year, epochYear)
    ensures tr.stdLoc == TransitionTime(z.std, year, epochYear)
    ensures tr.dstUtc == tr.dstLoc - z.std.offset * SecsPerMin
    ensures tr.stdUtc == tr.stdLoc - z.dst.offset * SecsPerMin
  {
    var dstLoc := TransitionTime(z.dst, year, epochYear);
    var stdLoc := TransitionTime(z.std, year, epochYear);
    Transitions(dstLoc, stdLoc, dstLoc - z.std.offset * SecsPerMin, stdLoc - z.dst.offset * SecsPerMin, year)
  }

  /** The calendar year calculateYear reports; times before the epoch fall
      out of its loop at once and report 1970. */
  function YearOfTime(t: int): int
  {
    if t < 0 then 1970 else BreakTimeCore(t).year
  }

  predicate DstObserved(z: Zone)
  {
    z.dst.offset != z.std.offset
  }

  /** A time lies in the half-open interval [lo, hi). */
  predicate InInterval(t: int, lo: int, hi: int)
  {
    lo <= t < hi
  }

  /** isDST: never when both rules have the same offset. Otherwise, with the
      transitions of the time's own year: when the DST start precedes the
      standard-time start (northern hemisphere) DST is exactly the interval
      between them; otherwise (southern hemisphere) DST is everything
      outside the interval from the standard-time start to the DST start. */
  function IsDst(z: Zone, t: int, local: bool, epochYear: int): (b: bool)
    requires ValidZone(z)
    ensures !DstObserved(z) ==> !b
    ensures DstObserved(z) ==>
              var tr := CalcTimeChanges(z, YearOfTime(t), epochYear);
              var dstStart := if local then tr.dstLoc else tr.dstUtc;
              var stdStart := if local then tr.stdLoc else tr.stdUtc;
              (stdStart > dstStart ==> (b <==> InInterval(t, dstStart, stdStart))) &&
              (stdStart <= dstStart ==> (b <==> !InInterval(t, stdStart, dstStart)))
  {
    if !DstObserved(z) then false
    else
      var tr := CalcTimeChanges(z, YearOfTime(t), epochYear);
      if local then
        if tr.stdLoc > tr.dstLoc then tr.dstLoc <= t < tr.stdLoc
        else !(tr.stdLoc <= t < tr.dstLoc)
      else
        if tr.stdUtc > tr.dstUtc then tr.dstUtc <= t < tr.stdUtc
        else !(tr.stdUtc <= t < tr.dstUtc)
  }

  /** The offset in seconds in force at a time. */
  function OffsetSecs(z: Zone, t: int, local: bool, epochYear: int): int
    requires ValidZone(z)
  {
    (if IsDst(z, t, local, epochYear) then z.dst.offset else z.std.offset) * SecsPerMin
  }

  /** toLocal: the UTC time plus the offset chosen by the UTC DST test. */
  function ToLocal(z: Zone, utc: int, epochYear: int): (local: int)
    requires ValidZone(z)
    ensures local - utc == z.dst.offset * SecsPerMin || local - utc == z.std.offset * SecsPerMin
    ensures DstObserved(z) ==> (IsDst(z, utc, false, epochYear) <==> local - utc == z.dst.offset * SecsPerMin)
  {
    utc + OffsetSecs(z, utc, false, epochYear)
  }

  /** toUTC: the local time minus the offset chosen by the local DST test. */
  function ToUtc(z: Zone, local: int, epochYear: int): (utc: int)
    requires ValidZone(z)
    ensures local - utc == z.dst.offset * SecsPerMin || local - utc == z.std.offset * SecsPerMin
    ensures DstObserved(z) ==> (IsDst(z, local, true, epochYear) <==> local - utc == z.dst.offset * SecsPerMin)
  {
    local - OffsetSecs(z, local, true, epochYear)
  }

  /** Without DST both conversions apply the one fixed offset and undo each
      other. */
  lemma NoDstRoundTrip(z: Zone, t: int, epochYear: int)
    requires ValidZone(z) && !DstObserved(z)
    ensures ToLocal(z, t, epochYear) == t + z.std.offset * SecsPerMin
    ensures ToUtc(z, ToLocal(z, t, epochYear), epochYear) == t
  {
  }

  /** When the DST test gives the same answer for a UTC time and for its
      local image (every time away from the transition hours), toUTC undoes
      toLocal. */
  lemma ConversionRoundTrip(z: Zone, t: int, epochYear: int)
    requires ValidZone(z)
    requires IsDst(z, t, false, epochYear) == IsDst(z, ToLocal(z, t, epochYear), true, epochYear)
    ensures ToUtc(z, ToLocal(z, t, epochYear), epochYear) == t
  {
  }

  /** The zone fields of a broken-down local time, as updateZoneInfo sets
      them, with the transitions of `tm.year`. */
  function UpdateZoneInfo(z: Zone, tm: Tm, t: int, epochYear: int): (r: Tm)
    requires ValidZone(z)
    ensures r.offset == (if r.isdst == 1 then z.dst.offset else z.std.offset) * SecsPerMin
    ensures r.isdst == 0 || r.isdst == 1
    ensures !DstObserved(z) ==> r.isdst == 0
    ensures r.(isdst := tm.isdst, offset := tm.offset) == tm
  {
    var isDst := DstObserved(z) && DstAsWritten(CalcTimeChanges(z, tm.year + epochYear, epochYear), t);
    tm.(isdst := if isDst then 1 else 0,
        offset := (if isDst then z.dst.offset else z.std.offset) * SecsPerMin)
  }

  /** The DST test of updateZoneInfo: inside the northern interval, negated
      when the standard-time change comes first in the year. */
  predicate DstAsWritten(tr: Transitions, t: int)
  {
    var north := tr.dstLoc <= t < tr.stdLoc;
    if tr.stdLoc <= tr.dstLoc then !north else north
  }

  /** The southern-hemisphere branch of updateZoneInfo negates the
      northern interval test, whose interval is empty there, so it reports
      DST for every time, including the standard-time ones where the local
      isDST test says no. */
  lemma UpdateZoneInfoSouthernAlwaysDst(z: Zone, tm: Tm, t: int, epochYear: int)
    requires ValidZone(z) && DstObserved(z)
    requires var tr := CalcTimeChanges(z, tm.year + epochYear, epochYear);
             tr.stdLoc <= t < tr.dstLoc
    ensures UpdateZoneInfo(z, tm, t, epochYear).isdst == 1
    ensures !IsDstFixedYear(z, CalcTimeChanges(z, tm.year + epochYear, epochYear), t)
  {
    var tr := CalcTimeChanges(z, tm.year + epochYear, epochYear);
    assert DstAsWritten(tr, t);
  }

  /** A southern-hemisphere zone exists: standard time from the week-1,
      day-0 rule of month 6 and DST from the same rule of month 10 (1971,
      with the `tm_year` epoch at 1970); day 0 lands on weekday 7, so these
      are the first Saturdays of June and October. The disagreement above is
      reachable. */
  lemma SouthernZoneExample()
    ensures var z := Zone(Rule(1, 0, 10, 0, 60), Rule(1, 0, 6, 0, 0));
            var tr := CalcTimeChanges(z, 1971, 1970);
            DstObserved(z) && tr.stdLoc < tr.dstLoc
  {
    var z := Zone(Rule(1, 0, 10, 0, 60), Rule(1, 0, 6, 0, 0));
    var a := AnchorTime(z.std, 1971, 1970);
    var b := AnchorTime(z.dst, 1971, 1970);
    ShiftToRuleWeeks(a, 0, 1);
    ShiftToRuleWeeks(b, 0, 1);
    SouthernAnchors();
  }

  /** The first days of June and October 1971 lie 122 days apart. */
  lemma SouthernAnchors()
    ensures AnchorTime(Rule(1, 0, 10, 0, 60), 1971, 1970) - AnchorTime(Rule(1, 0, 6, 0, 0), 1971, 1970)
            == 122 * SecsPerDay
  {
    assert MakeMonthDays(6, false) == 151;
    assert MakeMonthDays(10, false) == 273;
  }

  /** The local DST test of isDST against a given set of transitions. */
  predicate IsDstFixedYear(z: Zone, tr: Transitions, t: int)
  {
    DstObserved(z) &&
    if tr.stdLoc > tr.dstLoc then tr.dstLoc <= t < tr.stdLoc
    else !(tr.stdLoc <= t < tr.dstLoc)
  }

  /** Corrected updateZoneInfo: the DST flag is the local isDST test on the
      transitions of the tm's year, in both hemispheres. */
  function UpdateZoneInfoFixed(z: Zone, tm: Tm, t: int, epochYear: int): (r: Tm)
    requires ValidZone(z)
    ensures var tr := CalcTimeChanges(z, tm.year + epochYear, epochYear);
            (r.isdst == 1 <==> IsDstFixedYear(z, tr, t)) && (r.isdst == 0 || r.isdst == 1)
    ensures r.offset == (if r.isdst == 1 then z.dst.offset else z.std.offset) * SecsPerMin
    ensures r.(isdst := tm.isdst, offset := tm.offset) == tm
  {
    var tr := CalcTimeChanges(z, tm.year + epochYear, epochYear);
    var isDst := IsDstFixedYear(z, tr, t);
    tm.(isdst := if isDst then 1 else 0,
        offset := (if isDst then z.dst.offset else z.std.offset) * SecsPerMin)
  }

  /** The corrected flag agrees with isDST whenever the tm's year is the
      year the time falls in. */
  lemma UpdateZoneInfoFixedAgrees(z: Zone, tm: Tm, t: int, epochYear: int)
    requires ValidZone(z)
    requires tm.year + epochYear == YearOfTime(t)
    ensures UpdateZoneInfoFixed(z, tm, t, epochYear).isdst == 1 <==> IsDst(z, t, true, epochYear)
  {
  }
}

=== FILE: transition.dfy ===
/** The selector of src/transition.cpp: which of the five "lights off"
    effects plays between two effects, and the random bar segments that
    the bar effect wipes. The effects themselves draw on the LED strip and
    are not modelled; random draws are parameters. */
module Transition {
  import opened Base

  /** `NUM_PIXELS`. */
  const NumPixels: nat := 50
  /** `turnOffSeq`: the growing spot sizes of the spots effect. */
  const TurnOffSeq: seq<nat> := [1, 1, 2, 2, 2, 3, 3, 3, 5, 5, 5, 7, 7, 7, 7, 10]

  /** The five ways to turn the strip off; the flag picks between the two
      variants of a wipe (rightwards or leftwards) and of a split (outwards
      or inwards). */
  datatype OffEffect = Spots | Wipe(rightDir: bool) | Fade | Split(outward: bool) | RandomBars

  /** `EffectTransition`: the selector `sel`, the preferred effect `prefFx`
      (0 for none), the bar segments front first, and the spots effect's
      progress. */
  datatype State = State(sel: nat, prefFx: nat, barSegs: seq<nat>,
                         spotShuffleOffset: nat, spotSeqIndex: nat, spotSegSize: nat, fade: nat)

  /** The number of bar sizes `setup` may draw: 17 draws of at least 3
      pixels cover the strip. */
  const MaxBarDraws: nat := 17

  function Sum(s: seq<nat>): nat
  {
    if |s| == 0 then 0 else s[0] + Sum(s[1..])
  }

  /** `setup`: no preference, a selector from the draw, and bars of the
      drawn sizes (each 3 to 7) pushed at the front until they cover the
      strip; the front bar is then cut so that the bars cover it exactly. */
  method Setup(selDraw: byte, sizes: seq<nat>, prev: State) returns (st: State)
    requires |sizes| >= MaxBarDraws
    requires forall i :: 0 <= i < |sizes| ==> 3 <= sizes[i] < 8
    ensures st == prev.(sel := selDraw as nat % 10, prefFx := 0, barSegs := st.barSegs)
    ensures Sum(st.barSegs) == NumPixels
    ensures 0 < |st.barSegs| <= MaxBarDraws
    ensures forall i :: 0 <= i < |st.barSegs| ==> 1 <= st.barSegs[i] < 8
    ensures forall i :: 0 < i < |st.barSegs| ==> st.barSegs[i] == sizes[|st.barSegs| - 1 - i]
  {
    var segs: seq<nat> := [];
    var sum: nat := 0;
    var k := 0;
    while sum < NumPixels
      invariant k <= MaxBarDraws && |segs| == k && sum == Sum(segs)
      invariant sum >= 3 * k
      invariant forall i :: 0 <= i < k ==> segs[i] == sizes[k - 1 - i]
      invariant k > 0 ==> sum < NumPixels + segs[0]
      decreases NumPixels - sum
    {
      segs := [sizes[k]] + segs;
      sum := sum + sizes[k];
      k := k + 1;
    }
    if sum > NumPixels {
      var front := segs[0] - (sum - NumPixels);
      SumFront(segs, front);
      segs := [front] + segs[1..];
    }
    st := prev.(sel := selDraw as nat % 10, prefFx := 0, barSegs := segs);
  }

  /** Replacing the front bar changes the sum by the difference. */
  lemma SumFront(s: seq<nat>, front: nat)
    requires |s| > 0
    ensures Sum([front] + s[1..]) == Sum(s) - s[0] + front
  {
    assert ([front] + s[1..])[1..] == s[1..];
  }

  /** `prepare`: the low byte's remainder by 10 selects the effect and its
      variant; a nonzero second byte states a preference, folded into 1 to
      5; the spots effect restarts from its first, single-pixel spot. The
      fade amount is the `random8(42, 110)` draw. */
  function Prepare(st: State, selector: nat, fadeDraw: nat): (st': State)
    requires selector < U32
    requires 42 <= fadeDraw < 110
    ensures st'.sel < 10 && st'.sel == selector % 10
    ensures st'.prefFx == 0 <==> (selector / 256) % 256 == 0
    ensures st'.prefFx == 0 || 1 <= st'.prefFx <= 5
    ensures st'.spotShuffleOffset == 0 && st'.spotSeqIndex == 0 && st'.spotSegSize == 1
    ensures st'.barSegs == st.barSegs
  {
    var pref := (selector / 256) % 256;
    st.(sel := selector % 10,
        prefFx := if pref != 0 then pref % 5 + 1 else 0,
        spotShuffleOffset := 0, spotSeqIndex := 0, spotSegSize := TurnOffSeq[0],
        fade := fadeDraw)
  }

  /** The effect index `transition` switches on: the preference less one,
      or half the selector; out-of-range indices fall back to fading. */
  function EffectIndex(st: State): nat
  {
    if st.prefFx != 0 then (st.prefFx - 1) % 256 else (st.sel / 2) % 256
  }

  /** `transition`'s dispatch. */
  function Dispatch(st: State): (e: OffEffect)
    ensures EffectIndex(st) == 2 || EffectIndex(st) > 4 <==> e == Fade
  {
    match EffectIndex(st)
    case 0 => Spots
    case 1 => Wipe(st.sel % 2 == 1)
    case 3 => Split(st.sel % 2 == 1)
    case 4 => RandomBars
    case _ => Fade
  }

  /** After `prepare` the index is always one of the five effects, so the
      fallback is never taken. */
  lemma PreparedIndexInRange(st: State, selector: nat, fadeDraw: nat)
    requires selector < U32 && 42 <= fadeDraw < 110
    ensures EffectIndex(Prepare(st, selector, fadeDraw)) <= 4
  {
  }

  /** Without a preference, every effect and variant is reachable: selector
      `2 e + v` plays effect `e` in variant `v`. */
  lemma AutomaticSelection(st: State, selector: nat, fadeDraw: nat)
    requires selector < 256 && 42 <= fadeDraw < 110
    ensures var st' := Prepare(st, selector, fadeDraw);
            && st'.prefFx == 0
            && Dispatch(st') == match (selector % 10) / 2
                                case 0 => Spots
                                case 1 => Wipe(selector % 2 == 1)
                                case 2 => Fade
                                case 3 => Split(selector % 2 == 1)
                                case _ => RandomBars
  {
  }

  /** With a preference, the second byte `p` plays effect `p mod 5`,
      whatever the low byte. */
  lemma PreferenceSelection(st: State, selector: nat, fadeDraw: nat)
    requires selector < U32 && 42 <= fadeDraw < 110
    requires (selector / 256) % 256 != 0
    ensures EffectIndex(Prepare(st, selector, fadeDraw)) == ((selector / 256) % 256) % 5
  {
  }

  /** Three of the `SELECTOR_*` constants of include/transition.h do not
      select the effect they are named after: `SELECTOR_SPOTS` plays the
      wipe, `SELECTOR_WIPE` the fade and `SELECTOR_FADE` the spots; the
      split and bar selectors land where their names say. */
  lemma SelectorConstants(st: State, fadeDraw: nat)
    requires 42 <= fadeDraw < 110
    ensures Dispatch(Prepare(st, 0x0100, fadeDraw)) == Wipe(false)
    ensures Dispatch(Prepare(st, 0x0200, fadeDraw)) == Fade
    ensures Dispatch(Prepare(st, 0x0300, fadeDraw)) == Split(false)
    ensures Dispatch(Prepare(st, 0x0400, fadeDraw)) == RandomBars
    ensures Dispatch(Prepare(st, 0x0500, fadeDraw)) == Spots
  {
  }
}

=== FILE: url_codec.dfy ===
/** Percent-decoding of request URIs and query strings (`Uri::urlDecode`
    and `HTTPServer::urlDecode`, which share one algorithm), and the
    percent-encoding of section 2.1 of RFC 3986 that a client applies and
    the decoder undoes. */
module UrlCodec {
  import opened Base

  predicate IsHexDigit(c: char)
  {
    '0' <= c <= '9' || 'a' <= c <= 'f' || 'A' <= c <= 'F'
  }

  function HexValue(c: char): (v: nat)
    requires IsHexDigit(c)
    ensures v < 16
  {
    if '0' <= c <= '9' then c as int - '0' as int
    else if 'a' <= c <= 'f' then c as int - 'a' as int + 10
    else c as int - 'A' as int + 10
  }

  /** `strtol("0x" + [x, y], nullptr, 16)`: it reads hex digits until the
      first character that is not one, so a non-hex `x` yields 0 and a
      non-hex `y` yields the value of `x` alone. */
  function StrtolHex(x: char, y: char): (v: nat)
    ensures v < 256
  {
    if !IsHexDigit(x) then 0
    else if !IsHexDigit(y) then HexValue(x)
    else 16 * HexValue(x) + HexValue(y)
  }

  /** The decoder, one input position at a time: a '%' followed by at least
      two more characters consumes three and yields one character; '+'
      yields a space; anything else is copied. */
  function Decode(text: string): (decoded: string)
    ensures |decoded| <= |text|
    decreases |text|
  {
    if |text| == 0 then []
    else if text[0] == '%' && 2 < |text| then [StrtolHex(text[1], text[2]) as char] + Decode(text[3..])
    else [if text[0] == '+' then ' ' else text[0]] + Decode(text[1..])
  }

  /** The decoder's step at position `i`: what it yields there and where
      it resumes. */
  lemma DecodeAt(text: string, i: nat)
    requires i < |text|
    ensures text[i] == '%' && i + 2 < |text| ==>
      Decode(text[i..]) == [StrtolHex(text[i + 1], text[i + 2]) as char] + Decode(text[i + 3..])
    ensures !(text[i] == '%' && i + 2 < |text|) ==>
      Decode(text[i..]) == [if text[i] == '+' then ' ' else text[i]] + Decode(text[i + 1..])
  {
    assert text[i..][1..] == text[i + 1..];
    if i + 2 < |text| {
      assert text[i..][3..] == text[i + 3..];
    }
  }

  /** The `while (i < len)` loop of `urlDecode`, proved to compute `Decode`. */
  method DecodeLoop(text: string) returns (decoded: string)
    ensures decoded == Decode(text)
  {
    decoded := "";
    var i := 0;
    while i < |text|
      invariant 0 <= i <= |text|
      invariant decoded + Decode(text[i..]) == Decode(text)
    {
      DecodeAt(text, i);
      ghost var start := i;
      var encodedChar := text[i];
      i := i + 1;
      var decodedChar: char;
      if encodedChar == '%' && i + 1 < |text| {
        var x := text[i];
        i := i + 1;
        var y := text[i];
        i := i + 1;
        decodedChar := StrtolHex(x, y) as char;
      } else {
        decodedChar := if encodedChar == '+' then ' ' else encodedChar;
      }
      assert Decode(text[start..]) == [decodedChar] + Decode(text[i..]);
      assert decoded + [decodedChar] + Decode(text[i..]) == decoded + ([decodedChar] + Decode(text[i..]));
      decoded := decoded + [decodedChar];
    }
  }

  /** A text without '%' and '+' decodes to itself. */
  lemma {:induction false} DecodePlain(text: string)
    requires '%' !in text && '+' !in text
    ensures Decode(text) == text
    decreases |text|
  {
    if |text| > 0 {
      assert text[0] in text;
      var rest := text[1..];
      assert forall k :: 0 <= k < |rest| ==> rest[k] == text[k + 1];
      DecodePlain(rest);
    }
  }

  /** The shapes the decoder gives special treatment: a complete escape, a
      '+', and a '%' too close to the end, which is kept. */
  lemma DecodeCases(x: char, y: char, rest: string)
    ensures Decode(['%', x, y] + rest) == [StrtolHex(x, y) as char] + Decode(rest)
    ensures Decode(['+'] + rest) == " " + Decode(rest)
    ensures Decode(['%']) == "%"
    ensures Decode(['%', x]) == ['%'] + Decode([x])
  {
    assert (['%', x, y] + rest)[3..] == rest;
    assert (['+'] + rest)[1..] == rest;
    assert ['%', x][1..] == [x];
  }

  /** The unreserved characters of section 2.3 of RFC 3986, which need no
      escape. */
  predicate Unreserved(c: char)
  {
    'A' <= c <= 'Z' || 'a' <= c <= 'z' || '0' <= c <= '9' || c == '-' || c == '.' || c == '_' || c == '~'
  }

  /** The upper-case hex digit of a nibble. */
  function HexDigit(v: nat): (c: char)
    requires v < 16
    ensures IsHexDigit(c) && HexValue(c) == v
  {
    if v < 10 then ('0' as int + v) as char else ('A' as int + v - 10) as char
  }

  predicate ByteString(s: string)
  {
    forall k :: 0 <= k < |s| ==> s[k] as int < 256
  }

  function EncodeChar(c: char): (e: string)
    requires c as int < 256
  {
    if Unreserved(c) then [c] else ['%', HexDigit(c as int / 16), HexDigit(c as int % 16)]
  }

  /** Percent-encoding: unreserved characters stay, every other octet
      becomes '%' and two upper-case hex digits. The result never holds the
      query delimiters '&' and '=', nor '+'. */
  function Encode(s: string): (e: string)
    requires ByteString(s)
    ensures |s| <= |e| <= 3 * |s|
    ensures forall k :: 0 <= k < |e| ==> e[k] != '&' && e[k] != '=' && e[k] != '+'
    decreases |s|
  {
    if |s| == 0 then []
    else EncodeChar(s[0]) + Encode(s[1..])
  }

  /** Decoding an encoded character in front of any text. */
  lemma DecodeEncodeChar(c: char, rest: string)
    requires c as int < 256
    ensures Decode(EncodeChar(c) + rest) == [c] + Decode(rest)
  {
    var t := EncodeChar(c) + rest;
    if Unreserved(c) {
      assert t[0] == c && t[1..] == rest;
    } else {
      var hi := c as int / 16;
      var lo := c as int % 16;
      assert t == ['%', HexDigit(hi), HexDigit(lo)] + rest;
      DecodeCases(HexDigit(hi), HexDigit(lo), rest);
      assert StrtolHex(HexDigit(hi), HexDigit(lo)) == c as int;
    }
  }

  /** Decoding what was encoded gives back the original text. */
  lemma {:induction false} DecodeEncode(s: string)
    requires ByteString(s)
    ensures Decode(Encode(s)) == s
    decreases |s|
  {
    if |s| > 0 {
      DecodeEncodeChar(s[0], Encode(s[1..]));
      DecodeEncode(s[1..]);
      assert s == [s[0]] + s[1..];
    }
  }
}

=== FILE: util.dfy ===
/** The application's small arithmetic helpers (src/util.cpp): 8-bit
    blend modes on fractions n/256, the US daylight-saving rule, the limits
    of the secure random helpers and the unpacking of a status-LED colour. */
module Util {
  import opened Base

  /** `bmul8`: multiply two fractions n/256; 255 stands for 1.0. */
  function Bmul8(a: byte, b: byte): (r: byte)
  {
    if a == 255 then b
    else if b == 255 then a
    else ((a as int * b as int) / 256) as byte
  }

  /** 1.0 is the identity of the product, which is commutative and never
      exceeds either factor. */
  lemma Bmul8Laws(a: byte, b: byte)
    ensures Bmul8(255, b) == b && Bmul8(a, 255) == a
    ensures Bmul8(a, b) == Bmul8(b, a)
    ensures Bmul8(a, b) <= a && Bmul8(a, b) <= b
    ensures Bmul8(0, b) == 0
  {
    if a != 255 && b != 255 {
      assert a as int * b as int <= a as int * 256;
      assert a as int * b as int <= 256 * b as int;
    }
  }

  /** `bscr8`: screen, the dual of the product: 1-(1-a)(1-b). */
  function Bscr8(a: byte, b: byte): (r: byte)
  {
    255 - Bmul8(255 - a, 255 - b)
  }

  /** 0 is the identity of screen, which is commutative and never below
      either operand; 1.0 absorbs it. */
  lemma Bscr8Laws(a: byte, b: byte)
    ensures Bscr8(0, b) == b && Bscr8(a, 0) == a
    ensures Bscr8(a, b) == Bscr8(b, a)
    ensures Bscr8(a, b) >= a && Bscr8(a, b) >= b
    ensures Bscr8(255, b) == 255
  {
    Bmul8Laws(255 - a, 255 - b);
  }

  /** `bovl8`, computed without truncation: twice the product below one
      half, otherwise the mirrored screen. The value always fits in 8 bits,
      so the `uint8_t` result loses nothing. */
  function Bovl8(a: byte, b: byte): (r: int)
  {
    if a < 128 then Bmul8(a, b) as int * 2
    else 255 - Bmul8(255 - a, 255 - b) as int * 2
  }

  /** The overlay never leaves 0..255; it is dark below one half and light
      from one half on. */
  lemma Bovl8Fits(a: byte, b: byte)
    ensures 0 <= Bovl8(a, b) <= 255
    ensures a < 128 ==> Bovl8(a, b) <= 2 * a as int
    ensures a >= 128 ==> Bovl8(a, b) >= 2 * a as int - 255
  {
    Bmul8Laws(a, b);
    Bmul8Laws(255 - a, 255 - b);
  }

  /** `isDST` of src/util.cpp, on the calendar fields of the time: month
      1..12, day of month, hour, and weekday 1..7 with Sunday 1. DST runs
      from 2:00 on the second Sunday of March to 2:00 on the first Sunday
      of November. */
  function UsDst(mo: int, dy: int, hr: int, dow: int): bool
  {
    if mo < 3 || mo > 11 then false
    else if mo > 3 && mo < 11 then true
    else
      var previousSunday := dy - dow;
      if mo == 3 then previousSunday >= 7 && (!(previousSunday < 14 && dow == 1) || hr >= 2)
      else if previousSunday < 7 && dow == 1 then hr < 2
      else previousSunday < 0
  }

  /** The date of the first Sunday of a month in which day `dy` falls on
      weekday `dow`. */
  function FirstSunday(dy: int, dow: int): (f: int)
    ensures 1 <= f <= 7
  {
    (dy - dow) % 7 + 1
  }

  /** The rule stated by dates: in March from 2:00 of the second Sunday
      on, in November before 2:00 of the first Sunday. */
  predicate DstByDates(mo: int, dy: int, hr: int, dow: int)
  {
    var f := FirstSunday(dy, dow);
    if mo == 3 then dy > f + 7 || (dy == f + 7 && hr >= 2)
    else if mo == 11 then dy < f || (dy == f && hr < 2)
    else 4 <= mo <= 10
  }

  /** For consistent calendar fields the firmware's arithmetic is the
      date rule. */
  lemma UsDstByDates(mo: int, dy: int, hr: int, dow: int)
    requires 1 <= mo <= 12 && 1 <= dy <= 31 && 0 <= hr < 24 && 1 <= dow <= 7
    ensures UsDst(mo, dy, hr, dow) == DstByDates(mo, dy, hr, dow)
  {
    var f := FirstSunday(dy, dow);
    var p := dy - dow;
    // p + 1 is the date of the Sunday on or before day dy; Sundays fall on
    // f, f + 7, f + 14, ...
    assert (p - (f - 1)) % 7 == 0;
    var k := (p - (f - 1)) / 7;
    assert p == f - 1 + 7 * k;
    if mo == 3 {
      if k >= 2 { assert dy > f + 7; }
      else if k == 1 { assert p + 1 == f + 7; }
      else { assert dy < f + 7; }
    } else if mo == 11 {
      if k >= 1 { assert dy >= f + 7; }
      else if k == 0 { assert p + 1 == f; }
      else { assert dy < f; }
    }
  }

  /** Never in January, February or December; always April to October. */
  lemma UsDstSeasons(mo: int, dy: int, hr: int, dow: int)
    ensures (mo <= 2 || mo == 12) ==> !UsDst(mo, dy, hr, dow)
    ensures 4 <= mo <= 10 ==> UsDst(mo, dy, hr, dow)
  {
  }

  /** `INT32_MAX`, the upper limit of `secRandom` when none is given. */
  const Int32Max: nat := 0x7FFF_FFFF

  /** The half-open range `[low, high)` that `secRandom` draws from: a
      maximum of 0 means the default. */
  function RandomLimits(minLim: nat, maxLim: nat, defaultMax: nat): (r: (nat, nat))
    ensures r.0 == minLim
    ensures maxLim > 0 ==> r.1 == maxLim
    ensures maxLim == 0 ==> r.1 == defaultMax
  {
    (minLim, if maxLim > 0 then maxLim else defaultMax)
  }

  /** Arduino `random(low, high)` over a draw from the generator, which is
      a parameter: `low` when the range is empty, otherwise a value in
      `[low, high)`. */
  function RandomIn(low: nat, high: nat, draw: nat): (r: nat)
    ensures low < high ==> low <= r < high
    ensures low >= high ==> r == low
  {
    if low >= high then low else low + draw % (high - low)
  }

  /** `secRandom8`, `secRandom16` and `secRandom`: the 8- and 16-bit
      variants default to their type's maximum (which the 32-bit call then
      keeps, being nonzero), the 32-bit one to `INT32_MAX`. */
  function SecRandom(minLim: nat, maxLim: nat, draw: nat): (r: nat)
  {
    var lim := RandomLimits(minLim, maxLim, Int32Max);
    RandomIn(lim.0, lim.1, draw)
  }

  function SecRandom8(minLim: byte, maxLim: byte, draw: nat): (r: nat)
  {
    SecRandom(minLim as nat, RandomLimits(minLim as nat, maxLim as nat, 255).1, draw)
  }

  function SecRandom16(minLim: nat, maxLim: nat, draw: nat): (r: nat)
    requires minLim < U16 && maxLim < U16
  {
    SecRandom(minLim, RandomLimits(minLim, maxLim, U16 - 1).1, draw)
  }

  /** The random helpers stay within their type: below the given maximum,
      or below the type's maximum when none is given; a minimum at or above
      the limit is returned as is. */
  lemma SecRandomBounds(minLim: byte, maxLim: byte, min16: nat, max16: nat, draw: nat)
    requires min16 < U16 && max16 < U16
    ensures var r := SecRandom8(minLim, maxLim, draw);
            var high := if maxLim > 0 then maxLim as int else 255;
            (minLim as int < high ==> minLim as int <= r < high) && (minLim as int >= high ==> r == minLim as int)
    ensures var r := SecRandom16(min16, max16, draw);
            var high := if max16 > 0 then max16 else U16 - 1;
            (min16 < high ==> min16 <= r < high) && (min16 >= high ==> r == min16)
  {
  }

  /** `updateStateLED(colorCode)`: the red, green and blue bytes of
      0xRRGGBB; the pins are driven with 255 minus each, the LED being
      active low. */
  function UnpackColor(code: nat): (rgb: (byte, byte, byte))
    requires code < U32
  {
    (((code / 0x10000) % 256) as byte, ((code / 0x100) % 256) as byte, (code % 256) as byte)
  }

  function PackColor(r: byte, g: byte, b: byte): (code: nat)
    ensures code < 0x100_0000
  {
    r as nat * 0x10000 + g as nat * 0x100 + b as nat
  }

  function PinDuty(level: byte): (duty: byte)
  {
    255 - level
  }

  /** Unpacking reads back a packed colour, and the top byte of a code is
      ignored. */
  lemma UnpackPackRoundTrip(r: byte, g: byte, b: byte, top: byte)
    ensures UnpackColor(PackColor(r, g, b)) == (r, g, b)
    ensures UnpackColor(top as nat * 0x100_0000 + PackColor(r, g, b)) == (r, g, b)
  {
    var c := PackColor(r, g, b);
    DivUnique(c, r as int * 256 + g as int, b as int, 256);
    DivUnique(c, r as int, g as int * 256 + b as int, 0x10000);
    DivUnique(r as int * 256 + g as int, r as int, g as int, 256);
    var d := top as nat * 0x100_0000 + c;
    DivUnique(d, top as int * 0x10000 + r as int * 256 + g as int, b as int, 256);
    DivUnique(d, top as int * 256 + r as int, g as int * 256 + b as int, 0x10000);
    DivUnique(top as int * 0x10000 + r as int * 256 + g as int, top as int * 256 + r as int, g as int, 256);
    DivUnique(top as int * 256 + r as int, top as int, r as int, 256);
  }

  /** Packing the unpacked bytes gives the low 24 bits of the code. */
  lemma PackUnpack(code: nat)
    requires code < U32
    ensures var rgb := UnpackColor(code);
            PackColor(rgb.0, rgb.1, rgb.2) == code % 0x100_0000
  {
    var q := code / 0x100;
    var qq := q / 0x100;
    assert code == q * 0x100 + code % 0x100;
    assert q == qq * 0x100 + q % 0x100;
    assert qq == (qq / 0x100) * 0x100 + qq % 0x100;
    assert code == (qq / 0x100) * 0x100_0000 + ((qq % 0x100) * 0x10000 + (q % 0x100) * 0x100 + code % 0x100);
    DivUnique(code, qq / 0x100, (qq % 0x100) * 0x10000 + (q % 0x100) * 0x100 + code % 0x100, 0x100_0000);
    DivDiv(code);
  }

  lemma DivDiv(x: nat)
    ensures x / 0x100 / 0x100 == x / 0x10000
  {
    var q := x / 0x100;
    var qq := q / 0x100;
    assert x == q * 0x100 + x % 0x100;
    assert q == qq * 0x100 + q % 0x100;
    assert x == qq * 0x10000 + ((q % 0x100) * 0x100 + x % 0x100);
    DivUnique(x, qq, (q % 0x100) * 0x100 + x % 0x100, 0x10000);
  }
}
